=== FILE: README.md ===
# shapeshifter in Dafny

A model of the game logic of *shapeshifter*, a Battlesnake engine, with its
properties proved. The engine plays on a `W` by `H` grid (11 by 11 in
standard games), optionally with wrapping edges, and searches the game tree
with minimax, best-node search and an NNUE evaluator. The model covers the
parts of it that are sequential and deterministic:

- the grid primitives: the multi-word bitset (`Bitset`), the move encoding
  and cell offsets with and without wrap (`Moves`), the compile-time masks,
  move table and hazard spiral (`Constants`), and the cell arithmetic of the
  mailbox boards (`Util`);
- the rules: the current bitboard and its `apply_moves` (`Bitboard`), the
  same rules split into phases and composed per game mode (`BitboardRules`),
  building a board from the server's game state (`Gamestate`), and the
  first-generation mailbox board with its `standard` step and search
  (`Types`, `MailboxRules`, `Mailbox`);
- move generation: allowed moves, the limited and the full move
  combinations (`MoveGen`);
- the earlier single-word generation of the bitboard, a `u128` for an 11
  by 11 board: its board and `apply_moves` (`OldBitboard`), its move
  generation (`OldMoveGen`), and its flood fill, area control, distance
  masks and terminal score (`OldEval`);
- search support that does not depend on the clock: transposition-table
  packing, lookup and replacement for both generations (`Packing`,
  `TTable`, `OldTTable`), the best-node-search guess and window narrowing
  and the stability test (`Search`), the integer evaluation features and
  the flood-fill area control (`Eval`, `Area`), and the 1v1 endgame solver
  (`Endgame`);
- the integer side of the NNUE evaluator: the feature encoding of a board
  (`NnueData`) and the quantized layers, the incremental accumulator update
  and the clipped ReLU (`Nnue`).

Conventions used throughout:

- The board size and the wrap flag are a parameter `d: Dims` (`w, h >= 2`)
  rather than compile-time constants (`Grid`).
- Sets of cells stand for the engine's `Bitset<{W*H}>` and `u128` boards;
  only the engine's own `Bitset` type is modelled word by word, a 128-bit
  word as its bits, least significant first. The 64-bit
  transposition-table words are modelled the same way.
- Dafny's integers are unbounded. Where the engine's `u8`, `i8`, `u16` or
  `i16` arithmetic can leave its range, the wrap of a release build is
  written out with `U8`, `I8`, `U16`, `I16` and the truncating `TruncDiv`
  (`Common`), and saturating additions where the engine asks for them.
  The mailbox health loss is the one place where the wrap is a bug: the
  mailbox members take a `Types.Rule` that picks the health loss modulo
  256, as written, or the exact one, as intended (`MailboxRules.DamagedBy`).
  The same parameter picks the edge test of `checked_move_dest`.
- Other places where the engine's code and its evident intent part ways
  take the choice as a parameter in the same way: the wrap shift of the
  flood fills (`Area.WrapRule`), the tail plane of the NNUE features
  (`NnueData.TailRule`) and the wrapped left check of the first move
  generation (`OldMoveGen.LeftRule`). The members that take a rule
  are stated for both rules unless their row says otherwise, so they hold
  for the code as written; the list under Findings names the members that
  show the difference.
- Where the engine would panic (`expect`, an index out of range, a move
  integer above 3), the member has a precondition instead.
- Two board methods outside the model are parameters: the clock-bound
  `alphabeta` of best-node search is an oracle that may time out
  (`Search.Oracle`), and the body walk of `next_body_segment` is the list
  of cells it visits (`Endgame`).
- The hash of a position (`FxHasher`) and the weights of the NNUE model
  are inputs.

## Model

| member | source | states |
|---|---|---|
| Util.Distance | src/util.rs:3-5 | the distance is never negative and is zero exactly when the two cells are equal |
| Util.DistanceManhattan | src/util.rs:3-5 | the distance is the absolute row difference plus the absolute column difference for the given width, and is symmetric |
| Util.DistanceTriangle | src/util.rs:3-5 | the distance obeys the triangle inequality |
| Util.DirectionOpposite | src/util.rs:7-14 | `b` is left of `a` exactly when `a` is right of `b`, and below exactly when `a` is above `b` |
| Util.DirectionExists | src/util.rs:7-14 | no direction points from a cell to itself, and some direction points to every other cell |
| Moves.ToInt | src/bitboard/moves.rs:14-16 | the discriminant of a move is one of 0, 1, 2, 3 |
| Moves.FromInt | src/bitboard/moves.rs:37-40 | only 0..3 are valid arguments, and `to_int` of the decoded move gives the argument back |
| Moves.ToIntInjective | src/bitboard/moves.rs:4-16 | distinct moves have distinct discriminants, and `from_int(to_int(m)) == m` |
| Moves.ToIndex | src/bitboard/moves.rs:18-21 | up is `+width`, down `-width`, right `+1` and left `-1` |
| Moves.ToIndexWrapping | src/bitboard/moves.rs:23-26 | the offset is `int_to_index_wrapping` of the discriminant, and from any cell it lands on the board |
| Moves.WrappingOnTorus | src/bitboard/moves.rs:52-80 | from any cell the wrapping offset lands on the board, on the next row or column in the move's direction (last wraps to first and back) with the other coordinate kept |
| Moves.WrapUp | src/bitboard/moves.rs:55-60 | moving up goes to the next row, and from the top row to row 0, in the same column |
| Moves.WrapDown | src/bitboard/moves.rs:61-66 | moving down goes to the previous row, and from row 0 to the top row, in the same column |
| Moves.WrappingAgreesInside | src/bitboard/moves.rs:42-80 | when the move does not cross an edge the wrapping offset equals the plain `int_to_index` offset |
| Moves.PlainStep | src/bitboard/moves.rs:42-50 | a plain offset that does not cross an edge lands on the board, on the neighbouring cell in the move's direction |
| Constants.BorderMask | src/bitboard/constants.rs:4-33 | with `left` set the mask holds exactly the board's cells outside the last column, otherwise exactly those outside the first column; no bit beyond the board is set |
| Constants.CheckerBoardMask | src/bitboard/constants.rs:36-60 | the mask holds exactly the even-numbered cells of the board |
| Constants.VerticalEdgeMask | src/bitboard/constants.rs:63-78 | the mask holds exactly the board's cells of the last column when `right` is set, of the first column otherwise |
| Constants.HorizontalEdgeMask | src/bitboard/constants.rs:81-96 | the mask holds exactly the board's cells of the top row when `top` is set, of the bottom row otherwise |
| Constants.MovesFromWrapping | src/bitboard/constants.rs:108-123 | on a wrapping board every move from a cell has a destination, the cell `int_to_index_wrapping` reaches, which is on the board |
| Constants.MovesFromBounded | src/bitboard/constants.rs:124-145 | on a bounded board a move has a destination exactly when it does not cross an edge, and then it is the plain `int_to_index` offset away and on the board |
| Constants.WrapModulo | src/bitboard/constants.rs:110 | the table's `(pos + W) % (W*H)` is the wrapping step up of `int_to_index_wrapping` |
| Constants.PrecomputeMoves | src/bitboard/constants.rs:99-150 | the table has four entries per cell; with wrap each is the `int_to_index_wrapping` destination, without wrap each is present exactly when the move stays on the board and is then the plain offset |
| Constants.HazardSpiral | src/bitboard/constants.rs:152-154 | the spiral has 144 entries |
| Constants.HazardSpiralWalk | src/bitboard/constants.rs:152-154 | the spiral starts at offset (0, 0) and each entry is one unit step in one coordinate from the next |
| Bitset.WShl | src/bitset.rs:185 | bit `i` of `x << a` on a `u128` is bit `i - a` of `x`, and clear below `a` |
| Bitset.WShr | src/bitset.rs:230 | bit `i` of `x >> a` on a `u128` is bit `i + a` of `x`, and clear where that is past bit 127 |
| Bitset.New | src/bitset.rs:15-19 | a new bitset has the requested number of words and every bit clear |
| Bitset.GetBit | src/bitset.rs:44-48 | bit `p` is bit `p % 128` of word `p / 128` |
| Bitset.SetBit | src/bitset.rs:29-33 | after `set_bit(p)` bit `p` is set and every other bit is as before |
| Bitset.UnsetBit | src/bitset.rs:36-40 | after `unset_bit(p)` bit `p` is clear and every other bit is as before |
| Bitset.WithBitSet | src/bitset.rs:22-26 | the result has exactly bit `p` set |
| Bitset.Any | src/bitset.rs:51-58 | `any` holds exactly when some bit is set |
| Bitset.None | src/bitset.rs:61-63 | `none` holds exactly when no bit is set |
| Bitset.OnesBelowWord | src/bitset.rs:66-81 | counting word by word with population counts agrees with counting position by position |
| Bitset.CountOnes | src/bitset.rs:66-72 | `count_ones` is the number of set positions |
| Bitset.CountZeros | src/bitset.rs:75-81 | `count_zeros` is the number of clear positions |
| Bitset.OnesPlusZeros | src/bitset.rs:66-81 | ones plus zeros is the number of positions, `128 * N` for the whole bitset |
| Bitset.WithBitSetCount | src/bitset.rs:22-26 | a bitset from `with_bit_set` has exactly one set bit, so `count_ones` is 1 |
| Bitset.NotBits | src/bitset.rs:101-110 | `!` negates every position |
| Bitset.AndBits | src/bitset.rs:112-121 | `&` is position-wise conjunction |
| Bitset.OrBits | src/bitset.rs:131-140 | `\|` is position-wise disjunction |
| Bitset.XorBits | src/bitset.rs:150-159 | `^` is position-wise exclusive or |
| Bitset.Not | src/bitset.rs:101-110 | the word loop into a fresh bitset computes the position-wise negation |
| Bitset.And | src/bitset.rs:112-121 | the word loop computes the position-wise `&` |
| Bitset.AndAssign | src/bitset.rs:123-129 | `&=` in place gives the same bitset as `&` |
| Bitset.Or | src/bitset.rs:131-140 | the word loop computes the position-wise `\|` |
| Bitset.OrAssign | src/bitset.rs:142-148 | `\|=` in place gives the same bitset as `\|` |
| Bitset.Xor | src/bitset.rs:150-159 | the word loop computes the position-wise `^` |
| Bitset.XorAssign | src/bitset.rs:161-167 | `^=` in place gives the same bitset as `^` |
| Bitset.BitsExt | src/bitset.rs:10-12 | two bitsets of the same size with the same bits are the same bitset |
| Bitset.ShlBits | src/bitset.rs:169-191 | the meaning of `s << k`: position `p` holds position `p - k` of `s`, and positions below `k` are clear |
| Bitset.ShrBits | src/bitset.rs:214-235 | the meaning of `s >> k`: position `p` holds position `p + k` of `s`, and the top `k` positions are clear |
| Bitset.ShlWordCorrect | src/bitset.rs:184-187 | word `j` assembled from source words `j - tz` and `j - tz - 1` is word `j` of the shifted bitset |
| Bitset.ShrWordCorrect | src/bitset.rs:229-231 | word `j` assembled from source words `j + lz` and `j + lz + 1` is word `j` of the shifted bitset |
| Bitset.ShiftOutAll | src/bitset.rs:176-178 | a shift by the whole width or more, either way, leaves every bit clear |
| Bitset.ShlLoop | src/bitset.rs:179-188 | the word loop of `shl` writes every word at or above the first surviving one with its shifted value and leaves the rest zero |
| Bitset.Shl | src/bitset.rs:169-191 | `s << k` is `ShlBits(s, k)` for every `k`, including shifts past the width |
| Bitset.ShlAssignWhole | src/bitset.rs:198-201 | shifting by whole words in place, high words first, gives word `j` the old word `j - tz` |
| Bitset.ShlAssignSplit | src/bitset.rs:202-207 | shifting by a part word in place gives word `j` the bits of old words `j - tz` and `j - tz - 1` |
| Bitset.ClearLow | src/bitset.rs:208-210 | the closing loop clears the low `tz` words and keeps the rest |
| Bitset.ShlAssign | src/bitset.rs:193-212 | `s <<= k` gives `ShlBits(s, k)` for every shift up to the whole width |
| Bitset.ShrLoop | src/bitset.rs:224-232 | the word loop of `shr` writes every word below the highest surviving one with its shifted value |
| Bitset.Shr | src/bitset.rs:214-235 | with the highest surviving word also written, `s >> k` is `ShrBits(s, k)` for every `k` |
| Bitset.ShrAsWritten | src/bitset.rs:214-235 | `shr` exactly as written computes `ShrAsWrittenBits`, in which the highest surviving word stays zero when the shift is not a multiple of 128 |
| Bitset.ShrAsWrittenAgrees | src/bitset.rs:214-235 | `shr` as written is right whenever the shift is a multiple of 128, shifts everything out, or moves no bit into the highest surviving word |
| Bitset.ShrAsWrittenLosesBit | src/bitset.rs:228-232 | as written, the value with bit 130 set shifted right by one loses that bit instead of setting bit 129 |
| Bitset.ShrAssignLoop | src/bitset.rs:242-249 | the in-place loop of `shr_assign`, low words first, writes each word below the highest surviving one with its shifted value and leaves the others as they were |
| Bitset.ShrAssignWhole | src/bitset.rs:242-245 | shifting by whole words in place gives word `i` the old word `i + lz` |
| Bitset.ShrAssignSplit | src/bitset.rs:246-249 | shifting by a part word in place gives word `i` the bits of old words `i + lz` and `i + lz + 1` |
| Bitset.ClearHigh | src/bitset.rs:254-256 | the closing loop clears the top `lz` words and keeps the rest |
| Bitset.ShrAssignAsWritten | src/bitset.rs:237-258 | `shr_assign` exactly as written computes `ShrAssignAsWrittenBits`: word 0 is overwritten with word `lz` as the loop left it, shifted, and the highest surviving word keeps its old value |
| Bitset.ShrAssignWordAsWritten | src/bitset.rs:246-256 | the words the in-place loop, the extra write to word 0 and the clearing loop leave are those of `ShrAssignAsWrittenBits` |
| Bitset.ShrAssignWords | src/bitset.rs:237-258 | with the highest surviving word written last, every word of `s >>= k` is its shifted value |
| Bitset.ShrAssign | src/bitset.rs:237-258 | with that correction `s >>= k` is `ShrBits(s, k)` for every shift up to the whole width |
| Bitset.ShrAssignAsWrittenKeepsBit | src/bitset.rs:246-252 | as written, the value with bit 130 set shifted right by one in place keeps bit 130 instead of moving it to 129 |
| Bitset.ShlTest | src/bitset.rs:265-292 | `[1, 0] << 129` is `[0, 2]`, for `<<` and for `<<=` alike |
| Bitset.OrOfShlBits | src/bitset.rs:274-283 | or-ing `[1, 0] << i` for every `i` below `n` sets exactly bits 0 to `n - 1` |
| Bitset.ShlOrTest | src/bitset.rs:274-283 | or-ing `[1, 0] << i` for every `i` below 256 gives all ones in both words |
| Bitset.ShlRepeatShift | src/bitset.rs:298-301 | `n` rounds of `x <<= 1` shift by `n` |
| Bitset.OrOfShlRepeatBits | src/bitset.rs:295-305 | after `n` rounds of `x <<= 1; y \|= x` from `x == y == 1`, `y` holds exactly bits 0 to `n` |
| Bitset.ShlAssignOrTest | src/bitset.rs:295-305 | 256 rounds of `x <<= 1; y \|= x` set every bit of both words |
| Bitset.OrOfShrAsWrittenBits | src/bitset.rs:308-317 | or-ing `[0, 1] >> i` as written for every `i` below `n` sets exactly bits `129 - n` to 128 |
| Bitset.ShrOrTest | src/bitset.rs:308-317 | or-ing `[0, 1] >> i` for every `i` below 256 gives all ones in word 0 and 1 in word 1, even with the shift as written |
| Bitset.ShlAssignShrAssignTest | src/bitset.rs:320-327 | `[1, 0] <<= 130` then `>>= 129`, as written, gives `[2, 0]` |
| Bitboard.IsDead | src/bitboard/mod.rs:41-49 | `is_dead` holds exactly when `is_alive` does not |
| Bitboard.IsTerminal | src/bitboard/mod.rs:175-186 | the position is terminal exactly when snake 0 is dead or no other snake is alive |
| Bitboard.WinDrawLoss | src/bitboard/mod.rs:188-210 | None exactly when the position is not terminal; 1 exactly when only I live; -1 exactly when I am dead and an enemy lives; 0 exactly when everyone is dead |
| Bitboard.Distance | src/bitboard/mod.rs:212-221 | the distance is never negative and is 0 from a cell to itself |
| Bitboard.DistanceFacts | src/bitboard/mod.rs:212-221 | the distance is symmetric, wrapping never makes it longer than on the bounded board, and on a bounded board it is the Manhattan distance of `distance` in src/util.rs |
| Bitboard.IsLegalMoveTable | src/bitboard/mod.rs:223-234 | a move is legal exactly when the move table has a destination for it (always, on a wrapping board) |
| Bitboard.EncodeDir | src/bitboard/mod.rs:258-259 | storing a move's two bits at a cell changes no other cell and leaves layer 0 alone |
| Bitboard.DecodeEncode | src/bitboard/mod.rs:258-267 | the two direction bits read back at a cell give the move stored there |
| Bitboard.TailStep | src/bitboard/mod.rs:268-272 | the tail's new position, an `i16` sum cast back to `u16`, is a `u16` |
| Bitboard.TailStepOnBoard | src/bitboard/mod.rs:268-272 | on boards of at most 2^16 cells a legal tail step lands on the board, on the neighbour in the stored direction |
| Bitboard.RemoveWalk | src/bitboard/mod.rs:393-405 | the walk from the tail only clears cells of the three layers and never clears the head |
| Bitboard.RemoveSnakeBody | src/bitboard/mod.rs:386-406 | only the body layers change and only by clearing cells; with at most two snakes or for snake 0 nothing changes |
| Bitboard.SpiralHazards | src/bitboard/mod.rs:371-384 | the spiral adds at most one hazard, on the board, and only on turns 3, 6, ..., 426 |
| Bitboard.SpiralCell | src/bitboard/mod.rs:378-381 | the cell set is the one in column `center % W + x` and row `center / W + y`, on the board when both are in range |
| Bitboard.IncSpiralHazards | src/bitboard/mod.rs:371-384 | only the hazards change, and only under the wrapped-spiral ruleset, as the spiral rule says |
| Bitboard.DamagedExact | src/bitboard/mod.rs:282-284 | with health 1..100 and damage 0..100 the `i8` arithmetic takes exactly 1, plus the hazard damage on a hazard |
| Bitboard.Fed | src/bitboard/mod.rs:287-288 | `health += (100 - health) * is_on_food` in `i8` gives 100 on food and the old health otherwise |
| Bitboard.MoveSnake | src/bitboard/mod.rs:248-300 | one pass of the first loop changes only snake `i`'s record and the body layers, and nothing at all for a dead snake |
| Bitboard.MoveSnakeRecord | src/bitboard/mod.rs:254-299 | a live snake's head moves to the table's destination; on food its health becomes 100, its length grows by one and the cell is reported eaten; otherwise the length is kept and health drops by the damage, becoming -2 when it reaches 0; outside constrictor rules a snake with curled parts uses one up and keeps its tail, while one without steps its tail along the move stored there (read after the head's own move is stored); under constrictor rules the tail stays; a head on food curls one more part; the whole record is `Moved` |
| Bitboard.MoveSnakeFrame | src/bitboard/mod.rs:257-276 | a snake that survives its move changes the move bits only at its old head and its old tail |
| Bitboard.TailReadAgrees | src/bitboard/mod.rs:258-267 | the move read at the tail once the head's move is stored depends only on the bits stored at the tail |
| Bitboard.MoveSnakeKeepsValid | src/bitboard/mod.rs:248-261 | moving one snake keeps the moves of the later snakes inside the move table, so the loop never panics |
| Bitboard.MoveSnakesFrom | src/bitboard/mod.rs:248-300 | the first loop leaves earlier and dead snakes' records alone, gives every later live snake the head, health and length its move dictates, changes nothing but records and body layers, and collects exactly the new heads that land on food (curled count and tail: `MovedInLoop`) |
| Bitboard.MovedInLoop | src/bitboard/mod.rs:248-300 | after the whole first loop every live snake has the curled count its move gives it (one used up unless none or constrictor, one more on food), and its full `Moved` record, new tail included, whenever no snake moved before it has its head or tail on its tail or starves |
| Bitboard.MovedFirst | src/bitboard/mod.rs:248-300 | the snake the loop starts with ends it with its `Moved` record: later snakes do not touch it |
| Bitboard.MovedAgrees | src/bitboard/mod.rs:257-299 | moving a snake whose head and tail are elsewhere and which does not starve leaves a later snake's `Moved` record, new tail included, as it was |
| Bitboard.HeadMarkRivals | src/bitboard/mod.rs:322-332 | the head-to-head scan marks 101 or 102 exactly when a live snake at least as long shares the head, 101 when all such snakes are longer, 102 when all are as long; no rival keeps the count |
| Bitboard.HeadMarkStays | src/bitboard/mod.rs:322-332 | once a 101 or 102 mark is set, later snakes can only replace it by another such mark |
| Bitboard.MarkOutcome | src/bitboard/mod.rs:312-333 | a head on a body is marked 100; otherwise the snake is marked exactly when a live snake at least as long shares its head, and a snake longer than all on its head is never marked 102 |
| Bitboard.MarkCollisions | src/bitboard/mod.rs:312-333 | the second loop writes each snake's collision mark into its curled count and changes nothing else |
| Bitboard.ResolveFrom | src/bitboard/mod.rs:336-361 | marked snakes get health -1, -3 or -4 for marks 100, 101, 102 and a curled count of 0; other records are kept |
| Bitboard.ApplyMoves | src/bitboard/mod.rs:245-369 | the turn grows by one (in `u16`); every snake ends as its move and then its collision mark dictate (spelled out for survivors by `ApplySurvivor`); already-dead unmarked snakes are untouched; ruleset and damage are kept; exactly the cells a live snake's new head reached leave the food, and hazards only grow |
| Bitboard.EatenAll | src/bitboard/mod.rs:248-300 | the first loop leaves food, hazards and ruleset alone, and the cells it collects are exactly the food cells the live snakes' new heads reach |
| Bitboard.ApplySurvivor | src/bitboard/mod.rs:245-369 | a snake alive before and after the turn has exactly the head, health and length its move gives it, the curled count its move gives it (reset to 0 when it is 100 or more), and the new tail its move gives it whenever the snakes moved before it leave its tail's bits alone |
| Bitboard.SurvivorMark | src/bitboard/mod.rs:312-350 | a snake the collision rules leave alive was not marked: its mark is its own curled count, reset to 0 only when that count is 100 or more |
| Bitboard.HeadMarkRange | src/bitboard/mod.rs:322-332 | the head-to-head scan ends with the count it started from or with 101 or 102 |
| Bitboard.ApplyBodyCollision | src/bitboard/mod.rs:312-342 | a live snake whose new head lands on a body ends the turn with the body-collision health -1 |
| Endgame.FirstFrom | src/minimax/endgame.rs:85-94 | the scan stops at the first body segment from `i` on that the fill holds, or at the head when it holds none |
| Endgame.Reach | src/minimax/endgame.rs:74-100 | a tail distance is at least 1 and at most the body's index of the head |
| Endgame.ScanOwn | src/minimax/endgame.rs:74-100 | the scan of my body finds, for my fill and the enemy's, 1 when the tail counts and otherwise the index of the first segment the fill holds (the head's if none) |
| Endgame.ScanEnemy | src/minimax/endgame.rs:101-127 | the enemy scan, though it may stop early, gives distances of at least 1 whose minimum with my body's distance is that of a full scan |
| Endgame.Decide | src/minimax/endgame.rs:131-150 | I lose exactly when I alone am trapped, both are and my area is smaller, or neither is and my health is below my food distance; the enemy loses exactly when it alone is trapped or both are and its area is smaller |
| Endgame.TailDists | src/minimax/endgame.rs:128-129 | both tail distances, the nearer of the two bodies, are at least 1 |
| Endgame.Loser | src/minimax/endgame.rs:34-151 | `_solver` gives nothing unless two snakes play from turn 50 on, and then the loser of the decision table over the tail distances scanned on the fills, which use the engine's wrap shifts or the corrected ones |
| Endgame.LossScore | src/minimax/endgame.rs:27 | the loss score is an `i16`, and on real boards it is `i16::MIN + turn + my_area_size`, below -10000 |
| Endgame.WinScore | src/minimax/endgame.rs:25 | the win score is an `i16`, and on real boards it is `i16::MAX - turn - enemy_area_size`, above 10000 |
| Endgame.Solver | src/minimax/endgame.rs:4-31 | under either fill, `solver` gives nothing unless two snakes play from turn 50 on; otherwise the loss score when I am the loser, the win score when the enemy is, and nothing when none is found |
| Search.NextGuess | src/minimax/mod.rs:58-70 | the guess is an `i16`; it is the previous guess while that is strictly inside the window; whenever the window has room it lies strictly inside it, within one of the midpoint |
| Search.Better | src/minimax/mod.rs:93-104 | a probe fails exactly when some move's search times out; otherwise every move got a score and it keeps exactly the moves scoring at least the test value |
| Search.Narrow | src/minimax/mod.rs:91-117 | the inner loop ends settled (window narrower than 2, or one move left) with a non-empty subset of the moves, a window inside the starting one, and the last test value at one of its ends; `Search.NarrowBrackets` ties it to the scores |
| Search.NarrowBrackets | src/minimax/mod.rs:93-114 | once alpha has risen, every move left scored at least the final alpha when probed there; once beta has dropped, every move left scored below the final beta; every dropped move scored below a probe value above the starting alpha and at most the final alpha; no result means some probe timed out |
| Search.NarrowStep | src/minimax/mod.rs:98-114 | the score facts of the loop from the next window on carry back across one probe |
| Search.Deepen | src/minimax/mod.rs:87-122 | the deepening loop returns an allowed move at a depth no lower than one below its start and at most 255; a timeout returns the best move and score of the previous depth |
| Search.BestNodeSearch | src/minimax/mod.rs:72-128 | the chosen move is allowed and the depth is 0..255; a timeout at depth 1 gives the first shuffled move with score `i16::MIN + 1` |
| Search.IsStable | src/minimax/mod.rs:252-268 | `is_stable` holds exactly when no snake has curled parts or food on a cell one move from its head |
| Eval.AliveFrom | src/minimax/eval.rs:157-161 | the scan finds a live snake exactly when one exists from that index on |
| Eval.EvalTerminal | src/minimax/eval.rs:154-170 | `i16::MAX - turn` if I live; `i16::MIN + turn` if I am dead and an enemy lives; otherwise 0 in Constrictor and `-5000 + turn` in other modes, all in `i16` |
| Eval.EvalTerminalRanks | src/minimax/eval.rs:154-170 | before turn 5000 any win scores above any draw and any draw above any loss, a win is positive and a loss below -5000, and a sooner win scores higher |
| Eval.LowestFrom | src/minimax/eval.rs:193-200 | the scan's result is at most 100, at most every live snake's health, and either 100 or the health of some live snake |
| Eval.LowestEnemyHealth | src/minimax/eval.rs:191-202 | the lowest enemy health is at most 100, at most every live enemy's health, and either 100 or some live enemy's health |
| Eval.LargestFrom | src/minimax/eval.rs:206-213 | the scan's result is non-negative, at least every live snake's length, and either 0 or the length of some live snake |
| Eval.LargestEnemyLength | src/minimax/eval.rs:204-215 | the largest enemy length is at least every live enemy's length, is some live enemy's length or 0, and is 0 when no enemy lives |
| Eval.CappedLengthDiff | src/minimax/eval.rs:222-225 | the capped difference is at most `W * cap` and at most `length_diff`, and equals `length_diff` when the difference is within the cap |
| Eval.DiffsSwap | src/minimax/eval.rs:242-266 | swapping the two areas negates `area_diff`, `controlled_food_diff`, `hazard_area_diff` and `non_hazard_area_diff` |
| Eval.HazardSplit | src/minimax/eval.rs:249-261 | for areas on the board the hazard and non-hazard differences add up to the area difference |
| Eval.CheckeredAreaSize | src/minimax/eval.rs:268-277 | with `x` even and `y` odd cells the size is `2 * min(x, y) + min(\|x - y\|, 1)`; it lies between 0 and the area's cell count, and equals that count exactly when `x` and `y` differ by at most one |
| Eval.TailDiffFrom | src/minimax/eval.rs:290-301 | the scan's tail difference is at most the number of live snakes in absolute value |
| Eval.ControlledTailDiff | src/minimax/eval.rs:286-302 | `controlled_tail_diff` is at most the number of live snakes in absolute value |
| Eval.TailDiffSwap | src/minimax/eval.rs:286-302 | for disjoint areas, swapping them negates the tail difference |
| Eval.Walkable | src/minimax/eval.rs:319-323 | the walkable cells are on the board |
| Eval.FillSpreads | src/minimax/eval.rs:349-360 | under the engine's wrap shifts as well as the corrected ones, the fill keeps an area and adds only board cells |
| Eval.Step | src/minimax/eval.rs:361-371 | a round only adds walkable cells to either area |
| Eval.StepDisjoint | src/minimax/eval.rs:361-371 | in all three cases of `longer`, a round keeps the two areas apart |
| Eval.RoundConfined | src/minimax/eval.rs:346-371 | every round keeps both areas between the start and the start plus the walkable cells, and keeps them apart if they started apart |
| Eval.IterateBetween | src/minimax/eval.rs:346-387 | every state the loop reaches lies between the start and the start plus the walkable cells |
| Eval.IterateGrows | src/minimax/eval.rs:346-387 | the areas only grow from round to round |
| Eval.RoundRoom | src/minimax/eval.rs:378-386 | a round that changes the state leaves fewer unclaimed cells, so the loop ends |
| Eval.RoundFood | src/minimax/eval.rs:372-374 | the food distance is recorded at the first round my area holds food and never changed after |
| Eval.Loop | src/minimax/eval.rs:346-387 | the loop stops at the first round that changes nothing, returns the areas after round `close_area_distance` if it came (the given fallback otherwise), and the first round my area held food when it ever did |
| Eval.LoopNext | src/minimax/eval.rs:378-386 | a round that changes the state leaves less room and extends the record of rounds that were not fixpoints |
| Eval.AreaControl | src/minimax/eval.rs:312-388 | under the engine's wrap shifts (or the corrected ones) the result is the state at the first fixpoint; both areas lie between their start heads and the walkable cells; they are disjoint when my head is no enemy's; the close areas are those after round `close_area_distance`, or my head alone and an empty enemy area when that round never comes (0, or past the fixpoint), since they are copied before the enemy heads are set; the food distance is the first round my area touched food, or `W` if it never did |
| Gamestate.NewBoard | src/bitboard/mod.rs:94-105 | a new board has `count` dead snakes, no bodies, food or hazards, hazard damage 14, the standard ruleset and turn 0 |
| Gamestate.RulesetOf | src/bitboard/mod.rs:108-116 | "royale", "constrictor" and "wrapped" select their rulesets, wrapped with hazards becomes the spiral centred on the first hazard's cell, and every other name, or none, is standard |
| Gamestate.DirBitsEncodeMove | src/bitboard/mod.rs:160-165 | on boards at least 3 by 3, the two direction bits written for a body part are the low and high bit of the move from it to the next part towards the head |
| Gamestate.BodyWalk | src/bitboard/mod.rs:150-167 | the body walk marks exactly the body cells occupied and never lowers the curled count |
| Gamestate.BodyWalkCountsRepeats | src/bitboard/mod.rs:153-158 | the curled count of a snake is the number of body parts that repeat the part before them |
| Gamestate.OthersUpTo | src/bitboard/mod.rs:137-145 | the counter of other snakes never exceeds the number of snakes seen |
| Gamestate.AddSnake | src/bitboard/mod.rs:139-170 | writing one snake touches only its slot and the body layers |
| Gamestate.AddSnakeRecord | src/bitboard/mod.rs:146-149 | the written record holds the head and tail cells as `u16`, the health as `i8` and the length as `u8` |
| Gamestate.AddSnakesFrom | src/bitboard/mod.rs:139-171 | the snake loop keeps the number of slots and changes only the snakes and the body layers |
| Gamestate.AddSnakesFromKeeps | src/bitboard/mod.rs:139-171 | a slot no later snake writes keeps its record |
| Gamestate.OthersIncrease | src/bitboard/mod.rs:140-145 | snakes other than "you" get strictly increasing slots in the order listed |
| Gamestate.FromGamestate | src/bitboard/mod.rs:107-172 | the board has the ruleset, `u16` turn, game's table id and hazard damage of the request, its food cells are exactly the requested food and its hazard cells are exactly the requested hazards |
| Gamestate.FromGamestateSlots | src/bitboard/mod.rs:137-171 | "you" lands in slot 0 and every other snake in a slot of its own from 1 on, holding its head, tail, health and length |
| Gamestate.AddedRecord | src/bitboard/mod.rs:137-171 | a snake's record survives the loop when no later snake shares its slot |
| Gamestate.LastWrite | src/bitboard/mod.rs:137-171 | the record a snake writes is the one left in its slot when no later snake writes there |
| Types.MoveSlot | src/types.rs:13-18 | every move's discriminant is one of the four result slots |
| Types.NewBoard | src/types.rs:41-48 | a new board has `w * h` empty cells, the given width and height, and no snakes |
| Types.CheckedMoveDest | src/types.rs:50-73 | with the Down test corrected to "not in the bottom row", a step is allowed exactly when it stays on the board: Up below the top row, Down above the bottom row, Left off the left column, Right off the right column, and lands on a cell of the board |
| Types.CheckedMoveDestAsWritten | src/types.rs:50-73 | as the engine writes it, Up is allowed below the top row, Left off the left column, Right off the right column, and Down from every cell above the bottom row except cell `width`; an allowed step never goes below cell 0 |
| Types.CheckedMoveDestBy | src/types.rs:50-73 | under either edge test an allowed step lands on a cell of the board one move away; the rule picks the written test or the corrected one |
| Types.EdgeTests | src/types.rs:57-67 | the engine's arithmetic edge tests say "not in the bottom row" and "not in the right column" |
| Types.CheckedMoveDestDiffers | src/types.rs:57-61 | the written and the corrected edge tests disagree exactly for Down from cell `width` |
| Types.CheckedMoveDestRefusesRowOne | src/types.rs:57-61 | on a 4 by 4 board the written test refuses Down from cell 4, which the corrected one sends to cell 0 |
| Types.CheckedMoveDestCases | src/types.rs:161-176 | the ten forbidden and allowed 4 by 4 cases of the engine's unit test hold of both versions |
| Types.IsTerminal | src/types.rs:117-127 | a board is terminal exactly when fewer than two snakes are left or none of them is mine |
| Types.WeightedSplit | src/types.rs:139-145 | the loop's sum is the snake count times my total length minus the enemies' total length |
| Types.EvalStep | src/types.rs:139-145 | each wrapping `i8` step keeps the running score equal to the exact sum modulo 256 |
| Types.WeightedSum | src/types.rs:139-145 | the loop's `i8` score is the exact weighted sum wrapped to `i8` |
| Types.Eval | src/types.rs:129-150 | 0 with no snakes, `i8::MIN` or `i8::MAX` for a lone enemy or a lone snake of mine, otherwise the wrapped weighted length sum divided, towards zero, by the snake count; the result is `Types.EvalScore` |
| Mailbox.LegalDest | src/mailbox.rs:29-52 | under either edge test, an allowed step's destination is a cell of the board |
| Mailbox.FreeMoves | src/mailbox.rs:61-68 | under the written edge tests (or the corrected ones), the collected moves are exactly the allowed steps onto cells with no head and no body, in move order |
| Mailbox.LastLegal | src/mailbox.rs:60-68 | under either edge test, the fallback move is allowed whenever some move is |
| Mailbox.SomeLegal | src/mailbox.rs:61-68 | every snake has an allowed step on a board of at least two cells under the corrected test, and under the written test on one at least two columns wide or three cells long |
| Mailbox.DownFromRowOne | src/mailbox.rs:61-66 | from the leftmost cell of the second row the engine never collects Down, even onto an empty cell 0, where the corrected test collects it |
| Mailbox.Options | src/mailbox.rs:59-72 | under either edge test, a snake's options are allowed steps and include every free step, and an enemy always has at least one |
| Mailbox.Spread | src/mailbox.rs:73-79 | the `flat_map` yields one combination per old combination and option, each an old combination with snake `si`'s option appended |
| Mailbox.SpreadCovers | src/mailbox.rs:73-79 | every old combination with every option appended is among the new ones |
| Mailbox.Count | src/mailbox.rs:58-83 | there is always at least one enemy combination |
| Mailbox.Combos | src/mailbox.rs:56-83 | the enemy combinations number the product of the enemies' option counts, and each gives every enemy one of its options |
| Mailbox.ExtendAll | src/mailbox.rs:69-79 | appending an enemy's options to valid combinations gives valid combinations for one snake more |
| Mailbox.Extend | src/mailbox.rs:73-79 | one combination extended by an option of the next enemy is valid for one snake more |
| Mailbox.WidenAll | src/mailbox.rs:80-82 | a snake of mine adds nothing to the enemy combinations |
| Mailbox.Widen | src/mailbox.rs:80-82 | one combination stays valid past a snake of mine |
| Mailbox.MyIndex | src/mailbox.rs:58-83 | the snake whose moves become mine is one of mine, and there is none only when every snake is an enemy |
| Mailbox.MineUnique | src/mailbox.rs:80-82 | with at most one snake of mine, only one index can be mine |
| Mailbox.MinePositive | src/mailbox.rs:80-82 | a list with a snake of mine counts at least one |
| Mailbox.ComboSteps | src/mailbox.rs:84-90 | every enemy combination with my free move appended gives every snake an allowed step, so `standard` may run on it |
| Mailbox.ComboStep | src/mailbox.rs:86-89 | each snake's step in such a combination is allowed |
| Mailbox.ComboHas | src/mailbox.rs:86-89 | every snake has an entry in such a combination |
| Mailbox.Boards | src/mailbox.rs:85-90 | my move yields one searchable board per enemy combination, none with more snakes |
| Mailbox.Child | src/mailbox.rs:87-89 | each child board is searchable and has no more snakes |
| Mailbox.Fill | src/mailbox.rs:84-92 | each of my moves fills its own slot with its boards and the other slots keep their contents |
| Mailbox.Children | src/mailbox.rs:54-94 | slot `k` is filled exactly when move `k` is one of my free moves, with that move and one searchable board per enemy combination |
| Mailbox.Evaluation | src/mailbox.rs:108-129 | the evaluation is an `i8` and is the value `Types.Eval` computes on the same board |
| Mailbox.AlphaBeta | src/mailbox.rs:141-178 | the result is in range; the evaluation at depth 0 or on a terminal board; `(Up, i8::MIN, d)` when I have no move; otherwise its move is Up or one of my moves |
| Mailbox.MaxLoop | src/mailbox.rs:148-176 | the loop's result is the starting best or one preferred to it, with a higher score or the same score at a smaller depth, and its move is one still to come |
| Mailbox.MinLoop | src/mailbox.rs:153-165 | the minimum and beta only go down, and stay scores and depths in range |
| MailboxRules.MoveOf | src/rules.rs:93-100 | a snake's move is that of the first pair listing it, and Up when no pair does |
| MailboxRules.Advanced | src/rules.rs:105-114 | after a step the body is the new head followed by the old body, cut to the snake's length |
| MailboxRules.MoveSnake | src/rules.rs:101-114 | one snake's step changes only that snake's body and, on the board, only its old head, its new head, its old last cell and the cells of its new body |
| MailboxRules.MoveSnakesFrom | src/rules.rs:92-115 | the loop from snake `i` advances every snake from `i` on by its listed move and leaves the earlier ones alone |
| MailboxRules.MoveSnakes | src/rules.rs:91-116 | every snake steps from its head by its listed move, Up when unlisted, keeps its side, length and health, and its body becomes the new head followed by the old body, cut to its length |
| MailboxRules.DamagedAsWritten | src/rules.rs:12-18 | the written health loss always leaves a `u8` |
| MailboxRules.Damaged | src/rules.rs:12-18 | the intended health loss always costs health, and starves the snake exactly when its health is at most the damage: 1, or 16 on a hazard |
| MailboxRules.HazardWrapSurvives | src/rules.rs:12-18 | a snake with 1 to 15 health stepping on a hazard wraps to 241 or more as written, where the intended loss starves it |
| MailboxRules.DamagedAgrees | src/rules.rs:12-18 | when the `u8` does not wrap, the written and the intended health loss agree |
| MailboxRules.DamagedBy | src/rules.rs:12-18 | the health after a step is the old health less 1, or 16 on a hazard: reduced modulo 256 as the engine's `u8` does, or exact as intended |
| MailboxRules.Hit | src/rules.rs:12-30 | a snake whose head is on food gets 100 health and grows by one; any other keeps its length and its health drops by 1, or 16 on a hazard, modulo 256 as written and exactly as intended |
| MailboxRules.Eaten | src/rules.rs:23-30 | the eaten cells are exactly the heads that are on food |
| MailboxRules.ClearFood | src/rules.rs:31-33 | exactly the eaten cells lose their food bit, and nothing else changes |
| MailboxRules.ClearFoodTwice | src/rules.rs:31-33 | clearing the food bit twice is clearing it once, and leaves no food |
| MailboxRules.Feed | src/rules.rs:11-33 | under either health rule every snake is hit by the cell under its head, no head is left on food, and cells under no head keep their flags |
| MailboxRules.HazardWrapFeed | src/rules.rs:12-18 | a snake with 1 to 15 health whose head is on a hazard and not on food leaves feeding with 241 or more health and is not starved as written, and is starved as intended |
| MailboxRules.HazardWrapInStep | src/rules.rs:5-57 | the same holds inside `standard`: after the move such a snake escapes the starved list as written and is on it as intended |
| MailboxRules.Vacate | src/rules.rs:133-139 | the removed snake's cells become HEAD where a remaining head is and empty elsewhere; no other cell changes |
| MailboxRules.RemoveSnake | src/rules.rs:127-140 | the snake leaves the list, the others keep their order, and each of its cells is emptied, or marked HEAD under a remaining head |
| MailboxRules.KeepAppend | src/rules.rs:58-62 | keeping from two joined lists keeps from each and joins the results |
| MailboxRules.KeepMember | src/rules.rs:58-62 | a snake is kept exactly when it sits at some unmasked position |
| MailboxRules.KeepMine | src/rules.rs:58-62 | removing snakes never adds one of mine |
| MailboxRules.KeepDrop | src/rules.rs:58-62 | taking out one masked snake leaves the kept snakes unchanged |
| MailboxRules.Pending | src/rules.rs:58-62 | the pending mask marks exactly the positions of the indices still to remove, shifted by those already removed |
| MailboxRules.RemoveFrom | src/rules.rs:58-62 | removing at `i - offset` for each sorted index leaves exactly the snakes whose original index is not listed |
| MailboxRules.KeepNone | src/rules.rs:58-62 | an empty mask keeps every snake |
| MailboxRules.PendingShift | src/rules.rs:58-62 | after one removal the pending indices move down by one past the removed position |
| MailboxRules.RemoveShift | src/rules.rs:58-62 | one removal turns the pending mask into the next one without the removed entry |
| MailboxRules.Indices | src/rules.rs:51-57 | the collected indices are increasing, in range, and exactly those that pass the test |
| MailboxRules.RemoveAll | src/rules.rs:57-62 | removing the listed indices keeps exactly the unlisted snakes |
| MailboxRules.Fed | src/rules.rs:6-33 | under either health rule, moving and feeding keep the number of snakes and the board's shape |
| MailboxRules.StarvedIn | src/rules.rs:51-57 | the starved list holds, in increasing order, exactly the snakes with no health left |
| MailboxRules.CollidedIn | src/rules.rs:65-81 | the collided list holds, in increasing order, exactly the snakes whose head is on a body or tail, or on another head at least as long |
| MailboxRules.Unstarved | src/rules.rs:49-62 | under either health rule, the starving snakes are removed and the others kept in order |
| MailboxRules.TwoRemovalsShrink | src/rules.rs:49-86 | the two removals leave no more snakes and no more of mine |
| MailboxRules.Standard | src/rules.rs:5-89 | under either health rule, `standard` moves and feeds, removes the starved snakes, then the snakes that collided on what is left, and never adds snakes or snakes of mine |
| MailboxRules.Survivor | src/rules.rs:57-62 | a snake left after a removal sits at an unlisted index |
| MailboxRules.StandardSurvivor | src/mailbox.rs:203-274 | under either health rule, a snake that survives a step has health left, was moved and fed, and did not collide on the board left after starvation |
| MailboxRules.TwoRemovals | src/rules.rs:49-86 | a snake left after both removals neither starved nor collided |
| MailboxRules.FedMine | src/rules.rs:6-33 | under either health rule, moving and feeding change no snake's side |
| MailboxRules.SameSides | src/rules.rs:6-33 | lists with the same sides position by position hold as many of my snakes |
| MoveGen.FreeBelow | src/bitboard/move_gen.rs:12-35 | the moves collected among the first `j` have numbers below `j`, at most `j` of them |
| MoveGen.AllowedMoves | src/bitboard/move_gen.rs:7-41 | the method's four lookups and fallback compute the free moves in order, or the last legal move alone |
| MoveGen.FreeBelowExact | src/bitboard/move_gen.rs:12-35 | the collected moves are exactly the free ones below `j`, each once, in increasing order |
| MoveGen.LastLegalExact | src/bitboard/move_gen.rs:10-35 | the remembered move is legal whenever some move is, and no later move is legal |
| MoveGen.SomeMoveLegal | src/bitboard/constants.rs:124-145 | from every cell up or down stays on the board |
| MoveGen.AllowedFacts | src/bitboard/move_gen.rs:7-41 | one to four legal moves, none leaving a bounded board; the free moves in order when there is one, otherwise the last legal move alone |
| MoveGen.AllowedLegal | src/bitboard/move_gen.rs:43-44 | the allowed moves are one to four legal moves and never leave a bounded board |
| MoveGen.AllowedExact | src/bitboard/move_gen.rs:36-38 | with a free move the allowed moves are exactly the free ones in order; without, the last legal move alone |
| MoveGen.NoFreeMoves | src/bitboard/move_gen.rs:36-38 | with no free destination nothing is collected |
| MoveGen.SlowDestIsTable | src/bitboard/move_gen.rs:51-92 | the destinations computed by hand in `slow_allowed_moves` are the move table's |
| MoveGen.SlowAgrees | src/bitboard/move_gen.rs:39 | `allowed_moves` equals `slow_allowed_moves` on every cell, as the debug assertion demands |
| MoveGen.SlowFreeAgrees | src/bitboard/move_gen.rs:51-92 | a hand-computed destination is free exactly when the table's is |
| MoveGen.SlowFallbackAgrees | src/bitboard/move_gen.rs:49-96 | the fallback of `slow_allowed_moves`, left on a wrapping board, is the last legal move |
| MoveGen.FreeBelowFour | src/bitboard/move_gen.rs:12-35 | the free moves are tried in the order up, down, right, left |
| MoveGen.LastLegalFour | src/bitboard/move_gen.rs:10-35 | the fallback is the last of up, down, right, left with a destination, up if none has |
| MoveGen.Spread | src/bitboard/move_gen.rs:113-129 | one snake's spread gives as many combinations as the larger of the old count and its move count, each as wide as the one it copies |
| MoveGen.SpreadKeeps | src/bitboard/move_gen.rs:119-128 | spreading one snake leaves every other slot as it was in the combination copied |
| MoveGen.SpreadAll | src/bitboard/move_gen.rs:107-130 | the combinations number one to four and each holds one move per snake |
| MoveGen.SpreadAllUntouched | src/bitboard/move_gen.rs:108-112 | snakes that do not spread, and those not yet reached, move up in every combination |
| MoveGen.SpreadAllGrows | src/bitboard/move_gen.rs:119-121 | spreading never drops a combination |
| MoveGen.SpreadAllColumns | src/bitboard/move_gen.rs:113-129 | a spreading snake has its move of rank `j` or its fill in each combination `j` that existed when it was reached, and its first pick in later copies |
| MoveGen.LimitedParts | src/bitboard/move_gen.rs:109-129 | only live snakes from `skip` on spread, each its free moves with its last legal move as fill |
| MoveGen.LimitedUpTo | src/bitboard/move_gen.rs:107-130 | after any number of snakes there are one to four combinations, each a full row of moves |
| MoveGen.LimitedMoveCombinations | src/bitboard/move_gen.rs:104-132 | the method's nested loops build exactly the combinations of the spread definition |
| MoveGen.SkipAll | src/bitboard/move_gen.rs:107-109 | before `skip` the only combination is everyone moving up |
| MoveGen.SpreadSnake | src/bitboard/move_gen.rs:113-129 | the two inner loops spread one snake's free moves, filling with its last legal move |
| MoveGen.SpreadFree | src/bitboard/move_gen.rs:113-126 | the first inner loop puts the snake's `k`-th free move into combination `k`, adding a copy of the first when short, and leaves the rest alone |
| MoveGen.FillRest | src/bitboard/move_gen.rs:127-129 | the second inner loop sets the snake's slot of the combinations from `x` on to the fallback and changes nothing else |
| MoveGen.LimitedUntouched | src/bitboard/move_gen.rs:108-112 | skipped and dead snakes move up in every combination |
| MoveGen.LimitedCovers | src/bitboard/move_gen.rs:100-102 | every free move of every live snake from `skip` on appears, its `j`-th in combination `j`, and every other entry is a free move or the fallback |
| MoveGen.LimitedShape | src/bitboard/move_gen.rs:104-132 | `limited_move_combinations` gives one to four combinations of one move per snake |
| MoveGen.InsertByKey | src/bitboard/move_gen.rs:148-155 | inserting a move adds exactly that move to the multiset |
| MoveGen.SortByKey | src/bitboard/move_gen.rs:148-155 | the sort is a permutation of its input |
| MoveGen.InsertSorted | src/bitboard/move_gen.rs:148-155 | inserting into a sorted list keeps it sorted by key |
| MoveGen.ConsSorted | src/bitboard/move_gen.rs:148-155 | a move whose key is no larger than the rest may go in front of a sorted list |
| MoveGen.InsertAbove | src/bitboard/move_gen.rs:148-155 | insertion keeps a lower bound on the keys |
| MoveGen.SortSorted | src/bitboard/move_gen.rs:148-155 | the sort's output is in increasing order of key |
| MoveGen.InsertWithKey | src/bitboard/move_gen.rs:148-155 | insertion puts the move ahead of every move that shares its key and leaves their order alone |
| MoveGen.SortStable | src/bitboard/move_gen.rs:148-155 | the sort is stable: for every key, the moves with that key come out in their input order |
| MoveGen.OrderedMovesOf | src/bitboard/move_gen.rs:144-161 | every snake contributes one to four moves |
| MoveGen.OrderedParts | src/bitboard/move_gen.rs:164-174 | snakes from `skip` on spread their ordered moves, filling with the last |
| MoveGen.OrderedUpTo | src/bitboard/move_gen.rs:165-174 | the ordered combinations number one to four, each a full row |
| MoveGen.OrderedColumns | src/bitboard/move_gen.rs:167-174 | skipped snakes move up; a snake from `skip` on has its move of rank `j`, or its last, in combination `j`, and its first in later copies |
| MoveGen.OrderedMovesSorted | src/bitboard/move_gen.rs:145-156 | a live snake's ordered moves are its allowed moves rearranged in increasing order of the distance key, moves with equal keys keeping their allowed-move order (`sort_by_key` is stable) |
| MoveGen.ListOf | src/bitboard/move_gen.rs:185-193 | every snake has one to four moves in the full product |
| MoveGen.Assign | src/bitboard/move_gen.rs:204-208 | each copy is the old combination with slot `idx` set |
| MoveGen.Extend | src/bitboard/move_gen.rs:203-209 | a snake's round multiplies the number of combinations by its move count |
| MoveGen.ListsOf | src/bitboard/move_gen.rs:184-193 | every snake from `skip` on has its list, in slot order |
| MoveGen.ListsDistinct | src/bitboard/move_gen.rs:185-193 | no snake's move list repeats a move |
| MoveGen.Product | src/bitboard/move_gen.rs:196-212 | every combination in the product is a full row of moves |
| MoveGen.ExtendRows | src/bitboard/move_gen.rs:203-209 | a round keeps every combination a full row |
| MoveGen.MoveCombinations | src/bitboard/move_gen.rs:181-213 | `move_combinations` returns the product of the snakes' move lists from `skip` on |
| MoveGen.BuildProduct | src/bitboard/move_gen.rs:196-212 | the rounds and the final drain leave exactly the last round's combinations |
| MoveGen.Round | src/bitboard/move_gen.rs:201-209 | one round appends a copy of each combination of the previous round per move, with the snake's slot set |
| MoveGen.CopyWith | src/bitboard/move_gen.rs:204-208 | the innermost loop appends each combination in the range with slot `idx` set |
| MoveGen.AssignSnoc | src/bitboard/move_gen.rs:204-208 | copying one more combination appends one more entry |
| MoveGen.ExtendSnoc | src/bitboard/move_gen.rs:203-209 | one more move appends one more block of copies |
| MoveGen.ExtendSource | src/bitboard/move_gen.rs:203-209 | every new combination is an old one with slot `idx` set to one of the moves |
| MoveGen.ExtendContains | src/bitboard/move_gen.rs:203-209 | every old combination with slot `idx` set to any of the moves is among the new ones |
| MoveGen.ProductExact | src/bitboard/move_gen.rs:178-213 | a combination is returned exactly when every snake from `skip` on makes one of its moves and every other snake moves up |
| MoveGen.ProductSound | src/bitboard/move_gen.rs:178-213 | every returned combination gives each snake one of its moves |
| MoveGen.ProductSoundAt | src/bitboard/move_gen.rs:196-212 | every entry of the product is such a combination |
| MoveGen.ProductComplete | src/bitboard/move_gen.rs:178-213 | every such combination is returned |
| MoveGen.CompleteStep | src/bitboard/move_gen.rs:200-209 | a combination over `i` snakes is reached from one over `i - 1` |
| MoveGen.OnlyStart | src/bitboard/move_gen.rs:197 | over no snakes the only combination is everyone moving up |
| MoveGen.ExtendHas | src/bitboard/move_gen.rs:203-209 | an old combination with slot `idx` set to one of the moves is in the round |
| MoveGen.DropSlot | src/bitboard/move_gen.rs:200-209 | a combination over `i` snakes is one over `i - 1` with the last snake's move set |
| MoveGen.ExtendDistinct | src/bitboard/move_gen.rs:203-209 | a round over distinct moves adds no repeated combination |
| MoveGen.UpdateInjective | src/bitboard/move_gen.rs:205-206 | setting the same slot of two different combinations that agree there keeps them different |
| MoveGen.ProductDistinct | src/bitboard/move_gen.rs:196-212 | no combination is returned twice |
| MoveGen.ProductSize | src/bitboard/move_gen.rs:196-212 | the number of combinations is the product of the snakes' move counts |
| Nnue.ColumnAppend | src/nnue/mod.rs:35-39 | the weight sum over two joined feature lists is the sum of the two sums |
| Nnue.ColumnRemoveAt | src/nnue/mod.rs:70-74 | taking one feature out of a list takes its row out of every column sum |
| Nnue.ColumnPermutation | src/nnue/mod.rs:35-39 | the weight sum depends only on the multiset of features, not on their order |
| Nnue.Accumulated | src/nnue/mod.rs:15-41 | the accumulator of a feature list is `M` values, all `i16` |
| Nnue.AddFeature | src/nnue/mod.rs:36-38 | adding (or subtracting) one feature's row changes every lane by that row's weight, wrapping to `i16` |
| Nnue.NextLane | src/nnue/mod.rs:35-39 | wrapping after each feature gives the same lane as wrapping the prefix sum once |
| Nnue.AddFeatures | src/nnue/mod.rs:35-39 | the rows of a whole list change every lane by the column sum over the list, wrapping to `i16` |
| Nnue.FreshAccumulator | src/nnue/mod.rs:29-41 | the scalar loops compute, at every position, the bias plus the weights of all active features, read feature-first, as an `i16` |
| Nnue.WrapAdd | src/nnue/mod.rs:37 | wrapping at every step gives the same `i16` as wrapping once at the end |
| Nnue.Updated | src/nnue/mod.rs:65-81 | the updated accumulator is `M` values, all `i16` |
| Nnue.UpdateAccumulator | src/nnue/mod.rs:65-81 | the removed rows are subtracted and the added rows added, lane by lane, wrapping |
| Nnue.UpdateOfFresh | src/nnue/mod.rs:29-81 | updating the accumulator of `F` by `added` and `removed` gives the fresh accumulator of any list equal, as a multiset, to `F - removed + added`, modulo 2^16 |
| Nnue.Load | src/nnue/mod.rs:48-50 | register `c`, lane `t` holds position `16c + t` |
| Nnue.Store | src/nnue/mod.rs:58-61 | position `j` receives register `j / 16`, lane `j % 16` |
| Nnue.AddRow | src/nnue/mod.rs:53-55 | one feature's row, sliced into sixteens, changes every register lane by its weight, wrapping |
| Nnue.AddRows | src/nnue/mod.rs:52-56 | all features' rows change every register lane by the column sum, wrapping |
| Nnue.NextRegisters | src/nnue/mod.rs:52-56 | registers holding the sums of a prefix, plus one more row, hold the sums of the longer prefix |
| Nnue.FreshAccumulatorSimd | src/nnue/mod.rs:43-63 | the sixteen-lane version computes exactly the scalar accumulator, overflow or not |
| Nnue.UpdateAccumulatorSimdAsWritten | src/nnue/mod.rs:83-112 | as written the caller's accumulator comes back unchanged, while the shadowing local holds the update |
| Nnue.UpdateChangesAccumulator | src/nnue/mod.rs:102-106 | adding a feature with a non-zero weight at a position changes that position, so the lost update is observable |
| Nnue.UpdateAccumulatorSimd | src/nnue/mod.rs:83-112 | with the registers written back to the argument, the sixteen-lane update equals the scalar one |
| Nnue.Relu | src/nnue/mod.rs:162 | the clipped value lies in [0, 127], equals inputs in [0, 127], and is 0 for inputs whose low byte is negative, such as 128 to 255 |
| Nnue.Clip | src/nnue/mod.rs:160-164 | clipping keeps the length and gives `i8` values |
| Nnue.ClippedRelu | src/nnue/mod.rs:160-164 | every output is the clipped input, in [0, 127] |
| Nnue.ClippedReluSimd | src/nnue/mod.rs:166-175 | whole chunks of 32 get the clipped inputs, the tail keeps its old outputs, so for lengths divisible by 32 it equals `clipped_relu` |
| Nnue.Accum | src/nnue/mod.rs:119-124 | the saturating sum stays an `i16` |
| Nnue.LinearOut | src/nnue/mod.rs:119-128 | every output, a saturated sum divided by 64 towards zero, lies in [-512, 511] |
| Nnue.SeedAsWritten | src/nnue/mod.rs:115-117 | the seed keeps one value per output |
| Nnue.LinearLoops | src/nnue/mod.rs:114-129 | the three loops compute the saturating sums, output-first weights, divided by 64 |
| Nnue.LinearAsWritten | src/nnue/mod.rs:114-129 | as written only the first O/16 outputs start from their bias; the outputs still lie in [-512, 511] |
| Nnue.OutputBiasDropped | src/nnue/mod.rs:115-117 | on the one-output layer with zero inputs the written result is 0 whatever the bias, where the bias over 64 was meant |
| Nnue.AccumZeroInput | src/nnue/mod.rs:119-124 | with all inputs zero the output keeps its starting value |
| Nnue.Linear | src/nnue/mod.rs:114-129 | with every output seeded by its bias, the outputs are the saturated sums divided by 64, in [-512, 511] |
| Nnue.Forward | src/nnue/mod.rs:177-188 | the integer network output is accumulator, ReLU, hidden layer run by `linear` as written (only the first K/16 outputs seeded by their bias), ReLU, and output layer seeded by 0, and lies in [-512, 511] |
| Nnue.HiddenSeed | src/nnue/mod.rs:114-129 | the seed `linear` as written gives the hidden layer on a zeroed array: the bias for the first K/16 outputs, zero for the rest |
| Nnue.ForwardIntended | src/nnue/mod.rs:177-188 | with every output seeded by its bias, the network output is accumulator, ReLU, hidden layer, ReLU, output layer, in [-512, 511] |
| Nnue.ForwardAgrees | src/nnue/mod.rs:114-129 | the written and the intended network agree whenever the hidden biases from K/16 on and the output bias are zero |
| NnueData.CellBits | src/nnue/data.rs:28-62 | the four features of cell `i` are its four planes |
| NnueData.IntendedTailPlane | src/nnue/data.rs:52-55 | with the intended rule plane 3 marks exactly the tails of the first four snakes |
| NnueData.HeadInTailPlane | src/nnue/data.rs:52-55 | as written a third snake's head is marked in the tail plane though no tail is there, where the intended rule leaves it clear |
| NnueData.Run | src/nnue/data.rs:32-60 | one cell's run lists exactly its set features, in increasing order |
| NnueData.RecordText | src/nnue/data.rs:100-141 | the record of `n` features is `n` fields of a comma and a digit, the digit 1 exactly for the set features |
| NnueData.RecordCell | src/nnue/data.rs:107-139 | each cell appends its four fields in plane order |
| NnueData.CollectFeatures | src/nnue/data.rs:28-62 | the loop collects exactly the set features, increasing |
| NnueData.FillSlice | src/nnue/data.rs:64-98 | the loop writes 1 exactly at the set features and 0 elsewhere |
| NnueData.FormatFields | src/nnue/data.rs:100-141 | the loop writes ",1" exactly at the set features and ",0" elsewhere |
| NnueData.ActiveFeatures | src/nnue/data.rs:28-62 | the active features are increasing, below `4 * W * H`, exactly the set ones, and plane 1 holds exactly my head |
| NnueData.Slice | src/nnue/data.rs:64-98 | the array has `4 * W * H` entries, 1 exactly at the set features |
| NnueData.FormatBoard | src/nnue/data.rs:100-141 | the text has `4 * W * H` fields, ",1" exactly at the set features |
| NnueData.Encodings | src/nnue/data.rs:28-141 | the list, the array and the text agree feature by feature |
| Packing.Pow2 | src/minimax/ttable.rs:118-123 | every power of two is positive |
| Packing.Bits | src/minimax/ttable.rs:134-137 | `x`'s low bits number `n` |
| Packing.Word | src/minimax/ttable.rs:134-137 | a cast to `u64` gives a 64-bit word |
| Packing.Shl | src/minimax/ttable.rs:134-142 | a shift keeps the word's width |
| Packing.Shr | src/minimax/ttable.rs:161-190 | a shift keeps the word's width |
| Packing.Or | src/minimax/ttable.rs:134-142 | `\|` keeps the width |
| Packing.And | src/minimax/ttable.rs:142 | `&` keeps the width |
| Packing.Xor | src/minimax/ttable.rs:146 | `^` keeps the width |
| Packing.Zero | src/minimax/ttable.rs:23 | the empty word has no bit set |
| Packing.BoolWord | src/minimax/ttable.rs:136-137 | a flag cast to `u64` is a 64-bit word |
| Packing.Head | src/minimax/ttable.rs:134-137 | the word before the moves are packed is a 64-bit word |
| Packing.PackFrom | src/minimax/ttable.rs:140-144 | the packing loop keeps a 64-bit word |
| Packing.BitsValue | src/minimax/ttable.rs:161-167 | the low bits of a value below `2^n` spell that value |
| Packing.DivDiv | src/minimax/ttable.rs:161-167 | halving and dividing by `p` is dividing by `2p` |
| Packing.DivUnique | src/minimax/ttable.rs:161-167 | Euclidean division is determined by its quotient and remainder |
| Packing.MulMono | src/minimax/ttable.rs:161-167 | multiplying by a positive number keeps order |
| Packing.ValueBound | src/minimax/ttable.rs:161-167 | `n` bits spell a value below `2^n` |
| Packing.ValueLow | src/minimax/ttable.rs:175 | the two low bits decide the value modulo 2 and modulo 4 |
| Packing.ReadBack | src/minimax/ttable.rs:161-190 | shifting a word right by `lo` and reading `n` bits gives the value stored there |
| Packing.PowMono | src/minimax/ttable.rs:161-167 | powers of two grow with the exponent |
| Packing.HighClear | src/minimax/ttable.rs:134-137 | a value below `2^m` has no bit set from `m` on |
| Packing.CodeBits | src/minimax/ttable.rs:142 | a two-bit code sets bit 0 when odd and bit 1 when at least 2 |
| Packing.HeadBits | src/minimax/ttable.rs:134-137 | in the head word bits 0-7 are the depth, bits from 8 the score, and bits 40 and 41 the two flags |
| Packing.FlagBit | src/minimax/ttable.rs:136-137 | a flag shifted to `at` sets that bit alone |
| Packing.PackFromBits | src/minimax/ttable.rs:140-144 | the packing loop sets exactly the bits of the remaining codes on top of the word |
| Packing.PieceBit | src/minimax/ttable.rs:142 | move `i`'s code sets only bits `24 + 2i` and `25 + 2i`, to its low and high bit |
| Packing.ExactIffNoBound | src/minimax/ttable.rs:180-191 | `is_exact` holds exactly when neither bound flag is set |
| Packing.MatchesOwnKey | src/minimax/ttable.rs:146-159 | an entry stored with key `key ^ data` matches `key` exactly when its data is neither zero nor the key |
| Packing.WordFits | src/minimax/ttable.rs:134 | a value below `2^m` leaves the bits from `m` on clear |
| Packing.Pack | src/minimax/ttable.rs:134-144 | the data word is a 64-bit word |
| Packing.PackBits | src/minimax/ttable.rs:118-144 | the fields do not overlap: every data bit is a depth bit (0-7), a score bit (from 8), a flag (40, 41) or a move bit (two per move from 24) |
| Packing.UnpackDepth | src/minimax/ttable.rs:161-163 | the depth reads back |
| Packing.UnpackScore | src/minimax/ttable.rs:165-167 | the score bits read back from bit 8 |
| Packing.UnpackMove | src/minimax/ttable.rs:169-178 | every packed move code reads back while the score stays in its 16 bits |
| Packing.UnpackFlags | src/minimax/ttable.rs:180-186 | both flags read back while the score stays below bit 32 |
| TTable.Pow16 | src/minimax/ttable.rs:134 | a `u16` has 65536 values |
| TTable.PowAdd | src/minimax/ttable.rs:134 | powers of two multiply by adding exponents |
| TTable.ScoreWord | src/minimax/ttable.rs:134 | the score cast through `u16` fits in 16 bits |
| TTable.MoveCodes | src/minimax/ttable.rs:142 | each move is packed as its `to_int` |
| TTable.NewEntry | src/minimax/ttable.rs:126-151 | a new entry's key and data are 64-bit words |
| TTable.GetDepth | src/minimax/ttable.rs:161-163 | the depth is a `u8` |
| TTable.GetScore | src/minimax/ttable.rs:165-167 | the score is an `i16` |
| TTable.GetBestMoves | src/minimax/ttable.rs:169-178 | the moves are `None` for more than eight snakes, otherwise one per snake |
| TTable.I16OfU16 | src/minimax/ttable.rs:134 | an `i16` survives the cast through `u16` and back |
| TTable.EntryRoundTrip | src/minimax/ttable.rs:126-191 | a new entry reads back its depth, its score (any `i16`), both flags, exactness exactly without flags, and its best moves when there are at most eight |
| TTable.NewEntryMatches | src/minimax/ttable.rs:146-159 | a new entry matches its own key exactly when its data is neither zero nor the key |
| TTable.Slot | src/minimax/ttable.rs:13 | every slot holds 64-bit words |
| TTable.Init | src/minimax/ttable.rs:20-30 | `init` creates the tables once and keeps existing ones |
| TTable.Get | src/minimax/ttable.rs:61-72 | `get` returns the entry in slot `key & TT_MASK` of the game's table exactly when it matches the key |
| TTable.Insert | src/minimax/ttable.rs:75-94 | `insert` keeps a matching entry of strictly greater depth and otherwise writes the new entry; no other slot of any table changes |
| TTable.GetAfterInsert | src/minimax/ttable.rs:61-94 | a probe after an insert finds the kept deeper entry, or else the new one exactly when its data is neither zero nor the key |
| TTable.InitIds | src/minimax/ttable.rs:25-27 | the fresh game-id state is well formed |
| TTable.FindId | src/minimax/ttable.rs:44-48 | the search finds the first table held by the game id, or none when no table is |
| TTable.GetTtId | src/minimax/ttable.rs:32-58 | the id is below `MAX_SIMUL_GAMES` and the game-id state stays well formed |
| TTable.TtIdStable | src/minimax/ttable.rs:32-58 | asking again for a game id gives the same table; a known id changes nothing; a new id takes table `next`, and `next` advances modulo 3 |
| OldTTable.SignExtended | src/ttable.rs:93 | `score as u64` of an `i8` is a 64-bit word |
| OldTTable.ZeroExtended | src/ttable.rs:93 | the score cast through `u8` fits in 8 bits |
| OldTTable.Slots | src/ttable.rs:101 | each move is packed as its discriminant |
| OldTTable.FromSlot | src/ttable.rs:129 | reading a code back gives the move with that discriminant |
| OldTTable.EntryOf | src/ttable.rs:85-105 | an entry built from a score word has 64-bit key and data |
| OldTTable.NewEntryAsWritten | src/ttable.rs:85-105 | the written entry has 64-bit key and data |
| OldTTable.NewEntry | src/ttable.rs:85-105 | the corrected entry has 64-bit key and data |
| OldTTable.GetScore | src/ttable.rs:119-121 | the score is an `i8` |
| OldTTable.GetBestMoves | src/ttable.rs:123-132 | the moves are `None` for more than eight snakes, otherwise one per snake |
| OldTTable.I8OfU8 | src/ttable.rs:93 | an `i8` survives the cast through `u8` and back |
| OldTTable.DepthAndScoreOf | src/ttable.rs:115-121 | depth and score read back whenever the score word's low byte is the score |
| OldTTable.DepthAndScore | src/ttable.rs:85-121 | depth and score read back for every `i8` score, in the written and the corrected entry alike |
| OldTTable.NonNegativeAgrees | src/ttable.rs:93 | for scores of at least zero the written entry is the corrected one |
| OldTTable.EntryRoundTrip | src/ttable.rs:85-144 | the corrected entry reads back depth, score, both flags, exactness and, for at most eight moves, the moves |
| OldTTable.NegativeScoreCorrupts | src/ttable.rs:93-104 | as written a negative score sets both bound flags and every move code to 3, so the entry is never exact and all moves read back as `Right` |
| OldTTable.NegativeScoreExample | src/ttable.rs:93-104 | the exact score -1 with best move `Up` comes back with both bounds and best move `Right` |
| OldTTable.Slot | src/ttable.rs:10 | every slot holds 64-bit words |
| OldTTable.Index | src/ttable.rs:29 | `key % TT_LENGTH` is a slot of the table |
| OldTTable.Get | src/ttable.rs:26-40 | `get` returns the key's slot exactly when it matches the key, and `None` before `init_clean` |
| OldTTable.Insert | src/ttable.rs:42-58 | `insert` always overwrites the key's slot, with the entry as the engine packs it, and no other slot |
| OldTTable.GetAfterInsert | src/ttable.rs:26-58 | a probe after an insert finds the packed entry exactly when its data is neither zero nor the key; the entry keeps depth and score, and for a non-negative score its bounds and up to eight best moves, while a negative score claims both bounds and is never exact |
| BitboardRules.MoveHead | src/bitboard/rules.rs:69-79 | one live snake's head moves; every other snake and everything but the layers and snakes stay |
| BitboardRules.MoveHeadsFrom | src/bitboard/rules.rs:66-81 | each live head moves to its table destination; dead snakes and the occupied layer are untouched |
| BitboardRules.MoveHeadsKeeps | src/bitboard/rules.rs:76-77 | the direction layers change only at the old head of a live snake |
| BitboardRules.MoveHeadsSets | src/bitboard/rules.rs:73-77 | at the old head of a live snake no other live snake shares, the direction layers decode to that snake's move |
| BitboardRules.MoveTail | src/bitboard/rules.rs:86-102 | one snake's tail phase touches only that snake among the snakes, and the layers only shrink |
| BitboardRules.MoveTailsFrom | src/bitboard/rules.rs:83-104 | heads, lengths and health stay; a curled live snake loses one curled part; an uncurled live snake's old tail leaves all three layers, which only shrink, and it keeps no curled part (where the tail goes: `TailFollowsMove`) |
| BitboardRules.TailFollowsMove | src/bitboard/rules.rs:90-98 | an uncurled live snake's new tail is its old tail stepped along the move stored there before the phase, unless an earlier uncurled snake's tail on the same cell cleared it first |
| BitboardRules.FeedSnake | src/bitboard/rules.rs:110-130 | one snake goes through damage, feeding and starvation, keeping its head; no other snake changes |
| BitboardRules.FeedSnakesFrom | src/bitboard/rules.rs:109-131 | every snake from `i` on passes the health phase, earlier ones are untouched |
| BitboardRules.UpdateHealth | src/bitboard/rules.rs:106-136 | eaten food leaves the board; a live snake on food gets health 100, one more length and one more curled part; dead snakes stay as they were |
| BitboardRules.HealthDrop | src/bitboard/rules.rs:115-128 | off food, a live snake loses 1 plus the hazard damage when on a hazard, and starves with -2 when that takes it below 1 |
| BitboardRules.RemoveCollidedFrom | src/bitboard/rules.rs:164-177 | marked snakes get the health code of their mark and lose the mark; unmarked snakes stay; the occupied layer only shrinks |
| BitboardRules.PerformCollisions | src/bitboard/rules.rs:138-178 | every snake ends as its collision mark dictates: removed with a health code for marks of 100 or more, otherwise carrying the mark as its curled count |
| BitboardRules.CollisionOutcome | src/bitboard/rules.rs:144-172 | a head on a body gives -1; a live rival on the same head gives -3 or -4, and never -4 when every rival is longer; no rival and no body leaves health alone |
| BitboardRules.FinishHeadsFrom | src/bitboard/rules.rs:180-190 | the occupied layer gains exactly the heads of the live snakes; the direction layers stay |
| BitboardRules.FinishTailsFrom | src/bitboard/rules.rs:192-203 | the occupied layer loses exactly the tails of live snakes with no curled parts; the direction layers stay |
| BitboardRules.IncSpiral | src/bitboard/rules.rs:209-220 | at most one hazard is added, on the board, and only on a turn divisible by 3 from 3 to 426; nothing else changes |
| BitboardRules.SpiralAddsOne | src/bitboard/rules.rs:211-219 | the spiral step only grows the hazards, by at most one cell on the board |
| BitboardRules.AttachRules | src/bitboard/rules.rs:11-64 | the constrictor ruleset wins; the spiral step is chosen exactly for the `hz_spiral` map with at least one hazard, centred at the first hazard's cell index |
| BitboardRules.FullStep | src/bitboard/rules.rs:52-61 | the phases after the head move keep the turn, the depth and the number of snakes |
| BitboardRules.StepCounters | src/bitboard/rules.rs:17-61 | every step variant advances the turn (as a `u16`) and the depth by one and keeps the number of snakes |
| BitboardRules.ConstrictorKeepsTailsAndHealth | src/bitboard/rules.rs:17-23 | the constrictor step never moves a tail, and health changes only to a collision code |
| BitboardRules.FoodSpawns | src/bitboard/rules.rs:222-227 | only the wrapped arcade maze has spawn cells, at most eleven |
| BitboardRules.SpawnsFrom | src/bitboard/rules.rs:229-241 | exactly the live snakes from `i` on whose head is on a spawn cell gain one curled part |
| Area.Cells | src/bitboard/mod.rs:84 | the full-board mask holds exactly the cells on the board |
| Area.GrowAsWritten | src/minimax/eval.rs:349-359 | the fill step as the engine writes it never leaves the board |
| Area.Grow | src/minimax/eval.rs:349-359 | the corrected fill step never leaves the board |
| Area.AdjacentSymmetric | src/minimax/eval.rs:349-359 | one move apart is a symmetric relation, wrapping edges included |
| Area.PlainNeighbour | src/minimax/eval.rs:349-350 | the four masked one-step shifts reach exactly the row and column neighbours, never across a row end |
| Area.WrapNeighbour | src/minimax/eval.rs:351-359 | the four corrected wrap shifts reach exactly the neighbours across the left/right and top/bottom edges |
| Area.PlainMember | src/minimax/eval.rs:349-350 | a board cell is in the plain step of an area exactly when it is in the area or a plain shift carries an area cell to it |
| Area.WrapMember | src/minimax/eval.rs:351-359 | a board cell is in the corrected wrap shifts of an area exactly when a wrap shift carries an area cell to it |
| Area.AdjacentReach | src/minimax/endgame.rs:60-71 | two board cells are one move apart exactly when a plain shift, or on a wrapping board a wrap shift, carries one to the other |
| Area.GrowAdjacent | src/minimax/endgame.rs:60-71 | the corrected fill step adds exactly the board cells one move from the area, across the edges on a wrapping board |
| Area.GrowKeeps | src/minimax/eval.rs:349-350 | both fill steps keep every cell of the area |
| Area.GrowMonotone | src/minimax/eval.rs:346-371 | a larger area never fills to a smaller one |
| Area.GrowAsWrittenWrongNeighbours | src/minimax/eval.rs:352-353 | on a wrapping 3x3 board the written step from the left column misses the cell across the edge and reaches a cell two moves away; the corrected step does the opposite |
| Area.GrowBy | src/minimax/eval.rs:349-359 | either fill step stays on the board; the rule picks the engine's wrap shifts or the corrected ones |
| Area.GrowBoundedAgrees | src/minimax/eval.rs:349-350 | on a board without wrapping the written and the corrected fill step agree: both are the masked plain step |
| OldBitboard.Code | src/bitboard.rs:117-121 | a move's stored code is one of four two-bit values |
| OldBitboard.CodeBits | src/bitboard.rs:117-134 | bit 0 of a move's code says its step goes down the cell numbers, bit 1 that it goes sideways by one cell; otherwise it goes a row of 11; the code tells the moves apart |
| OldBitboard.DistanceFacts | src/bitboard.rs:32-34 | `distance` is the Manhattan distance of rows and columns on the 11-wide board: symmetric, zero exactly on equal cells, and the mailbox boards' distance at width 11 |
| OldBitboard.Approach | src/bitboard.rs:32-43 | towards a board cell lying in direction `mv`, the move's step stays on the board, goes in that direction and no other, and shortens the distance by one |
| OldBitboard.IsTerminal | src/bitboard.rs:93-103 | a board is terminal exactly when I am dead or every other snake is |
| OldBitboard.WalkShiftIsStep | src/bitboard.rs:208-218 | the walk of `remove_snake_body` follows a stored move exactly as `apply_moves` moves the tail |
| OldBitboard.RemoveWalk | src/bitboard.rs:203-220 | the walk only clears cells of the three layers and never clears the head's cell |
| OldBitboard.RemoveSnakeBody | src/bitboard.rs:203-220 | removing a body changes only the layers, and only by clearing cells |
| OldBitboard.WalkClearsBody | src/bitboard.rs:203-220 | on a well-formed body the walk clears exactly the cells from the tail up to, not including, the head |
| OldBitboard.RemoveClearsBody | src/bitboard.rs:203-220 | `remove_snake_body` clears every cell of a well-formed body but the head |
| OldBitboard.AdvancedRecord | src/bitboard.rs:123-157 | a snake with health 1..100 moves its head by the move; on food it gets health 100 and one more length; otherwise it keeps its length and loses 1 health, 16 on a hazard, dying with `OUT_OF_HEALTH` at zero |
| OldBitboard.MoveSnake | src/bitboard.rs:108-160 | one pass of the first loop changes only snake `i`'s record and the body layers, nothing for a dead snake, gives a live snake its advanced head, health and length, and reports the new head eaten exactly when it is on food |
| OldBitboard.MoveSnakesFrom | src/bitboard.rs:108-160 | the first loop from `i` leaves earlier and dead snakes alone, advances every later live snake, changes only records and layers, and collects exactly the new heads on food |
| OldBitboard.EatenSplit | src/bitboard.rs:148-153 | the food eaten from snake `i` on is snake `i`'s plus that eaten from `i + 1` on |
| OldBitboard.MarkCollisions | src/bitboard.rs:163-181 | the second loop writes each snake's collision mark, 100 for a head on a body, 101 for a rival at least as long on the same head, into its curled count and changes nothing else |
| OldBitboard.ResolveFrom | src/bitboard.rs:184-195 | snakes marked 100 or 101 get health -1 or -3 and a curled count of 0; other records are kept |
| OldBitboard.ApplyMoves | src/bitboard.rs:105-201 | snakes keep their places, the hazards stay, the food loses exactly the cells a live snake's new head lands on, every snake ends as its collision outcome after the moves, and a dead snake stays dead |
| OldBitboard.DeadStayDead | src/bitboard.rs:108-112 | a snake dead before the moves is dead after them |
| OldBitboard.CollisionRules | src/bitboard.rs:163-195 | a live snake whose head is on a body dies of a body collision; otherwise one with a rival at least as long on its head dies of a head collision; otherwise it is as the moves left it |
| OldBitboard.Survivor | src/bitboard.rs:105-201 | a snake alive after the turn has exactly the head, health and length its move gave it |
| OldBitboard.EqualHeadsBothDie | src/bitboard.rs:172-180 | two live snakes of equal length whose heads meet on a cell with no body both die of the head collision |
| OldBitboard.TerminalStays | src/bitboard.rs:93-96 | once I am dead I stay dead whatever the moves, so the game stays over |
| OldMoveGen.Rank | src/move_gen.rs:21-35 | each move has one place in the order down, up, left, right |
| OldMoveGen.FreeBelowExact | src/move_gen.rs:18-61 | the checks of the first `j` moves collect, in order and each once, exactly those of them that are tried and whose cell is not blocked |
| OldMoveGen.Allowed | src/move_gen.rs:8-67 | one to four moves: when some move is tried and unblocked, exactly those, in the order down, up, left, right; otherwise the fallback alone, up on a wrapping board and the last move that stays on a bounded one |
| OldMoveGen.AllowedMoves | src/move_gen.rs:8-67 | `allowed_moves` checks against the body layer with the tails of live, uncurled snakes cleared, and returns the unblocked moves in order, or the fallback alone |
| OldMoveGen.WrapChecks | src/move_gen.rs:18-36 | the wrapping branch tries all four moves and collects the unblocked ones in order |
| OldMoveGen.BoundedChecks | src/move_gen.rs:37-62 | the bounded branch tries each move that stays on the board, collects the unblocked ones in order, and leaves the last one tried as the fallback |
| OldMoveGen.AllowedOnBoard | src/move_gen.rs:6-66 | on a bounded board no move `allowed_moves` returns leaves the board |
| OldMoveGen.BoundedOnBoard | src/move_gen.rs:38-61 | each move the bounded branch tries lands on a cell of the board |
| OldMoveGen.FallbackBounded | src/move_gen.rs:37-65 | on a bounded board some move stays on it, so the fallback does too |
| OldMoveGen.MovingTailIsFree | src/move_gen.rs:12-17 | a move onto the tail of a live snake with no curled parts is free, because that tail moves away this turn |
| OldMoveGen.WrapUpDown | src/move_gen.rs:19-27 | on a wrapping board the down and up checks are the cells the move table gives, across the bottom and top edges |
| OldMoveGen.LeftIntended | src/move_gen.rs:28-29 | the intended left check is the cell before, with cell 0 wrapping to the last cell |
| OldMoveGen.WrapLeftRight | src/move_gen.rs:28-36 | the intended left check and the right check step along the cell numbering round the whole board, undo each other, and agree with the move table away from the side edges |
| OldMoveGen.LeftChecksCellZero | src/move_gen.rs:28-29 | as written, every cell but cell 0 checks cell 0 for a left move, and cell 0 checks the cell two before the end |
| OldMoveGen.LeftIntoBody | src/move_gen.rs:28-32 | on an 11 by 11 wrapping board a head at cell 5 next to a body at cell 4 may move left into the body as written, while the intended check blocks it |
| OldMoveGen.ListOf | src/move_gen.rs:76-84 | each snake offers one to four moves: its allowed moves when alive, up alone when dead |
| OldMoveGen.LimitedMoveCombinations | src/move_gen.rs:69-98 | one to four combinations; skipped snakes move up in all of them; every other snake has its `j`-th move in combination `j`, so each of its moves appears, and no other move appears |
| OldMoveGen.SpreadFrom | src/move_gen.rs:87-96 | the outer loop lets each snake from `skip` on spread its moves in turn over the combinations |
| OldMoveGen.LimitedFacts | src/move_gen.rs:86-97 | after all snakes have spread, skipped snakes move up and every other snake's slot holds exactly its moves, the `j`-th in combination `j` |
| OldMoveGen.LimitedColumn | src/move_gen.rs:89-96 | one spreading snake's slot holds its moves, the `j`-th in combination `j`, and nothing else |
| OldMoveGen.SpreadColumn | src/move_gen.rs:89-96 | a snake that spreads its moves and repeats its last one past their end has exactly its moves in its slot, the `j`-th in combination `j` |
| OldMoveGen.MoveCombinations | src/move_gen.rs:100-134 | the result is the Cartesian product of the snakes' moves from `skip` on, every earlier snake moving up: each combination once, as many as the product of the move counts |
| OldEval.Open | src/eval.rs:19 | `!bodies[0]` holds exactly the bits of the word that no body part occupies |
| OldEval.StepMono | src/eval.rs:23 | a larger mask spreads to more free cells |
| OldEval.StepGrows | src/eval.rs:23 | a fill step keeps every free cell of the mask |
| OldEval.FloodFill | src/eval.rs:18-31 | the fill lies in the free cells, holds the first step from my head, is closed under a step, and lies inside every closed set that holds the first step: it is the least such set |
| OldEval.Walkable | src/eval.rs:35-42 | the cells the contest may claim hold no body part |
| OldEval.Contest | src/eval.rs:45-47 | a round leaves both regions inside the walkable cells and disjoint: a cell both reach belongs to neither |
| OldEval.Settle | src/eval.rs:43-53 | when the loop stops, it stops on a state that one more round leaves unchanged |
| OldEval.AreaControl | src/eval.rs:33-55 | when `area_control` returns, its regions are a fixpoint of the round from my head against the live enemy heads |
| OldEval.SettledApart | src/eval.rs:44-53 | at a fixpoint the regions are walkable, disjoint and apart, and a walkable cell next to one region only belongs to it |
| OldEval.CorridorRounds | src/eval.rs:44-53 | on a board whose second row is all body, with my head at cell 5 and an enemy head at cell 8, the rounds reach two states that alternate: a cell both reach is dropped from my region and claimed back the round after |
| OldEval.Alternates | src/eval.rs:44-53 | from either alternating state the loop never stops |
| OldEval.CorridorNeverSettles | src/eval.rs:33-55 | on that board `area_control` never returns, however many rounds are allowed |
| OldEval.Claim | src/eval.rs:45-47 | the corrected round keeps each region and adds only walkable cells, those it reaches and the other does not |
| OldEval.ClaimShrinks | src/eval.rs:44-53 | a corrected round that changes the state claims at least one more walkable cell, so the corrected loop ends |
| OldEval.SettleClaims | src/eval.rs:43-53 | the corrected loop always stops, on a state its round leaves unchanged, with both regions only grown |
| OldEval.ClaimApart | src/eval.rs:45-47 | a corrected round keeps disjoint regions disjoint |
| OldEval.ClaimsDisjoint | src/eval.rs:43-53 | from disjoint start regions the corrected loop ends with disjoint regions that gained only walkable cells |
| OldEval.AreaControlIntended | src/eval.rs:33-55 | the corrected `area_control` always returns a fixpoint of the round with claims kept, my head in my region and every live enemy head in theirs |
| OldEval.IntendedApart | src/eval.rs:33-55 | when my head is no enemy's head, the corrected regions are disjoint and gained only walkable cells |
| OldEval.Grow | src/eval.rs:64 | a growth step keeps every bit of the mask |
| OldEval.SpreadNear | src/eval.rs:64 | a step moves a cell at most one row or one column; the sideways shifts never leave the row |
| OldEval.DistanceMasksNear | src/eval.rs:63-69 | the three masks are nested, hold my head bit, and the `k`-th holds only cells at most `k` rows and columns from my head |
| OldEval.EvalTerminal | src/eval.rs:105-111 | the top `i16` score while I live; once I am dead, the bottom score less my health, at most 128 above the bottom |
| OldEval.EvalTerminalRanks | src/eval.rs:105-111 | every position where I live outscores every position where I died, and among deaths the lower health code scores higher |

The `standard` step of `MailBoxBoard` (src/mailbox.rs:203-325) repeats
src/rules.rs:5-140 statement for statement; the `MailboxRules` members
model both, and most rows cite the src/rules.rs copy.

## Left out

- HTTP and process plumbing (src/api.rs, src/main.rs, src/bin/, src/wire_rep.rs): request parsing, serving and serde definitions are I/O; the parsed game state is the input record of `Gamestate.FromGamestate`.
- `alphabeta`, `quiescence` and `fixed_depth_search` (src/minimax/mod.rs), the searches of src/minimax/full_width.rs and the threaded search of src/minimax.rs: they read the clock and a global transposition table. Best-node search takes `alphabeta` as an oracle instead.
- Monte-Carlo search (src/uct.rs, src/mcts.rs): floating-point UCB1 and a random number generator; src/mcts.rs is unimplemented.
- The floating-point evaluation: the `score!` blend, `turn_progression` and `being_longer` (src/minimax/eval.rs:6-18, 173-189, 227-235) and the logit of the NNUE output (src/nnue/mod.rs:189-191, 206-207).
- `linear_simd` (src/nnue/mod.rs:131-158): it shifts by 6 and wraps where `linear` divides by 64 and saturates, so it is not the same function; only `linear` is modelled.
- `write_datapoint` (src/nnue/data.rs:9-26): it appends a record to a file. The record's text is modelled by `NnueData.FormatBoard`.
- The training code and the genetic trainer (src/training/, src/bin/nn.rs, src/bin/trainer.rs): floating point, random numbers and subprocesses.
- The position hash (`ttable::hash`, `impl Hash for Bitboard`): it is FxHasher, a function outside the engine, so hashes are inputs.
- `next_body_segment`, used by the endgame solver, is a board method that is not part of this model; its walk is an input list.
- Debug and printing formatters.
- Bitboard.MovedInLoop: the new tail is stated only when no snake moved earlier in the loop has its old head or old tail on this snake's tail and none of them starves; otherwise the move read at the tail is whatever those snakes left there, which `MoveSnake` computes but no contract restates in terms of the board before the turn.
- Bitboard.ApplySurvivor: the new tail is stated under the same condition as in `MovedInLoop`, for the same reason.
- BitboardRules.TailFollowsMove: when two live snakes without curled parts share a tail cell, the later one reads the move the earlier one cleared; that case is computed but not stated.
- Bitboard.ApplyMoves: of the hazards it states only that they grow; which spiral cell joins them on which turn is the contract of `Bitboard.IncSpiralHazards`, the last statement of the step.
- OldBitboard.RemoveWalk: the engine's walk from tail to head never ends when the mask is shifted off the 128 bits, because an empty mask never meets the head; the model stops there, and after `WALK_FUEL` = 128 steps, which a body of distinct cells never needs (`OldBitboard.WalkClearsBody`).
- OldEval.AreaControl: `area_control` loops without a bound; the model takes a number of rounds and returns `None` when they run out, which is how `OldEval.CorridorNeverSettles` states that the loop does not end.
- OldEval.EvalTerminal: src/types.rs declares `Score` as `i8`, but `eval_terminal` subtracts an `i16`, which only type-checks for the `i16` score of src/minimax/mod.rs; the model uses `i16`.
- The weighted score `eval` of the first bitboard generation (src/eval.rs:57-103): its weights are read from the environment at start-up. Its parts are modelled: the distance masks (`OldEval.DistanceMasksNear`) and the area control.
- Mailbox.Options: under the rule as written it requires a board that is not a single column of two cells. There the top cell has no legal step, an enemy falls back to the illegal Up, and the engine's next index of the board is out of range.
- MailboxRules.Hit: the `u8` length is taken as unbounded; `length += 1` wraps only beyond 255 parts, more than an 11 by 11 board holds.
- BitboardRules.FullStep: the phases after the head move are composed and only the counters are stated for the composition; each phase carries its own contract.

## Findings

| source | as written | input that shows it | evidently intended | confidence | as-written member | corrected member |
|---|---|---|---|---|---|---|
| src/types.rs:57-61 | Down is refused when `from > width` does not hold | a 4 by 4 board, Down from cell 4 (the same test is at src/mailbox.rs:36-40) | Down is refused only from the bottom row, `from >= width` | high, not executed | Types.CheckedMoveDestAsWritten | Types.CheckedMoveDest |
| src/ttable.rs:93 | the `i8` score is widened with `score as u64`, which sign-extends into the move and flag bits | score -1 with best move Up: the entry reads back as both bounds and Right | the score widened through `u8`, so that it fills only its own 8 bits | high, not executed | OldTTable.NewEntryAsWritten | OldTTable.NewEntry |
| src/nnue/mod.rs:108-111 | the registers are written into a new local `acc`, which shadows the argument, so the caller's accumulator is never updated | any added feature whose weight row is non-zero | the registers written back into the argument | high, not executed | Nnue.UpdateAccumulatorSimdAsWritten | Nnue.UpdateAccumulatorSimd |
| src/nnue/mod.rs:115-117 | only outputs `0 .. O/16` are seeded with their bias | the output layer (one output) on an all-zero input gives 0 whatever its bias | every output seeded with its bias | medium, not executed | Nnue.LinearAsWritten | Nnue.Linear |
| src/nnue/data.rs:54-55 | the tail plane takes the tails of snakes 0 and 1 but the heads of snakes 2 and 3 (also lines 90-91 and 132-133) | three snakes, no tail on the third snake's head | the tails of snakes 2 and 3 | medium, not executed | NnueData.HeadInTailPlane | NnueData.IntendedTailPlane |
| src/rules.rs:13-17 | the `u8` health loses 1 + 15 on a hazard and wraps | health 10 on a hazard: 250 as written, so the snake does not starve | a starved snake, health at most 0 | high, not executed | MailboxRules.HazardWrapInStep | MailboxRules.Damaged |
| src/minimax/eval.rs:352-353 | the left column is shifted down by `W - 1` and the right column up by `W - 1` | a wrapping 3 by 3 board, area {3}: cell 5 is missed and cell 1 added | the left column carried to the right end of its row and the right column to the left end (also src/minimax/endgame.rs:63-64, 67-68) | high, not executed | Area.GrowAsWritten | Area.Grow |
| src/bitset.rs:228-232 | for a shift that is not a multiple of 128, the top non-empty word of the result is never written | `[0, 4] >> 1` gives `[0, 0]` | `[0, 2]`, bit 130 moved to 129 | high, not executed | Bitset.ShrAsWritten | Bitset.Shr |
| src/bitset.rs:246-254 | `state[0]` is overwritten with `state[lz] >> a`, and the top word written by the loop is left stale | `[0, 4] >>= 1` leaves `[0, 4]` | `[0, 2]`, as for `>>` | high, not executed | Bitset.ShrAssignAsWritten | Bitset.ShrAssign |
| src/move_gen.rs:28-29 | the wrapped left check multiplies both terms by `check`, which holds only at cell 0 | an 11 by 11 wrapping board, head at cell 5, body at cell 4: Left is offered, as cell 0 is what gets checked | `!check` in the second term, so that every other cell checks the cell before it | high, not executed | OldMoveGen.LeftIntoBody | OldMoveGen.WrapLeftRight |
| src/eval.rs:33-55 | `area_control` drops a cell both regions reach and spreads again from what is left, so the regions can alternate for ever and the loop never ends | the corridor board of `OldEval.Corridor`, my head at 5 and the enemy's at 8 on a bottom row cut off by a wall | each region keeps what it has claimed, as the later generation does at src/minimax/eval.rs:360-369 | high, not executed | OldEval.CorridorNeverSettles | OldEval.AreaControlIntended |

=== FILE: area.dfy ===
/**
 * One step of a flood fill on a bitset board, as `area_control` and the
 * endgame solver grow an area by one cell in every direction: shifts by one
 * column and by one row, masked so that a row does not spill into the next,
 * plus, on a wrapping board, four more shifts that carry the edge columns
 * and rows round to the opposite side.
 *
 * Shifts are modelled on sets of cell numbers (`<<` raises cell numbers,
 * as the masked one-column shifts require) and the result is cut down to
 * the board; every caller intersects it with a subset of the board or only
 * asks about cells on it.
 *
 * As written, the horizontal wrap shifts go the wrong way: the first column
 * is shifted down by `W - 1` and the last one up by `W - 1`, which lands on
 * a neighbouring row instead of the opposite end of the same row.
 * `GrowAsWritten` keeps those shifts; `Grow` turns them round.
 */
module Area {
  import opened Grid

  /** `FULL_BOARD_MASK`. */
  function Cells(d: Dims): (c: set<int>)
    ensures forall p :: p in c <==> OnBoard(d, p)
  {
    set p | 0 <= p < Size(d) && OnBoard(d, p)
  }

  /** `s << k`. */
  function Shl(s: set<int>, k: nat): set<int>
  {
    set p | p in s :: p + k
  }

  /** `s >> k`: cells below `k` drop out. */
  function Shr(s: set<int>, k: nat): set<int>
  {
    set p | p in s && p >= k :: p - k
  }

  /** The cells of one column: `LEFT_EDGE_MASK` is column 0, `RIGHT_EDGE_MASK` column `W - 1`. */
  function ColumnMask(d: Dims, c: int): set<int>
  {
    set p | 0 <= p < Size(d) && Col(d, p) == c
  }

  /** All cells but one column: `ALL_BUT_LEFT_EDGE_MASK` leaves out column `W - 1`, `ALL_BUT_RIGHT_EDGE_MASK` column 0. */
  function AllButColumn(d: Dims, c: int): set<int>
  {
    set p | 0 <= p < Size(d) && Col(d, p) != c
  }

  /** The cells of one row: `BOTTOM_EDGE_MASK` is row 0, `TOP_EDGE_MASK` row `H - 1`. */
  function RowMask(d: Dims, r: int): set<int>
  {
    set p | 0 <= p < Size(d) && Row(d, p) == r
  }

  /** The shifts every board makes: right, left, up and down by one. */
  function PlainStep(d: Dims, s: set<int>): set<int>
  {
    s + Shl(AllButColumn(d, d.w - 1) * s, 1) + Shr(AllButColumn(d, 0) * s, 1) + Shl(s, d.w) + Shr(s, d.w)
  }

  /** The vertical wrap shifts: the bottom row up to the top, the top row down to the bottom. */
  function VerticalWrap(d: Dims, s: set<int>): set<int>
  {
    Shl(RowMask(d, 0) * s, (d.h - 1) * d.w) + Shr(RowMask(d, d.h - 1) * s, (d.h - 1) * d.w)
  }

  /** The fill step as written. */
  function GrowAsWritten(d: Dims, s: set<int>): (r: set<int>)
    ensures r <= Cells(d)
  {
    Cells(d) * (PlainStep(d, s) +
      if d.wrap then
        Shr(ColumnMask(d, 0) * s, d.w - 1) + Shl(ColumnMask(d, d.w - 1) * s, d.w - 1) + VerticalWrap(d, s)
      else {})
  }

  /** The fill step with the first column carried to the last and the last to the first. */
  function Grow(d: Dims, s: set<int>): (r: set<int>)
    ensures r <= Cells(d)
  {
    Cells(d) * (PlainStep(d, s) +
      if d.wrap then
        Shl(ColumnMask(d, 0) * s, d.w - 1) + Shr(ColumnMask(d, d.w - 1) * s, d.w - 1) + VerticalWrap(d, s)
      else {})
  }

  /** Which horizontal wrap shifts a fill step uses: the engine's, or the corrected ones. */
  datatype WrapRule = AsWritten | Intended

  /** The fill step under a rule. */
  function GrowBy(d: Dims, rule: WrapRule, s: set<int>): (r: set<int>)
    ensures r <= Cells(d)
    ensures rule == AsWritten ==> r == GrowAsWritten(d, s)
    ensures rule == Intended ==> r == Grow(d, s)
  {
    if rule == AsWritten then GrowAsWritten(d, s) else Grow(d, s)
  }

  /** The two rules differ only on a wrapping board: on a bounded one both steps add the plain neighbours alone. */
  lemma GrowBoundedAgrees(d: Dims, s: set<int>)
    requires !d.wrap
    ensures GrowAsWritten(d, s) == Grow(d, s) == Cells(d) * PlainStep(d, s)
  {
  }

  /** Two cells one move apart: next to each other in a row or a column, or across a wrapping edge. */
  predicate Adjacent(d: Dims, p: int, q: int)
  {
    (Row(d, p) == Row(d, q) &&
      (Col(d, q) == Col(d, p) + 1 || Col(d, p) == Col(d, q) + 1 ||
       (d.wrap && ((Col(d, p) == 0 && Col(d, q) == d.w - 1) || (Col(d, q) == 0 && Col(d, p) == d.w - 1))))) ||
    (Col(d, p) == Col(d, q) &&
      (Row(d, q) == Row(d, p) + 1 || Row(d, p) == Row(d, q) + 1 ||
       (d.wrap && ((Row(d, p) == 0 && Row(d, q) == d.h - 1) || (Row(d, q) == 0 && Row(d, p) == d.h - 1)))))
  }

  /** The cells the plain shifts carry `p` to. */
  predicate PlainReach(d: Dims, p: int, q: int)
  {
    (Col(d, p) != d.w - 1 && q == p + 1) || (Col(d, p) != 0 && q == p - 1) || q == p + d.w || q == p - d.w
  }

  /** The cells the corrected wrap shifts carry `p` to. */
  predicate WrapReach(d: Dims, p: int, q: int)
  {
    (Col(d, p) == 0 && q == p + (d.w - 1)) || (Col(d, p) == d.w - 1 && q == p - (d.w - 1)) ||
    (Row(d, p) == 0 && q == p + (d.h - 1) * d.w) || (Row(d, p) == d.h - 1 && q == p - (d.h - 1) * d.w)
  }

  /** Adjacency is symmetric. */
  lemma AdjacentSymmetric(d: Dims, p: int, q: int)
    ensures Adjacent(d, p, q) <==> Adjacent(d, q, p)
  {
  }

  /** A cell shifted within its row, by `k` columns. */
  lemma AlongRow(d: Dims, p: int, q: int, k: int)
    requires OnBoard(d, p) && OnBoard(d, q) && 0 <= Col(d, p) + k < d.w
    ensures q == p + k <==> Row(d, q) == Row(d, p) && Col(d, q) == Col(d, p) + k
  {
    ShiftCols(d, p, k);
    if Row(d, q) == Row(d, p) && Col(d, q) == Col(d, p) + k {
      SameCell(d, q, p + k);
    }
  }

  /** A cell shifted within its column, by `k` rows. */
  lemma AlongColumn(d: Dims, p: int, q: int, k: int)
    requires OnBoard(d, p) && OnBoard(d, q)
    ensures q == p + k * d.w <==> Row(d, q) == Row(d, p) + k && Col(d, q) == Col(d, p)
  {
    ShiftRows(d, p, k);
    if Row(d, q) == Row(d, p) + k && Col(d, q) == Col(d, p) {
      SameCell(d, q, p + k * d.w);
    }
  }

  /** The cells the four plain shifts reach from `p` are its plain neighbours. */
  lemma PlainNeighbour(d: Dims, p: int, q: int)
    requires OnBoard(d, p) && OnBoard(d, q)
    ensures PlainReach(d, p, q) <==>
      (Row(d, p) == Row(d, q) && (Col(d, q) == Col(d, p) + 1 || Col(d, p) == Col(d, q) + 1)) ||
      (Col(d, p) == Col(d, q) && (Row(d, q) == Row(d, p) + 1 || Row(d, p) == Row(d, q) + 1))
  {
    RowCol(d, p);
    if Col(d, p) != d.w - 1 {
      AlongRow(d, p, q, 1);
    }
    if Col(d, p) != 0 {
      AlongRow(d, p, q, -1);
    }
    AlongColumn(d, p, q, 1);
    AlongColumn(d, p, q, -1);
    assert p - d.w == p + (-1) * d.w;
  }

  /** The cells the four wrap shifts reach from `p` are its neighbours across an edge. */
  lemma WrapNeighbour(d: Dims, p: int, q: int)
    requires OnBoard(d, p) && OnBoard(d, q)
    ensures WrapReach(d, p, q) <==>
      (Row(d, p) == Row(d, q) && ((Col(d, p) == 0 && Col(d, q) == d.w - 1) || (Col(d, q) == 0 && Col(d, p) == d.w - 1))) ||
      (Col(d, p) == Col(d, q) && ((Row(d, p) == 0 && Row(d, q) == d.h - 1) || (Row(d, q) == 0 && Row(d, p) == d.h - 1)))
  {
    RowCol(d, p);
    RowBound(d, p);
    RowBound(d, q);
    RowCol(d, q);
    if Col(d, p) == 0 {
      AlongRow(d, p, q, d.w - 1);
    }
    if Col(d, p) == d.w - 1 {
      AlongRow(d, p, q, -(d.w - 1));
    }
    AlongColumn(d, p, q, d.h - 1);
    AlongColumn(d, p, q, -(d.h - 1));
    assert p - (d.h - 1) * d.w == p + (-(d.h - 1)) * d.w;
  }

  /** A cell reached by the plain shifts from `s`. */
  lemma PlainMember(d: Dims, s: set<int>, q: int)
    requires s <= Cells(d) && OnBoard(d, q)
    ensures q in PlainStep(d, s) <==> q in s || exists p :: p in s && PlainReach(d, p, q)
  {
    if exists p :: p in s && PlainReach(d, p, q) {
      var p :| p in s && PlainReach(d, p, q);
      if Col(d, p) != d.w - 1 && q == p + 1 {
        assert p in AllButColumn(d, d.w - 1) * s;
      } else if Col(d, p) != 0 && q == p - 1 {
        assert p in AllButColumn(d, 0) * s;
      }
    }
  }

  /** A cell reached by the corrected wrap shifts from `s`. */
  lemma WrapMember(d: Dims, s: set<int>, q: int)
    requires s <= Cells(d) && OnBoard(d, q)
    ensures q in Shl(ColumnMask(d, 0) * s, d.w - 1) + Shr(ColumnMask(d, d.w - 1) * s, d.w - 1) + VerticalWrap(d, s)
      <==> exists p :: p in s && WrapReach(d, p, q)
  {
    if exists p :: p in s && WrapReach(d, p, q) {
      var p :| p in s && WrapReach(d, p, q);
      if Col(d, p) == 0 && q == p + (d.w - 1) {
        assert p in ColumnMask(d, 0) * s;
      } else if Col(d, p) == d.w - 1 && q == p - (d.w - 1) {
        assert p in ColumnMask(d, d.w - 1) * s;
      } else if Row(d, p) == 0 && q == p + (d.h - 1) * d.w {
        assert p in RowMask(d, 0) * s;
      } else {
        assert p in RowMask(d, d.h - 1) * s;
      }
    }
  }

  /**
   * The corrected fill step adds exactly the board cells adjacent to the
   * area, wrapping round the edges on a wrapping board.
   */
  lemma GrowAdjacent(d: Dims, s: set<int>, q: int)
    requires s <= Cells(d)
    ensures q in Grow(d, s) <==> OnBoard(d, q) && (q in s || exists p :: p in s && Adjacent(d, p, q))
  {
    if OnBoard(d, q) {
      PlainMember(d, s, q);
      WrapMember(d, s, q);
      var wrapped := Shl(ColumnMask(d, 0) * s, d.w - 1) + Shr(ColumnMask(d, d.w - 1) * s, d.w - 1) + VerticalWrap(d, s);
      assert q in Grow(d, s) <==> q in PlainStep(d, s) || (d.wrap && q in wrapped);
      if exists p :: p in s && Adjacent(d, p, q) {
        var p :| p in s && Adjacent(d, p, q);
        AdjacentReach(d, p, q);
      }
      if q in Grow(d, s) && q !in s {
        var p :| p in s && (PlainReach(d, p, q) || (d.wrap && WrapReach(d, p, q)));
        AdjacentReach(d, p, q);
      }
    }
  }

  /** Two board cells are adjacent exactly when a plain shift, or on a wrapping board a wrap shift, carries one to the other. */
  lemma AdjacentReach(d: Dims, p: int, q: int)
    requires OnBoard(d, p) && OnBoard(d, q)
    ensures Adjacent(d, p, q) <==> PlainReach(d, p, q) || (d.wrap && WrapReach(d, p, q))
  {
    PlainNeighbour(d, p, q);
    WrapNeighbour(d, p, q);
  }

  /** The fill step only adds cells: the area is kept. */
  lemma GrowKeeps(d: Dims, s: set<int>)
    requires s <= Cells(d)
    ensures s <= Grow(d, s) && s <= GrowAsWritten(d, s)
    ensures forall rule :: s <= GrowBy(d, rule, s)
  {
  }

  /** Growing a larger area gives a larger result. */
  lemma GrowMonotone(d: Dims, s: set<int>, t: set<int>)
    requires s <= t <= Cells(d)
    ensures Grow(d, s) <= Grow(d, t)
  {
    forall q | q in Grow(d, s) ensures q in Grow(d, t) {
      GrowAdjacent(d, s, q);
      GrowAdjacent(d, t, q);
    }
  }

  /**
   * On a wrapping 3 by 3 board the written step from cell 3 (row 1, column
   * 0) misses cell 5 (row 1, column 2), which is one move away across the
   * edge, and reaches cell 1 (row 0, column 1), which is two moves away.
   */
  lemma GrowAsWrittenWrongNeighbours()
    ensures var d := Geometry(3, 3, true);
      Adjacent(d, 3, 5) && 5 !in GrowAsWritten(d, {3}) && 5 in Grow(d, {3}) &&
      !Adjacent(d, 3, 1) && 1 in GrowAsWritten(d, {3}) && 1 !in Grow(d, {3})
  {
    var d := Geometry(3, 3, true);
    assert d.w == 3 && Size(d) == 9 && Col(d, 3) == 0;
    assert 3 in ColumnMask(d, 0) * {3};
    assert 1 in Shr(ColumnMask(d, 0) * {3}, 2);
    assert 5 in Shl(ColumnMask(d, 0) * {3}, 2);
    GrowAdjacent(d, {3}, 1);
  }
}

=== FILE: bitset.dfy ===
/**
 * The engine's fixed-size bitset: an array of N unsigned 128-bit words,
 * bit `p` stored in word `p / 128` at offset `p % 128`. A word is modelled
 * as its 128 bits, least significant first, so that `1 << a` and friends
 * are plain sequence operations. The abstract meaning of a bitset is the
 * predicate `Bit(s, p)` on positions `0 <= p < 128 * N`.
 */
module Bitset {
  import opened Common

  /** One unsigned 128-bit word, bit 0 first. */
  type Word = w: seq<bool> | |w| == 128 witness seq(128, _ => false)

  /** The state array of a bitset. */
  type Bits = seq<Word>

  function Zero(): Word { seq(128, _ => false) }

  function AllOnes(): Word { seq(128, _ => true) }

  /** The word `1 << b`. */
  function Single(b: int): Word
    requires 0 <= b < 128
  {
    seq(128, i => i == b)
  }

  function WNot(x: Word): (r: Word)
    ensures forall i | 0 <= i < 128 :: r[i] == !x[i]
  {
    seq(128, i requires 0 <= i < 128 => !x[i])
  }

  function WAnd(x: Word, y: Word): (r: Word)
    ensures forall i | 0 <= i < 128 :: r[i] == (x[i] && y[i])
  {
    seq(128, i requires 0 <= i < 128 => x[i] && y[i])
  }

  function WOr(x: Word, y: Word): (r: Word)
    ensures forall i | 0 <= i < 128 :: r[i] == (x[i] || y[i])
  {
    seq(128, i requires 0 <= i < 128 => x[i] || y[i])
  }

  function WXor(x: Word, y: Word): (r: Word)
    ensures forall i | 0 <= i < 128 :: r[i] == (x[i] != y[i])
  {
    seq(128, i requires 0 <= i < 128 => x[i] != y[i])
  }

  /** `x << a` on a `u128`: bits shifted past bit 127 are lost. */
  function WShl(x: Word, a: int): (r: Word)
    requires 0 <= a < 128
    ensures forall i | 0 <= i < 128 :: r[i] == (i >= a && x[i - a])
  {
    seq(128, i requires 0 <= i < 128 => i >= a && x[i - a])
  }

  /** `x >> a` on a `u128`. */
  function WShr(x: Word, a: int): (r: Word)
    requires 0 <= a < 128
    ensures forall i | 0 <= i < 128 :: r[i] == (i + a < 128 && x[i + a])
  {
    seq(128, i requires 0 <= i < 128 => i + a < 128 && x[i + a])
  }

  /** Bit `p` of the bitset. */
  function Bit(s: Bits, p: int): bool
    requires 0 <= p < 128 * |s|
  {
    s[p / 128][p % 128]
  }

  /** `Bitset::new`: every bit clear. */
  function New(n: nat): (r: Bits)
    ensures |r| == n
    ensures forall p | 0 <= p < 128 * n :: !Bit(r, p)
  {
    seq(n, _ => Zero())
  }

  /** `get_bit`: shift the word right by the offset and test the lowest bit. */
  function GetBit(s: Bits, p: int): (r: bool)
    requires 0 <= p < 128 * |s|
    ensures r == s[p / 128][p % 128]
  {
    WShr(s[p / 128], p % 128)[0]
  }

  /** `set_bit`: or the word with `1 << offset`. */
  function SetBit(s: Bits, p: int): (r: Bits)
    requires 0 <= p < 128 * |s|
    ensures |r| == |s|
    ensures Bit(r, p)
    ensures forall q | 0 <= q < 128 * |s| && q != p :: Bit(r, q) == Bit(s, q)
  {
    s[p / 128 := WOr(s[p / 128], Single(p % 128))]
  }

  /** `unset_bit`: and the word with `!(1 << offset)`. */
  function UnsetBit(s: Bits, p: int): (r: Bits)
    requires 0 <= p < 128 * |s|
    ensures |r| == |s|
    ensures !Bit(r, p)
    ensures forall q | 0 <= q < 128 * |s| && q != p :: Bit(r, q) == Bit(s, q)
  {
    s[p / 128 := WAnd(s[p / 128], WNot(Single(p % 128)))]
  }

  /** `with_bit_set`: a fresh bitset with exactly one bit set. */
  function WithBitSet(n: nat, p: int): (r: Bits)
    requires 0 <= p < 128 * n
    ensures |r| == n
    ensures forall q | 0 <= q < 128 * n :: Bit(r, q) <==> q == p
  {
    SetBit(New(n), p)
  }

  /** `any`: scan the words for one that is not zero. */
  method Any(s: Bits) returns (r: bool)
    ensures r <==> exists p | 0 <= p < 128 * |s| :: Bit(s, p)
  {
    var i := 0;
    while i < |s|
      invariant 0 <= i <= |s|
      invariant forall j | 0 <= j < i :: s[j] == Zero()
    {
      if s[i] != Zero() {
        var b :| 0 <= b < 128 && s[i][b];
        assert Bit(s, 128 * i + b);
        return true;
      }
      i := i + 1;
    }
    forall p | 0 <= p < 128 * |s| ensures !Bit(s, p) {
      assert s[p / 128] == Zero();
    }
    return false;
  }

  /** `none`: the negation of `any`. */
  method None(s: Bits) returns (r: bool)
    ensures r <==> forall p | 0 <= p < 128 * |s| :: !Bit(s, p)
  {
    var a := Any(s);
    r := !a;
  }

  /** The number of set bits among the first `n` bits of a word. */
  function PopCount(w: seq<bool>, n: nat): nat
    requires n <= |w|
  {
    if n == 0 then 0 else PopCount(w, n - 1) + (if w[n - 1] then 1 else 0)
  }

  /** The number of clear bits among the first `n` bits of a word. */
  function ZeroCount(w: seq<bool>, n: nat): nat
    requires n <= |w|
  {
    if n == 0 then 0 else ZeroCount(w, n - 1) + (if w[n - 1] then 0 else 1)
  }

  /** The number of set positions below `n`, counted position by position. */
  function OnesBelow(s: Bits, n: nat): nat
    requires n <= 128 * |s|
  {
    if n == 0 then 0 else OnesBelow(s, n - 1) + (if Bit(s, n - 1) then 1 else 0)
  }

  /** The number of clear positions below `n`. */
  function ZerosBelow(s: Bits, n: nat): nat
    requires n <= 128 * |s|
  {
    if n == 0 then 0 else ZerosBelow(s, n - 1) + (if Bit(s, n - 1) then 0 else 1)
  }

  /** Counting a bitset word by word agrees with counting it bit by bit. */
  lemma {:induction false} OnesBelowWord(s: Bits, i: nat, b: nat)
    requires i < |s| && b <= 128
    ensures OnesBelow(s, 128 * i + b) == OnesBelow(s, 128 * i) + PopCount(s[i], b)
    ensures ZerosBelow(s, 128 * i + b) == ZerosBelow(s, 128 * i) + ZeroCount(s[i], b)
  {
    if b > 0 {
      OnesBelowWord(s, i, b - 1);
      var p := 128 * i + b - 1;
      assert p / 128 == i && p % 128 == b - 1;
    }
  }

  /** `count_ones`: the sum of the words' population counts. */
  method CountOnes(s: Bits) returns (n: nat)
    ensures n == OnesBelow(s, 128 * |s|)
  {
    n := 0;
    var i := 0;
    while i < |s|
      invariant 0 <= i <= |s|
      invariant n == OnesBelow(s, 128 * i)
    {
      OnesBelowWord(s, i, 128);
      n := n + PopCount(s[i], 128);
      i := i + 1;
    }
  }

  /** `count_zeros`: the sum of the words' zero counts. */
  method CountZeros(s: Bits) returns (n: nat)
    ensures n == ZerosBelow(s, 128 * |s|)
  {
    n := 0;
    var i := 0;
    while i < |s|
      invariant 0 <= i <= |s|
      invariant n == ZerosBelow(s, 128 * i)
    {
      OnesBelowWord(s, i, 128);
      n := n + ZeroCount(s[i], 128);
      i := i + 1;
    }
  }

  /** Every position is counted either as a one or as a zero. */
  lemma {:induction false} OnesPlusZeros(s: Bits, n: nat)
    requires n <= 128 * |s|
    ensures OnesBelow(s, n) + ZerosBelow(s, n) == n
  {
    if n > 0 {
      OnesPlusZeros(s, n - 1);
    }
  }

  /** A bitset made by `with_bit_set` has exactly one set bit. */
  lemma {:induction false} WithBitSetCount(k: nat, p: int, n: nat)
    requires 0 <= p < 128 * k && n <= 128 * k
    ensures OnesBelow(WithBitSet(k, p), n) == (if n > p then 1 else 0)
  {
    if n > 0 {
      WithBitSetCount(k, p, n - 1);
    }
  }

  /** Word-wise `!`. */
  function NotBits(x: Bits): (r: Bits)
    ensures |r| == |x|
    ensures forall p | 0 <= p < 128 * |x| :: Bit(r, p) == !Bit(x, p)
  {
    seq(|x|, i requires 0 <= i < |x| => WNot(x[i]))
  }

  /** Word-wise `&`. */
  function AndBits(x: Bits, y: Bits): (r: Bits)
    requires |x| == |y|
    ensures |r| == |x|
    ensures forall p | 0 <= p < 128 * |x| :: Bit(r, p) == (Bit(x, p) && Bit(y, p))
  {
    seq(|x|, i requires 0 <= i < |x| => WAnd(x[i], y[i]))
  }

  /** Word-wise `|`. */
  function OrBits(x: Bits, y: Bits): (r: Bits)
    requires |x| == |y|
    ensures |r| == |x|
    ensures forall p | 0 <= p < 128 * |x| :: Bit(r, p) == (Bit(x, p) || Bit(y, p))
  {
    seq(|x|, i requires 0 <= i < |x| => WOr(x[i], y[i]))
  }

  /** Word-wise `^`. */
  function XorBits(x: Bits, y: Bits): (r: Bits)
    requires |x| == |y|
    ensures |r| == |x|
    ensures forall p | 0 <= p < 128 * |x| :: Bit(r, p) == (Bit(x, p) != Bit(y, p))
  {
    seq(|x|, i requires 0 <= i < |x| => WXor(x[i], y[i]))
  }

  /** `Not::not`: the loop over words into a fresh bitset. */
  method Not(x: Bits) returns (r: Bits)
    ensures r == NotBits(x)
  {
    r := New(|x|);
    var i := 0;
    while i < |x|
      invariant 0 <= i <= |x| && |r| == |x|
      invariant forall j | 0 <= j < i :: r[j] == WNot(x[j])
    {
      r := r[i := WNot(x[i])];
      i := i + 1;
    }
  }

  /** `BitAnd::bitand`. */
  method And(x: Bits, y: Bits) returns (r: Bits)
    requires |x| == |y|
    ensures r == AndBits(x, y)
  {
    r := New(|x|);
    var i := 0;
    while i < |x|
      invariant 0 <= i <= |x| && |r| == |x|
      invariant forall j | 0 <= j < i :: r[j] == WAnd(x[j], y[j])
    {
      r := r[i := WAnd(x[i], y[i])];
      i := i + 1;
    }
  }

  /** `BitAndAssign::bitand_assign`: in place, the same result as `&`. */
  method AndAssign(x: Bits, y: Bits) returns (r: Bits)
    requires |x| == |y|
    ensures r == AndBits(x, y)
  {
    r := x;
    var i := 0;
    while i < |x|
      invariant 0 <= i <= |x| && |r| == |x|
      invariant forall j | 0 <= j < i :: r[j] == WAnd(x[j], y[j])
      invariant forall j | i <= j < |x| :: r[j] == x[j]
    {
      r := r[i := WAnd(r[i], y[i])];
      i := i + 1;
    }
  }

  /** `BitOr::bitor`. */
  method Or(x: Bits, y: Bits) returns (r: Bits)
    requires |x| == |y|
    ensures r == OrBits(x, y)
  {
    r := New(|x|);
    var i := 0;
    while i < |x|
      invariant 0 <= i <= |x| && |r| == |x|
      invariant forall j | 0 <= j < i :: r[j] == WOr(x[j], y[j])
    {
      r := r[i := WOr(x[i], y[i])];
      i := i + 1;
    }
  }

  /** `BitOrAssign::bitor_assign`: in place, the same result as `|`. */
  method OrAssign(x: Bits, y: Bits) returns (r: Bits)
    requires |x| == |y|
    ensures r == OrBits(x, y)
  {
    r := x;
    var i := 0;
    while i < |x|
      invariant 0 <= i <= |x| && |r| == |x|
      invariant forall j | 0 <= j < i :: r[j] == WOr(x[j], y[j])
      invariant forall j | i <= j < |x| :: r[j] == x[j]
    {
      r := r[i := WOr(r[i], y[i])];
      i := i + 1;
    }
  }

  /** `BitXor::bitxor`. */
  method Xor(x: Bits, y: Bits) returns (r: Bits)
    requires |x| == |y|
    ensures r == XorBits(x, y)
  {
    r := New(|x|);
    var i := 0;
    while i < |x|
      invariant 0 <= i <= |x| && |r| == |x|
      invariant forall j | 0 <= j < i :: r[j] == WXor(x[j], y[j])
    {
      r := r[i := WXor(x[i], y[i])];
      i := i + 1;
    }
  }

  /** `BitXorAssign::bitxor_assign`: in place, the same result as `^`. */
  method XorAssign(x: Bits, y: Bits) returns (r: Bits)
    requires |x| == |y|
    ensures r == XorBits(x, y)
  {
    r := x;
    var i := 0;
    while i < |x|
      invariant 0 <= i <= |x| && |r| == |x|
      invariant forall j | 0 <= j < i :: r[j] == WXor(x[j], y[j])
      invariant forall j | i <= j < |x| :: r[j] == x[j]
    {
      r := r[i := WXor(r[i], y[i])];
      i := i + 1;
    }
  }

  /** Two bitsets of the same length with the same bits are equal. */
  lemma BitsExt(x: Bits, y: Bits)
    requires |x| == |y|
    requires forall p | 0 <= p < 128 * |x| :: Bit(x, p) == Bit(y, p)
    ensures x == y
  {
    forall j | 0 <= j < |x| ensures x[j] == y[j] {
      forall b | 0 <= b < 128 ensures x[j][b] == y[j][b] {
        BitAt(x, 128 * j + b, j, b);
        BitAt(y, 128 * j + b, j, b);
      }
    }
  }

  // ---------------------------------------------------------------------
  // Shifts. `s << k` moves bit p to p + k and `s >> k` moves bit p to
  // p - k; bits moved past either end of the array are lost.
  // ---------------------------------------------------------------------

  /** The meaning of `s << k`: bit `p` is bit `p - k` of `s`; the low `k` bits are clear. */
  function ShlBits(s: Bits, k: nat): (r: Bits)
    ensures |r| == |s|
    ensures forall p | 0 <= p < 128 * |s| :: Bit(r, p) == (p >= k && Bit(s, p - k))
  {
    seq(|s|, i requires 0 <= i < |s| =>
      seq(128, b requires 0 <= b < 128 => 128 * i + b >= k && Bit(s, 128 * i + b - k)))
  }

  /** The meaning of `s >> k`: bit `p` is bit `p + k` of `s`; the high `k` bits are clear. */
  function ShrBits(s: Bits, k: nat): (r: Bits)
    ensures |r| == |s|
    ensures forall p | 0 <= p < 128 * |s| :: Bit(r, p) == (p + k < 128 * |s| && Bit(s, p + k))
  {
    seq(|s|, i requires 0 <= i < |s| =>
      seq(128, b requires 0 <= b < 128 => 128 * i + b + k < 128 * |s| && Bit(s, 128 * i + b + k)))
  }

  /** Word `j` of `s << (128 * tz + a)`, assembled from at most two source words. */
  function ShlWord(s: Bits, tz: nat, a: nat, j: nat): Word
    requires a < 128 && tz < |s| && j < |s|
  {
    if j < tz then Zero()
    else if a == 0 then s[j - tz]
    else if j == tz then WShl(s[0], a)
    else WOr(WShl(s[j - tz], a), WShr(s[j - tz - 1], 128 - a))
  }

  /** Position `p = 128 * q + r` is bit `r` of word `q`. */
  lemma BitAt(s: Bits, p: int, q: int, r: int)
    requires 0 <= q < |s| && 0 <= r < 128 && p == 128 * q + r
    ensures 0 <= p < 128 * |s| && Bit(s, p) == s[q][r]
  {
  }

  /** The source bit that lands on bit `b` of word `j` under a left shift by `128 * tz + a`. */
  function ShlSource(s: Bits, tz: nat, a: nat, j: nat, b: nat): bool
    requires a < 128 && tz < |s| && j < |s| && b < 128
  {
    if j < tz || (j == tz && b < a) then false
    else if b >= a then s[j - tz][b - a]
    else s[j - tz - 1][b + 128 - a]
  }

  lemma ShlWordSource(s: Bits, tz: nat, a: nat, j: nat, b: nat)
    requires a < 128 && tz < |s| && j < |s| && b < 128
    ensures ShlWord(s, tz, a, j)[b] == ShlSource(s, tz, a, j, b)
  {
  }

  lemma ShlBitsSource(s: Bits, tz: nat, a: nat, j: nat, b: nat)
    requires a < 128 && tz < |s| && j < |s| && b < 128
    ensures ShlBits(s, 128 * tz + a)[j][b] == ShlSource(s, tz, a, j, b)
  {
    var k := 128 * tz + a;
    var p := 128 * j + b - k;
    BitAt(ShlBits(s, k), 128 * j + b, j, b);
    if p >= 0 {
      if b >= a {
        BitAt(s, p, j - tz, b - a);
      } else {
        BitAt(s, p, j - tz - 1, b + 128 - a);
      }
    }
  }

  lemma ShlWordCorrect(s: Bits, tz: nat, a: nat, j: nat)
    requires a < 128 && tz < |s| && j < |s|
    ensures ShlBits(s, 128 * tz + a)[j] == ShlWord(s, tz, a, j)
  {
    forall b | 0 <= b < 128 ensures ShlBits(s, 128 * tz + a)[j][b] == ShlWord(s, tz, a, j)[b] {
      ShlWordSource(s, tz, a, j, b);
      ShlBitsSource(s, tz, a, j, b);
    }
  }

  /** Word `j` of `s >> (128 * lz + a)`. */
  function ShrWord(s: Bits, lz: nat, a: nat, j: nat): Word
    requires a < 128 && lz < |s| && j < |s|
  {
    if j >= |s| - lz then Zero()
    else if a == 0 then s[j + lz]
    else if j == |s| - 1 - lz then WShr(s[|s| - 1], a)
    else WOr(WShr(s[j + lz], a), WShl(s[j + 1 + lz], 128 - a))
  }

  /** The source bit that lands on bit `b` of word `j` under a right shift by `128 * lz + a`. */
  function ShrSource(s: Bits, lz: nat, a: nat, j: nat, b: nat): bool
    requires a < 128 && lz < |s| && j < |s| && b < 128
  {
    if j + lz >= |s| || (j + lz == |s| - 1 && b + a >= 128) then false
    else if b + a < 128 then s[j + lz][b + a]
    else s[j + lz + 1][b + a - 128]
  }

  lemma ShrWordSource(s: Bits, lz: nat, a: nat, j: nat, b: nat)
    requires a < 128 && lz < |s| && j < |s| && b < 128
    ensures ShrWord(s, lz, a, j)[b] == ShrSource(s, lz, a, j, b)
  {
  }

  lemma ShrBitsSource(s: Bits, lz: nat, a: nat, j: nat, b: nat)
    requires a < 128 && lz < |s| && j < |s| && b < 128
    ensures ShrBits(s, 128 * lz + a)[j][b] == ShrSource(s, lz, a, j, b)
  {
    var k := 128 * lz + a;
    var p := 128 * j + b + k;
    BitAt(ShrBits(s, k), 128 * j + b, j, b);
    if p < 128 * |s| {
      if b + a < 128 {
        BitAt(s, p, j + lz, b + a);
      } else {
        BitAt(s, p, j + lz + 1, b + a - 128);
      }
    }
  }

  lemma ShrWordCorrect(s: Bits, lz: nat, a: nat, j: nat)
    requires a < 128 && lz < |s| && j < |s|
    ensures ShrBits(s, 128 * lz + a)[j] == ShrWord(s, lz, a, j)
  {
    forall b | 0 <= b < 128 ensures ShrBits(s, 128 * lz + a)[j][b] == ShrWord(s, lz, a, j)[b] {
      ShrWordSource(s, lz, a, j, b);
      ShrBitsSource(s, lz, a, j, b);
    }
  }

  /** A shift by at least the whole width clears every bit. */
  lemma ShiftOutAll(s: Bits, k: nat)
    requires k >= 128 * |s|
    ensures ShlBits(s, k) == New(|s|) && ShrBits(s, k) == New(|s|)
  {
    BitsExt(ShlBits(s, k), New(|s|));
    BitsExt(ShrBits(s, k), New(|s|));
  }

  /**
   * The word loop of `Shl::shl`, high words first, into a fresh bitset:
   * every word above word `tz` (and word `tz` too when the shift is a
   * multiple of 128) is assembled; the rest stay zero.
   */
  method ShlLoop(s: Bits, tz: nat, a: nat) returns (r: Bits)
    requires a < 128 && tz < |s|
    ensures |r| == |s|
    ensures forall j | 0 <= j < |s| ::
      r[j] == (if j >= tz + (if a == 0 then 0 else 1) then ShlWord(s, tz, a, j) else Zero())
  {
    r := New(|s|);
    var l := |s|;
    var count := l - tz - (if a == 0 then 0 else 1);
    var i := 0;
    while i < count
      invariant 0 <= i <= count && |r| == l
      invariant forall j | 0 <= j < l :: r[j] == (if j >= l - i then ShlWord(s, tz, a, j) else Zero())
    {
      if a == 0 {
        r := r[l - i - 1 := s[l - i - 1 - tz]];
      } else {
        r := r[l - i - 1 := WOr(WShl(s[l - i - 1 - tz], a), WShr(s[l - i - 2 - tz], 128 - a))];
      }
      i := i + 1;
    }
  }

  /** Words assembled one by one make up the shifted bitset. */
  lemma ShlFromWords(s: Bits, tz: nat, a: nat, r: Bits)
    requires a < 128 && tz < |s| && |r| == |s|
    requires forall j | 0 <= j < |s| :: r[j] == ShlWord(s, tz, a, j)
    ensures r == ShlBits(s, 128 * tz + a)
  {
    forall j | 0 <= j < |s| ensures r[j] == ShlBits(s, 128 * tz + a)[j] {
      ShlWordCorrect(s, tz, a, j);
    }
  }

  /** `Shl::shl`: the word loop, high words first, into a fresh bitset. */
  method Shl(s: Bits, k: nat) returns (r: Bits)
    ensures r == ShlBits(s, k)
  {
    var tz := k / 128;
    var a := k % 128;
    var l := |s|;
    if tz >= l {
      r := New(l);
      ShiftOutAll(s, k);
      return;
    }
    r := ShlLoop(s, tz, a);
    if a != 0 {
      r := r[tz := WShl(s[0], a)];
    }
    ShlFromWords(s, tz, a, r);
  }

  /** The loop of `shl_assign` for a shift by whole words, high words first: word `j` takes word `j - tz`. */
  method ShlAssignWhole(s: Bits, tz: nat) returns (r: Bits)
    requires tz <= |s|
    ensures |r| == |s|
    ensures forall j | 0 <= j < tz :: r[j] == s[j]
    ensures forall j | tz <= j < |s| :: r[j] == s[j - tz]
  {
    r := s;
    var l := |s|;
    var i := 0;
    while i < l - tz
      invariant 0 <= i <= l - tz && |r| == l
      invariant forall j | 0 <= j < l - i :: r[j] == s[j]
      invariant forall j | l - i <= j < l :: r[j] == s[j - tz]
    {
      r := r[l - i - 1 := r[l - i - 1 - tz]];
      i := i + 1;
    }
  }

  /** The loop of `shl_assign` for a shift by `128 * tz + a` with `a > 0`: word `j` is assembled from words `j - tz` and `j - tz - 1`. */
  method ShlAssignSplit(s: Bits, tz: nat, a: nat) returns (r: Bits)
    requires 0 < a < 128 && tz < |s|
    ensures |r| == |s|
    ensures forall j | 0 <= j <= tz :: r[j] == s[j]
    ensures forall j | tz < j < |s| :: r[j] == WOr(WShl(s[j - tz], a), WShr(s[j - tz - 1], 128 - a))
  {
    r := s;
    var l := |s|;
    var i := 0;
    while i < l - 1 - tz
      invariant 0 <= i <= l - 1 - tz && |r| == l
      invariant forall j | 0 <= j < l - i :: r[j] == s[j]
      invariant forall j | l - i <= j < l :: r[j] == WOr(WShl(s[j - tz], a), WShr(s[j - tz - 1], 128 - a))
    {
      r := r[l - i - 1 := WOr(WShl(r[l - i - 1 - tz], a), WShr(r[l - i - 2 - tz], 128 - a))];
      i := i + 1;
    }
  }

  /** The closing loop of `shl_assign`: clear the low `n` words. */
  method ClearLow(x: Bits, n: nat) returns (r: Bits)
    ensures |r| == |x|
    ensures forall j | 0 <= j < |x| :: r[j] == (if j < n then Zero() else x[j])
  {
    r := x;
    var i := 0;
    while i < n && i < |x|
      invariant 0 <= i <= n && i <= |x| && |r| == |x|
      invariant forall j | 0 <= j < |x| :: r[j] == (if j < i then Zero() else x[j])
    {
      r := r[i := Zero()];
      i := i + 1;
    }
  }

  /**
   * The words of `ShlAssign::shl_assign`: the loop in place, then the low
   * words cleared.
   */
  method ShlAssignWords(s: Bits, tz: nat, a: nat) returns (r: Bits)
    requires a < 128 && tz <= |s| && (tz < |s| || a == 0)
    ensures |r| == |s|
    ensures forall j | 0 <= j < |s| :: r[j] == (if j < tz then Zero() else ShlWord(s, tz, a, j))
  {
    var mid;
    if a == 0 {
      mid := ShlAssignWhole(s, tz);
      forall j | tz <= j < |s| ensures mid[j] == ShlWord(s, tz, a, j) {
      }
    } else {
      var w := ShlAssignSplit(s, tz, a);
      mid := w[tz := WShl(w[0], a)];
      forall j | tz <= j < |s| ensures mid[j] == ShlWord(s, tz, a, j) {
        if j > tz {
          assert mid[j] == w[j];
        }
      }
    }
    r := ClearLow(mid, tz);
  }

  /**
   * `ShlAssign::shl_assign`. The source has no early exit: a shift of more
   * than the whole width makes its index arithmetic underflow, hence the
   * precondition.
   */
  method ShlAssign(s: Bits, k: nat) returns (r: Bits)
    requires k <= 128 * |s|
    ensures r == ShlBits(s, k)
  {
    var tz := k / 128;
    var a := k % 128;
    r := ShlAssignWords(s, tz, a);
    if tz >= |s| {
      ShiftOutAll(s, k);
      assert r == New(|s|);
    } else {
      ShlFromWords(s, tz, a, r);
      assert k == 128 * tz + a;
    }
  }

  /**
   * The word loop of `Shr::shr` into a fresh bitset: every word below the
   * highest surviving one (and that one too when the shift is a multiple of
   * 128) is assembled; the rest stay zero.
   */
  method ShrLoop(s: Bits, lz: nat, a: nat) returns (r: Bits)
    requires a < 128 && lz < |s|
    ensures |r| == |s|
    ensures forall j | 0 <= j < |s| ::
      r[j] == (if j < |s| - lz - (if a == 0 then 0 else 1) then ShrWord(s, lz, a, j) else Zero())
  {
    r := New(|s|);
    var l := |s|;
    var top := l - lz - (if a == 0 then 0 else 1);
    var i := 0;
    while i < top
      invariant 0 <= i <= top && |r| == l
      invariant forall j | 0 <= j < l :: r[j] == (if j < i then ShrWord(s, lz, a, j) else Zero())
    {
      if a == 0 {
        r := r[i := s[i + lz]];
      } else {
        r := r[i := WOr(WShr(s[i + lz], a), WShl(s[i + 1 + lz], 128 - a))];
      }
      i := i + 1;
    }
  }

  /** Words assembled one by one make up the shifted bitset. */
  lemma ShrFromWords(s: Bits, lz: nat, a: nat, r: Bits)
    requires a < 128 && lz < |s| && |r| == |s|
    requires forall j | 0 <= j < |s| :: r[j] == ShrWord(s, lz, a, j)
    ensures r == ShrBits(s, 128 * lz + a)
  {
    forall j | 0 <= j < |s| ensures r[j] == ShrBits(s, 128 * lz + a)[j] {
      ShrWordCorrect(s, lz, a, j);
    }
  }

  /** `Shr::shr` with the missing top word written: the result is `ShrBits`. */
  method Shr(s: Bits, k: nat) returns (r: Bits)
    ensures r == ShrBits(s, k)
  {
    var lz := k / 128;
    var a := k % 128;
    var l := |s|;
    if lz >= l {
      r := New(l);
      ShiftOutAll(s, k);
      return;
    }
    r := ShrLoop(s, lz, a);
    if a != 0 {
      r := r[l - 1 - lz := WShr(s[l - 1], a)];
    }
    ShrFromWords(s, lz, a, r);
  }

  /**
   * What `Shr::shr` computes as written: the intended shift, except that when
   * the shift is not a multiple of 128 the highest surviving word is never
   * written and stays zero.
   */
  function ShrAsWrittenBits(s: Bits, k: nat): (r: Bits)
    ensures |r| == |s|
  {
    seq(|s|, j requires 0 <= j < |s| => ShrAsWrittenWord(s, k, j))
  }

  function ShrAsWrittenWord(s: Bits, k: nat, j: nat): Word
    requires j < |s|
  {
    if k % 128 != 0 && j == |s| - 1 - k / 128 then Zero() else ShrBits(s, k)[j]
  }

  /** `Shr::shr` exactly as the source writes it. */
  method ShrAsWritten(s: Bits, k: nat) returns (r: Bits)
    ensures r == ShrAsWrittenBits(s, k)
  {
    var lz := k / 128;
    var a := k % 128;
    var l := |s|;
    if lz >= l {
      r := New(l);
      ShiftOutAll(s, k);
      return;
    }
    r := ShrLoop(s, lz, a);
    ShrAsWrittenFromWords(s, lz, a, r);
    assert k == 128 * lz + a;
  }

  /** The words of the loop alone, with the highest surviving one left zero, make up `ShrAsWrittenBits`. */
  lemma ShrAsWrittenFromWords(s: Bits, lz: nat, a: nat, r: Bits)
    requires a < 128 && lz < |s| && |r| == |s|
    requires forall j | 0 <= j < |s| ::
      r[j] == (if j < |s| - lz - (if a == 0 then 0 else 1) then ShrWord(s, lz, a, j) else Zero())
    ensures r == ShrAsWrittenBits(s, 128 * lz + a)
  {
    var k := 128 * lz + a;
    assert k / 128 == lz && k % 128 == a;
    var w := ShrAsWrittenBits(s, k);
    forall j | 0 <= j < |s| ensures r[j] == w[j] {
      ShrWordCorrect(s, lz, a, j);
      assert w[j] == ShrAsWrittenWord(s, k, j);
    }
  }

  /** The two agree whenever no bit has to move into the highest surviving word. */
  lemma ShrAsWrittenAgrees(s: Bits, k: nat)
    requires k % 128 == 0 || k / 128 >= |s| || WShr(s[|s| - 1], k % 128) == Zero()
    ensures ShrAsWrittenBits(s, k) == ShrBits(s, k)
  {
    if k % 128 != 0 && k / 128 < |s| {
      ShrWordCorrect(s, k / 128, k % 128, |s| - 1 - k / 128);
    }
  }

  /** The bit at position 130, shifted right by one, is lost instead of landing on 129. */
  lemma ShrAsWrittenLosesBit()
    ensures ShrBits([Zero(), Single(2)], 1) == [Zero(), Single(1)]
    ensures ShrAsWrittenBits([Zero(), Single(2)], 1) == [Zero(), Zero()]
  {
    var s := [Zero(), Single(2)];
    BitsExt(ShrBits(s, 1), [Zero(), Single(1)]);
    assert ShrAsWrittenBits(s, 1)[0] == ShrBits(s, 1)[0];
  }

  /** Word `j` of what `ShrAssign::shr_assign` leaves behind as written. */
  function ShrAssignAsWrittenWord(s: Bits, k: nat, j: nat): Word
    requires k <= 128 * |s| && j < |s|
  {
    var l, lz, a := |s|, k / 128, k % 128;
    if a == 0 || lz >= l - 1 then ShrBits(s, k)[j]
    else if j >= l - lz then Zero()
    else if j == 0 then WShr(if lz < l - 1 - lz then ShrBits(s, k)[lz] else s[lz], a)
    else if j < l - 1 - lz then ShrBits(s, k)[j]
    else s[j]
  }

  /**
   * What `ShrAssign::shr_assign` computes as written: correct when the shift
   * is a multiple of 128 or leaves a single word; otherwise word 0 is
   * overwritten with word `lz` as the loop left it, shifted, and the
   * highest surviving word keeps its old value.
   */
  function ShrAssignAsWrittenBits(s: Bits, k: nat): (r: Bits)
    requires k <= 128 * |s|
    ensures |r| == |s|
  {
    seq(|s|, j requires 0 <= j < |s| => ShrAssignAsWrittenWord(s, k, j))
  }

  /**
   * The word loop of `shr_assign`, in place: low words first, each read
   * before it is overwritten.
   */
  method ShrAssignLoop(s: Bits, lz: nat, a: nat) returns (r: Bits)
    requires a < 128 && (lz < |s| || (lz == |s| && a == 0))
    ensures |r| == |s|
    ensures forall j | 0 <= j < |s| - lz - (if a == 0 then 0 else 1) :: r[j] == ShrWord(s, lz, a, j)
    ensures forall j | |s| - lz - (if a == 0 then 0 else 1) <= j < |s| :: r[j] == s[j]
  {
    if a == 0 {
      r := ShrAssignWhole(s, lz);
    } else {
      r := ShrAssignSplit(s, lz, a);
    }
  }

  /** The loop of `shr_assign` for a shift by whole words: word `i` takes word `i + lz`. */
  method ShrAssignWhole(s: Bits, lz: nat) returns (r: Bits)
    requires lz <= |s|
    ensures |r| == |s|
    ensures forall j | 0 <= j < |s| - lz :: r[j] == s[j + lz]
    ensures forall j | |s| - lz <= j < |s| :: r[j] == s[j]
  {
    r := s;
    var l := |s|;
    var i := 0;
    while i < l - lz
      invariant 0 <= i <= l - lz && |r| == l
      invariant forall j | 0 <= j < i :: r[j] == s[j + lz]
      invariant forall j | i <= j < l :: r[j] == s[j]
    {
      r := r[i := r[i + lz]];
      i := i + 1;
    }
  }

  /** The loop of `shr_assign` for a shift by `128 * lz + a` with `a > 0`: word `i` is assembled from words `i + lz` and `i + lz + 1`. */
  method ShrAssignSplit(s: Bits, lz: nat, a: nat) returns (r: Bits)
    requires 0 < a < 128 && lz < |s|
    ensures |r| == |s|
    ensures forall j | 0 <= j < |s| - lz - 1 :: r[j] == WOr(WShr(s[j + lz], a), WShl(s[j + 1 + lz], 128 - a))
    ensures forall j | |s| - lz - 1 <= j < |s| :: r[j] == s[j]
  {
    r := s;
    var l := |s|;
    var i := 0;
    while i < l - 1 - lz
      invariant 0 <= i <= l - 1 - lz && |r| == l
      invariant forall j | 0 <= j < i :: r[j] == WOr(WShr(s[j + lz], a), WShl(s[j + 1 + lz], 128 - a))
      invariant forall j | i <= j < l :: r[j] == s[j]
    {
      r := r[i := WOr(WShr(r[i + lz], a), WShl(r[i + 1 + lz], 128 - a))];
      i := i + 1;
    }
  }

  /** The closing loop of `shr_assign`: clear the top `n` words. */
  method ClearHigh(x: Bits, n: nat) returns (r: Bits)
    requires n <= |x|
    ensures |r| == |x|
    ensures forall j | 0 <= j < |x| - n :: r[j] == x[j]
    ensures forall j | |x| - n <= j < |x| :: r[j] == Zero()
  {
    r := x;
    var i := 0;
    while i < n
      invariant 0 <= i <= n && |r| == |x|
      invariant forall j | 0 <= j < |x| :: r[j] == (if j >= |x| - i then Zero() else x[j])
    {
      r := r[|x| - 1 - i := Zero()];
      i := i + 1;
    }
  }

  /**
   * `ShrAssign::shr_assign` exactly as the source writes it. A shift of more
   * than the whole width makes its index arithmetic underflow, hence the
   * precondition.
   */
  method ShrAssignAsWritten(s: Bits, k: nat) returns (r: Bits)
    requires k <= 128 * |s|
    ensures r == ShrAssignAsWrittenBits(s, k)
  {
    var lz := k / 128;
    var a := k % 128;
    var l := |s|;
    r := ShrAssignLoop(s, lz, a);
    ghost var mid := r;
    if a != 0 && lz < l {
      r := r[0 := WShr(r[lz], a)];
    }
    r := ClearHigh(r, lz);
    if lz >= l {
      ShiftOutAll(s, k);
    } else {
      forall j | 0 <= j < l ensures r[j] == ShrAssignAsWrittenWord(s, k, j) {
        ShrAssignWordAsWritten(s, k, j, mid[j], mid[lz], r[j]);
      }
    }
  }

  lemma ShrAssignWordAsWritten(s: Bits, k: nat, j: nat, midJ: Word, midLz: Word, rJ: Word)
    requires k < 128 * |s| && j < |s|
    requires var l, lz, a := |s|, k / 128, k % 128;
      var e := if a == 0 then 0 else 1;
      && midJ == (if j < l - lz - e then ShrWord(s, lz, a, j) else s[j])
      && midLz == (if lz < l - lz - e then ShrWord(s, lz, a, lz) else s[lz])
      && rJ == (if j >= l - lz then Zero() else if j == 0 && a != 0 then WShr(midLz, a) else midJ)
    ensures rJ == ShrAssignAsWrittenWord(s, k, j)
  {
    ShrWordCorrect(s, k / 128, k % 128, j);
    ShrWordCorrect(s, k / 128, k % 128, k / 128);
  }

  /**
   * The words of `ShrAssign::shr_assign` with the highest surviving word
   * written last: the loop in place, that word, then the high words cleared.
   */
  method ShrAssignWords(s: Bits, lz: nat, a: nat) returns (r: Bits)
    requires a < 128 && lz < |s|
    ensures |r| == |s|
    ensures forall j | 0 <= j < |s| :: r[j] == ShrWord(s, lz, a, j)
  {
    var l := |s|;
    var mid := ShrAssignLoop(s, lz, a);
    if a != 0 {
      assert mid[l - 1] == s[l - 1];
      mid := mid[l - 1 - lz := WShr(mid[l - 1], a)];
    }
    r := ClearHigh(mid, lz);
    forall j | 0 <= j < l ensures r[j] == ShrWord(s, lz, a, j) {
      if j < l - lz {
        assert r[j] == mid[j];
      }
    }
  }

  /** `ShrAssign::shr_assign` with the highest surviving word written last: the result is `ShrBits`. */
  method ShrAssign(s: Bits, k: nat) returns (r: Bits)
    requires k <= 128 * |s|
    ensures r == ShrBits(s, k)
  {
    var lz := k / 128;
    var a := k % 128;
    if lz >= |s| {
      r := ShrAssignLoop(s, lz, a);
      r := ClearHigh(r, lz);
      ShiftOutAll(s, k);
      assert r == New(|s|);
    } else {
      r := ShrAssignWords(s, lz, a);
      ShrFromWords(s, lz, a, r);
      assert k == 128 * lz + a;
    }
  }

  /** The bit at position 130 shifted right by one in place does not move at all. */
  lemma ShrAssignAsWrittenKeepsBit()
    ensures ShrBits([Zero(), Single(2)], 1) == [Zero(), Single(1)]
    ensures ShrAssignAsWrittenBits([Zero(), Single(2)], 1) == [Zero(), Single(2)]
  {
    var s := [Zero(), Single(2)];
    BitsExt(ShrBits(s, 1), [Zero(), Single(1)]);
    var w0 := ShrAssignAsWrittenWord(s, 1, 0);
    assert w0 == WShr(s[0], 1);
    assert w0 == Zero();
  }

  // ---------------------------------------------------------------------
  // The source's unit tests, restated about the model.
  // ---------------------------------------------------------------------

  /** The two-word bitset holding the value 1 in its low word. */
  function LowOne(): Bits { [Single(0), Zero()] }

  lemma LowOneBits(p: int)
    requires 0 <= p < 256
    ensures Bit(LowOne(), p) <==> p == 0
  {
    if p < 128 {
      BitAt(LowOne(), p, 0, p);
    } else {
      BitAt(LowOne(), p, 1, p - 128);
    }
  }

  /** `test_shl` and `test_shl_assign`: 1 shifted left by 129 is the value 2 in the high word. */
  lemma ShlTest()
    ensures ShlBits(LowOne(), 129) == [Zero(), Single(1)]
  {
    forall p | 0 <= p < 256 ensures Bit(ShlBits(LowOne(), 129), p) == Bit([Zero(), Single(1)], p) {
      if p >= 129 {
        LowOneBits(p - 129);
      }
      if p < 128 {
        BitAt([Zero(), Single(1)], p, 0, p);
      } else {
        BitAt([Zero(), Single(1)], p, 1, p - 128);
      }
    }
    BitsExt(ShlBits(LowOne(), 129), [Zero(), Single(1)]);
  }

  /** `y |= x << i` for every `i` below `n`, starting from an empty `y`. */
  function OrOfShl(x: Bits, n: nat): (y: Bits)
    ensures |y| == |x|
  {
    if n == 0 then New(|x|) else OrBits(OrOfShl(x, n - 1), ShlBits(x, n - 1))
  }

  lemma {:induction false} OrOfShlBits(n: nat, p: int)
    requires 0 <= p < 256
    ensures Bit(OrOfShl(LowOne(), n), p) <==> p < n
  {
    if n > 0 {
      OrOfShlBits(n - 1, p);
      if p >= n - 1 {
        LowOneBits(p - (n - 1));
      }
    }
  }

  /** `test_shl_or`: or-ing together 1 shifted by every amount below 256 sets every bit. */
  lemma ShlOrTest()
    ensures OrOfShl(LowOne(), 256) == [AllOnes(), AllOnes()]
  {
    forall p | 0 <= p < 256 ensures Bit(OrOfShl(LowOne(), 256), p) == Bit([AllOnes(), AllOnes()], p) {
      OrOfShlBits(256, p);
      if p < 128 {
        BitAt([AllOnes(), AllOnes()], p, 0, p);
      } else {
        BitAt([AllOnes(), AllOnes()], p, 1, p - 128);
      }
    }
    BitsExt(OrOfShl(LowOne(), 256), [AllOnes(), AllOnes()]);
  }

  /** `x <<= 1` applied `n` times. */
  function ShlRepeat(x: Bits, n: nat): (r: Bits)
    ensures |r| == |x|
  {
    if n == 0 then x else ShlBits(ShlRepeat(x, n - 1), 1)
  }

  /** `y |= x` after each of `n` rounds of `x <<= 1`, starting from `y == x`. */
  function OrOfShlRepeat(x: Bits, n: nat): (y: Bits)
    ensures |y| == |x|
  {
    if n == 0 then x else OrBits(OrOfShlRepeat(x, n - 1), ShlRepeat(x, n))
  }

  /** Shifting by `n` and then by one more is shifting by `n + 1`. */
  lemma ShlThenOne(x: Bits, n: nat)
    ensures ShlBits(ShlBits(x, n), 1) == ShlBits(x, n + 1)
  {
    var y := ShlBits(x, n);
    forall p | 0 <= p < 128 * |x| ensures Bit(ShlBits(y, 1), p) == Bit(ShlBits(x, n + 1), p) {
      if p >= 1 {
        assert Bit(y, p - 1) == (p - 1 >= n && Bit(x, p - 1 - n));
      }
    }
    BitsExt(ShlBits(y, 1), ShlBits(x, n + 1));
  }

  /** `n` rounds of `x <<= 1` shift by `n`. */
  lemma {:induction false} ShlRepeatShift(x: Bits, n: nat)
    ensures ShlRepeat(x, n) == ShlBits(x, n)
  {
    if n == 0 {
      BitsExt(x, ShlBits(x, 0));
    } else {
      ShlRepeatShift(x, n - 1);
      ShlThenOne(x, n - 1);
    }
  }

  /** After `n` rounds of `x <<= 1; y |= x` from a two-word `x == 1`, `y` holds bits 0 to `n`. */
  lemma {:induction false} OrOfShlRepeatBits(x: Bits, n: nat, p: int)
    requires |x| == 2 && forall q | 0 <= q < 256 :: Bit(x, q) == (q == 0)
    requires 0 <= p < 256
    ensures Bit(OrOfShlRepeat(x, n), p) <==> p <= n
  {
    if n > 0 {
      var y := OrOfShlRepeat(x, n - 1);
      var z := ShlRepeat(x, n);
      assert OrOfShlRepeat(x, n) == OrBits(y, z);
      OrOfShlRepeatBits(x, n - 1, p);
      ShlRepeatShift(x, n);
      assert Bit(z, p) == (p >= n && Bit(x, p - n));
    }
  }

  /** `test_shl_assign_or`: 256 rounds of `x <<= 1; y |= x` set every bit of `y`. */
  lemma ShlAssignOrTest()
    ensures OrOfShlRepeat(LowOne(), 256) == [AllOnes(), AllOnes()]
  {
    var x := LowOne();
    forall q | 0 <= q < 256 ensures Bit(x, q) == (q == 0) {
      LowOneBits(q);
    }
    forall p | 0 <= p < 256 ensures Bit(OrOfShlRepeat(x, 256), p) == Bit([AllOnes(), AllOnes()], p) {
      OrOfShlRepeatBits(x, 256, p);
      if p < 128 {
        BitAt([AllOnes(), AllOnes()], p, 0, p);
      } else {
        BitAt([AllOnes(), AllOnes()], p, 1, p - 128);
      }
    }
    BitsExt(OrOfShlRepeat(x, 256), [AllOnes(), AllOnes()]);
  }

  /** The two-word bitset holding the value 1 in its high word. */
  function HighOne(): Bits { [Zero(), Single(0)] }

  lemma HighOneBits(p: int)
    requires 0 <= p < 256
    ensures Bit(HighOne(), p) <==> p == 128
  {
    if p < 128 {
      BitAt(HighOne(), p, 0, p);
    } else {
      BitAt(HighOne(), p, 1, p - 128);
    }
  }

  /** `y |= x >> i` for every `i` below `n`, with the shift as the source writes it. */
  function OrOfShrAsWritten(x: Bits, n: nat): (y: Bits)
    ensures |y| == |x|
  {
    if n == 0 then New(|x|) else OrBits(OrOfShrAsWritten(x, n - 1), ShrAsWrittenBits(x, n - 1))
  }

  lemma {:induction false} OrOfShrAsWrittenBits(n: nat, p: int)
    requires 0 <= p < 256
    ensures Bit(OrOfShrAsWritten(HighOne(), n), p) <==> p <= 128 && 128 - p < n
  {
    if n > 0 {
      OrOfShrAsWrittenBits(n - 1, p);
      var i := n - 1;
      if i % 128 != 0 && i / 128 < 2 {
        assert forall b | 0 <= b < 128 :: !WShr(Single(0), i % 128)[b];
        assert WShr(HighOne()[1], i % 128) == Zero();
      }
      ShrAsWrittenAgrees(HighOne(), i);
      if p + i < 256 {
        HighOneBits(p + i);
      }
    }
  }

  /**
   * `test_shr_or`: or-ing together the value `1 << 128` shifted right by every
   * amount below 256 gives all ones in the low word and 1 in the high word.
   * This holds for the shift as written, so the test does not expose the
   * lost top word.
   */
  lemma ShrOrTest()
    ensures OrOfShrAsWritten(HighOne(), 256) == [AllOnes(), Single(0)]
  {
    var want: Bits := [AllOnes(), Single(0)];
    forall p | 0 <= p < 256 ensures Bit(OrOfShrAsWritten(HighOne(), 256), p) == Bit(want, p) {
      OrOfShrAsWrittenBits(256, p);
      if p < 128 {
        BitAt(want, p, 0, p);
      } else {
        BitAt(want, p, 1, p - 128);
      }
    }
    BitsExt(OrOfShrAsWritten(HighOne(), 256), want);
  }

  /**
   * `test_shl_assign_shr_assign`: 1 shifted left in place by 130 and then right
   * by 129 is 2. The in-place right shift is correct here because it leaves a
   * single word, so the test does not expose its fault either.
   */
  lemma ShlAssignShrAssignTest()
    ensures ShrAssignAsWrittenBits(ShlBits(LowOne(), 130), 129) == [Single(1), Zero()]
  {
    var x := ShlBits(LowOne(), 130);
    var want: Bits := [Single(1), Zero()];
    assert ShrAssignAsWrittenBits(x, 129) == ShrBits(x, 129);
    forall p | 0 <= p < 256 ensures Bit(ShrBits(x, 129), p) == Bit(want, p) {
      if 130 <= p + 129 < 256 {
        LowOneBits(p + 129 - 130);
      }
      if p < 128 {
        BitAt(want, p, 0, p);
      } else {
        BitAt(want, p, 1, p - 128);
      }
    }
    BitsExt(ShrBits(x, 129), want);
  }
}

=== FILE: board.dfy ===
/**
 * The bitboard of the current engine generation and its rules. A board is
 * three layers of cell sets (`bodies[0..3]` in the engine), one record per
 * snake, food and hazard sets, the ruleset and a turn counter. Layer 0 holds
 * the cells occupied by snake bodies; layers 1 and 2 hold, at each body
 * cell, the two bits of the move leading from that cell towards the head,
 * which is how a tail finds its way forward.
 *
 * The engine's bitsets are `Bitset<{W*H}>` values of an external crate;
 * they are modelled as sets of cell numbers. Widths follow the engine:
 * health is an `i8`, length and curled parts are `u8`, cells and the turn
 * are `u16`; arithmetic on them wraps as in a release build.
 */
module Bitboard {
  import opened Common
  import opened Grid
  import opened Moves
  import Constants
  import Util

  const BODY_COLLISION := -1
  const OUT_OF_HEALTH := -2
  const HEAD_COLLISION := -3
  const EVEN_HEAD_COLLISION := -4

  /** Iterations of the tail walk in `remove_snake_body` before its debug assertion fires. */
  const WALK_BOUND := 9999

  datatype Ruleset = Standard | Royale | Wrapped | WrappedSpiral(center: int) | Constrictor

  /** The game modes the evaluation and the maze rules tell apart. */
  datatype Gamemode =
    | StandardMode | ConstrictorMode | WrappedSpiralMode | WrappedWithHazard
    | WrappedIslandsBridges | WrappedArcadeMaze

  /** `curled` counts body parts stacked on the tail cell that have not started to move. */
  datatype Snake = Snake(head: int, tail: int, length: int, health: int, curled: int)

  /** `bodies[0]`, `bodies[1]` and `bodies[2]`. */
  datatype Layers = Layers(occupied: set<int>, dirLow: set<int>, dirHigh: set<int>)

  datatype Board = Board(
    bodies: Layers,
    snakes: seq<Snake>,
    food: set<int>,
    hazards: set<int>,
    ruleset: Ruleset,
    hazardDmg: int,
    ttId: int,
    turn: int,
    depth: int,
    gamemode: Gamemode)

  predicate IsAlive(s: Snake) { s.health > 0 }

  /** `is_dead` is the negation of `is_alive`. */
  function IsDead(s: Snake): (r: bool)
    ensures r <==> !IsAlive(s)
  {
    s.health < 1
  }

  /** The board in which no snake is alive, which `is_terminal` and `win_draw_loss` read. */
  ghost predicate Terminal(b: Board)
    requires |b.snakes| >= 1
  {
    IsDead(b.snakes[0]) || forall i :: 1 <= i < |b.snakes| ==> IsDead(b.snakes[i])
  }

  /** `is_terminal`: I am dead, or I am the only one alive. */
  method IsTerminal(b: Board) returns (t: bool)
    requires |b.snakes| >= 1
    ensures t <==> Terminal(b)
  {
    if IsDead(b.snakes[0]) {
      return true;
    }
    var i := 1;
    while i < |b.snakes|
      invariant 1 <= i <= |b.snakes|
      invariant forall k :: 1 <= k < i ==> IsDead(b.snakes[k])
    {
      if IsAlive(b.snakes[i]) {
        return false;
      }
      i := i + 1;
    }
    return true;
  }

  /**
   * `win_draw_loss`: None while the game goes on; 1 when only I am alive,
   * -1 when I am dead and an enemy lives, 0 when everyone is dead.
   */
  method WinDrawLoss(b: Board) returns (r: Option<int>)
    requires |b.snakes| >= 1
    ensures r.None? <==> !Terminal(b)
    ensures r == Some(1) <==> IsAlive(b.snakes[0]) && forall i :: 1 <= i < |b.snakes| ==> IsDead(b.snakes[i])
    ensures r == Some(-1) <==> IsDead(b.snakes[0]) && exists i :: 1 <= i < |b.snakes| && IsAlive(b.snakes[i])
    ensures r == Some(0) <==> forall i :: 0 <= i < |b.snakes| ==> IsDead(b.snakes[i])
  {
    var meAlive := IsAlive(b.snakes[0]);
    var enemiesAlive := 0;
    var i := 1;
    while i < |b.snakes|
      invariant 1 <= i <= |b.snakes|
      invariant enemiesAlive == 0 <==> forall k :: 1 <= k < i ==> IsDead(b.snakes[k])
      invariant enemiesAlive >= 0
    {
      if IsAlive(b.snakes[i]) {
        enemiesAlive := enemiesAlive + 1;
      }
      i := i + 1;
    }
    if meAlive {
      r := if enemiesAlive == 0 then Some(1) else None;
    } else {
      r := if enemiesAlive != 0 then Some(-1) else Some(0);
    }
  }

  /** Column distance and row distance of two cells. */
  function AxisDistances(d: Dims, from: int, to: int): (int, int)
  {
    (Max(Col(d, from), Col(d, to)) - Min(Col(d, from), Col(d, to)),
     Max(Row(d, from), Row(d, to)) - Min(Row(d, from), Row(d, to)))
  }

  /**
   * `distance`: Manhattan distance on a bounded board; on a wrapping board
   * each axis may go the short way round.
   */
  function Distance(d: Dims, from: int, to: int): (r: int)
    requires OnBoard(d, from) && OnBoard(d, to)
    ensures 0 <= r
    ensures from == to ==> r == 0
  {
    RowBound(d, from);
    RowBound(d, to);
    var (dx, dy) := AxisDistances(d, from, to);
    if d.wrap then Min(dx, d.w - dx) + Min(dy, d.h - dy) else dx + dy
  }

  /** The distance is symmetric, and wrapping never makes it longer than the bounded one. */
  lemma DistanceFacts(d: Dims, from: int, to: int)
    requires OnBoard(d, from) && OnBoard(d, to)
    ensures Distance(d, from, to) == Distance(d, to, from)
    ensures Distance(d, from, to) <= Distance(d.(wrap := false), from, to)
    ensures !d.wrap ==> Distance(d, from, to) == Util.Distance(from, to, d.w)
  {
    var e := d.(wrap := false);
    assert Row(e, from) == Row(d, from) && Col(e, from) == Col(d, from);
    assert Row(e, to) == Row(d, to) && Col(e, to) == Col(d, to);
    assert OnBoard(e, from) && OnBoard(e, to);
  }

  /** `is_legal_move`: every move is legal on a wrapping board; otherwise the move must stay on it. */
  function IsLegalMove(d: Dims, from: int, mv: Move): bool
  {
    if d.wrap then true
    else match mv
      case Up => from < d.w * (d.h - 1)
      case Down => from >= d.w
      case Left => from % d.w != 0
      case Right => from % d.w < d.w - 1
  }

  /** A move is legal exactly when the move table has a destination for it. */
  lemma IsLegalMoveTable(d: Dims, from: int, mv: Move)
    requires OnBoard(d, from)
    ensures IsLegalMove(d, from, mv) <==> Constants.MovesFrom(d, from)[ToInt(mv)].Some?
  {
  }

  /** The move's two bits stored at `pos`: bit 0 in layer 1, bit 1 in layer 2. */
  function EncodeDir(l: Layers, pos: int, x: int): (r: Layers)
    requires 0 <= x < 4
    ensures r.occupied == l.occupied
    ensures forall p :: p != pos ==> (p in r.dirLow <==> p in l.dirLow) && (p in r.dirHigh <==> p in l.dirHigh)
  {
    Layers(
      l.occupied,
      if x % 2 != 0 then l.dirLow + {pos} else l.dirLow - {pos},
      if x / 2 != 0 then l.dirHigh + {pos} else l.dirHigh - {pos})
  }

  /** The move read back from the two direction layers at `pos`. */
  function DecodeDir(l: Layers, pos: int): (x: int)
    ensures 0 <= x < 4
  {
    (if pos in l.dirLow then 1 else 0) + (if pos in l.dirHigh then 2 else 0)
  }

  /** Decoding a stored move gives the move back. */
  lemma DecodeEncode(l: Layers, pos: int, x: int)
    requires 0 <= x < 4
    ensures DecodeDir(EncodeDir(l, pos, x), pos) == x
  {
  }

  /** The offset of move `x` from `pos`, wrapping on a wrapping board. */
  function Offset(d: Dims, pos: int, x: int): int
    requires 0 <= x < 4
  {
    if d.wrap then IntToIndexWrapping(x, d.w, d.h, pos) else IntToIndex(x, d.w)
  }

  /** One step of a tail along its body: the offset added in `i16` and cast back to a `u16` cell. */
  function TailStep(d: Dims, pos: int, x: int): (r: int)
    requires 0 <= x < 4
    ensures 0 <= r < 65536
  {
    U16(pos + Offset(d, pos, x))
  }

  /** On boards of at most 2^16 cells a legal step lands where the move table says, on the board. */
  lemma TailStepOnBoard(d: Dims, pos: int, x: int)
    requires 0 <= x < 4 && OnBoard(d, pos) && (d.wrap || StaysOnBoard(d, x, pos)) && Size(d) <= 65536
    ensures TailStep(d, pos, x) == pos + Offset(d, pos, x)
    ensures OnBoard(d, TailStep(d, pos, x))
    ensures TorusStep(d, x, pos, TailStep(d, pos, x))
  {
    WrappingOnTorus(d, x, pos);
    PlainStep(d, x, pos);
  }

  function ClearCell(l: Layers, p: int): Layers
  {
    Layers(l.occupied - {p}, l.dirLow - {p}, l.dirHigh - {p})
  }

  /**
   * The walk of `remove_snake_body` from `pos` towards `head`: clear the
   * cell in all three layers and follow its stored move. It only ever clears
   * cells, and never the head's.
   */
  function RemoveWalk(d: Dims, l: Layers, head: int, pos: int, fuel: nat): (r: Layers)
    ensures r.occupied <= l.occupied && r.dirLow <= l.dirLow && r.dirHigh <= l.dirHigh
    ensures head in l.occupied ==> head in r.occupied
    ensures head in l.dirLow ==> head in r.dirLow
    ensures head in l.dirHigh ==> head in r.dirHigh
    decreases fuel
  {
    if fuel == 0 || head == pos then l
    else
      var x := DecodeDir(l, pos);
      RemoveWalk(d, ClearCell(l, pos), head, TailStep(d, pos, x), fuel - 1)
  }

  /**
   * `remove_snake_body`: clears the body of snake `i` by walking from its
   * tail to its head. With at most two snakes, or for my own snake, the
   * position is terminal and nothing is cleared.
   */
  function RemoveSnakeBody(d: Dims, b: Board, i: int): (r: Board)
    requires 0 <= i < |b.snakes|
    ensures r == b.(bodies := r.bodies)
    ensures r.bodies.occupied <= b.bodies.occupied
    ensures |b.snakes| <= 2 || i == 0 ==> r == b
  {
    if |b.snakes| <= 2 || i == 0 then b
    else b.(bodies := RemoveWalk(d, b.bodies, b.snakes[i].head, b.snakes[i].tail, WALK_BOUND))
  }

  /**
   * The hazard the spiral adds on `turn` around `center`: on every third
   * turn up to 426, the spiral's next offset from the centre, when it lands
   * on the board. Arithmetic is in `i16`, which no board of the engine
   * overflows.
   */
  function SpiralHazards(d: Dims, turn: int, center: int, hazards: set<int>): (r: set<int>)
    requires 0 <= center && 0 <= turn
    ensures r == hazards || exists c :: r == hazards + {c} && OnBoard(d, c)
    ensures r != hazards ==> turn % 3 == 0 && 3 <= turn <= 426
  {
    if turn % 3 != 0 || turn / 3 > 142 || turn == 0 then hazards
    else
      var (xs, ys) := Constants.HazardSpiral()[turn / 3 - 1];
      var x := center % d.w + xs;
      var y := center / d.w + ys;
      if x >= 0 && x < d.w && y >= 0 && y < d.h then
        SpiralCell(d, center, xs, ys);
        hazards + {center + xs + ys * d.w}
      else hazards
  }

  /** The spiral's cell is the one at column `center % w + xs` and row `center / w + ys`. */
  lemma SpiralCell(d: Dims, center: int, xs: int, ys: int)
    requires 0 <= center % d.w + xs < d.w && 0 <= center / d.w + ys < d.h
    ensures center + xs + ys * d.w == (center / d.w + ys) * d.w + (center % d.w + xs)
    ensures OnBoard(d, center + xs + ys * d.w)
    ensures Row(d, center + xs + ys * d.w) == center / d.w + ys
    ensures Col(d, center + xs + ys * d.w) == center % d.w + xs
  {
    var r, c := center / d.w + ys, center % d.w + xs;
    assert center == (center / d.w) * d.w + center % d.w;
    assert center + xs + ys * d.w == r * d.w + c;
    Constants.Cell(d, r, c);
    CellOnBoard(d, r, c);
  }

  /** `inc_spiral_hazards`: the spiral rule, for boards of the wrapped-spiral ruleset. */
  function IncSpiralHazards(d: Dims, b: Board): (r: Board)
    requires 0 <= b.turn
    ensures r == b.(hazards := r.hazards)
    ensures b.ruleset.WrappedSpiral? && 0 <= b.ruleset.center ==>
      r.hazards == SpiralHazards(d, b.turn, b.ruleset.center, b.hazards)
    ensures !(b.ruleset.WrappedSpiral? && 0 <= b.ruleset.center) ==> r == b
  {
    match b.ruleset
    case WrappedSpiral(center) =>
      if 0 <= center then b.(hazards := SpiralHazards(d, b.turn, center, b.hazards)) else b
    case _ => b
  }

  /** Snake `i`, if alive, has a destination in the move table: `apply_moves` panics otherwise. */
  predicate MoveExists(d: Dims, b: Board, moves: seq<Move>, i: int)
    requires |moves| == |b.snakes| && 0 <= i < |b.snakes|
  {
    IsAlive(b.snakes[i]) ==> Constants.MovesFrom(d, b.snakes[i].head)[ToInt(moves[i])].Some?
  }

  /** One move per snake, each live snake's move in the table, from snake `i` on. */
  predicate ValidMovesFrom(d: Dims, b: Board, moves: seq<Move>, i: int)
  {
    |moves| == |b.snakes| && forall k :: i <= k < |b.snakes| && 0 <= k ==> MoveExists(d, b, moves, k)
  }

  predicate ValidMoves(d: Dims, b: Board, moves: seq<Move>)
  {
    ValidMovesFrom(d, b, moves, 0)
  }

  /** The field ranges of the engine's integer types. */
  predicate InRange(s: Snake)
  {
    0 <= s.head < 65536 && 0 <= s.tail < 65536 && 0 <= s.length < 256
    && -128 <= s.health < 128 && 0 <= s.curled < 256
  }

  /** Health after the turn's damage: one point, plus the hazard damage on a hazard, in `i8`. */
  function Damaged(health: int, hazardDmg: int, onHazard: bool): int
  {
    I8(health - I8(1 + hazardDmg * (if onHazard then 1 else 0)))
  }

  /** With health and damage in their usual ranges the damage is taken exactly. */
  lemma DamagedExact(health: int, hazardDmg: int, onHazard: bool)
    requires 1 <= health <= 100 && 0 <= hazardDmg <= 100
    ensures Damaged(health, hazardDmg, onHazard) == health - 1 - (if onHazard then hazardDmg else 0)
  {
  }

  /** `health += (100 - health) * is_on_food` sets health to 100 on food, in `i8` arithmetic. */
  function Fed(health: int, onFood: bool): (r: int)
    requires -128 <= health <= 127
    ensures r == (if onFood then 100 else health)
  {
    var f := if onFood then 1 else 0;
    var r := I8(health + I8(I8(100 - health) * f));
    FedLemma(health, f);
    r
  }

  lemma FedLemma(health: int, f: int)
    requires -128 <= health <= 127 && (f == 0 || f == 1)
    ensures I8(health + I8(I8(100 - health) * f)) == (if f == 1 then 100 else health)
  {
    if f == 1 {
      assert (health + I8(100 - health) - 100) % 256 == 0;
    }
  }

  /** Where a move takes a snake's head: the move table's destination. */
  function NewHead(d: Dims, s: Snake, mv: Move): int
    requires Constants.MovesFrom(d, s.head)[ToInt(mv)].Some?
  {
    Constants.MovesFrom(d, s.head)[ToInt(mv)].value
  }

  /**
   * A live snake's head, health and length after its move: on food 100
   * health and one more part; otherwise the same length and the health less
   * one, less the hazard damage on a hazard, or `OUT_OF_HEALTH` when that
   * leaves less than 1.
   */
  function Advanced(d: Dims, s: Snake, mv: Move, food: set<int>, hazards: set<int>, hazardDmg: int): (int, int, int)
    requires Constants.MovesFrom(d, s.head)[ToInt(mv)].Some?
  {
    var head := NewHead(d, s, mv);
    if head in food then (head, 100, U8(s.length + 1))
    else
      var h := Damaged(s.health, hazardDmg, head in hazards);
      (head, if h < 1 then OUT_OF_HEALTH else h, s.length)
  }

  /**
   * A live snake's whole record after its move. Head, health and length are
   * `Advanced`. Unless parts are curled or the rules are constrictor, the
   * tail steps along the move stored at it, read once the head's own move is
   * stored; otherwise the tail stays and one curled part is used up (none
   * under constrictor rules). A new head on food curls one more part.
   */
  function Moved(d: Dims, b: Board, s: Snake, mv: Move): Snake
    requires Constants.MovesFrom(d, s.head)[ToInt(mv)].Some?
  {
    var (head, health, length) := Advanced(d, s, mv, b.food, b.hazards, b.hazardDmg);
    var f := if head in b.food then 1 else 0;
    var tail := if b.ruleset != Constrictor && s.curled == 0
                then TailStep(d, s.tail, DecodeDir(EncodeDir(b.bodies, s.head, ToInt(mv)), s.tail))
                else s.tail;
    var curled := if b.ruleset != Constrictor && s.curled != 0 then U8(s.curled - 1) else s.curled;
    Snake(head, tail, length, health, U8(curled + f))
  }

  /** Layers `l` and `m` store the same move bits at cell `c`. */
  predicate SameDir(l: Layers, m: Layers, c: int)
  {
    (c in l.dirLow <==> c in m.dirLow) && (c in l.dirHigh <==> c in m.dirHigh)
  }

  /** The move read at the tail, once the head's move is stored, depends only on the bits at the tail. */
  lemma TailReadAgrees(l: Layers, m: Layers, head: int, tail: int, x: int)
    requires 0 <= x < 4 && SameDir(l, m, tail)
    ensures DecodeDir(EncodeDir(l, head, x), tail) == DecodeDir(EncodeDir(m, head, x), tail)
  {
  }

  /** The head, health and length of a snake record. */
  function Vitals(s: Snake): (int, int, int)
  {
    (s.head, s.health, s.length)
  }

  /**
   * The first loop of `apply_moves` for snake `i`: store the move at the old
   * head, move the head, move the tail unless parts are curled (not at all
   * under constrictor rules), take damage, eat, and starve. Returns the board
   * and the cell eaten, if any.
   */
  function MoveSnake(d: Dims, b: Board, moves: seq<Move>, i: int): (r: (Board, Option<int>))
    requires |moves| == |b.snakes| && 0 <= i < |b.snakes| && MoveExists(d, b, moves, i)
    ensures |r.0.snakes| == |b.snakes|
    ensures forall k :: 0 <= k < |b.snakes| && k != i ==> r.0.snakes[k] == b.snakes[k]
    ensures r.0 == b.(bodies := r.0.bodies, snakes := r.0.snakes)
    ensures IsDead(b.snakes[i]) ==> r.0 == b && r.1 == None
    ensures IsAlive(b.snakes[i]) ==>
      r.1 == if NewHead(d, b.snakes[i], moves[i]) in b.food then Some(NewHead(d, b.snakes[i], moves[i])) else None
    ensures IsAlive(b.snakes[i]) && InRange(b.snakes[i]) ==>
      Vitals(r.0.snakes[i]) == Advanced(d, b.snakes[i], moves[i], b.food, b.hazards, b.hazardDmg)
  {
    var s := b.snakes[i];
    if IsDead(s) then (b, None)
    else
      var x := ToInt(moves[i]);
      var l1 := EncodeDir(b.bodies, s.head, x);
      var head := Constants.MovesFrom(d, s.head)[x].value;
      var moved := if b.ruleset != Constrictor && s.curled == 0 then
                     (TailStep(d, s.tail, DecodeDir(l1, s.tail)), s.curled, ClearCell(l1, s.tail))
                   else if b.ruleset != Constrictor then (s.tail, U8(s.curled - 1), l1)
                   else (s.tail, s.curled, l1);
      var health := Fed(Damaged(s.health, b.hazardDmg, head in b.hazards), head in b.food);
      var f := if head in b.food then 1 else 0;
      var s2 := Snake(head, moved.0, U8(s.length + f), health, U8(moved.1 + f));
      var b2 := b.(bodies := moved.2, snakes := b.snakes[i := s2]);
      var eaten := if head in b.food then Some(head) else None;
      if IsDead(s2) then
        (RemoveSnakeBody(d, b2.(snakes := b.snakes[i := s2.(health := OUT_OF_HEALTH)]), i), eaten)
      else (b2, eaten)
  }

  /** What the first loop does to snake `i`'s own record. */
  lemma MoveSnakeRecord(d: Dims, b: Board, moves: seq<Move>, i: int)
    requires |moves| == |b.snakes| && 0 <= i < |b.snakes| && MoveExists(d, b, moves, i)
    requires IsAlive(b.snakes[i]) && InRange(b.snakes[i])
    ensures var s, s2 := b.snakes[i], MoveSnake(d, b, moves, i).0.snakes[i];
      var head := Constants.MovesFrom(d, s.head)[ToInt(moves[i])].value;
      && s2.head == head
      && (head in b.food ==> s2.health == 100 && s2.length == U8(s.length + 1)
                             && MoveSnake(d, b, moves, i).1 == Some(head))
      && (head !in b.food ==> s2.length == s.length
                              && (var h := Damaged(s.health, b.hazardDmg, head in b.hazards);
                                  s2.health == if h < 1 then OUT_OF_HEALTH else h))
      && s2.curled == U8((if b.ruleset != Constrictor && s.curled != 0 then U8(s.curled - 1) else s.curled)
                         + (if head in b.food then 1 else 0))
      && (b.ruleset != Constrictor && s.curled == 0 ==>
            s2.tail == TailStep(d, s.tail, DecodeDir(EncodeDir(b.bodies, s.head, ToInt(moves[i])), s.tail)))
      && (b.ruleset == Constrictor || s.curled != 0 ==> s2.tail == s.tail)
      && s2 == Moved(d, b, s, moves[i])
  {
  }

  /** A snake that survives its move changes the move bits at its old head and old tail only. */
  lemma MoveSnakeFrame(d: Dims, b: Board, moves: seq<Move>, i: int, c: int)
    requires |moves| == |b.snakes| && 0 <= i < |b.snakes| && MoveExists(d, b, moves, i)
    requires IsAlive(MoveSnake(d, b, moves, i).0.snakes[i])
    requires c != b.snakes[i].head && c != b.snakes[i].tail
    ensures SameDir(MoveSnake(d, b, moves, i).0.bodies, b.bodies, c)
  {
  }

  /** Moving snake `i` leaves the moves of the later snakes valid. */
  lemma MoveSnakeKeepsValid(d: Dims, b: Board, moves: seq<Move>, i: int)
    requires ValidMovesFrom(d, b, moves, i) && 0 <= i < |b.snakes|
    ensures ValidMovesFrom(d, MoveSnake(d, b, moves, i).0, moves, i + 1)
  {
    var b2 := MoveSnake(d, b, moves, i).0;
    forall k | i + 1 <= k < |b.snakes|
      ensures MoveExists(d, b2, moves, k)
    {
      assert b2.snakes[k] == b.snakes[k];
      assert MoveExists(d, b, moves, k);
    }
  }

  /** The cells eaten by the snakes from `i` on: the new head of each live one that lands on food. */
  function EatenFrom(d: Dims, b: Board, moves: seq<Move>, i: int): set<int>
    requires ValidMovesFrom(d, b, moves, i) && 0 <= i <= |b.snakes|
  {
    set k | i <= k < |b.snakes| && MoveExists(d, b, moves, k) && IsAlive(b.snakes[k]) && NewHead(d, b.snakes[k], moves[k]) in b.food
      :: NewHead(d, b.snakes[k], moves[k])
  }

  /**
   * No live snake moved before snake `k`, from `i` on, touches the move bits
   * at `k`'s tail: none has its head or its tail there, and none starves
   * (a starved snake's body is cleared).
   */
  predicate TailUntouched(d: Dims, b: Board, moves: seq<Move>, i: int, k: int)
    requires ValidMovesFrom(d, b, moves, i) && 0 <= i <= k < |b.snakes|
  {
    forall j :: i <= j < k && MoveExists(d, b, moves, j) && IsAlive(b.snakes[j]) ==>
      && b.snakes[j].head != b.snakes[k].tail
      && b.snakes[j].tail != b.snakes[k].tail
      && Advanced(d, b.snakes[j], moves[j], b.food, b.hazards, b.hazardDmg).1 > 0
  }

  /**
   * The first loop of `apply_moves` from snake `i` on: every live snake from
   * `i` on advances, the others keep their records, and the cells eaten,
   * exactly the new heads on food, are collected. `MovedInLoop` gives the
   * rest of each moved snake's record.
   */
  function MoveSnakesFrom(d: Dims, b: Board, moves: seq<Move>, i: int): (r: (Board, seq<int>))
    requires ValidMovesFrom(d, b, moves, i) && 0 <= i <= |b.snakes|
    ensures |r.0.snakes| == |b.snakes|
    ensures forall k :: 0 <= k < i ==> r.0.snakes[k] == b.snakes[k]
    ensures forall k :: 0 <= k < |b.snakes| && IsDead(b.snakes[k]) ==> r.0.snakes[k] == b.snakes[k]
    ensures forall k :: i <= k < |b.snakes| && MoveExists(d, b, moves, k) && IsAlive(b.snakes[k]) && InRange(b.snakes[k]) ==>
      Vitals(r.0.snakes[k]) == Advanced(d, b.snakes[k], moves[k], b.food, b.hazards, b.hazardDmg)
    ensures r.0 == b.(bodies := r.0.bodies, snakes := r.0.snakes)
    ensures forall c :: c in r.1 <==> c in EatenFrom(d, b, moves, i)
    decreases |b.snakes| - i
  {
    if i == |b.snakes| then (b, [])
    else
      var (b2, e) := MoveSnake(d, b, moves, i);
      MoveSnakeKeepsValid(d, b, moves, i);
      var (b3, es) := MoveSnakesFrom(d, b2, moves, i + 1);
      EatenSplit(d, b, b2, moves, i);
      (b3, (if e.Some? then [e.value] else []) + es)
  }

  /**
   * The rest of snake `k`'s record after the first loop from `i` on: its
   * curled count is always `Moved`'s, and so is its new tail whenever the
   * snakes moved before it left the move bits at its tail alone.
   */
  lemma {:induction false} MovedInLoop(d: Dims, b: Board, moves: seq<Move>, i: int, k: int)
    requires ValidMovesFrom(d, b, moves, i) && 0 <= i <= k < |b.snakes|
    requires IsAlive(b.snakes[k]) && InRange(b.snakes[k])
    ensures MoveExists(d, b, moves, k)
    ensures MoveSnakesFrom(d, b, moves, i).0.snakes[k].curled == Moved(d, b, b.snakes[k], moves[k]).curled
    ensures TailUntouched(d, b, moves, i, k) ==> MoveSnakesFrom(d, b, moves, i).0.snakes[k] == Moved(d, b, b.snakes[k], moves[k])
    decreases k - i, 1
  {
    if k == i {
      MovedFirst(d, b, moves, i);
    } else {
      MovedLift(d, b, moves, i, k);
    }
  }

  /** Snake `i` itself ends the loop from `i` on with its `Moved` record. */
  lemma MovedFirst(d: Dims, b: Board, moves: seq<Move>, i: int)
    requires ValidMovesFrom(d, b, moves, i) && 0 <= i < |b.snakes|
    requires IsAlive(b.snakes[i]) && InRange(b.snakes[i])
    ensures MoveExists(d, b, moves, i)
    ensures MoveSnakesFrom(d, b, moves, i).0.snakes[i] == Moved(d, b, b.snakes[i], moves[i])
  {
    assert MoveExists(d, b, moves, i);
    LoopStep(d, b, moves, i);
    MoveSnakeRecord(d, b, moves, i);
  }

  /** For a snake `k` after `i`: snake `i`'s move keeps `k`'s `Moved` record, and the loop from `i + 1` does the rest. */
  lemma {:induction false} MovedLift(d: Dims, b: Board, moves: seq<Move>, i: int, k: int)
    requires ValidMovesFrom(d, b, moves, i) && 0 <= i < k < |b.snakes|
    requires IsAlive(b.snakes[k]) && InRange(b.snakes[k])
    ensures MoveExists(d, b, moves, k)
    ensures MoveSnakesFrom(d, b, moves, i).0.snakes[k].curled == Moved(d, b, b.snakes[k], moves[k]).curled
    ensures TailUntouched(d, b, moves, i, k) ==> MoveSnakesFrom(d, b, moves, i).0.snakes[k] == Moved(d, b, b.snakes[k], moves[k])
    decreases k - i, 0
  {
    var b2 := MoveSnake(d, b, moves, i).0;
    LoopStep(d, b, moves, i);
    MovedAgrees(d, b, b2, moves, i, k);
    MovedInLoop(d, b2, moves, i + 1, k);
  }

  /** The loop from `i` is snake `i`'s move, then the loop from `i + 1`, which leaves snake `i` alone. */
  lemma LoopStep(d: Dims, b: Board, moves: seq<Move>, i: int)
    requires ValidMovesFrom(d, b, moves, i) && 0 <= i < |b.snakes|
    ensures ValidMovesFrom(d, MoveSnake(d, b, moves, i).0, moves, i + 1)
    ensures var b2 := MoveSnake(d, b, moves, i).0;
      && MoveSnakesFrom(d, b, moves, i).0 == MoveSnakesFrom(d, b2, moves, i + 1).0
      && MoveSnakesFrom(d, b2, moves, i + 1).0.snakes[i] == b2.snakes[i]
  {
    MoveSnakeKeepsValid(d, b, moves, i);
  }

  /** Moving snake `i` before snake `k` keeps `k`'s `Moved` record, and its untouched tail, whenever it leaves `k`'s tail bits alone. */
  lemma MovedAgrees(d: Dims, b: Board, b2: Board, moves: seq<Move>, i: int, k: int)
    requires ValidMovesFrom(d, b, moves, i) && 0 <= i < k < |b.snakes| && b2 == MoveSnake(d, b, moves, i).0
    requires ValidMovesFrom(d, b2, moves, i + 1) && IsAlive(b.snakes[k])
    ensures MoveExists(d, b, moves, k) && b2.snakes[k] == b.snakes[k]
    ensures Moved(d, b2, b.snakes[k], moves[k]).curled == Moved(d, b, b.snakes[k], moves[k]).curled
    ensures TailUntouched(d, b, moves, i, k) ==>
      TailUntouched(d, b2, moves, i + 1, k) && Moved(d, b2, b.snakes[k], moves[k]) == Moved(d, b, b.snakes[k], moves[k])
  {
    assert MoveExists(d, b, moves, k);
    var t := b.snakes[k].tail;
    if TailUntouched(d, b, moves, i, k) {
      forall j | i + 1 <= j < k && MoveExists(d, b2, moves, j) && IsAlive(b2.snakes[j])
        ensures b2.snakes[j].head != t && b2.snakes[j].tail != t
        ensures Advanced(d, b2.snakes[j], moves[j], b2.food, b2.hazards, b2.hazardDmg).1 > 0
      {
        assert b2.snakes[j] == b.snakes[j];
        assert MoveExists(d, b, moves, j);
      }
      if IsAlive(b.snakes[i]) {
        assert MoveExists(d, b, moves, i);
        assert Advanced(d, b.snakes[i], moves[i], b.food, b.hazards, b.hazardDmg).1 > 0;
        MoveSnakeFrame(d, b, moves, i, t);
        TailReadAgrees(b2.bodies, b.bodies, b.snakes[k].head, t, ToInt(moves[k]));
      }
    }
  }

  /** The cells eaten from `i` on are snake `i`'s and those eaten from `i + 1` on, which moving snake `i` does not change. */
  lemma EatenSplit(d: Dims, b: Board, b2: Board, moves: seq<Move>, i: int)
    requires ValidMovesFrom(d, b, moves, i) && 0 <= i < |b.snakes| && b2 == MoveSnake(d, b, moves, i).0
    requires ValidMovesFrom(d, b2, moves, i + 1)
    ensures var e := MoveSnake(d, b, moves, i).1;
      EatenFrom(d, b, moves, i) == (if e.Some? then {e.value} else {}) + EatenFrom(d, b2, moves, i + 1)
  {
    assert forall k :: i < k < |b.snakes| ==> b2.snakes[k] == b.snakes[k];
  }

  /**
   * The collision mark of snake `i`, as the second loop of `apply_moves`
   * leaves it in `curled`: 100 when its head is on a body, otherwise 101 or
   * 102 for each live snake on the same head that is longer or as long, the
   * last such snake deciding; an unmarked snake keeps its count. The loop
   * only writes the `curled` field, which it never reads for another
   * snake, so each mark depends on the board before the loop alone.
   */
  function Mark(b: Board, i: int): int
    requires 0 <= i < |b.snakes|
  {
    var s := b.snakes[i];
    if IsDead(s) then s.curled
    else if s.head in b.bodies.occupied then 100
    else HeadMark(b.snakes, i, 0, s.curled)
  }

  function HeadMark(snakes: seq<Snake>, i: int, j: int, cur: int): int
    requires 0 <= i < |snakes| && 0 <= j <= |snakes|
    decreases |snakes| - j
  {
    if j == |snakes| then cur
    else
      var s, t := snakes[i], snakes[j];
      var next := if i != j && IsAlive(t) && s.head == t.head then
                    (if s.length < t.length then 101 else if s.length == t.length then 102 else cur)
                  else cur;
      HeadMark(snakes, i, j + 1, next)
  }

  /** A snake other than `i`, alive, on `i`'s head and at least as long. */
  ghost predicate Rival(snakes: seq<Snake>, i: int, j: int)
    requires 0 <= i < |snakes| && 0 <= j < |snakes|
  {
    i != j && IsAlive(snakes[j]) && snakes[i].head == snakes[j].head && snakes[i].length <= snakes[j].length
  }

  /**
   * The head mark is 101 or 102 exactly when a rival shares the head; it is
   * 101 when every rival is strictly longer and 102 when every rival is as
   * long. Without a rival the count is kept.
   */
  lemma {:induction false} HeadMarkRivals(snakes: seq<Snake>, i: int, j: int, cur: int)
    requires 0 <= i < |snakes| && 0 <= j <= |snakes| && cur < 101
    ensures (exists k :: j <= k < |snakes| && Rival(snakes, i, k)) ==> HeadMark(snakes, i, j, cur) in {101, 102}
    ensures (forall k :: j <= k < |snakes| ==> !Rival(snakes, i, k)) ==> HeadMark(snakes, i, j, cur) == cur
    ensures ((forall k :: j <= k < |snakes| && Rival(snakes, i, k) ==> snakes[i].length < snakes[k].length)
             && HeadMark(snakes, i, j, cur) != cur) ==> HeadMark(snakes, i, j, cur) == 101
    ensures ((forall k :: j <= k < |snakes| && Rival(snakes, i, k) ==> snakes[i].length == snakes[k].length)
             && HeadMark(snakes, i, j, cur) != cur) ==> HeadMark(snakes, i, j, cur) == 102
    decreases |snakes| - j
  {
    if j < |snakes| {
      var s, t := snakes[i], snakes[j];
      var next := if i != j && IsAlive(t) && s.head == t.head then
                    (if s.length < t.length then 101 else if s.length == t.length then 102 else cur)
                  else cur;
      if Rival(snakes, i, j) {
        HeadMarkStays(snakes, i, j + 1, next);
      } else {
        HeadMarkRivals(snakes, i, j + 1, cur);
      }
    }
  }

  /** Once set, a 101 or 102 mark stays 101 or 102, and only changes through a later rival. */
  lemma {:induction false} HeadMarkStays(snakes: seq<Snake>, i: int, j: int, cur: int)
    requires 0 <= i < |snakes| && 0 <= j <= |snakes| && cur in {101, 102}
    ensures HeadMark(snakes, i, j, cur) in {101, 102}
    ensures ((forall k :: j <= k < |snakes| && Rival(snakes, i, k) ==> snakes[i].length < snakes[k].length)
             && cur == 101) ==> HeadMark(snakes, i, j, cur) == 101
    ensures ((forall k :: j <= k < |snakes| && Rival(snakes, i, k) ==> snakes[i].length == snakes[k].length)
             && cur == 102) ==> HeadMark(snakes, i, j, cur) == 102
    decreases |snakes| - j
  {
    if j < |snakes| {
      var s, t := snakes[i], snakes[j];
      var next := if i != j && IsAlive(t) && s.head == t.head then
                    (if s.length < t.length then 101 else if s.length == t.length then 102 else cur)
                  else cur;
      HeadMarkStays(snakes, i, j + 1, next);
    }
  }

  /**
   * The outcome of the collision rules for a live snake whose count is below
   * the marks: a head on a body is a body collision; otherwise the snake dies
   * in a head-to-head exactly when a live snake at least as long shares its
   * head, and a snake longer than everyone on its head survives.
   */
  lemma MarkOutcome(b: Board, i: int)
    requires 0 <= i < |b.snakes| && IsAlive(b.snakes[i]) && b.snakes[i].curled < 100
    ensures b.snakes[i].head in b.bodies.occupied ==> Mark(b, i) == 100
    ensures b.snakes[i].head !in b.bodies.occupied ==>
      (Mark(b, i) in {101, 102} <==> exists k :: 0 <= k < |b.snakes| && Rival(b.snakes, i, k))
    ensures b.snakes[i].head !in b.bodies.occupied && Mark(b, i) != b.snakes[i].curled ==>
      Mark(b, i) in {101, 102}
    ensures b.snakes[i].head !in b.bodies.occupied
            && (forall k :: 0 <= k < |b.snakes| && Rival(b.snakes, i, k) ==> b.snakes[i].length < b.snakes[k].length)
            ==> Mark(b, i) != 102
  {
    if b.snakes[i].head !in b.bodies.occupied {
      HeadMarkRivals(b.snakes, i, 0, b.snakes[i].curled);
    }
  }

  /** The second loop of `apply_moves`: every snake's collision mark, stored in `curled`. */
  function MarkCollisions(b: Board): (r: Board)
    ensures |r.snakes| == |b.snakes|
    ensures r == b.(snakes := r.snakes)
    ensures forall i :: 0 <= i < |b.snakes| ==> r.snakes[i] == b.snakes[i].(curled := Mark(b, i))
  {
    b.(snakes := seq(|b.snakes|, i requires 0 <= i < |b.snakes| => b.snakes[i].(curled := Mark(b, i))))
  }

  /** The health a removed snake gets for its collision mark. */
  function CollisionHealth(mark: int, health: int): int
  {
    if mark == 100 then BODY_COLLISION
    else if mark == 101 then HEAD_COLLISION
    else if mark == 102 then EVEN_HEAD_COLLISION
    else health
  }

  /**
   * The third loop of `apply_moves` from snake `i` on: remove marked snakes,
   * and for live ones put the head into layer 0 and, unless parts are curled
   * or the rules are constrictor, take the tail out.
   */
  function ResolveFrom(d: Dims, b: Board, i: int): (r: Board)
    requires 0 <= i <= |b.snakes|
    ensures |r.snakes| == |b.snakes|
    ensures forall k :: 0 <= k < i ==> r.snakes[k] == b.snakes[k]
    ensures forall k :: i <= k < |b.snakes| && b.snakes[k].curled < 100 ==> r.snakes[k] == b.snakes[k]
    ensures forall k :: i <= k < |b.snakes| && b.snakes[k].curled >= 100 ==>
      r.snakes[k] == b.snakes[k].(health := CollisionHealth(b.snakes[k].curled, b.snakes[k].health), curled := 0)
    ensures r == b.(bodies := r.bodies, snakes := r.snakes)
    decreases |b.snakes| - i
  {
    if i == |b.snakes| then b
    else
      var s := b.snakes[i];
      var b2 :=
        if s.curled >= 100 then
          RemoveSnakeBody(d, b.(snakes := b.snakes[i := s.(health := CollisionHealth(s.curled, s.health), curled := 0)]), i)
        else if IsAlive(s) then
          var occ := b.bodies.occupied + {s.head};
          var occ2 := if s.curled == 0 && b.ruleset != Constrictor then occ - {s.tail} else occ;
          b.(bodies := b.bodies.(occupied := occ2))
        else b;
      ResolveFrom(d, b2, i + 1)
  }

  /** The board and the eaten cells as the first loop of `apply_moves` leaves them, the turn already advanced. */
  function MoveAll(d: Dims, b: Board, moves: seq<Move>): (r: (Board, seq<int>))
    requires ValidMoves(d, b, moves)
  {
    var b1 := b.(turn := U16(b.turn + 1));
    assert forall k :: 0 <= k < |b.snakes| ==> MoveExists(d, b1, moves, k) == MoveExists(d, b, moves, k);
    MoveSnakesFrom(d, b1, moves, 0)
  }

  /** Snake `i`'s record once its collision mark is set and, if it is 100 or more, resolved. */
  function Outcome(m: Board, i: int): Snake
    requires 0 <= i < |m.snakes|
  {
    var s := m.snakes[i].(curled := Mark(m, i));
    if s.curled >= 100 then s.(health := CollisionHealth(s.curled, s.health), curled := 0) else s
  }

  /**
   * `apply_moves`: advance the turn, move every live snake, mark and remove
   * collided snakes, take the eaten food off the board and grow the hazard
   * spiral. Each snake ends as its move and its collision mark dictate, and
   * exactly the cells a live snake's new head reached leave the food.
   */
  function ApplyMoves(d: Dims, b: Board, moves: seq<Move>): (r: Board)
    requires ValidMoves(d, b, moves)
    ensures r.turn == U16(b.turn + 1)
    ensures |r.snakes| == |b.snakes|
    ensures r.ruleset == b.ruleset && r.hazardDmg == b.hazardDmg && r.depth == b.depth
    ensures forall i :: 0 <= i < |b.snakes| ==> r.snakes[i] == Outcome(MoveAll(d, b, moves).0, i)
    ensures forall i :: 0 <= i < |b.snakes| && IsDead(b.snakes[i]) && b.snakes[i].curled < 100 ==>
      r.snakes[i] == b.snakes[i]
    ensures r.food == b.food - EatenFrom(d, b, moves, 0) && b.hazards <= r.hazards
  {
    var (b2, eaten) := MoveAll(d, b, moves);
    var b3 := MarkCollisions(b2);
    var b4 := ResolveFrom(d, b3, 0);
    EatenAll(d, b, moves);
    var b5 := b4.(food := b4.food - set e | e in eaten);
    IncSpiralHazards(d, b5)
  }

  /** The first loop leaves the food and hazards alone, and the cells it collects are those eaten on the board before the turn. */
  lemma EatenAll(d: Dims, b: Board, moves: seq<Move>)
    requires ValidMoves(d, b, moves)
    ensures var m := MoveAll(d, b, moves);
      m.0.food == b.food && m.0.hazards == b.hazards && m.0.ruleset == b.ruleset &&
      (set e | e in m.1) == EatenFrom(d, b, moves, 0)
  {
    var b1 := b.(turn := U16(b.turn + 1));
    assert forall k :: 0 <= k < |b.snakes| ==> MoveExists(d, b1, moves, k) == MoveExists(d, b, moves, k);
    assert EatenFrom(d, b1, moves, 0) == EatenFrom(d, b, moves, 0);
  }

  /** Without a rival the head mark is the count it started from; with one it is 101 or 102. */
  lemma {:induction false} HeadMarkRange(snakes: seq<Snake>, i: int, j: int, cur: int)
    requires 0 <= i < |snakes| && 0 <= j <= |snakes|
    ensures HeadMark(snakes, i, j, cur) == cur || HeadMark(snakes, i, j, cur) in {101, 102}
    decreases |snakes| - j
  {
    if j < |snakes| {
      var s, t := snakes[i], snakes[j];
      var next := if i != j && IsAlive(t) && s.head == t.head then
                    (if s.length < t.length then 101 else if s.length == t.length then 102 else cur)
                  else cur;
      if next == cur {
        HeadMarkRange(snakes, i, j + 1, cur);
      } else {
        HeadMarkStays(snakes, i, j + 1, next);
      }
    }
  }

  /**
   * A snake alive before and after `apply_moves` has the head, health and
   * length its move gives it: no collision mark touched it. It keeps the
   * curled count its move gives it, a count of 100 or more being reset to
   * 0, and its new tail is `Moved`'s whenever the snakes moved before it
   * left the move bits at its tail alone.
   */
  lemma ApplySurvivor(d: Dims, b: Board, moves: seq<Move>, i: int)
    requires ValidMoves(d, b, moves) && 0 <= i < |b.snakes| && IsAlive(b.snakes[i]) && InRange(b.snakes[i])
    requires IsAlive(ApplyMoves(d, b, moves).snakes[i])
    ensures Vitals(ApplyMoves(d, b, moves).snakes[i]) == Advanced(d, b.snakes[i], moves[i], b.food, b.hazards, b.hazardDmg)
    ensures var c := Moved(d, b, b.snakes[i], moves[i]).curled;
      ApplyMoves(d, b, moves).snakes[i].curled == if c >= 100 then 0 else c
    ensures TailUntouched(d, b, moves, 0, i) ==> ApplyMoves(d, b, moves).snakes[i].tail == Moved(d, b, b.snakes[i], moves[i]).tail
  {
    var b1 := b.(turn := U16(b.turn + 1));
    assert MoveExists(d, b1, moves, i);
    var m := MoveAll(d, b, moves).0;
    assert Vitals(m.snakes[i]) == Advanced(d, b1.snakes[i], moves[i], b1.food, b1.hazards, b1.hazardDmg);
    MovedInLoop(d, b1, moves, 0, i);
    assert Moved(d, b1, b.snakes[i], moves[i]) == Moved(d, b, b.snakes[i], moves[i]);
    assert TailUntouched(d, b1, moves, 0, i) == TailUntouched(d, b, moves, 0, i);
    assert ApplyMoves(d, b, moves).snakes[i] == Outcome(m, i);
    SurvivorMark(m, i);
  }

  /** A snake the collision rules leave alive carries no collision mark: its mark is its own count. */
  lemma SurvivorMark(m: Board, i: int)
    requires 0 <= i < |m.snakes| && IsAlive(Outcome(m, i))
    ensures Mark(m, i) == m.snakes[i].curled
    ensures Outcome(m, i) == m.snakes[i].(curled := if m.snakes[i].curled >= 100 then 0 else m.snakes[i].curled)
  {
    if IsAlive(m.snakes[i]) && m.snakes[i].head !in m.bodies.occupied {
      HeadMarkRange(m.snakes, i, 0, m.snakes[i].curled);
    }
  }

  /** A live snake whose new head is on a body after the first loop ends with `BODY_COLLISION` health. */
  lemma ApplyBodyCollision(d: Dims, b: Board, moves: seq<Move>, i: int)
    requires ValidMoves(d, b, moves) && 0 <= i < |b.snakes|
    requires var m := MoveAll(d, b, moves).0; IsAlive(m.snakes[i]) && m.snakes[i].head in m.bodies.occupied
    ensures ApplyMoves(d, b, moves).snakes[i].health == BODY_COLLISION
  {
  }
}

=== FILE: common.dfy ===
/**
 * Shared vocabulary: an optional value, and the fixed-width integer
 * arithmetic of the engine written out explicitly (Dafny integers are
 * unbounded; the engine's are 8 and 16 bits wide and wrap in a release
 * build).
 */
module Common {

  datatype Option<T> = None | Some(value: T)

  /** Two's-complement reinterpretation of `x` as an `i8` (`x as i8`). */
  function I8(x: int): (r: int)
    ensures -128 <= r <= 127
    ensures (x - r) % 256 == 0
    ensures -128 <= x <= 127 ==> r == x
  {
    var m := x % 256;
    if m >= 128 then m - 256 else m
  }

  /** Two's-complement reinterpretation of `x` as an `i16` (`x as i16`). */
  function I16(x: int): (r: int)
    ensures -32768 <= r <= 32767
    ensures (x - r) % 65536 == 0
    ensures -32768 <= x <= 32767 ==> r == x
  {
    var m := x % 65536;
    if m >= 32768 then m - 65536 else m
  }

  /** Reinterpretation of `x` as a `u8`. */
  function U8(x: int): (r: int)
    ensures 0 <= r <= 255
    ensures (x - r) % 256 == 0
    ensures 0 <= x <= 255 ==> r == x
  {
    x % 256
  }

  /** Reinterpretation of `x` as a `u16`. */
  function U16(x: int): (r: int)
    ensures 0 <= r <= 65535
    ensures (x - r) % 65536 == 0
    ensures 0 <= x <= 65535 ==> r == x
  {
    x % 65536
  }

  /**
   * Integer division rounding toward zero, as `/` on the engine's integer
   * types does (Dafny's `/` is Euclidean); every divisor in the engine is
   * positive.
   */
  function TruncDiv(a: int, b: int): (r: int)
    requires b > 0
    ensures Abs(r) == Abs(a) / b
    ensures a >= 0 ==> r >= 0
    ensures a <= 0 ==> r <= 0
  {
    if a >= 0 then
      assert a / b >= 0;
      a / b
    else
      assert (-a) / b >= 0;
      -((-a) / b)
  }

  function Abs(x: int): int { if x < 0 then -x else x }

  function Min(a: int, b: int): int { if a <= b then a else b }

  function Max(a: int, b: int): int { if a >= b then a else b }

  /** `i16::saturating_add`. */
  function SatAdd16(a: int, b: int): (r: int)
    requires -32768 <= a <= 32767 && -32768 <= b <= 32767
    ensures -32768 <= r <= 32767
    ensures -32768 <= a + b <= 32767 ==> r == a + b
    ensures a + b > 32767 ==> r == 32767
    ensures a + b < -32768 ==> r == -32768
  {
    if a + b > 32767 then 32767 else if a + b < -32768 then -32768 else a + b
  }

  /** Number of cells of a board of width `w` and height `h`. */
  function Cells(w: int, h: int): int { w * h }
}

=== FILE: constants.dfy ===
/**
 * The tables the bitboard engine computes at compile time: the edge,
 * border and checkerboard masks, the move table giving the destination of
 * each move from each cell, and the offsets of the hazard spiral. The masks
 * are built in the engine as arrays of 64-bit words handed to an external
 * bitset type; they are modelled as the sets of cells whose bits are set.
 */
module Constants {
  import opened Common
  import opened Grid
  import opened Moves

  /** The cells below `n` that satisfy `keep`. */
  ghost function Prefix(n: int, keep: int -> bool): set<int>
  {
    set p | 0 <= p < n && keep(p)
  }

  lemma PrefixExtend(n: int, keep: int -> bool)
    requires n >= 0
    ensures Prefix(n + 1, keep) == Prefix(n, keep) + (if keep(n) then {n} else {})
  {
  }

  /** After all `h` rows the prefix holds exactly the board's cells that satisfy `keep`. */
  lemma OnBoardPrefix(d: Dims, keep: int -> bool)
    ensures forall p :: p in Prefix(d.h * d.w, keep) <==> OnBoard(d, p) && keep(p)
  {
    assert d.h * d.w == Size(d);
  }

  /** The cell `i * w + j` for `0 <= j < w` is at row `i` and column `j`. */
  lemma Cell(d: Dims, i: int, j: int)
    requires 0 <= j < d.w
    ensures Row(d, i * d.w + j) == i && Col(d, i * d.w + j) == j
  {
    CellDivMod(i, j, d.w);
  }

  /**
   * `border_mask`: with `left` set, every cell outside the last column;
   * otherwise every cell outside the first column. The engine stores the
   * first as ALL_BUT_LEFT_EDGE_MASK although it is the right column that it
   * leaves out.
   */
  method BorderMask(d: Dims, left: bool) returns (m: set<int>)
    ensures forall p :: p in m <==> OnBoard(d, p) && Col(d, p) != (if left then d.w - 1 else 0)
  {
    var skip := if left then d.w - 1 else 0;
    ghost var keep := (p: int) => Col(d, p) != skip;
    var start, stop := if left then 0 else 1, if left then d.w - 1 else d.w;
    m := {};
    var i := 0;
    while i != d.h
      invariant 0 <= i <= d.h
      invariant m == Prefix(i * d.w, keep)
    {
      BorderRowStart(d, i, left, keep);
      var j := start;
      while j != stop
        invariant start <= j <= stop
        invariant m == Prefix(i * d.w + j, keep)
      {
        Cell(d, i, j);
        PrefixExtend(i * d.w + j, keep);
        m := m + {i * d.w + j};
        j := j + 1;
      }
      BorderRowEnd(d, i, left, keep);
      i := i + 1;
    }
    OnBoardPrefix(d, keep);
  }

  /** The border mask's row loop may start past the first column when that column is skipped. */
  lemma BorderRowStart(d: Dims, i: int, left: bool, keep: int -> bool)
    requires 0 <= i
    requires forall p :: keep(p) == (Col(d, p) != (if left then d.w - 1 else 0))
    ensures Prefix(i * d.w + (if left then 0 else 1), keep) == Prefix(i * d.w, keep)
  {
    if !left {
      Cell(d, i, 0);
      PrefixExtend(i * d.w, keep);
    }
  }

  /** The border mask's row loop may stop before the last column when that column is skipped. */
  lemma BorderRowEnd(d: Dims, i: int, left: bool, keep: int -> bool)
    requires 0 <= i
    requires forall p :: keep(p) == (Col(d, p) != (if left then d.w - 1 else 0))
    ensures Prefix(i * d.w + (if left then d.w - 1 else d.w), keep) == Prefix((i + 1) * d.w, keep)
  {
    if left {
      Cell(d, i, d.w - 1);
      PrefixExtend(i * d.w + d.w - 1, keep);
    }
    assert i * d.w + d.w == (i + 1) * d.w;
  }

  /** `checker_board_mask`: the even-numbered cells of the board. */
  method CheckerBoardMask(d: Dims) returns (m: set<int>)
    ensures forall p :: p in m <==> OnBoard(d, p) && p % 2 == 0
  {
    ghost var keep := (p: int) => p % 2 == 0;
    m := {};
    var i := 0;
    while i != d.h
      invariant 0 <= i <= d.h
      invariant m == Prefix(i * d.w, keep)
    {
      var j := 0;
      while j != d.w
        invariant 0 <= j <= d.w
        invariant m == Prefix(i * d.w + j, keep)
      {
        PrefixExtend(i * d.w + j, keep);
        if (i * d.w + j) % 2 == 0 {
          m := m + {i * d.w + j};
        }
        j := j + 1;
      }
      assert i * d.w + d.w == (i + 1) * d.w;
      i := i + 1;
    }
    OnBoardPrefix(d, keep);
  }

  /** A whole row holds exactly one cell of a given column. */
  lemma RowOfColumn(d: Dims, i: int, j: int)
    requires 0 <= i && 0 <= j < d.w
    ensures Prefix((i + 1) * d.w, p => Col(d, p) == j) == Prefix(i * d.w, p => Col(d, p) == j) + {i * d.w + j}
  {
    var keep := (p: int) => Col(d, p) == j;
    forall p | i * d.w <= p < (i + 1) * d.w
      ensures keep(p) <==> p == i * d.w + j
    {
      Cell(d, i, p - i * d.w);
    }
  }

  /** `vertical_edge_mask`: the last column when `right` is set, otherwise the first. */
  method VerticalEdgeMask(d: Dims, right: bool) returns (m: set<int>)
    ensures forall p :: p in m <==> OnBoard(d, p) && Col(d, p) == (if right then d.w - 1 else 0)
  {
    var j := if right then d.w - 1 else 0;
    ghost var keep := (p: int) => Col(d, p) == j;
    m := {};
    var i := 0;
    while i != d.h
      invariant 0 <= i <= d.h
      invariant m == Prefix(i * d.w, keep)
    {
      RowOfColumn(d, i, j);
      m := m + {i * d.w + j};
      i := i + 1;
    }
    OnBoardPrefix(d, keep);
  }

  /** The cells numbered from `i * w` up to the end of row `i` are the cells of row `i`. */
  lemma RowSpan(d: Dims, i: int, p: int)
    requires 0 <= i && 0 <= p
    ensures i * d.w <= p < (i + 1) * d.w <==> Row(d, p) == i
  {
    RowLess(d, p, i);
    RowLess(d, p, i + 1);
  }

  /** `horizontal_edge_mask`: the top row when `top` is set, otherwise the bottom row. */
  method HorizontalEdgeMask(d: Dims, top: bool) returns (m: set<int>)
    ensures forall p :: p in m <==> OnBoard(d, p) && Row(d, p) == (if top then d.h - 1 else 0)
  {
    var i := if top then d.h - 1 else 0;
    m := {};
    var j := 0;
    while j != d.w
      invariant 0 <= j <= d.w
      invariant forall p :: p in m <==> i * d.w <= p < i * d.w + j
    {
      m := m + {i * d.w + j};
      j := j + 1;
    }
    forall p
      ensures p in m <==> OnBoard(d, p) && Row(d, p) == i
    {
      if p >= 0 {
        RowSpan(d, i, p);
      }
      if OnBoard(d, p) && Row(d, p) == i {
        assert (i + 1) * d.w <= d.h * d.w by { MulMono(i + 1, d.h, d.w, d.w); }
      }
    }
  }

  /**
   * The entry of `precompute_moves` for one cell: the destinations of Up,
   * Down, Right and Left, each None on a bounded board when the move would
   * leave it.
   */
  function MovesFrom(d: Dims, pos: int): (r: seq<Option<int>>)
    ensures |r| == 4
  {
    if d.wrap then
      [ Some((pos + d.w) % (d.w * d.h)),
        Some(if d.w > pos then d.w * (d.h - 1) + pos else pos - d.w),
        Some(if pos % d.w == d.w - 1 then pos - (d.w - 1) else pos + 1),
        Some(if pos % d.w == 0 then pos + (d.w - 1) else pos - 1) ]
    else
      [ if pos < d.w * (d.h - 1) then Some(pos + d.w) else None,
        if pos >= d.w then Some(pos - d.w) else None,
        if pos % d.w < d.w - 1 then Some(pos + 1) else None,
        if pos % d.w > 0 then Some(pos - 1) else None ]
  }

  /** On a wrapping board every move has a destination, the one `int_to_index_wrapping` gives. */
  lemma MovesFromWrapping(d: Dims, pos: int, k: int)
    requires d.wrap && OnBoard(d, pos) && 0 <= k < 4
    ensures MovesFrom(d, pos)[k] == Some(pos + IntToIndexWrapping(k, d.w, d.h, pos))
    ensures OnBoard(d, MovesFrom(d, pos)[k].value)
  {
    WrappingOnTorus(d, k, pos);
    if k == 0 {
      WrapModulo(d, pos);
    } else if k == 1 {
      assert d.w * (d.h - 1) + pos == pos + d.w * (d.h - 1);
    }
  }

  /**
   * On a bounded board a move has a destination exactly when it stays on
   * the board, and the destination is the plain `int_to_index` offset away.
   */
  lemma MovesFromBounded(d: Dims, pos: int, k: int)
    requires !d.wrap && OnBoard(d, pos) && 0 <= k < 4
    ensures MovesFrom(d, pos)[k].Some? <==> StaysOnBoard(d, k, pos)
    ensures MovesFrom(d, pos)[k].Some? ==> MovesFrom(d, pos)[k].value == pos + IntToIndex(k, d.w)
    ensures MovesFrom(d, pos)[k].Some? ==> OnBoard(d, MovesFrom(d, pos)[k].value)
  {
    PlainStep(d, k, pos);
    if k == 0 {
      RowLess(d, pos, d.h - 1);
      assert d.w * (d.h - 1) == (d.h - 1) * d.w;
    } else if k == 1 {
      RowLess(d, pos, 1);
    }
  }

  /** Adding a row and reducing modulo the board size is the wrapping step up. */
  lemma WrapModulo(d: Dims, pos: int)
    requires OnBoard(d, pos)
    ensures (pos + d.w) % (d.w * d.h) == pos + IntToIndexWrapping(0, d.w, d.h, pos)
  {
    var n := d.w * d.h;
    assert (d.h - 1) * d.w == n - d.w;
    if pos < n - d.w {
      CellDivMod(0, pos + d.w, n);
    } else {
      CellDivMod(1, pos + d.w - n, n);
    }
  }

  /** `precompute_moves`: the move table of every cell, filled in cell order. */
  method PrecomputeMoves(d: Dims) returns (t: seq<seq<Option<int>>>)
    ensures |t| == Size(d)
    ensures forall pos :: 0 <= pos < Size(d) ==> |t[pos]| == 4
    ensures d.wrap ==> forall pos, k :: 0 <= pos < Size(d) && 0 <= k < 4 ==>
      t[pos][k] == Some(pos + IntToIndexWrapping(k, d.w, d.h, pos))
    ensures !d.wrap ==> forall pos, k :: 0 <= pos < Size(d) && 0 <= k < 4 ==>
      (t[pos][k].Some? <==> StaysOnBoard(d, k, pos))
      && (t[pos][k].Some? ==> t[pos][k].value == pos + IntToIndex(k, d.w))
  {
    t := [];
    var pos := 0;
    while pos != Size(d)
      invariant 0 <= pos <= Size(d) && |t| == pos
      invariant forall q :: 0 <= q < pos ==> t[q] == MovesFrom(d, q)
    {
      t := t + [MovesFrom(d, pos)];
      pos := pos + 1;
    }
    forall q, k | 0 <= q < Size(d) && 0 <= k < 4
      ensures d.wrap ==> t[q][k] == Some(q + IntToIndexWrapping(k, d.w, d.h, q))
      ensures !d.wrap ==> (t[q][k].Some? <==> StaysOnBoard(d, k, q))
                          && (t[q][k].Some? ==> t[q][k].value == q + IntToIndex(k, d.w))
    {
      if d.wrap {
        MovesFromWrapping(d, q, k);
      } else {
        MovesFromBounded(d, q, k);
      }
    }
  }

  /** `precompute_hazard_spiral`: the offsets, in columns and rows, of the spiral's successive cells. */
  function HazardSpiral(): (s: seq<(int, int)>)
    ensures |s| == 144
  {
      [(0, 0), (0, 1), (1, 1), (1, 0), (1, -1), (0, -1), (-1, -1), (-1, 0)]
      + [(-1, 1), (-1, 2), (0, 2), (1, 2), (2, 2), (2, 1), (2, 0), (2, -1)]
      + [(2, -2), (1, -2), (0, -2), (-1, -2), (-2, -2), (-2, -1), (-2, 0), (-2, 1)]
      + [(-2, 2), (-2, 3), (-1, 3), (0, 3), (1, 3), (2, 3), (3, 3), (3, 2)]
      + [(3, 1), (3, 0), (3, -1), (3, -2), (3, -3), (2, -3), (1, -3), (0, -3)]
      + [(-1, -3), (-2, -3), (-3, -3), (-3, -2), (-3, -1), (-3, 0), (-3, 1), (-3, 2)]
      + [(-3, 3), (-3, 4), (-2, 4), (-1, 4), (0, 4), (1, 4), (2, 4), (3, 4)]
      + [(4, 4), (4, 3), (4, 2), (4, 1), (4, 0), (4, -1), (4, -2), (4, -3)]
      + [(4, -4), (3, -4), (2, -4), (1, -4), (0, -4), (-1, -4), (-2, -4), (-3, -4)]
      + [(-4, -4), (-4, -3), (-4, -2), (-4, -1), (-4, 0), (-4, 1), (-4, 2), (-4, 3)]
      + [(-4, 4), (-4, 5), (-3, 5), (-2, 5), (-1, 5), (0, 5), (1, 5), (2, 5)]
      + [(3, 5), (4, 5), (5, 5), (5, 4), (5, 3), (5, 2), (5, 1), (5, 0)]
      + [(5, -1), (5, -2), (5, -3), (5, -4), (5, -5), (4, -5), (3, -5), (2, -5)]
      + [(1, -5), (0, -5), (-1, -5), (-2, -5), (-3, -5), (-4, -5), (-5, -5), (-5, -4)]
      + [(-5, -3), (-5, -2), (-5, -1), (-5, 0), (-5, 1), (-5, 2), (-5, 3), (-5, 4)]
      + [(-5, 5), (-5, 6), (-4, 6), (-3, 6), (-2, 6), (-1, 6), (0, 6), (1, 6)]
      + [(2, 6), (3, 6), (4, 6), (5, 6), (6, 6), (6, 5), (6, 4), (6, 3)]
      + [(6, 2), (6, 1), (6, 0), (6, -1), (6, -2), (6, -3), (6, -4), (6, -5)]
  }

  /** Two offsets one unit step apart: one coordinate equal, the other off by one. */
  predicate UnitStep(a: (int, int), b: (int, int))
  {
    (a.0 == b.0 && (a.1 - b.1 == 1 || b.1 - a.1 == 1))
    || (a.1 == b.1 && (a.0 - b.0 == 1 || b.0 - a.0 == 1))
  }

  /** Every entry from `i` on is one unit step from the next. */
  predicate SpiralSteps(i: nat)
    decreases 143 - i
  {
    i >= 143 || (UnitStep(HazardSpiral()[i], HazardSpiral()[i + 1]) && SpiralSteps(i + 1))
  }

  lemma SpiralStepsFrom136()
    ensures SpiralSteps(136)
  {
  }

  lemma SpiralStepsFrom128()
    ensures SpiralSteps(128)
  {
    SpiralStepsFrom136();
  }

  lemma SpiralStepsFrom120()
    ensures SpiralSteps(120)
  {
    SpiralStepsFrom128();
  }

  lemma SpiralStepsFrom112()
    ensures SpiralSteps(112)
  {
    SpiralStepsFrom120();
  }

  lemma SpiralStepsFrom104()
    ensures SpiralSteps(104)
  {
    SpiralStepsFrom112();
  }

  lemma SpiralStepsFrom96()
    ensures SpiralSteps(96)
  {
    SpiralStepsFrom104();
  }

  lemma SpiralStepsFrom88()
    ensures SpiralSteps(88)
  {
    SpiralStepsFrom96();
  }

  lemma SpiralStepsFrom80()
    ensures SpiralSteps(80)
  {
    SpiralStepsFrom88();
  }

  lemma SpiralStepsFrom72()
    ensures SpiralSteps(72)
  {
    SpiralStepsFrom80();
  }

  lemma SpiralStepsFrom64()
    ensures SpiralSteps(64)
  {
    SpiralStepsFrom72();
  }

  lemma SpiralStepsFrom56()
    ensures SpiralSteps(56)
  {
    SpiralStepsFrom64();
  }

  lemma SpiralStepsFrom48()
    ensures SpiralSteps(48)
  {
    SpiralStepsFrom56();
  }

  lemma SpiralStepsFrom40()
    ensures SpiralSteps(40)
  {
    SpiralStepsFrom48();
  }

  lemma SpiralStepsFrom32()
    ensures SpiralSteps(32)
  {
    SpiralStepsFrom40();
  }

  lemma SpiralStepsFrom24()
    ensures SpiralSteps(24)
  {
    SpiralStepsFrom32();
  }

  lemma SpiralStepsFrom16()
    ensures SpiralSteps(16)
  {
    SpiralStepsFrom24();
  }

  lemma SpiralStepsFrom8()
    ensures SpiralSteps(8)
  {
    SpiralStepsFrom16();
  }

  lemma SpiralStepsFrom0()
    ensures SpiralSteps(0)
  {
    SpiralStepsFrom8();
  }

  lemma {:induction false} SpiralStepsAt(i: nat, j: int)
    requires SpiralSteps(i) && i <= j < 143
    ensures UnitStep(HazardSpiral()[j], HazardSpiral()[j + 1])
    decreases j - i
  {
    if i < j {
      SpiralStepsAt(i + 1, j);
    }
  }

  /** The spiral starts at the centre and moves one unit step at a time. */
  lemma HazardSpiralWalk()
    ensures HazardSpiral()[0] == (0, 0)
    ensures forall i :: 0 <= i < 143 ==> UnitStep(HazardSpiral()[i], HazardSpiral()[i + 1])
  {
    SpiralStepsFrom0();
    forall i | 0 <= i < 143
      ensures UnitStep(HazardSpiral()[i], HazardSpiral()[i + 1])
    {
      SpiralStepsAt(0, i);
    }
  }
}

=== FILE: endgame.dfy ===
/**
 * The 1v1 endgame solver: once two snakes are sealed off from each other,
 * it decides from the areas, the tail distances and the healths which one
 * runs out of room or food first, and turns that into a score.
 *
 * The engine walks each body from the tail with `next_body_segment`, a
 * board method that is not part of this model; the walk is given instead
 * as the list of cells it visits, from the tail to the head.
 */
module Endgame {
  import opened Common
  import opened Grid
  import opened Bitboard
  import Area

  const MIN_TURN := 50

  /** A body as `next_body_segment` walks it: from the tail to the head, the head only at the end. */
  predicate Walk(segs: seq<int>)
  {
    |segs| >= 2 && forall i :: 0 <= i < |segs| - 1 ==> segs[i] != segs[|segs| - 1]
  }

  /** The walks of both snakes' bodies. */
  predicate BodyWalks(b: Board, walk0: seq<int>, walk1: seq<int>)
    requires |b.snakes| == 2
  {
    Walk(walk0) && walk0[0] == b.snakes[0].tail && walk0[|walk0| - 1] == b.snakes[0].head &&
    Walk(walk1) && walk1[0] == b.snakes[1].tail && walk1[|walk1| - 1] == b.snakes[1].head
  }

  /**
   * The first segment from index `i` on, short of the head, that `fill`
   * holds; the head's index if there is none.
   */
  function FirstFrom(fill: set<int>, segs: seq<int>, i: int): (r: int)
    requires Walk(segs) && 1 <= i <= |segs| - 1
    ensures i <= r <= |segs| - 1
    ensures r < |segs| - 1 ==> segs[r] in fill
    ensures forall j :: i <= j < r ==> segs[j] !in fill
    decreases |segs| - i
  {
    if i == |segs| - 1 then i
    else if segs[i] in fill then i
    else FirstFrom(fill, segs, i + 1)
  }

  /**
   * How many steps a fill needs before a body's cells start to free up in
   * it: 1 if the tail itself counts, otherwise the index of the first later
   * segment the fill holds, and the head's index if it holds none.
   */
  function Reach(fill: set<int>, tailCounts: bool, segs: seq<int>): (r: int)
    requires Walk(segs)
    ensures 1 <= r <= |segs| - 1
  {
    if tailCounts then 1 else FirstFrom(fill, segs, 1)
  }

  /**
   * The fills and the tail rule of the solver. My fill may use a tail
   * unless the enemy is longer and its area holds that tail; the enemy's
   * fill, symmetrically.
   */
  datatype Fills = Fills(mine: set<int>, theirs: set<int>, myArea: set<int>, enemyArea: set<int>, myLength: int, enemyLength: int)

  predicate MyTail(f: Fills, t: int)
  {
    t in f.mine && !(f.enemyLength > f.myLength && t in f.enemyArea)
  }

  predicate EnemyTail(f: Fills, t: int)
  {
    t in f.theirs && !(f.myLength > f.enemyLength && t in f.myArea)
  }

  /** The scan of my own body: how far my fill and the enemy's fill are from freeing a cell of it. */
  method ScanOwn(f: Fills, segs: seq<int>) returns (my: int, en: int)
    requires Walk(segs)
    ensures my == Reach(f.mine, MyTail(f, segs[0]), segs)
    ensures en == Reach(f.theirs, EnemyTail(f, segs[0]), segs)
  {
    var head := segs[|segs| - 1];
    var counter := 1;
    my := 0;
    en := 0;
    if MyTail(f, segs[0]) {
      my := counter;
    }
    if EnemyTail(f, segs[0]) {
      en := counter;
    }
    var i := 1;
    while (my == 0 || en == 0) && segs[i] != head
      invariant 1 <= i <= |segs| - 1 && counter == i
      invariant my == 0 ==> !MyTail(f, segs[0]) && forall j :: 1 <= j < i ==> segs[j] !in f.mine
      invariant my != 0 ==> my == Reach(f.mine, MyTail(f, segs[0]), segs)
      invariant en == 0 ==> !EnemyTail(f, segs[0]) && forall j :: 1 <= j < i ==> segs[j] !in f.theirs
      invariant en != 0 ==> en == Reach(f.theirs, EnemyTail(f, segs[0]), segs)
      decreases |segs| - i
    {
      if my == 0 && segs[i] in f.mine {
        my := counter;
      }
      if en == 0 && segs[i] in f.theirs {
        en := counter;
      }
      counter := counter + 1;
      i := i + 1;
    }
    if my == 0 {
      my := counter;
    }
    if en == 0 {
      en := counter;
    }
  }

  /**
   * The scan of the enemy's body. It may stop as soon as its counter has
   * reached both distances found on my body; the minimum of the two scans
   * is then the same as with a full scan.
   */
  method ScanEnemy(f: Fills, segs: seq<int>, myOwn: int, enOwn: int) returns (my: int, en: int)
    requires Walk(segs)
    ensures my >= 1 && en >= 1
    ensures Min(myOwn, my) == Min(myOwn, Reach(f.mine, MyTail(f, segs[0]), segs))
    ensures Min(enOwn, en) == Min(enOwn, Reach(f.theirs, EnemyTail(f, segs[0]), segs))
  {
    var head := segs[|segs| - 1];
    var counter := 1;
    my := 0;
    en := 0;
    if MyTail(f, segs[0]) {
      my := counter;
    }
    if EnemyTail(f, segs[0]) {
      en := counter;
    }
    var i := 1;
    while (counter < myOwn || counter < enOwn) && (my == 0 || en == 0) && segs[i] != head
      invariant 1 <= i <= |segs| - 1 && counter == i
      invariant my == 0 ==> !MyTail(f, segs[0]) && forall j :: 1 <= j < i ==> segs[j] !in f.mine
      invariant my != 0 ==> my == Reach(f.mine, MyTail(f, segs[0]), segs)
      invariant en == 0 ==> !EnemyTail(f, segs[0]) && forall j :: 1 <= j < i ==> segs[j] !in f.theirs
      invariant en != 0 ==> en == Reach(f.theirs, EnemyTail(f, segs[0]), segs)
      decreases |segs| - i
    {
      if my == 0 && segs[i] in f.mine {
        my := counter;
      }
      if en == 0 && segs[i] in f.theirs {
        en := counter;
      }
      counter := counter + 1;
      i := i + 1;
    }
    if my == 0 {
      my := counter;
    }
    if en == 0 {
      en := counter;
    }
  }

  /** A side is trapped when its area runs out before a tail frees a cell, and the other side outlives it. */
  predicate Trapped(areaSize: int, tailDist: int, otherHealth: int)
  {
    areaSize < tailDist && otherHealth > areaSize
  }

  /**
   * The decision table of `_solver`: the index of the loser, if one can be
   * told. If exactly one side is trapped, it loses; if both are, the smaller
   * area loses and equal areas decide nothing; if neither is, I lose exactly
   * when my health does not reach the nearest food.
   */
  function Decide(myAreaSize: int, enemyAreaSize: int, myTailDist: int, enemyTailDist: int,
                  myHealth: int, enemyHealth: int, myFoodDistance: int): (r: Option<int>)
    ensures var me := Trapped(myAreaSize, myTailDist, enemyHealth);
      var them := Trapped(enemyAreaSize, enemyTailDist, myHealth);
      (r == Some(0) <==> (me && (!them || myAreaSize < enemyAreaSize)) || (!me && !them && myHealth < myFoodDistance)) &&
      (r == Some(1) <==> them && (!me || enemyAreaSize < myAreaSize)) &&
      (r.Some? ==> r.value == 0 || r.value == 1)
  {
    if myAreaSize < myTailDist && enemyHealth > myAreaSize then
      if enemyAreaSize < enemyTailDist && myHealth > enemyAreaSize then
        if myAreaSize < enemyAreaSize then Some(0)
        else if enemyAreaSize < myAreaSize then Some(1)
        else None
      else Some(0)
    else if enemyAreaSize < enemyTailDist && myHealth > enemyAreaSize then Some(1)
    else if myHealth < myFoodDistance then Some(0)
    else None
  }

  /**
   * The fills one step bigger than the areas, and the tail rule, for a board
   * of two snakes. The engine grows them with its own wrap shifts, `rule`
   * `AsWritten`; `Intended` grows them to the true neighbours.
   */
  function FillsOf(d: Dims, rule: Area.WrapRule, b: Board, myArea: set<int>, enemyArea: set<int>): Fills
    requires |b.snakes| == 2
  {
    Fills(Area.GrowBy(d, rule, myArea), Area.GrowBy(d, rule, enemyArea), myArea, enemyArea, b.snakes[0].length, b.snakes[1].length)
  }

  /** The solver applies: two snakes, from turn 50 on. */
  predicate Applies(b: Board)
  {
    |b.snakes| == 2 && b.turn >= MIN_TURN
  }

  /** The tail distances of the solver: for each fill, the nearer of the two bodies. */
  function TailDists(f: Fills, walk0: seq<int>, walk1: seq<int>): (r: (int, int))
    requires Walk(walk0) && Walk(walk1)
    ensures r.0 >= 1 && r.1 >= 1
  {
    (Min(Reach(f.mine, MyTail(f, walk0[0]), walk0), Reach(f.mine, MyTail(f, walk1[0]), walk1)),
     Min(Reach(f.theirs, EnemyTail(f, walk0[0]), walk0), Reach(f.theirs, EnemyTail(f, walk1[0]), walk1)))
  }

  /** The loser the solver finds on an applicable board. */
  function Verdict(d: Dims, rule: Area.WrapRule, b: Board, myArea: set<int>, enemyArea: set<int>, myAreaSize: int, enemyAreaSize: int,
                   myFoodDistance: int, walk0: seq<int>, walk1: seq<int>): Option<int>
    requires Applies(b) && BodyWalks(b, walk0, walk1)
  {
    var t := TailDists(FillsOf(d, rule, b, myArea, enemyArea), walk0, walk1);
    Decide(myAreaSize, enemyAreaSize, t.0, t.1, b.snakes[0].health, b.snakes[1].health, myFoodDistance)
  }

  /**
   * `_solver`: the loser's index, from the scans of both bodies, the first
   * of which the second may cut short.
   */
  method Loser(d: Dims, rule: Area.WrapRule, b: Board, myArea: set<int>, enemyArea: set<int>, myAreaSize: int, enemyAreaSize: int,
               myFoodDistance: int, walk0: seq<int>, walk1: seq<int>) returns (r: Option<int>)
    requires Applies(b) ==> BodyWalks(b, walk0, walk1)
    ensures !Applies(b) ==> r.None?
    ensures Applies(b) ==> r == Verdict(d, rule, b, myArea, enemyArea, myAreaSize, enemyAreaSize, myFoodDistance, walk0, walk1)
  {
    if !Applies(b) {
      return None;
    }
    var f := FillsOf(d, rule, b, myArea, enemyArea);
    var myOwn, enOwn := ScanOwn(f, walk0);
    var myOther, enOther := ScanEnemy(f, walk1, myOwn, enOwn);
    r := Decide(myAreaSize, enemyAreaSize, Min(myOwn, myOther), Min(enOwn, enOther),
                b.snakes[0].health, b.snakes[1].health, myFoodDistance);
  }

  /**
   * `i16::MIN + turn + my_area_size`, wrapping. On any real board (turn and
   * area far below the `i16` range) it does not wrap and a solved loss
   * scores below every ordinary evaluation.
   */
  function LossScore(turn: int, myAreaSize: int): (r: int)
    ensures -32768 <= r <= 32767
    ensures 0 <= turn <= 10000 && 0 <= myAreaSize <= 10000 ==> r == -32768 + turn + myAreaSize && r < -10000
  {
    I16(-32768 + I16(turn) + myAreaSize)
  }

  /** `i16::MAX - turn - enemy_area_size`, wrapping; on a real board a solved win scores above every ordinary evaluation. */
  function WinScore(turn: int, enemyAreaSize: int): (r: int)
    ensures -32768 <= r <= 32767
    ensures 0 <= turn <= 10000 && 0 <= enemyAreaSize <= 10000 ==> r == 32767 - turn - enemyAreaSize && r > 10000
  {
    I16(32767 - I16(turn) - enemyAreaSize)
  }

  /**
   * `solver`: nothing unless two snakes play from turn 50 on; otherwise my
   * loss when I am the loser, my win when the enemy is.
   */
  method Solver(d: Dims, rule: Area.WrapRule, b: Board, myArea: set<int>, enemyArea: set<int>, myAreaSize: int, enemyAreaSize: int,
                myFoodDistance: int, walk0: seq<int>, walk1: seq<int>) returns (r: Option<int>)
    requires Applies(b) ==> BodyWalks(b, walk0, walk1)
    ensures !Applies(b) ==> r.None?
    ensures Applies(b) ==>
      var v := Verdict(d, rule, b, myArea, enemyArea, myAreaSize, enemyAreaSize, myFoodDistance, walk0, walk1);
      (v.None? ==> r.None?) &&
      (v == Some(0) ==> r == Some(LossScore(b.turn, myAreaSize))) &&
      (v == Some(1) ==> r == Some(WinScore(b.turn, enemyAreaSize)))
  {
    var loser := Loser(d, rule, b, myArea, enemyArea, myAreaSize, enemyAreaSize, myFoodDistance, walk0, walk1);
    if loser.Some? {
      if loser.value != 0 {
        r := Some(WinScore(b.turn, enemyAreaSize));
      } else {
        r := Some(LossScore(b.turn, myAreaSize));
      }
    } else {
      r := None;
    }
  }
}

=== FILE: eval.dfy ===
/**
 * The integer side of the minimax evaluation: the terminal score, the
 * enemy health and length features, the area and food differences, the
 * checkered area size and the flood-fill `area_control` that splits the
 * board between me and my enemies. The floating-point blend of the features
 * (`score!`, `turn_progression`, `being_longer`) is not modelled.
 *
 * Scores are `i16`; the turn counter is a `u16` cast to `i16` before it is
 * added, written out with `I16`. Areas are sets of cells of the board.
 */
module Eval {
  import opened Common
  import opened Grid
  import opened Bitboard
  import Area

  /** Some snake from index `i` on is alive. */
  predicate AnyAlive(snakes: seq<Snake>, i: nat)
  {
    exists j :: i <= j < |snakes| && IsAlive(snakes[j])
  }

  /** Whether some enemy lives, by a scan from index `i`. */
  function AliveFrom(snakes: seq<Snake>, i: nat): (r: bool)
    ensures r <==> AnyAlive(snakes, i)
    decreases |snakes| - i
  {
    if i >= |snakes| then false else IsAlive(snakes[i]) || AliveFrom(snakes, i + 1)
  }

  /**
   * `eval_terminal`: a win scores `i16::MAX - turn`, a loss against a live
   * enemy `i16::MIN + turn`; a draw scores 0 in Constrictor and
   * `-5000 + turn` otherwise.
   */
  function EvalTerminal(b: Board): (r: int)
    requires |b.snakes| >= 1
    ensures -32768 <= r < 32768
    ensures IsAlive(b.snakes[0]) ==> r == I16(32767 - I16(b.turn))
    ensures !IsAlive(b.snakes[0]) && AnyAlive(b.snakes, 1) ==> r == I16(-32768 + I16(b.turn))
    ensures !IsAlive(b.snakes[0]) && !AnyAlive(b.snakes, 1) ==>
      r == if b.gamemode == ConstrictorMode then 0 else I16(-5000 + I16(b.turn))
  {
    if IsDead(b.snakes[0]) then
      if AliveFrom(b.snakes, 1) then I16(-32768 + I16(b.turn))
      else if b.gamemode == ConstrictorMode then 0
      else I16(-5000 + I16(b.turn))
    else I16(32767 - I16(b.turn))
  }

  /** The outcome of a finished game for me: 1 win, 0 draw, -1 loss. */
  function Outcome(b: Board): int
    requires |b.snakes| >= 1
  {
    if IsAlive(b.snakes[0]) then 1 else if AnyAlive(b.snakes, 1) then -1 else 0
  }

  /**
   * Before turn 5000 the terminal score ranks outcomes: any win above any
   * draw, any draw above any loss; a win scores above zero and a loss below,
   * and a win is worth more the sooner it comes.
   */
  lemma EvalTerminalRanks(b: Board, c: Board)
    requires |b.snakes| >= 1 && |c.snakes| >= 1
    requires 0 <= b.turn < 5000 && 0 <= c.turn < 5000
    ensures Outcome(b) > Outcome(c) ==> EvalTerminal(b) > EvalTerminal(c)
    ensures Outcome(b) == 1 ==> EvalTerminal(b) > 0
    ensures Outcome(b) == -1 ==> EvalTerminal(b) < -5000
    ensures Outcome(b) == 1 && Outcome(c) == 1 ==> (EvalTerminal(b) > EvalTerminal(c) <==> b.turn < c.turn)
  {
    assert I16(b.turn) == b.turn && I16(c.turn) == c.turn;
  }

  /** `lowest_enemy_health` from index `i` on: starts at 100 and keeps the lowest live health below it. */
  function LowestFrom(snakes: seq<Snake>, i: nat): (r: int)
    ensures r <= 100
    ensures forall j :: i <= j < |snakes| && IsAlive(snakes[j]) ==> r <= snakes[j].health
    ensures r == 100 || exists j :: i <= j < |snakes| && IsAlive(snakes[j]) && snakes[j].health == r
    decreases |snakes| - i
  {
    if i >= |snakes| then 100
    else
      var rest := LowestFrom(snakes, i + 1);
      if IsAlive(snakes[i]) && snakes[i].health < rest then snakes[i].health else rest
  }

  /** `lowest_enemy_health`. */
  function LowestEnemyHealth(b: Board): (r: int)
    ensures r <= 100
    ensures forall j :: 1 <= j < |b.snakes| && IsAlive(b.snakes[j]) ==> r <= b.snakes[j].health
    ensures r == 100 || exists j :: 1 <= j < |b.snakes| && IsAlive(b.snakes[j]) && b.snakes[j].health == r
  {
    LowestFrom(b.snakes, 1)
  }

  /** `largest_enemy_length` from index `i` on: starts at 0 and keeps the largest live length above it. */
  function LargestFrom(snakes: seq<Snake>, i: nat): (r: int)
    ensures r >= 0
    ensures forall j :: i <= j < |snakes| && IsAlive(snakes[j]) ==> r >= snakes[j].length
    ensures r == 0 || exists j :: i <= j < |snakes| && IsAlive(snakes[j]) && snakes[j].length == r
    decreases |snakes| - i
  {
    if i >= |snakes| then 0
    else
      var rest := LargestFrom(snakes, i + 1);
      if IsAlive(snakes[i]) && snakes[i].length > rest then snakes[i].length else rest
  }

  /** `largest_enemy_length`: 0 when no enemy is alive. */
  function LargestEnemyLength(b: Board): (r: int)
    ensures r >= 0
    ensures forall j :: 1 <= j < |b.snakes| && IsAlive(b.snakes[j]) ==> r >= b.snakes[j].length
    ensures r == 0 || exists j :: 1 <= j < |b.snakes| && IsAlive(b.snakes[j]) && b.snakes[j].length == r
    ensures !AnyAlive(b.snakes, 1) ==> r == 0
  {
    LargestFrom(b.snakes, 1)
  }

  /** `length_diff`: `W` times how much longer I am than the longest enemy. */
  function LengthDiff(d: Dims, b: Board): int
    requires |b.snakes| >= 1
  {
    d.w * (b.snakes[0].length - LargestEnemyLength(b))
  }

  /** `capped_length_diff`: the length difference, capped at `cap` before scaling by `W`. */
  function CappedLengthDiff(d: Dims, b: Board, cap: int): (r: int)
    requires |b.snakes| >= 1
    ensures r <= d.w * cap && r <= LengthDiff(d, b)
    ensures b.snakes[0].length - LargestEnemyLength(b) <= cap ==> r == LengthDiff(d, b)
  {
    var diff := b.snakes[0].length - LargestEnemyLength(b);
    MulLe(d.w, Min(diff, cap), cap);
    MulLe(d.w, Min(diff, cap), diff);
    d.w * Min(diff, cap)
  }

  lemma MulLe(w: int, a: int, b: int)
    requires w >= 0 && a <= b
    ensures w * a <= w * b
  {
    assert w * b - w * a == w * (b - a);
  }

  /** `area_diff`. */
  function AreaDiff(mine: set<int>, theirs: set<int>): int
  {
    |mine| - |theirs|
  }

  /** `controlled_food_diff`: food in my area minus food in theirs. */
  function ControlledFoodDiff(b: Board, mine: set<int>, theirs: set<int>): int
  {
    |mine * b.food| - |theirs * b.food|
  }

  /** `hazard_area_diff`. */
  function HazardAreaDiff(b: Board, mine: set<int>, theirs: set<int>): int
  {
    |mine * b.hazards| - |theirs * b.hazards|
  }

  /** `non_hazard_area_diff`: the complement of the hazards is taken within the board. */
  function NonHazardAreaDiff(d: Dims, b: Board, mine: set<int>, theirs: set<int>): int
  {
    |mine * (Area.Cells(d) - b.hazards)| - |theirs * (Area.Cells(d) - b.hazards)|
  }

  /** Swapping the two areas negates every difference. */
  lemma DiffsSwap(d: Dims, b: Board, mine: set<int>, theirs: set<int>)
    ensures AreaDiff(theirs, mine) == -AreaDiff(mine, theirs)
    ensures ControlledFoodDiff(b, theirs, mine) == -ControlledFoodDiff(b, mine, theirs)
    ensures HazardAreaDiff(b, theirs, mine) == -HazardAreaDiff(b, mine, theirs)
    ensures NonHazardAreaDiff(d, b, theirs, mine) == -NonHazardAreaDiff(d, b, mine, theirs)
  {
  }

  /** An area splits into its hazard cells and the rest. */
  lemma SplitCount(a: set<int>, h: set<int>, c: set<int>)
    requires a <= c
    ensures |a * h| + |a * (c - h)| == |a|
  {
    assert a * h + a * (c - h) == a;
    assert (a * h) * (a * (c - h)) == {};
  }

  /** The hazard and non-hazard differences of two areas on the board add up to their area difference. */
  lemma HazardSplit(d: Dims, b: Board, mine: set<int>, theirs: set<int>)
    requires mine <= Area.Cells(d) && theirs <= Area.Cells(d)
    ensures HazardAreaDiff(b, mine, theirs) + NonHazardAreaDiff(d, b, mine, theirs) == AreaDiff(mine, theirs)
  {
    SplitCount(mine, b.hazards, Area.Cells(d));
    SplitCount(theirs, b.hazards, Area.Cells(d));
  }

  /** `CHECKER_BOARD_MASK`: the even cells of the board. */
  function Checker(d: Dims): set<int>
  {
    set p | 0 <= p < Size(d) && p % 2 == 0
  }

  /**
   * `checkered_area_size`: an area holding `x` even and `y` odd cells counts
   * as `2 * min(x, y)`, plus one if the two differ. It never exceeds the
   * area's size, and equals it exactly when `x` and `y` differ by at most one.
   */
  function CheckeredAreaSize(d: Dims, area: set<int>): (r: int)
    requires area <= Area.Cells(d)
    ensures var x, y := |area * Checker(d)|, |area * (Area.Cells(d) - Checker(d))|;
      r == 2 * Min(x, y) + Min(Abs(x - y), 1) && x + y == |area|
    ensures 0 <= r <= |area|
    ensures r == |area| <==> Abs(|area * Checker(d)| - |area * (Area.Cells(d) - Checker(d))|) <= 1
  {
    var x := |area * Checker(d)|;
    var y := |area * (Area.Cells(d) - Checker(d))|;
    SplitCount(area, Checker(d), Area.Cells(d));
    var over := Max(x, y) - Min(x, y);
    x + y - over + Min(over, 1)
  }

  /** The live snakes from index `i` on. */
  function LiveCount(snakes: seq<Snake>, i: nat): (n: nat)
    decreases |snakes| - i
  {
    if i >= |snakes| then 0 else (if IsAlive(snakes[i]) then 1 else 0) + LiveCount(snakes, i + 1)
  }

  /** `controlled_tail_diff` from index `i` on: +1 for a live tail in my area, else -1 for one in theirs. */
  function TailDiffFrom(snakes: seq<Snake>, mine: set<int>, theirs: set<int>, i: nat): (r: int)
    ensures Abs(r) <= LiveCount(snakes, i)
    decreases |snakes| - i
  {
    if i >= |snakes| then 0
    else
      var rest := TailDiffFrom(snakes, mine, theirs, i + 1);
      if IsDead(snakes[i]) then rest
      else if snakes[i].tail in mine then rest + 1
      else if snakes[i].tail in theirs then rest - 1
      else rest
  }

  /** `controlled_tail_diff`: bounded by the number of live snakes. */
  function ControlledTailDiff(b: Board, mine: set<int>, theirs: set<int>): (r: int)
    ensures Abs(r) <= LiveCount(b.snakes, 0)
  {
    TailDiffFrom(b.snakes, mine, theirs, 0)
  }

  /** For disjoint areas, swapping them negates the tail difference. */
  lemma {:induction false} TailDiffSwap(snakes: seq<Snake>, mine: set<int>, theirs: set<int>, i: nat)
    requires mine * theirs == {}
    ensures TailDiffFrom(snakes, theirs, mine, i) == -TailDiffFrom(snakes, mine, theirs, i)
    decreases |snakes| - i
  {
    if i < |snakes| {
      TailDiffSwap(snakes, mine, theirs, i + 1);
      NotInBoth(snakes[i].tail, mine, theirs);
    }
  }

  lemma NotInBoth(x: int, a: set<int>, b: set<int>)
    requires a * b == {}
    ensures !(x in a && x in b)
  {
    assert x in a && x in b ==> x in a * b;
  }

  // `area_control`.

  datatype Areas = Areas(mine: set<int>, theirs: set<int>)

  predicate Inside(cells: set<int>, st: Areas)
  {
    st.mine <= cells && st.theirs <= cells
  }

  /** Cells an area may spread into: no body, and no hazard when hazards are deadly (damage above 95). */
  function Walkable(d: Dims, b: Board): (w: set<int>)
    ensures w <= Area.Cells(d)
  {
    if b.hazardDmg > 95 then Area.Cells(d) - b.hazards - b.bodies.occupied
    else Area.Cells(d) - b.bodies.occupied
  }

  /**
   * In a duel the longer snake wins contested cells: `Some(true)` when I am
   * longer, `Some(false)` when the enemy is, `None` otherwise or with more
   * than two snakes.
   */
  function Longer(b: Board): Option<bool>
    requires |b.snakes| >= 1
  {
    if |b.snakes| == 2 then
      var x := LargestEnemyLength(b);
      if b.snakes[0].length > x then Some(true)
      else if b.snakes[0].length < x then Some(false)
      else None
    else None
  }

  /** A one-step fill: it keeps an area of the board and stays on the board. */
  ghost predicate Spreads(cells: set<int>, grow: set<int> -> set<int>)
  {
    forall s {:trigger grow(s)} :: s <= cells ==> s <= grow(s) <= cells
  }

  /** The fill step of `area_control`, with the engine's wrap shifts or the corrected ones. */
  function Fill(d: Dims, rule: Area.WrapRule): set<int> -> set<int>
  {
    s => Area.GrowBy(d, rule, s)
  }

  lemma FillSpreads(d: Dims, rule: Area.WrapRule)
    ensures Spreads(Area.Cells(d), Fill(d, rule))
  {
    forall s | s <= Area.Cells(d) ensures s <= Fill(d, rule)(s) <= Area.Cells(d) {
      Area.GrowKeeps(d, s);
    }
  }

  /**
   * One round: both areas take the walkable cells their fill reaches.
   * A cell both fills reach goes to neither, unless one side is longer:
   * then the shorter side first takes the cells only it reaches, and the
   * longer side takes everything else it reaches, contested cells included.
   */
  function Step(walk: set<int>, longer: Option<bool>, grow: set<int> -> set<int>, st: Areas): (r: Areas)
    ensures st.mine <= r.mine <= st.mine + walk && st.theirs <= r.theirs <= st.theirs + walk
  {
    var me := grow(st.mine);
    var en := grow(st.theirs);
    match longer
    case None => Areas(st.mine + walk * (me - en), st.theirs + walk * (en - me))
    case Some(true) =>
      var x := st.theirs + walk * (en - me);
      Areas(st.mine + walk * (me - x), x)
    case Some(false) =>
      var x := st.mine + walk * (me - en);
      Areas(x, st.theirs + walk * (en - x))
  }

  /** A round keeps the areas apart when each fill keeps its own area. */
  lemma StepDisjoint(walk: set<int>, longer: Option<bool>, grow: set<int> -> set<int>, st: Areas)
    requires st.mine <= grow(st.mine) && st.theirs <= grow(st.theirs) && st.mine * st.theirs == {}
    ensures var r := Step(walk, longer, grow, st); r.mine * r.theirs == {}
  {
  }

  /** The round of `area_control` as a value the loop can be run with. */
  function Round(walk: set<int>, longer: Option<bool>, grow: set<int> -> set<int>): Areas -> Areas
  {
    st => Step(walk, longer, grow, st)
  }

  /** Everything a round keeps: the areas lie between the start and the start plus the walkable cells, and stay apart if they started apart. */
  predicate Between(walk: set<int>, start: Areas, st: Areas)
  {
    start.mine <= st.mine <= start.mine + walk && start.theirs <= st.theirs <= start.theirs + walk &&
    (start.mine * start.theirs == {} ==> st.mine * st.theirs == {})
  }

  /** A round that only adds cells, and keeps what `Between` describes. */
  ghost predicate Confined(walk: set<int>, start: Areas, round: Areas -> Areas)
  {
    forall st {:trigger round(st)} :: Between(walk, start, st) ==>
      st.mine <= round(st).mine && st.theirs <= round(st).theirs && Between(walk, start, round(st))
  }

  lemma RoundConfined(cells: set<int>, walk: set<int>, longer: Option<bool>, grow: set<int> -> set<int>, start: Areas)
    requires walk <= cells && Spreads(cells, grow) && Inside(cells, start)
    ensures Confined(walk, start, Round(walk, longer, grow))
  {
    forall st | Between(walk, start, st)
      ensures Between(walk, start, Round(walk, longer, grow)(st))
    {
      assert Inside(cells, st);
      if start.mine * start.theirs == {} {
        StepDisjoint(walk, longer, grow, st);
      }
    }
  }

  /** The state after `k` rounds. */
  function Iterate(round: Areas -> Areas, st: Areas, k: nat): Areas
  {
    if k == 0 then st else round(Iterate(round, st, k - 1))
  }

  /** Every state the rounds reach is between the start and the walkable cells. */
  lemma {:induction false} IterateBetween(walk: set<int>, start: Areas, round: Areas -> Areas, k: nat)
    requires Confined(walk, start, round) && Between(walk, start, start)
    ensures Between(walk, start, Iterate(round, start, k))
  {
    if k > 0 {
      IterateBetween(walk, start, round, k - 1);
    }
  }

  /** Rounds only add cells. */
  lemma {:induction false} IterateGrows(walk: set<int>, start: Areas, round: Areas -> Areas, j: nat, k: nat)
    requires Confined(walk, start, round) && Between(walk, start, start) && j <= k
    ensures Iterate(round, start, j).mine <= Iterate(round, start, k).mine
    ensures Iterate(round, start, j).theirs <= Iterate(round, start, k).theirs
    decreases k
  {
    if j < k {
      IterateGrows(walk, start, round, j, k - 1);
      IterateBetween(walk, start, round, k - 1);
    }
  }

  /** Round `k` is the first in which my area holds food. */
  predicate FirstTouch(round: Areas -> Areas, food: set<int>, start: Areas, k: int)
  {
    k >= 1 && Iterate(round, start, k).mine * food != {} &&
    (k == 1 || Iterate(round, start, k - 1).mine * food == {})
  }

  /** Round `m` is the first round that changes nothing. */
  predicate FirstFixpoint(round: Areas -> Areas, start: Areas, m: int)
  {
    m >= 1 && Iterate(round, start, m) == Iterate(round, start, m - 1) &&
    forall k :: 1 <= k < m ==> Iterate(round, start, k) != Iterate(round, start, k - 1)
  }

  /** The loop's record of when my area first touched food, before round `n`. */
  predicate FoodRecord(round: Areas -> Areas, food: set<int>, start: Areas, n: nat, fd: Option<int>)
  {
    (fd.None? ==> n <= 1 || Iterate(round, start, n - 1).mine * food == {}) &&
    (fd.Some? ==> (1 <= fd.value < n && FirstTouch(round, food, start, fd.value)))
  }

  /** The measure the loop decreases: the cells neither area holds yet, counted per side. */
  function Room(cells: set<int>, st: Areas): nat
  {
    |cells - st.mine| + |cells - st.theirs|
  }

  /** A round that changes something leaves less room. */
  lemma RoundRoom(cells: set<int>, st: Areas, next: Areas)
    requires next.mine <= cells && next.theirs <= cells
    requires st.mine <= next.mine && st.theirs <= next.theirs && next != st
    ensures Room(cells, next) < Room(cells, st)
  {
    Grew(cells, st.mine, next.mine);
    Grew(cells, st.theirs, next.theirs);
  }

  /** Growing within the cells leaves no more cells outside, and fewer if it adds any. */
  lemma Grew(cells: set<int>, a: set<int>, b: set<int>)
    requires a <= b && b <= cells
    ensures |cells - b| <= |cells - a|
    ensures a != b ==> |cells - b| < |cells - a|
  {
    var y := cells - a;
    if a == b {
    } else {
      if forall q :: q in b ==> q in a {
        assert false;
      }
      var p :| p in b && p !in a;
      var x := (cells - b) + {p};
      assert y == x + (y - x);
      assert x * (y - x) == {};
      assert |x| == |cells - b| + 1;
    }
  }

  /** The food record moves on by one round. */
  lemma RoundFood(walk: set<int>, start: Areas, round: Areas -> Areas, food: set<int>, n: nat, fd: Option<int>)
    requires Confined(walk, start, round) && Between(walk, start, start)
    requires n >= 1 && FoodRecord(round, food, start, n, fd)
    ensures var next := Iterate(round, start, n);
      var fd' := if fd.None? && next.mine * food != {} then Some(n) else fd;
      FoodRecord(round, food, start, n + 1, fd') &&
      (fd'.None? <==> next.mine * food == {})
  {
    var next := Iterate(round, start, n);
    if fd.Some? {
      IterateGrows(walk, start, round, fd.value, n);
      var t := Iterate(round, start, fd.value);
      assert t.mine * food <= next.mine * food;
    }
  }

  /**
   * The loop of `area_control` from round `n` on, where round `k` turns
   * `Iterate(k - 1)` into `Iterate(k)`. It stops at the first round `m`
   * that changes nothing and returns `m`, the areas after round
   * `closeDist` if that round came (`fallback` otherwise), and the round at
   * which my area first held food, if it ever did.
   */
  function Loop(cells: set<int>, walk: set<int>, start: Areas, round: Areas -> Areas, food: set<int>,
                closeDist: nat, fallback: Areas, n: nat, fd: Option<int>, close: Areas): (r: (nat, Areas, Option<int>))
    requires walk <= cells && Inside(cells, start) && Between(walk, start, start) && Confined(walk, start, round)
    requires n >= 1 && FoodRecord(round, food, start, n, fd)
    requires forall k :: 1 <= k < n ==> Iterate(round, start, k) != Iterate(round, start, k - 1)
    requires close == if 1 <= closeDist < n then Iterate(round, start, closeDist) else fallback
    ensures FirstFixpoint(round, start, r.0) && r.0 >= n
    ensures r.1 == if 1 <= closeDist <= r.0 then Iterate(round, start, closeDist) else fallback
    ensures r.2.None? <==> Iterate(round, start, r.0).mine * food == {}
    ensures r.2.Some? ==> FirstTouch(round, food, start, r.2.value)
    decreases Room(cells, Iterate(round, start, n - 1))
  {
    var st := Iterate(round, start, n - 1);
    var next := Iterate(round, start, n);
    RoundFood(walk, start, round, food, n, fd);
    var fd' := if fd.None? && next.mine * food != {} then Some(n) else fd;
    var close' := if n == closeDist then next else close;
    if next == st then (n, close', fd')
    else
      LoopNext(cells, walk, start, round, n);
      Loop(cells, walk, start, round, food, closeDist, fallback, n + 1, fd', close')
  }

  /** A round that changes something leaves less room, and no earlier round was a fixpoint. */
  lemma LoopNext(cells: set<int>, walk: set<int>, start: Areas, round: Areas -> Areas, n: nat)
    requires walk <= cells && Inside(cells, start) && Between(walk, start, start) && Confined(walk, start, round)
    requires n >= 1 && forall k :: 1 <= k < n ==> Iterate(round, start, k) != Iterate(round, start, k - 1)
    requires Iterate(round, start, n) != Iterate(round, start, n - 1)
    ensures forall k :: 1 <= k < n + 1 ==> Iterate(round, start, k) != Iterate(round, start, k - 1)
    ensures Room(cells, Iterate(round, start, n)) < Room(cells, Iterate(round, start, n - 1))
  {
    IterateBetween(walk, start, round, n - 1);
    IterateBetween(walk, start, round, n);
    RoundRoom(cells, Iterate(round, start, n - 1), Iterate(round, start, n));
  }

  /** The live enemies' heads. */
  function EnemyHeads(b: Board): set<int>
  {
    set i | 1 <= i < |b.snakes| && IsAlive(b.snakes[i]) :: b.snakes[i].head
  }

  /** The board `area_control` can run on: every head it starts from is a cell. */
  predicate HeadsOnBoard(d: Dims, b: Board)
  {
    |b.snakes| >= 1 && OnBoard(d, b.snakes[0].head) &&
    forall i :: 1 <= i < |b.snakes| && IsAlive(b.snakes[i]) ==> OnBoard(d, b.snakes[i].head)
  }

  /**
   * `area_control`: the areas at the first round that changes nothing, the
   * areas after round `closeDist` (my head alone and no enemy cell if that
   * round never came: the close areas are copied before the enemy heads are
   * set), and my distance to food, which is the first round my area held
   * food, or `W` if it never did. The areas start from my head and the live
   * enemy heads, only grow, stay within those heads and the walkable cells,
   * and stay disjoint when my head is not an enemy's. With `rule` set to
   * `AsWritten` the rounds use the engine's wrap shifts.
   */
  function AreaControl(d: Dims, rule: Area.WrapRule, b: Board, closeDist: nat): (r: (Areas, Areas, int))
    requires HeadsOnBoard(d, b)
    ensures var start := Areas({b.snakes[0].head}, EnemyHeads(b));
      var round := Round(Walkable(d, b), Longer(b), Fill(d, rule));
      exists m :: FirstFixpoint(round, start, m) && r.0 == Iterate(round, start, m) &&
        r.1 == (if 1 <= closeDist <= m then Iterate(round, start, closeDist) else Areas({b.snakes[0].head}, {}))
    ensures var start := Areas({b.snakes[0].head}, EnemyHeads(b));
      var walk := Walkable(d, b);
      var round := Round(walk, Longer(b), Fill(d, rule));
      start.mine <= r.0.mine <= start.mine + walk && start.theirs <= r.0.theirs <= start.theirs + walk &&
      (b.snakes[0].head !in EnemyHeads(b) ==> r.0.mine * r.0.theirs == {}) &&
      (r.0.mine * b.food == {} ==> r.2 == d.w) &&
      (r.0.mine * b.food != {} ==> FirstTouch(round, b.food, start, r.2))
  {
    var start := Areas({b.snakes[0].head}, EnemyHeads(b));
    var walk := Walkable(d, b);
    var cells := Area.Cells(d);
    var round := Round(walk, Longer(b), Fill(d, rule));
    FillSpreads(d, rule);
    RoundConfined(cells, walk, Longer(b), Fill(d, rule), start);
    var mineOnly := Areas({b.snakes[0].head}, {});
    var (m, close, fd) := Loop(cells, walk, start, round, b.food, closeDist, mineOnly, 1, None, mineOnly);
    IterateBetween(walk, start, round, m);
    (Iterate(round, start, m), close, if fd.Some? then fd.value else d.w)
  }
}

=== FILE: gamestate.dfy ===
/**
 * `Bitboard::new` and `Bitboard::from_gamestate`: building the bitboard from
 * the game state the server sends. The parsed request is modelled as a
 * record; the transposition-table id it draws from the global table is a
 * parameter.
 */
module Gamestate {
  import opened Common
  import opened Grid
  import opened Moves
  import opened Bitboard

  datatype Coord = Coord(x: int, y: int)

  datatype ApiSnake = ApiSnake(id: string, health: int, length: int, head: Coord, body: seq<Coord>)

  /**
   * The request: `rulesetName` is None when the name is not a string;
   * `settings` is None without a settings object, Some(None) when it has no
   * integer hazard damage.
   */
  datatype GameState = GameState(
    rulesetName: Option<string>,
    settings: Option<Option<int>>,
    turn: int,
    food: seq<Coord>,
    hazards: seq<Coord>,
    snakes: seq<ApiSnake>,
    youId: string)

  /** `Bitboard::new`: empty layers, `count` zeroed snakes, hazard damage 14. */
  function NewBoard(count: nat): (b: Board)
    ensures |b.snakes| == count
    ensures forall i :: 0 <= i < count ==> IsDead(b.snakes[i])
    ensures b.bodies.occupied == {} && b.food == {} && b.hazards == {}
    ensures b.hazardDmg == 14 && b.ruleset == Standard && b.turn == 0
  {
    Board(Layers({}, {}, {}), seq(count, _ => Snake(0, 0, 0, 0, 0)), {}, {},
          Standard, 14, 0, 0, 0, StandardMode)
  }

  function CellOf(d: Dims, c: Coord): int { d.w * c.y + c.x }

  predicate CoordOnBoard(d: Dims, c: Coord) { 0 <= c.x < d.w && 0 <= c.y < d.h }

  /** The ruleset named in the request; wrapped with hazards spirals around the first hazard. */
  function RulesetOf(d: Dims, name: Option<string>, hazards: seq<Coord>): (r: Ruleset)
    ensures name == Some("royale") <==> r == Royale
    ensures name == Some("constrictor") <==> r == Constrictor
    ensures name == Some("wrapped") && |hazards| == 0 <==> r == Wrapped
    ensures name == Some("wrapped") && |hazards| != 0 <==> r.WrappedSpiral?
    ensures r.WrappedSpiral? ==> r.center == U16(hazards[0].x + U16(hazards[0].y * d.w))
    ensures r == Standard <==> name !in {Some("wrapped"), Some("royale"), Some("constrictor")}
  {
    match name
    case Some(n) =>
      if n == "wrapped" then
        if |hazards| != 0 then WrappedSpiral(U16(hazards[0].x + U16(hazards[0].y * d.w))) else Wrapped
      else if n == "royale" then Royale
      else if n == "constrictor" then Constrictor
      else Standard
    case None => Standard
  }

  /** The hazard damage: the setting as an `i8` when present, 14 otherwise. */
  function HazardDmgOf(settings: Option<Option<int>>): int
  {
    match settings
    case Some(Some(x)) => I8(x)
    case _ => 14
  }

  /** The conditions under which the part at `pos`, whose successor towards the head is `prev`, gets the low and the high direction bit. */
  predicate LowBit(d: Dims, pos: int, prev: int)
  {
    pos == prev + 1 || pos == prev + d.w || prev == pos + d.w - 1 || prev == pos + (d.h - 1) * d.w
  }

  predicate HighBit(d: Dims, pos: int, prev: int)
  {
    prev == pos + 1 || prev + 1 == pos || prev == pos + d.w - 1 || prev + d.w - 1 == pos
  }

  /**
   * The direction bits written for a body part are those of the move leading
   * from it to the next part towards the head, on boards at least three
   * cells wide and high (on a board two cells wide or high a step and its
   * reverse are the same offset, and the encoding is ambiguous).
   */
  lemma DirBitsEncodeMove(d: Dims, x: int, pos: int)
    requires d.w >= 3 && d.h >= 3 && 0 <= x < 4 && OnBoard(d, pos)
    requires d.wrap || StaysOnBoard(d, x, pos)
    ensures LowBit(d, pos, pos + Offset(d, pos, x)) <==> x % 2 == 1
    ensures HighBit(d, pos, pos + Offset(d, pos, x)) <==> x / 2 == 1
  {
    MulMono(2, d.h - 1, d.w, d.w);
    assert (d.h - 1) * d.w >= 2 * d.w;
    if !d.wrap {
      WrappingAgreesInside(d, x, pos);
    }
  }

  /**
   * The body loop for one snake: each part after the head either repeats the
   * previous distinct cell and counts as curled, or is marked occupied with
   * the direction bits towards that cell.
   */
  function BodyWalk(d: Dims, l: Layers, prev: int, cells: seq<int>, curled: int): (r: (Layers, int))
    requires prev in l.occupied
    ensures r.0.occupied == l.occupied + (set c | c in cells)
    ensures r.1 >= curled
    decreases |cells|
  {
    if |cells| == 0 then (l, curled)
    else
      var pos := cells[0];
      assert (set c | c in cells) == {pos} + (set c | c in cells[1..]);
      if pos == prev then BodyWalk(d, l, prev, cells[1..], curled + 1)
      else
        var l1 := Layers(
          l.occupied + {pos},
          if LowBit(d, pos, prev) then l.dirLow + {pos} else l.dirLow,
          if HighBit(d, pos, prev) then l.dirHigh + {pos} else l.dirHigh);
        BodyWalk(d, l1, pos, cells[1..], curled)
  }

  /** The number of cells that repeat the one before them. */
  function Repeats(cells: seq<int>): nat
  {
    if |cells| < 2 then 0
    else Repeats(cells[..|cells| - 1]) + (if cells[|cells| - 1] == cells[|cells| - 2] then 1 else 0)
  }

  /** The curled count is the number of repeated consecutive cells of the snake, head included. */
  lemma {:induction false} BodyWalkCountsRepeats(d: Dims, l: Layers, prev: int, cells: seq<int>, curled: int)
    requires prev in l.occupied
    ensures BodyWalk(d, l, prev, cells, curled).1 == curled + Repeats([prev] + cells)
    decreases |cells|
  {
    if |cells| > 0 {
      var pos := cells[0];
      var l1 := Layers(
          l.occupied + {pos},
          if LowBit(d, pos, prev) then l.dirLow + {pos} else l.dirLow,
          if HighBit(d, pos, prev) then l.dirHigh + {pos} else l.dirHigh);
      assert cells == [pos] + cells[1..];
      if pos == prev {
        BodyWalkCountsRepeats(d, l, prev, cells[1..], curled + 1);
      } else {
        BodyWalkCountsRepeats(d, l1, pos, cells[1..], curled);
      }
      RepeatsCons(prev, cells);
      if |cells| > 1 {
        RepeatsCons(pos, cells[1..]);
      }
    }
  }

  /** Repeats of a sequence, counted from its front. */
  lemma {:induction false} RepeatsCons(a: int, cells: seq<int>)
    requires |cells| > 0
    ensures Repeats([a] + cells) == (if cells[0] == a then 1 else 0) + Repeats(cells)
    decreases |cells|
  {
    if |cells| > 1 {
      var s := [a] + cells;
      assert s[..|s| - 1] == [a] + cells[..|cells| - 1];
      RepeatsCons(a, cells[..|cells| - 1]);
    }
  }

  /** The number of snakes other than "you" among the first `k + 1` listed. */
  function OthersUpTo(snakes: seq<ApiSnake>, you: string, k: int): (r: nat)
    requires -1 <= k < |snakes|
    ensures r <= k + 1
    decreases k + 1
  {
    if k < 0 then 0
    else OthersUpTo(snakes, you, k - 1) + (if snakes[k].id != you then 1 else 0)
  }

  /** The board slot of the `k`-th listed snake: 0 for "you", the next free index otherwise. */
  function Slot(st: GameState, k: int): int
    requires 0 <= k < |st.snakes|
  {
    if st.snakes[k].id == st.youId then 0 else OthersUpTo(st.snakes, st.youId, k)
  }

  /** What `from_gamestate` needs of the request to avoid a panic and out-of-range cells. */
  predicate WellFormed(d: Dims, count: nat, st: GameState)
  {
    Size(d) <= 65536
    && (forall k :: 0 <= k < |st.snakes| ==> Slot(st, k) < count && |st.snakes[k].body| > 0)
    && (forall k, c :: 0 <= k < |st.snakes| && c in st.snakes[k].body ==> CoordOnBoard(d, c))
    && (forall k :: 0 <= k < |st.snakes| ==> CoordOnBoard(d, st.snakes[k].head))
  }

  /** One snake of the request written into its slot. */
  function AddSnake(d: Dims, b: Board, st: GameState, k: int): (r: Board)
    requires 0 <= k < |st.snakes| && |st.snakes[k].body| > 0 && 0 <= Slot(st, k) < |b.snakes|
    ensures |r.snakes| == |b.snakes|
    ensures forall i :: 0 <= i < |b.snakes| && i != Slot(st, k) ==> r.snakes[i] == b.snakes[i]
    ensures r == b.(bodies := r.bodies, snakes := r.snakes)
  {
    var a := st.snakes[k];
    var n := Slot(st, k);
    var head := U16(CellOf(d, a.head));
    var tail := U16(CellOf(d, a.body[|a.body| - 1]));
    var cells := seq(|a.body| - 1, i requires 0 <= i < |a.body| - 1 => U16(CellOf(d, a.body[i + 1])));
    var l0 := b.bodies.(occupied := b.bodies.occupied + {head});
    var (l, curled) := BodyWalk(d, l0, head, cells, b.snakes[n].curled);
    var l2 := if curled == 0 && b.ruleset != Constrictor then l.(occupied := l.occupied - {tail}) else l;
    b.(bodies := l2, snakes := b.snakes[n := Snake(head, tail, U8(a.length), I8(a.health), U8(curled))])
  }

  /** Every snake from `k` on has a body and a slot among `n`. */
  predicate SlotsFit(st: GameState, k: int, n: int)
  {
    forall j :: 0 <= k <= j < |st.snakes| ==> |st.snakes[j].body| > 0 && 0 <= Slot(st, j) < n
  }

  /** The record `AddSnake` writes for the `k`-th listed snake. */
  lemma AddSnakeRecord(d: Dims, b: Board, st: GameState, k: int)
    requires 0 <= k < |st.snakes| && |st.snakes[k].body| > 0 && 0 <= Slot(st, k) < |b.snakes|
    ensures var a, s := st.snakes[k], AddSnake(d, b, st, k).snakes[Slot(st, k)];
      s.head == U16(CellOf(d, a.head)) && s.tail == U16(CellOf(d, a.body[|a.body| - 1]))
      && s.health == I8(a.health) && s.length == U8(a.length)
  {
  }

  function AddSnakesFrom(d: Dims, b: Board, st: GameState, k: int): (r: Board)
    requires 0 <= k <= |st.snakes|
    requires SlotsFit(st, k, |b.snakes|)
    ensures |r.snakes| == |b.snakes|
    ensures r == b.(bodies := r.bodies, snakes := r.snakes)
    decreases |st.snakes| - k
  {
    if k == |st.snakes| then b else AddSnakesFrom(d, AddSnake(d, b, st, k), st, k + 1)
  }

  /**
   * A slot that no snake from `k` on writes keeps its record; the slot of the
   * last snake to write it holds that snake's record.
   */
  lemma {:induction false} AddSnakesFromKeeps(d: Dims, b: Board, st: GameState, k: int, i: int)
    requires 0 <= k <= |st.snakes| && 0 <= i < |b.snakes|
    requires SlotsFit(st, k, |b.snakes|)
    requires forall j :: k <= j < |st.snakes| ==> Slot(st, j) != i
    ensures AddSnakesFrom(d, b, st, k).snakes[i] == b.snakes[i]
    decreases |st.snakes| - k
  {
    if k < |st.snakes| {
      AddSnakesFromKeeps(d, AddSnake(d, b, st, k), st, k + 1, i);
    }
  }

  /** Snakes other than "you" get increasing slots. */
  lemma OthersIncrease(snakes: seq<ApiSnake>, you: string, k: int, j: int)
    requires 0 <= k < j < |snakes| && snakes[j].id != you
    ensures OthersUpTo(snakes, you, k) < OthersUpTo(snakes, you, j)
  {
    OthersMono(snakes, you, k, j - 1);
  }

  lemma {:induction false} OthersMono(snakes: seq<ApiSnake>, you: string, k: int, j: int)
    requires -1 <= k <= j < |snakes|
    ensures OthersUpTo(snakes, you, k) <= OthersUpTo(snakes, you, j)
    decreases j - k
  {
    if k < j {
      OthersMono(snakes, you, k, j - 1);
    }
  }

  /** `from_gamestate`. */
  function FromGamestate(d: Dims, count: nat, st: GameState, ttId: int): (b: Board)
    requires WellFormed(d, count, st)
    ensures |b.snakes| == count
    ensures b.ruleset == RulesetOf(d, st.rulesetName, st.hazards)
    ensures b.turn == U16(st.turn) && b.ttId == ttId
    ensures b.hazardDmg == HazardDmgOf(st.settings)
    ensures forall c :: c in st.food ==> CellOf(d, c) in b.food
    ensures forall p :: p in b.food ==> exists c :: c in st.food && p == CellOf(d, c)
    ensures forall c :: c in st.hazards ==> CellOf(d, c) in b.hazards
    ensures forall p :: p in b.hazards ==> exists c :: c in st.hazards && p == CellOf(d, c)
  {
    AddSnakesFrom(d, Initial(d, count, st, ttId), st, 0)
  }

  /** The board before any snake is written: the settings, food and hazards of the request. */
  function Initial(d: Dims, count: nat, st: GameState, ttId: int): (b: Board)
    ensures |b.snakes| == count
  {
    NewBoard(count).(ruleset := RulesetOf(d, st.rulesetName, st.hazards), ttId := ttId,
            turn := U16(st.turn), hazardDmg := HazardDmgOf(st.settings),
            food := set c | c in st.food :: CellOf(d, c),
            hazards := set c | c in st.hazards :: CellOf(d, c))
  }

  /**
   * "You" ends up in slot 0 and every other listed snake in its own slot,
   * holding its head, tail, health and length, when "you" is listed once.
   */
  lemma FromGamestateSlots(d: Dims, count: nat, st: GameState, ttId: int, k: int)
    requires WellFormed(d, count, st) && 0 <= k < |st.snakes|
    requires forall j :: 0 <= j < |st.snakes| && j != k && st.snakes[k].id == st.youId ==> st.snakes[j].id != st.youId
    ensures st.snakes[k].id == st.youId ==> Slot(st, k) == 0
    ensures st.snakes[k].id != st.youId ==> Slot(st, k) >= 1
    ensures var a, s := st.snakes[k], FromGamestate(d, count, st, ttId).snakes[Slot(st, k)];
      s.head == CellOf(d, a.head) && s.tail == CellOf(d, a.body[|a.body| - 1])
      && s.health == I8(a.health) && s.length == U8(a.length)
  {
    SlotsAfter(st, k);
    var b0 := Initial(d, count, st, ttId);
    assert SlotsFit(st, 0, |b0.snakes|);
    AddedRecord(d, b0, st, k);
    var a := st.snakes[k];
    CellInRange(d, a.head);
    CellInRange(d, a.body[|a.body| - 1]);
  }

  /** When no later snake shares its slot, the `k`-th snake's record survives the writes of all snakes. */
  lemma AddedRecord(d: Dims, b: Board, st: GameState, k: int)
    requires 0 <= k < |st.snakes| && SlotsFit(st, 0, |b.snakes|)
    requires forall j :: k < j < |st.snakes| ==> Slot(st, j) != Slot(st, k)
    ensures var a, s := st.snakes[k], AddSnakesFrom(d, b, st, 0).snakes[Slot(st, k)];
      s.head == U16(CellOf(d, a.head)) && s.tail == U16(CellOf(d, a.body[|a.body| - 1]))
      && s.health == I8(a.health) && s.length == U8(a.length)
  {
    PrefixAdd(d, b, st, k);
    var p := Prefix(d, b, st, k);
    LastWrite(d, p, st, k);
    AddSnakeRecord(d, p, st, k);
  }

  /** The record the `k`-th snake writes survives the later snakes when none of them shares its slot. */
  lemma LastWrite(d: Dims, b: Board, st: GameState, k: int)
    requires 0 <= k < |st.snakes| && SlotsFit(st, k, |b.snakes|)
    requires forall j :: k < j < |st.snakes| ==> Slot(st, j) != Slot(st, k)
    ensures AddSnakesFrom(d, b, st, k).snakes[Slot(st, k)] == AddSnake(d, b, st, k).snakes[Slot(st, k)]
  {
    var bk1 := AddSnake(d, b, st, k);
    assert AddSnakesFrom(d, b, st, k) == AddSnakesFrom(d, bk1, st, k + 1);
    AddSnakesFromKeeps(d, bk1, st, k + 1, Slot(st, k));
  }

  /** The later snakes take other slots than the `k`-th, which takes slot 0 exactly when it is "you". */
  lemma SlotsAfter(st: GameState, k: int)
    requires 0 <= k < |st.snakes|
    requires forall j :: 0 <= j < |st.snakes| && j != k && st.snakes[k].id == st.youId ==> st.snakes[j].id != st.youId
    ensures st.snakes[k].id == st.youId ==> Slot(st, k) == 0
    ensures st.snakes[k].id != st.youId ==> Slot(st, k) >= 1
    ensures forall j :: k < j < |st.snakes| ==> Slot(st, j) != Slot(st, k)
  {
    var n := Slot(st, k);
    forall j | k < j < |st.snakes|
      ensures Slot(st, j) != n
    {
      if st.snakes[j].id != st.youId {
        if st.snakes[k].id != st.youId {
          OthersIncrease(st.snakes, st.youId, k, j);
        } else {
          OthersMono(st.snakes, st.youId, -1, j);
        }
      }
    }
    if st.snakes[k].id != st.youId {
      OthersMono(st.snakes, st.youId, -1, k - 1);
    }
  }

  /** A cell of a board of at most 2^16 cells fits in a `u16`. */
  lemma CellInRange(d: Dims, c: Coord)
    requires CoordOnBoard(d, c) && Size(d) <= 65536
    ensures 0 <= CellOf(d, c) < 65536
  {
    assert CellOf(d, c) == c.y * d.w + c.x;
    CellOnBoard(d, c.y, c.x);
  }

  /** The board after the first `k` snakes. */
  function Prefix(d: Dims, b: Board, st: GameState, k: int): (r: Board)
    requires 0 <= k <= |st.snakes|
    requires SlotsFit(st, 0, |b.snakes|)
    ensures |r.snakes| == |b.snakes|
    decreases k
  {
    if k == 0 then b else AddSnake(d, Prefix(d, b, st, k - 1), st, k - 1)
  }

  /** Adding all snakes is adding the first `k`, then the rest. */
  lemma {:induction false} PrefixAdd(d: Dims, b: Board, st: GameState, k: int)
    requires 0 <= k <= |st.snakes|
    requires SlotsFit(st, 0, |b.snakes|)
    ensures AddSnakesFrom(d, b, st, 0) == AddSnakesFrom(d, Prefix(d, b, st, k), st, k)
    decreases k
  {
    if k > 0 {
      PrefixAdd(d, b, st, k - 1);
    }
  }
}

=== FILE: grid.dfy ===
/**
 * Board geometry. Cells of a `w` by `h` board are numbered row by row from
 * the bottom-left corner: cell `p` sits in row `p / w` (0 at the bottom) and
 * column `p % w` (0 at the left). The lemmas here are the division facts the
 * rest of the model leans on.
 */
module Grid {

  datatype Geometry = Geometry(w: int, h: int, wrap: bool)

  /** Board dimensions and the wrap-around flag; every board is at least 2 by 2. */
  type Dims = g: Geometry | g.w >= 2 && g.h >= 2 witness Geometry(2, 2, false)

  function Size(d: Dims): (n: int)
    ensures n >= 4
  {
    MulMono(2, d.w, 2, d.h);
    d.w * d.h
  }

  predicate OnBoard(d: Dims, p: int) { 0 <= p < Size(d) }

  function Row(d: Dims, p: int): int { p / d.w }

  function Col(d: Dims, p: int): int { p % d.w }

  lemma MulMono(a: int, b: int, c: int, e: int)
    requires 0 <= a <= b && 0 <= c <= e
    ensures a * c <= b * e
  {
    assert a * c <= b * c;
    assert b * c <= b * e;
  }

  /** Division of `r * w + c` by `w` recovers the row and the column. */
  lemma CellDivMod(r: int, c: int, w: int)
    requires w > 0 && 0 <= c < w
    ensures (r * w + c) / w == r
    ensures (r * w + c) % w == c
  {
    var p := r * w + c;
    var q := p / w;
    var m := p % w;
    assert q * w + m == r * w + c;
    assert (q - r) * w == c - m;
    MulUnit(q - r, w);
  }

  lemma MulUnit(k: int, w: int)
    requires w > 0
    ensures k >= 1 ==> k * w >= w
    ensures k <= -1 ==> k * w <= -w
  {
  }

  /** A cell is rebuilt from its row and column. */
  lemma RowCol(d: Dims, p: int)
    ensures p == Row(d, p) * d.w + Col(d, p)
    ensures 0 <= Col(d, p) < d.w
  {
  }

  /** A cell of the board lies in one of its `h` rows. */
  lemma RowBound(d: Dims, p: int)
    requires OnBoard(d, p)
    ensures 0 <= Row(d, p) < d.h
  {
    RowCol(d, p);
    MulUnit(Row(d, p), d.w);
    if Row(d, p) >= d.h {
      MulMono(d.h, Row(d, p), d.w, d.w);
    }
  }

  /** The cell at row `r` and column `c` is on the board exactly when both are in range. */
  lemma CellOnBoard(d: Dims, r: int, c: int)
    requires 0 <= c < d.w
    ensures OnBoard(d, r * d.w + c) <==> 0 <= r < d.h
  {
    CellDivMod(r, c, d.w);
    if 0 <= r < d.h {
      assert r * d.w <= (d.h - 1) * d.w;
    } else if OnBoard(d, r * d.w + c) {
      RowBound(d, r * d.w + c);
    }
  }

  /** Moving by a whole number of rows keeps the column. */
  lemma ShiftRows(d: Dims, p: int, k: int)
    ensures Col(d, p + k * d.w) == Col(d, p)
    ensures Row(d, p + k * d.w) == Row(d, p) + k
  {
    RowCol(d, p);
    assert p + k * d.w == (Row(d, p) + k) * d.w + Col(d, p);
    CellDivMod(Row(d, p) + k, Col(d, p), d.w);
  }

  /** Moving within a row keeps the row. */
  lemma ShiftCols(d: Dims, p: int, k: int)
    requires 0 <= Col(d, p) + k < d.w
    ensures Row(d, p + k) == Row(d, p)
    ensures Col(d, p + k) == Col(d, p) + k
  {
    RowCol(d, p);
    assert p + k == Row(d, p) * d.w + (Col(d, p) + k);
    CellDivMod(Row(d, p), Col(d, p) + k, d.w);
  }

  /** Two cells with the same row and column are the same cell. */
  lemma SameCell(d: Dims, p: int, q: int)
    requires Row(d, p) == Row(d, q) && Col(d, p) == Col(d, q)
    ensures p == q
  {
    RowCol(d, p);
    RowCol(d, q);
  }

  /** A cell lies below row `k` exactly when its number is below `k * w`. */
  lemma RowLess(d: Dims, p: int, k: int)
    requires p >= 0
    ensures p < k * d.w <==> Row(d, p) < k
  {
    var q, c := Row(d, p), Col(d, p);
    RowCol(d, p);
    if q < k {
      assert (k - q - 1) * d.w >= 0;
    } else {
      assert (q - k) * d.w >= 0;
    }
  }
}

=== FILE: mailbox.dfy ===
/**
 * The search of the mailbox board: `children`, which expands a board into
 * my moves and, for each, the boards after every combination of enemy
 * moves, and the pure `alphabeta` of `MailBoxBoard` over them. The mailbox
 * `Board` and `MailBoxBoard` share `children`, `is_terminal` and `eval`.
 * Every member takes a `Rule`: with `AsWritten`, `children` judges steps by
 * the engine's `checked_move_dest` and runs the engine's `standard`; with
 * `Intended`, by the corrected edge test and health that does not wrap.
 */
module Mailbox {
  import opened Common
  import opened Types
  import opened MailboxRules

  // ---------------------------------------------------------------------
  // Expanding a board

  /** The order in which `children` tries the moves. */
  const ORDER: seq<Move> := [Up, Down, Left, Right]

  /** A board the search can expand: well-formed, with at most one snake of mine and fewer than 128 snakes. */
  predicate Searchable(rule: Rule, b: Board)
  {
    Expandable(rule, b) && Mine(b.snakes) <= 1 && |b.snakes| < 128
  }

  /**
   * A well-formed board on which every cell has a legal step: as written,
   * Down is refused from cell 1 of a board one cell wide, so on a board of
   * one column and two rows the top cell has none.
   */
  predicate Expandable(rule: Rule, b: Board)
  {
    WellFormed(b) && (rule == AsWritten ==> b.width >= 2 || |b.board| >= 3)
  }

  /** `checked_move_dest` lets snake `si` step by `mv`. */
  predicate Legal(rule: Rule, b: Board, si: int, mv: Move)
    requires WellFormed(b) && 0 <= si < |b.snakes|
  {
    CheckedMoveDestBy(rule, b.width, |b.board|, mv, b.snakes[si].body[0]).Some?
  }

  /** The step is legal and its cell holds no head and no body. */
  predicate Free(rule: Rule, b: Board, si: int, mv: Move)
    requires WellFormed(b) && 0 <= si < |b.snakes|
  {
    Legal(rule, b, si, mv) && b.board[CheckedMoveDestBy(rule, b.width, |b.board|, mv, b.snakes[si].body[0]).value] & (HEAD | BODY) == 0
  }

  /** A legal step lands where `move_dest` puts it. */
  lemma LegalDest(rule: Rule, b: Board, si: int, mv: Move)
    requires WellFormed(b) && 0 <= si < |b.snakes| && Legal(rule, b, si, mv)
    ensures 0 <= MoveDest(mv, b.snakes[si].body[0], b.width) < |b.board|
  {
    assert CheckedMoveDestBy(rule, b.width, |b.board|, mv, b.snakes[si].body[0]).value == MoveDest(mv, b.snakes[si].body[0], b.width);
  }

  /** The free moves among the first `n` of the order, in order. */
  function FreeMoves(rule: Rule, b: Board, si: int, n: nat): (r: seq<Move>)
    requires WellFormed(b) && 0 <= si < |b.snakes| && n <= 4
    ensures |r| <= n
    ensures forall mv :: mv in r <==> mv in ORDER[..n] && Free(rule, b, si, mv)
  {
    if n == 0 then []
    else
      var rest := FreeMoves(rule, b, si, n - 1);
      assert ORDER[..n] == ORDER[..n - 1] + [ORDER[n - 1]];
      rest + (if Free(rule, b, si, ORDER[n - 1]) then [ORDER[n - 1]] else [])
  }

  /** `some_legal_move`: the last legal move among the first `n` of the order, Up when there is none. */
  function LastLegal(rule: Rule, b: Board, si: int, n: nat): (mv: Move)
    requires WellFormed(b) && 0 <= si < |b.snakes| && n <= 4
    ensures (exists k :: 0 <= k < n && Legal(rule, b, si, ORDER[k])) ==> Legal(rule, b, si, mv)
  {
    if n == 0 then Up
    else if Legal(rule, b, si, ORDER[n - 1]) then ORDER[n - 1]
    else LastLegal(rule, b, si, n - 1)
  }

  /** On an expandable board every cell has at least one legal step. */
  lemma SomeLegal(rule: Rule, b: Board, si: int)
    requires Expandable(rule, b) && 0 <= si < |b.snakes|
    ensures exists k :: 0 <= k < 4 && Legal(rule, b, si, ORDER[k])
  {
    var from, w, len := b.snakes[si].body[0], b.width, |b.board|;
    if w >= 2 {
      if from % w > 0 {
        assert CheckedMoveDestBy(rule, w, len, Left, from).Some?;
        assert Legal(rule, b, si, ORDER[2]);
      } else {
        assert (from + 1) % w > from % w by { EdgeTests(w, len, from); }
        assert CheckedMoveDestBy(rule, w, len, Right, from).Some?;
        assert Legal(rule, b, si, ORDER[3]);
      }
    } else if from + w < len {
      assert CheckedMoveDestBy(rule, w, len, Up, from).Some?;
      assert Legal(rule, b, si, ORDER[0]);
    } else {
      assert from == len - 1 && from >= w && (rule == AsWritten ==> from > w);
      assert CheckedMoveDestBy(rule, w, len, Down, from).Some?;
      assert Legal(rule, b, si, ORDER[1]);
    }
  }

  /**
   * The two rules part at the leftmost cell of the second row: the engine
   * refuses Down from there, where the corrected test sends the snake to
   * cell 0, a free move when that cell holds no head or body.
   */
  lemma DownFromRowOne(b: Board, si: int)
    requires WellFormed(b) && 0 <= si < |b.snakes| && b.snakes[si].body[0] == b.width
    requires b.board[0] & (HEAD | BODY) == 0
    ensures !Legal(AsWritten, b, si, Down) && Free(Intended, b, si, Down)
    ensures Down !in FreeMoves(AsWritten, b, si, 4) && Down in FreeMoves(Intended, b, si, 4)
  {
    assert ORDER[..4][1] == Down;
  }

  /** The moves `children` gives snake `si`: its free moves, or for an enemy with none, its last legal move. */
  function Options(rule: Rule, b: Board, si: int): (r: seq<Move>)
    requires Expandable(rule, b) && 0 <= si < |b.snakes|
    ensures |r| <= 4 && forall mv :: mv in r ==> Legal(rule, b, si, mv)
    ensures b.snakes[si].isEnemy ==> |r| >= 1
    ensures forall mv :: Free(rule, b, si, mv) ==> mv in r
  {
    var free := FreeMoves(rule, b, si, 4);
    assert ORDER[..4] == ORDER;
    assert forall mv :: mv in ORDER by {
      forall mv: Move ensures mv in ORDER { assert ORDER[MoveSlot(mv)] == mv; }
    }
    if b.snakes[si].isEnemy && |free| == 0 then
      SomeLegal(rule, b, si);
      [LastLegal(rule, b, si, 4)]
    else free
  }

  /**
   * One iteration of the `flat_map`: for each move in turn, every
   * combination so far with that move of snake `si` appended.
   */
  function Spread(cs: seq<seq<(int, Move)>>, si: int, ms: seq<Move>): (r: seq<seq<(int, Move)>>)
    ensures |r| == |cs| * |ms|
    ensures forall x: seq<(int, Move)> :: x in r ==> |x| >= 1 && x[..|x| - 1] in cs && x[|x| - 1].0 == si && x[|x| - 1].1 in ms
  {
    if |ms| == 0 then []
    else
      var here := seq(|cs|, k requires 0 <= k < |cs| => cs[k] + [(si, ms[0])]);
      var rest := Spread(cs, si, ms[1..]);
      assert |cs| * |ms| == |cs| + |cs| * (|ms| - 1);
      forall x | x in here
        ensures |x| >= 1 && x[..|x| - 1] in cs && x[|x| - 1] == (si, ms[0])
      {
        var k :| 0 <= k < |cs| && here[k] == x;
        assert x[..|x| - 1] == cs[k];
      }
      here + rest
  }

  /** Conversely, every combination so far followed by every move of snake `si` is among the spread ones. */
  lemma {:induction false} SpreadCovers(cs: seq<seq<(int, Move)>>, si: int, ms: seq<Move>, c: seq<(int, Move)>, mv: Move)
    requires c in cs && mv in ms
    ensures c + [(si, mv)] in Spread(cs, si, ms)
    decreases |ms|
  {
    var here := seq(|cs|, k requires 0 <= k < |cs| => cs[k] + [(si, ms[0])]);
    assert Spread(cs, si, ms) == here + Spread(cs, si, ms[1..]);
    if mv == ms[0] {
      var k :| 0 <= k < |cs| && cs[k] == c;
      assert here[k] == c + [(si, mv)];
    } else {
      assert mv in ms[1..];
      SpreadCovers(cs, si, ms[1..], c, mv);
    }
  }

  /** The number of enemy move combinations over snakes [0, n): the product of the enemies' option counts. */
  function Count(rule: Rule, b: Board, n: nat): (r: nat)
    requires Expandable(rule, b) && n <= |b.snakes|
    ensures r >= 1
  {
    if n == 0 then 1
    else if b.snakes[n - 1].isEnemy then Count(rule, b, n - 1) * |Options(rule, b, n - 1)|
    else Count(rule, b, n - 1)
  }

  /**
   * A combination of moves for the enemies below `n`: every entry is an
   * enemy's option, and every enemy below `n` has an entry.
   */
  predicate Choice(rule: Rule, b: Board, x: seq<(int, Move)>, n: int)
    requires Expandable(rule, b) && n <= |b.snakes|
  {
    (forall k :: 0 <= k < |x| ==>
       0 <= x[k].0 < n && b.snakes[x[k].0].isEnemy && x[k].1 in Options(rule, b, x[k].0)) &&
    (forall j :: 0 <= j < n && b.snakes[j].isEnemy ==> exists k :: 0 <= k < |x| && x[k].0 == j)
  }

  /** `enemy_moves` after the first `n` snakes: as many combinations as the product of option counts, each a choice. */
  function Combos(rule: Rule, b: Board, n: nat): (r: seq<seq<(int, Move)>>)
    requires Expandable(rule, b) && n <= |b.snakes|
    ensures |r| == Count(rule, b, n)
    ensures forall x :: x in r ==> Choice(rule, b, x, n)
  {
    if n == 0 then [[]]
    else
      var prev := Combos(rule, b, n - 1);
      if b.snakes[n - 1].isEnemy then
        ExtendAll(rule, b, prev, n);
        Spread(prev, n - 1, Options(rule, b, n - 1))
      else
        WidenAll(rule, b, prev, n);
        prev
  }

  /** Appending each option of enemy `n - 1` to each choice for the snakes below it gives choices for the snakes below `n`. */
  lemma ExtendAll(rule: Rule, b: Board, prev: seq<seq<(int, Move)>>, n: int)
    requires Expandable(rule, b) && 1 <= n <= |b.snakes| && b.snakes[n - 1].isEnemy
    requires forall x :: x in prev ==> Choice(rule, b, x, n - 1)
    ensures forall x :: x in Spread(prev, n - 1, Options(rule, b, n - 1)) ==> Choice(rule, b, x, n)
  {
    var ms := Options(rule, b, n - 1);
    forall x: seq<(int, Move)> | x in Spread(prev, n - 1, ms)
      ensures Choice(rule, b, x, n)
    {
      Extend(rule, b, x, n);
    }
  }

  /** A choice for the snakes below `n - 1` followed by an option of enemy `n - 1` is a choice for the snakes below `n`. */
  lemma Extend(rule: Rule, b: Board, x: seq<(int, Move)>, n: int)
    requires Expandable(rule, b) && 1 <= n <= |b.snakes| && b.snakes[n - 1].isEnemy
    requires |x| >= 1 && Choice(rule, b, x[..|x| - 1], n - 1)
    requires x[|x| - 1].0 == n - 1 && x[|x| - 1].1 in Options(rule, b, n - 1)
    ensures Choice(rule, b, x, n)
  {
    var c := x[..|x| - 1];
    forall k | 0 <= k < |c|
      ensures x[k] == c[k]
    {
    }
    forall j | 0 <= j < n && b.snakes[j].isEnemy
      ensures exists k :: 0 <= k < |x| && x[k].0 == j
    {
      if j < n - 1 {
        var k :| 0 <= k < |c| && c[k].0 == j;
        assert x[k].0 == j;
      } else {
        assert x[|c|].0 == j;
      }
    }
  }

  /** When snake `n - 1` is mine, the choices for the snakes below it are choices for the snakes below `n`. */
  lemma WidenAll(rule: Rule, b: Board, prev: seq<seq<(int, Move)>>, n: int)
    requires Expandable(rule, b) && 1 <= n <= |b.snakes| && !b.snakes[n - 1].isEnemy
    requires forall x :: x in prev ==> Choice(rule, b, x, n - 1)
    ensures forall x :: x in prev ==> Choice(rule, b, x, n)
  {
    forall x | x in prev
      ensures Choice(rule, b, x, n)
    {
      Widen(rule, b, x, n);
    }
  }

  /** When snake `n - 1` is mine, a choice for the snakes below `n - 1` is one for the snakes below `n`. */
  lemma Widen(rule: Rule, b: Board, x: seq<(int, Move)>, n: int)
    requires Expandable(rule, b) && 1 <= n <= |b.snakes| && !b.snakes[n - 1].isEnemy
    requires Choice(rule, b, x, n - 1)
    ensures Choice(rule, b, x, n)
  {
  }

  /** The last snake of mine below `n`, whose free moves `children` takes as mine. */
  function MyIndex(b: Board, n: nat): (r: Option<int>)
    requires n <= |b.snakes|
    ensures r.Some? ==> 0 <= r.value < n && !b.snakes[r.value].isEnemy
    ensures r.None? ==> forall i :: 0 <= i < n ==> b.snakes[i].isEnemy
  {
    if n == 0 then None
    else if !b.snakes[n - 1].isEnemy then Some(n - 1)
    else MyIndex(b, n - 1)
  }

  /** A list with at most one snake of mine has at most one index of mine. */
  lemma {:induction false} MineUnique(s: seq<Snake>, i: int, j: int)
    requires Mine(s) <= 1 && 0 <= i < |s| && 0 <= j < |s| && !s[i].isEnemy && !s[j].isEnemy
    ensures i == j
    decreases |s|
  {
    var n := |s| - 1;
    var t := s[..n];
    if i < n && j < n {
      assert t[i] == s[i] && t[j] == s[j];
      MineUnique(t, i, j);
    } else if i < n || j < n {
      var k := if i < n then i else j;
      assert t[k] == s[k];
      MinePositive(t, k);
    }
  }

  /** A list holding a snake of mine counts at least one. */
  lemma {:induction false} MinePositive(s: seq<Snake>, k: int)
    requires 0 <= k < |s| && !s[k].isEnemy
    ensures Mine(s) >= 1
    decreases |s|
  {
    var n := |s| - 1;
    if k < n {
      assert s[..n][k] == s[k];
      MinePositive(s[..n], k);
    }
  }

  /**
   * Every snake's step in an enemy combination with my free move appended
   * stays on the board, so `standard` may run on it.
   */
  lemma ComboSteps(rule: Rule, b: Board, c: seq<(int, Move)>, me: int, mv: Move)
    requires Searchable(rule, b) && 0 <= me < |b.snakes| && !b.snakes[me].isEnemy && Free(rule, b, me, mv)
    requires Choice(rule, b, c, |b.snakes|)
    ensures Steps(b, c + [(me, mv)])
  {
    forall i | 0 <= i < |b.snakes|
      ensures 0 <= MoveDest(MoveOf(c + [(me, mv)], i), b.snakes[i].body[0], b.width) < |b.board|
    {
      ComboStep(rule, b, c, me, mv, i);
      LegalDest(rule, b, i, MoveOf(c + [(me, mv)], i));
    }
  }

  /** Snake `i`'s move in an enemy combination with my free move appended is legal. */
  lemma ComboStep(rule: Rule, b: Board, c: seq<(int, Move)>, me: int, mv: Move, i: int)
    requires Searchable(rule, b) && 0 <= me < |b.snakes| && !b.snakes[me].isEnemy && Free(rule, b, me, mv)
    requires Choice(rule, b, c, |b.snakes|) && 0 <= i < |b.snakes|
    ensures Legal(rule, b, i, MoveOf(c + [(me, mv)], i))
  {
    var x := c + [(me, mv)];
    var k0 := ComboHas(rule, b, c, me, mv, i);
    var m := MoveOf(x, i);
    var k :| 0 <= k < |x| && x[k] == (i, m);
    if k < |c| {
      assert c[k] == (i, m);
    } else {
      assert x[k] == (me, mv);
    }
  }

  /** Every snake has a move in an enemy combination with my move appended. */
  lemma ComboHas(rule: Rule, b: Board, c: seq<(int, Move)>, me: int, mv: Move, i: int) returns (k: int)
    requires Searchable(rule, b) && 0 <= me < |b.snakes| && !b.snakes[me].isEnemy
    requires Choice(rule, b, c, |b.snakes|) && 0 <= i < |b.snakes|
    ensures 0 <= k <= |c| && (c + [(me, mv)])[k].0 == i
  {
    if b.snakes[i].isEnemy {
      k :| 0 <= k < |c| && c[k].0 == i;
    } else {
      MineUnique(b.snakes, i, me);
      k := |c|;
    }
  }

  /** The boards after my move `mv`: `standard` on each enemy combination with my move appended. */
  function Boards(rule: Rule, b: Board, me: int, mv: Move): (r: seq<Board>)
    requires Searchable(rule, b) && 0 <= me < |b.snakes| && !b.snakes[me].isEnemy && Free(rule, b, me, mv)
    ensures |r| == Count(rule, b, |b.snakes|)
    ensures forall k :: 0 <= k < |r| ==> Searchable(rule, r[k]) && |r[k].snakes| <= |b.snakes|
  {
    var cs := Combos(rule, b, |b.snakes|);
    seq(|cs|, k requires 0 <= k < |cs| => Child(rule, b, cs[k], me, mv))
  }

  /** The board after one enemy combination and my move: searchable, with no more snakes. */
  function Child(rule: Rule, b: Board, c: seq<(int, Move)>, me: int, mv: Move): (r: Board)
    requires Searchable(rule, b) && 0 <= me < |b.snakes| && !b.snakes[me].isEnemy && Free(rule, b, me, mv)
    requires Choice(rule, b, c, |b.snakes|)
    ensures Searchable(rule, r) && |r.snakes| <= |b.snakes|
  {
    ComboSteps(rule, b, c, me, mv);
    Standard(rule, b, c + [(me, mv)])
  }

  /** Every child board is searchable. */
  predicate Expanded(rule: Rule, kids: seq<Option<(Move, seq<Board>)>>)
  {
    forall k, j :: 0 <= k < |kids| && kids[k].Some? && 0 <= j < |kids[k].value.1| ==> Searchable(rule, kids[k].value.1[j])
  }

  /** The loop over `my_moves`: each move's boards go to the move's slot. */
  function Fill(rule: Rule, b: Board, me: int, mvs: seq<Move>, ret: seq<Option<(Move, seq<Board>)>>): (r: seq<Option<(Move, seq<Board>)>>)
    requires Searchable(rule, b) && 0 <= me < |b.snakes| && !b.snakes[me].isEnemy
    requires forall mv :: mv in mvs ==> Free(rule, b, me, mv)
    requires |ret| == 4 && Expanded(rule, ret)
    ensures |r| == 4 && Expanded(rule, r)
    ensures forall k :: 0 <= k < 4 ==> (r[k].Some? <==> ret[k].Some? || ORDER[k] in mvs)
    ensures forall k :: 0 <= k < 4 && ORDER[k] in mvs ==> r[k] == Some((ORDER[k], Boards(rule, b, me, ORDER[k])))
    ensures forall k :: 0 <= k < 4 && ORDER[k] !in mvs ==> r[k] == ret[k]
  {
    if |mvs| == 0 then ret
    else
      var mv := mvs[|mvs| - 1];
      var prev := Fill(rule, b, me, mvs[..|mvs| - 1], ret);
      assert forall m :: m in mvs <==> m in mvs[..|mvs| - 1] || m == mv;
      assert ORDER[MoveSlot(mv)] == mv;
      prev[MoveSlot(mv) := Some((mv, Boards(rule, b, me, mv)))]
  }

  /** `my_moves`: the free moves of my snake, none when I have no snake. */
  function MyMoves(rule: Rule, b: Board): seq<Move>
    requires WellFormed(b)
  {
    match MyIndex(b, |b.snakes|)
    case None => []
    case Some(me) => FreeMoves(rule, b, me, 4)
  }

  /**
   * `children`: slot `k` holds move `k` and its boards exactly when it is a
   * free move of mine; each holds one searchable board per enemy move
   * combination, the product of the enemies' move counts, at least one.
   */
  function Children(rule: Rule, b: Board): (r: seq<Option<(Move, seq<Board>)>>)
    requires Searchable(rule, b)
    ensures |r| == 4 && Expanded(rule, r)
    ensures forall k :: 0 <= k < 4 ==> (r[k].Some? <==> ORDER[k] in MyMoves(rule, b))
    ensures forall k :: 0 <= k < 4 && r[k].Some? ==>
      r[k].value.0 == ORDER[k] && |r[k].value.1| == Count(rule, b, |b.snakes|) >= 1
  {
    var none := [None, None, None, None];
    match MyIndex(b, |b.snakes|)
    case None => none
    case Some(me) => Fill(rule, b, me, FreeMoves(rule, b, me, 4), none)
  }

  // ---------------------------------------------------------------------
  // alphabeta

  const SCORE_MIN := -128
  const SCORE_MAX := 127

  /** `is_terminal`. */
  predicate Terminal(b: Board)
  {
    |b.snakes| < 2 || forall i :: 0 <= i < |b.snakes| ==> b.snakes[i].isEnemy
  }

  /** The value `eval` returns: `Types.EvalScore`, which `Types.Eval` computes. */
  function Evaluation(b: Board): (r: int)
    requires |b.snakes| < 128
    ensures SCORE_MIN <= r <= SCORE_MAX
  {
    EvalScore(b)
  }

  /** What `alphabeta` returns: a move, its score and the remaining depth it was reached with. */
  datatype Verdict = Verdict(mv: Move, score: int, depth: int)

  /** The tie-break of `alphabeta`: a higher score, or the same score reached with a smaller remaining depth. */
  predicate Prefer(a: Verdict, b: Verdict)
  {
    a.score > b.score || (a.score == b.score && a.depth < b.depth)
  }

  /** Scores are `i8`s and depths at most `d`. */
  predicate InRange(r: Verdict, d: int)
  {
    SCORE_MIN <= r.score <= SCORE_MAX && 0 <= r.depth <= d
  }

  /**
   * `alphabeta` at depth `d`: the evaluation at depth 0 or on a terminal
   * board; `(Up, i8::MIN, d)` when I have no move; otherwise the best of my
   * moves, each scored by the worst of its boards, searched one level less.
   */
  function AlphaBeta(rule: Rule, b: Board, d: nat, alpha: int, beta: int): (r: Verdict)
    requires Searchable(rule, b)
    ensures InRange(r, d)
    ensures d == 0 || Terminal(b) ==> r == Verdict(Up, Evaluation(b), d)
    ensures d > 0 && !Terminal(b) && MyMoves(rule, b) == [] ==> r == Verdict(Up, SCORE_MIN, d)
    ensures d > 0 && !Terminal(b) ==> r.mv == Up || r.mv in MyMoves(rule, b)
    decreases d, 2, 0
  {
    if d == 0 || Terminal(b) then Verdict(Up, Evaluation(b), d)
    else
      var kids := Children(rule, b);
      var r := MaxLoop(rule, b, d, kids, 0, alpha, beta, Verdict(Up, SCORE_MIN, d));
      assert r.mv != Up ==> exists j :: 0 <= j < 4 && kids[j].Some? && kids[j].value.0 == r.mv;
      r
  }

  /**
   * The loop over my moves from slot `k` on, with the best result so far in
   * `max`: the result is `max` or one it prefers, and its move is `max`'s or
   * one of the moves still to come.
   */
  function MaxLoop(rule: Rule, b: Board, d: nat, kids: seq<Option<(Move, seq<Board>)>>, k: nat,
                   alpha: int, betaInit: int, max: Verdict): (r: Verdict)
    requires d >= 1 && Expanded(rule, kids) && k <= |kids| && InRange(max, d)
    ensures InRange(r, d)
    ensures r == max || Prefer(r, max)
    ensures r.mv == max.mv || exists j :: k <= j < |kids| && kids[j].Some? && kids[j].value.0 == r.mv
    ensures (forall j :: k <= j < |kids| ==> kids[j].None?) ==> r == max
    decreases d, 1, |kids| - k
  {
    if k == |kids| then max
    else match kids[k]
      case None => MaxLoop(rule, b, d, kids, k + 1, alpha, betaInit, max)
      case Some((mv, positions)) =>
        var low := MinLoop(rule, positions, 0, d, alpha, betaInit, SCORE_MAX, d);
        if low.min > max.score || (low.min == max.score && low.depth < max.depth) then
          var better := Verdict(mv, low.min, low.depth);
          if better.score > alpha then
            if low.beta < better.score then better
            else MaxLoop(rule, b, d, kids, k + 1, better.score, betaInit, better)
          else MaxLoop(rule, b, d, kids, k + 1, alpha, betaInit, better)
        else MaxLoop(rule, b, d, kids, k + 1, alpha, betaInit, max)
  }

  /** The state of the loop over one move's boards: the lowest score so far, the depth it came with, and beta. */
  datatype Low = Low(min: int, depth: int, beta: int)

  /**
   * The loop over the boards of one move from the `i`-th on: beta is
   * lowered to every new minimum below it, and the loop stops once beta
   * falls below alpha. The minimum and beta only go down.
   */
  function MinLoop(rule: Rule, positions: seq<Board>, i: nat, d: nat, alpha: int, beta: int, min: int, minDepth: int): (r: Low)
    requires d >= 1 && i <= |positions| && forall j :: 0 <= j < |positions| ==> Searchable(rule, positions[j])
    requires SCORE_MIN <= min <= SCORE_MAX && 0 <= minDepth <= d
    ensures SCORE_MIN <= r.min <= min && 0 <= r.depth <= d && r.beta <= beta
    ensures i == |positions| ==> r == Low(min, minDepth, beta)
    decreases d, 0, |positions| - i
  {
    if i == |positions| then Low(min, minDepth, beta)
    else
      var v := AlphaBeta(rule, positions[i], d - 1, alpha, beta);
      var next := if v.score < min then Low(v.score, v.depth, beta) else Low(min, minDepth, beta);
      if next.min < beta then
        if next.min < alpha then Low(next.min, next.depth, next.min)
        else MinLoop(rule, positions, i + 1, d, alpha, next.min, next.min, next.depth)
      else MinLoop(rule, positions, i + 1, d, alpha, beta, next.min, next.depth)
  }
}

=== FILE: mailbox_rules.dfy ===
/**
 * The `standard` rules of the mailbox board: move every snake, take one
 * health off (sixteen on a hazard), feed the snakes whose head is on food,
 * remove the starved snakes and then the collided ones. `MailBoxBoard`
 * repeats the same step, statement for statement; the members here model
 * both copies.
 *
 * The members take a `Rule`: `AsWritten` keeps the engine's `u8` health,
 * which wraps below 0, so a snake with 15 health or less that enters a
 * hazard comes out with 241 or more; `Intended` lets health fall below 0,
 * and such a snake starves.
 *
 * The step works on a copy of its input (a pure function here). Where the
 * engine would index outside the board and panic, the members here have a
 * precondition instead.
 */
module MailboxRules {
  import opened Common
  import opened Types

  // ---------------------------------------------------------------------
  // Well-formed boards

  /** Every cell of the snake is on a board of `cells` cells, it has a head, and a length of at least 1. */
  predicate Fits(cells: int, s: Snake)
  {
    |s.body| >= 1 && s.length >= 1 && forall k :: 0 <= k < |s.body| ==> 0 <= s.body[k] < cells
  }

  /** Whole rows of at least one cell, at least two cells, and every snake on the board. */
  predicate WellFormed(b: Board)
  {
    b.width > 0 && |b.board| % b.width == 0 && |b.board| >= 2 &&
    forall i :: 0 <= i < |b.snakes| ==> Fits(|b.board|, b.snakes[i])
  }

  /** The number of my snakes among `s`. */
  function Mine(s: seq<Snake>): nat
  {
    if |s| == 0 then 0 else Mine(s[..|s| - 1]) + (if s[|s| - 1].isEnemy then 0 else 1)
  }

  // ---------------------------------------------------------------------
  // Moving

  /** `move_dest`: the cell one step away, with no edge test; Down and Left can go below 0. */
  function MoveDest(mv: Move, from: int, width: int): int
  {
    match mv
    case Up => from + width
    case Down => from - width
    case Left => from - 1
    case Right => from + 1
  }

  /** The move `move_snakes` gives snake `i`: the first one listed for it, Up if none is. */
  function MoveOf(moves: seq<(int, Move)>, i: int): (mv: Move)
    ensures (forall k :: 0 <= k < |moves| ==> moves[k].0 != i) ==> mv == Up
    ensures (exists k :: 0 <= k < |moves| && moves[k].0 == i) ==> (i, mv) in moves
    ensures forall k :: 0 <= k < |moves| && moves[k].0 == i && (forall k' :: 0 <= k' < k ==> moves[k'].0 != i) ==>
      mv == moves[k].1
  {
    if |moves| == 0 then Up
    else if moves[0].0 == i then moves[0].1
    else
      var rest := MoveOf(moves[1..], i);
      assert forall k :: 1 <= k < |moves| ==> moves[1..][k - 1] == moves[k];
      rest
  }

  /** Every snake's step stays on the board, so `move_snakes` never indexes outside it. */
  predicate Steps(b: Board, moves: seq<(int, Move)>)
    requires WellFormed(b)
  {
    StepsFrom(b, moves, 0)
  }

  /** The steps of snakes `i` on stay on the board. */
  predicate StepsFrom(b: Board, moves: seq<(int, Move)>, i: int)
    requires WellFormed(b)
  {
    forall j :: i <= j < |b.snakes| && 0 <= j ==> 0 <= MoveDest(MoveOf(moves, j), b.snakes[j].body[0], b.width) < |b.board|
  }

  /** The body after a step to `head`: the new head in front, cut to the snake's length. */
  function Advanced(s: Snake, head: int): (body: seq<int>)
    requires s.length >= 1
    ensures |body| == Min(|s.body| + 1, s.length) && body[0] == head
    ensures forall k :: 1 <= k < |body| ==> body[k] == s.body[k - 1]
  {
    var grown := [head] + s.body;
    if |grown| > s.length then grown[..s.length] else grown
  }

  /**
   * One iteration of `move_snakes`: the old head becomes BODY, the new head
   * gets HEAD, and a snake longer than its length loses its last cell's
   * TAIL flag and has its new last cell set to TAIL. No other cell changes.
   */
  function MoveSnake(b: Board, i: int, mv: Move): (r: Board)
    requires WellFormed(b) && 0 <= i < |b.snakes|
    requires 0 <= MoveDest(mv, b.snakes[i].body[0], b.width) < |b.board|
    ensures WellFormed(r) && r.width == b.width && |r.board| == |b.board|
    ensures r.snakes == b.snakes[i := b.snakes[i].(body := Advanced(b.snakes[i], MoveDest(mv, b.snakes[i].body[0], b.width)))]
    ensures forall c ::
      (0 <= c < |b.board| && c != b.snakes[i].body[0] && c != MoveDest(mv, b.snakes[i].body[0], b.width) &&
       c != b.snakes[i].body[|b.snakes[i].body| - 1] && c !in r.snakes[i].body) ==> r.board[c] == b.board[c]
  {
    var s := b.snakes[i];
    var old0 := s.body[0];
    var board1 := b.board[old0 := BODY];
    var head := MoveDest(mv, old0, b.width);
    var grown := [head] + s.body;
    var board2 := board1[head := board1[head] | HEAD];
    var s' := s.(body := Advanced(s, head));
    if |grown| > s.length then
      var last := grown[|grown| - 1];
      var board3 := board2[last := board2[last] ^ TAIL];
      var cut := grown[..s.length];
      var board4 := board3[cut[|cut| - 1] := TAIL];
      b.(board := board4, snakes := b.snakes[i := s'])
    else
      b.(board := board2, snakes := b.snakes[i := s'])
  }

  /** The loop of `move_snakes` from snake `i` on; every snake's step is taken from its head before the loop. */
  function MoveSnakesFrom(b: Board, moves: seq<(int, Move)>, i: nat): (r: Board)
    requires WellFormed(b) && i <= |b.snakes| && StepsFrom(b, moves, i)
    ensures WellFormed(r) && r.width == b.width && |r.board| == |b.board| && |r.snakes| == |b.snakes|
    ensures forall j :: 0 <= j < i ==> r.snakes[j] == b.snakes[j]
    ensures forall j :: i <= j < |b.snakes| ==>
      r.snakes[j] == b.snakes[j].(body := Advanced(b.snakes[j], MoveDest(MoveOf(moves, j), b.snakes[j].body[0], b.width)))
    decreases |b.snakes| - i
  {
    if i == |b.snakes| then b
    else
      var next := MoveSnake(b, i, MoveOf(moves, i));
      assert forall j :: i < j < |b.snakes| ==> next.snakes[j] == b.snakes[j];
      MoveSnakesFrom(next, moves, i + 1)
  }

  /** `move_snakes`: each snake steps from its head by its listed move (Up when unlisted) and keeps its length. */
  function MoveSnakes(b: Board, moves: seq<(int, Move)>): (r: Board)
    requires WellFormed(b) && Steps(b, moves)
    ensures WellFormed(r) && r.width == b.width && |r.board| == |b.board| && |r.snakes| == |b.snakes|
    ensures forall j :: 0 <= j < |b.snakes| ==>
      r.snakes[j].isEnemy == b.snakes[j].isEnemy && r.snakes[j].length == b.snakes[j].length &&
      r.snakes[j].health == b.snakes[j].health &&
      r.snakes[j].body[0] == MoveDest(MoveOf(moves, j), b.snakes[j].body[0], b.width) &&
      |r.snakes[j].body| == Min(|b.snakes[j].body| + 1, b.snakes[j].length) &&
      forall k :: 1 <= k < |r.snakes[j].body| ==> r.snakes[j].body[k] == b.snakes[j].body[k - 1]
  {
    MoveSnakesFrom(b, moves, 0)
  }

  // ---------------------------------------------------------------------
  // Health and food

  /**
   * The health loss of one step as written: `health -= 1` and then
   * `health -= 15` on a hazard, both on a `u8`, which wraps.
   */
  function DamagedAsWritten(health: int, onHazard: bool): (r: int)
    ensures 0 <= r <= 255
  {
    var h := U8(health - 1);
    if onHazard then U8(h - 15) else h
  }

  /** The health loss of one step without wrapping: a snake left with no health or less starves. */
  function Damaged(health: int, onHazard: bool): (r: int)
    ensures r < health
    ensures r <= 0 <==> health <= (if onHazard then 16 else 1)
  {
    health - 1 - (if onHazard then 15 else 0)
  }

  /** A snake with 15 health or less that steps on a hazard wraps round to more than 200 health as written, where it starves as intended. */
  lemma HazardWrapSurvives(health: int)
    requires 1 <= health <= 15
    ensures DamagedAsWritten(health, true) >= 241
    ensures Damaged(health, true) <= 0
  {
  }

  /** Whenever the health loss does not wrap, the written and the intended loss agree. */
  lemma DamagedAgrees(health: int, onHazard: bool)
    requires 1 <= health <= 255 && (onHazard ==> health >= 16)
    ensures DamagedAsWritten(health, onHazard) == Damaged(health, onHazard)
  {
  }

  predicate Flag(sq: Square, f: Square) { sq & f != 0 }

  /** The health a step leaves a snake that did not eat, under a rule. */
  function DamagedBy(rule: Rule, health: int, onHazard: bool): (r: int)
    ensures rule == Intended ==> r == health - (if onHazard then 16 else 1)
    ensures rule == AsWritten ==> r == (health - (if onHazard then 16 else 1)) % 256
  {
    if rule == AsWritten then
      assert (health - 1 - U8(health - 1)) % 256 == 0;
      DamagedAsWritten(health, onHazard)
    else Damaged(health, onHazard)
  }

  /**
   * Damage, then feeding, for one snake, judged by the cell under its new
   * head: a head on food restores 100 health and grows the snake by one;
   * otherwise the snake loses one health, sixteen on a hazard, which on the
   * engine's `u8` wraps modulo 256.
   */
  function Hit(rule: Rule, board: seq<Square>, s: Snake): (r: Snake)
    requires |s.body| >= 1 && 0 <= s.body[0] < |board|
    ensures r.body == s.body && r.isEnemy == s.isEnemy
    ensures Flag(board[s.body[0]], FOOD) ==> r.health == 100 && r.length == s.length + 1
    ensures !Flag(board[s.body[0]], FOOD) ==> r.length == s.length
    ensures !Flag(board[s.body[0]], FOOD) && rule == Intended ==>
      r.health == s.health - (if Flag(board[s.body[0]], HAZARD) then 16 else 1)
    ensures !Flag(board[s.body[0]], FOOD) && rule == AsWritten ==>
      r.health == (s.health - (if Flag(board[s.body[0]], HAZARD) then 16 else 1)) % 256
  {
    var h := DamagedBy(rule, s.health, Flag(board[s.body[0]], HAZARD));
    if Flag(board[s.body[0]], FOOD) then s.(health := 100, length := s.length + 1)
    else s.(health := h)
  }

  /** The heads that found food, in snake order (`eaten`). */
  function Eaten(board: seq<Square>, s: seq<Snake>): (r: seq<int>)
    requires forall i :: 0 <= i < |s| ==> |s[i].body| >= 1 && 0 <= s[i].body[0] < |board|
    ensures forall c :: c in r <==> (exists i :: 0 <= i < |s| && s[i].body[0] == c) && 0 <= c < |board| && Flag(board[c], FOOD)
  {
    if |s| == 0 then []
    else
      var rest := Eaten(board, s[..|s| - 1]);
      var c := s[|s| - 1].body[0];
      assert forall i :: 0 <= i < |s| - 1 ==> s[..|s| - 1][i] == s[i];
      rest + (if Flag(board[c], FOOD) then [c] else [])
  }

  /** `board[c] &= u8::MAX ^ FOOD` for every eaten cell. */
  function ClearFood(board: seq<Square>, cells: seq<int>): (r: seq<Square>)
    requires forall k :: 0 <= k < |cells| ==> 0 <= cells[k] < |board|
    ensures |r| == |board|
    ensures forall c :: 0 <= c < |board| ==> r[c] == if c in cells then board[c] & (0xFF ^ FOOD) else board[c]
  {
    if |cells| == 0 then board
    else
      var c := cells[|cells| - 1];
      var r := ClearFood(board, cells[..|cells| - 1]);
      assert forall x :: x in cells <==> x in cells[..|cells| - 1] || x == c;
      r[c := board[c] & (0xFF ^ FOOD)]
  }

  /** Clearing the food bit twice is clearing it once. */
  lemma ClearFoodTwice(x: Square)
    ensures (x & (0xFF ^ FOOD)) & (0xFF ^ FOOD) == x & (0xFF ^ FOOD)
    ensures !Flag(x & (0xFF ^ FOOD), FOOD)
  {
  }

  /**
   * The reduce-health and feed loops: every snake hit by its cell, and the
   * food under every head that ate cleared; no head is left on food and no
   * other cell changes.
   */
  function Feed(rule: Rule, b: Board): (r: Board)
    requires WellFormed(b)
    ensures WellFormed(r) && r.width == b.width && |r.board| == |b.board| && |r.snakes| == |b.snakes|
    ensures forall i :: 0 <= i < |b.snakes| ==> r.snakes[i] == Hit(rule, b.board, b.snakes[i])
    ensures forall i :: 0 <= i < |b.snakes| ==> !Flag(r.board[b.snakes[i].body[0]], FOOD)
    ensures forall c :: 0 <= c < |b.board| && (forall i :: 0 <= i < |b.snakes| ==> b.snakes[i].body[0] != c) ==>
      r.board[c] == b.board[c]
  {
    var snakes := seq(|b.snakes|, i requires 0 <= i < |b.snakes| => Hit(rule, b.board, b.snakes[i]));
    var eaten := Eaten(b.board, b.snakes);
    assert forall k :: 0 <= k < |eaten| ==> eaten[k] in eaten;
    var board := ClearFood(b.board, eaten);
    forall i | 0 <= i < |b.snakes|
      ensures !Flag(board[b.snakes[i].body[0]], FOOD)
    {
      ClearFoodTwice(b.board[b.snakes[i].body[0]]);
    }
    b.(snakes := snakes, board := board)
  }

  // ---------------------------------------------------------------------
  // Removing snakes

  /** The cells of the snakes' heads (`heads`). */
  function Heads(s: seq<Snake>): set<int>
    requires forall i :: 0 <= i < |s| ==> |s[i].body| >= 1
  {
    set i | 0 <= i < |s| :: s[i].body[0]
  }

  /** The loop of `remove_snake` over the removed body: HEAD where a remaining head is, 0 elsewhere. */
  function Vacate(board: seq<Square>, cells: seq<int>, heads: set<int>): (r: seq<Square>)
    requires forall k :: 0 <= k < |cells| ==> 0 <= cells[k] < |board|
    ensures |r| == |board|
    ensures forall c :: 0 <= c < |board| ==> r[c] == if c in cells then (if c in heads then HEAD else 0) else board[c]
  {
    if |cells| == 0 then board
    else
      var c := cells[|cells| - 1];
      var r := Vacate(board, cells[..|cells| - 1], heads);
      assert forall x :: x in cells <==> x in cells[..|cells| - 1] || x == c;
      r[c := if c in heads then HEAD else 0]
  }

  /**
   * `remove_snake`: the snake leaves the list, the others keep their order,
   * and each of its cells becomes empty, or HEAD where another snake's head
   * is. No other cell changes.
   */
  function RemoveSnake(b: Board, si: int): (r: Board)
    requires WellFormed(b) && 0 <= si < |b.snakes|
    ensures WellFormed(r) && r.width == b.width && |r.board| == |b.board|
    ensures r.snakes == b.snakes[..si] + b.snakes[si + 1..]
    ensures forall c :: 0 <= c < |b.board| ==>
      r.board[c] == if c in b.snakes[si].body then (if c in Heads(r.snakes) then HEAD else 0) else b.board[c]
  {
    var rest := b.snakes[..si] + b.snakes[si + 1..];
    assert forall i :: 0 <= i < |rest| ==> rest[i] == b.snakes[if i < si then i else i + 1];
    b.(snakes := rest, board := Vacate(b.board, b.snakes[si].body, Heads(rest)))
  }

  /** The snakes whose mask entry is false, in order. */
  function Keep(s: seq<Snake>, mask: seq<bool>): (r: seq<Snake>)
    requires |mask| == |s|
    ensures |r| <= |s|
  {
    if |s| == 0 then [] else Keep(s[..|s| - 1], mask[..|s| - 1]) + (if mask[|s| - 1] then [] else [s[|s| - 1]])
  }

  /** Keeping from a list one longer keeps from the shorter one and then decides the last snake. */
  lemma KeepSnoc(s: seq<Snake>, m: seq<bool>, x: Snake, on: bool)
    requires |m| == |s|
    ensures Keep(s + [x], m + [on]) == Keep(s, m) + (if on then [] else [x])
  {
    assert (s + [x])[..|s|] == s;
    assert (m + [on])[..|m|] == m;
  }

  lemma {:induction false} KeepAppend(s1: seq<Snake>, m1: seq<bool>, s2: seq<Snake>, m2: seq<bool>)
    requires |m1| == |s1| && |m2| == |s2|
    ensures Keep(s1 + s2, m1 + m2) == Keep(s1, m1) + Keep(s2, m2)
    decreases |s2|
  {
    if |s2| == 0 {
      assert s1 + s2 == s1 && m1 + m2 == m1;
      assert Keep(s1, m1) + [] == Keep(s1, m1);
    } else {
      var n := |s2| - 1;
      assert s2 == s2[..n] + [s2[n]] && m2 == m2[..n] + [m2[n]];
      assert s1 + s2 == (s1 + s2[..n]) + [s2[n]];
      assert m1 + m2 == (m1 + m2[..n]) + [m2[n]];
      KeepAppend(s1, m1, s2[..n], m2[..n]);
      KeepSnoc(s1 + s2[..n], m1 + m2[..n], s2[n], m2[n]);
      KeepSnoc(s2[..n], m2[..n], s2[n], m2[n]);
    }
  }

  /** Every snake kept is one of the snakes whose mask entry is false. */
  lemma {:induction false} KeepMember(s: seq<Snake>, mask: seq<bool>, x: Snake)
    requires |mask| == |s|
    ensures x in Keep(s, mask) <==> exists t :: 0 <= t < |s| && !mask[t] && s[t] == x
    decreases |s|
  {
    if |s| > 0 {
      var n := |s| - 1;
      KeepMember(s[..n], mask[..n], x);
      if exists t :: 0 <= t < |s| && !mask[t] && s[t] == x {
        var t :| 0 <= t < |s| && !mask[t] && s[t] == x;
        if t < n {
          assert s[..n][t] == x && !mask[..n][t];
        }
      }
    }
  }

  /** Keeping a subsequence never adds one of my snakes. */
  lemma MineSnoc(k: seq<Snake>, x: Snake)
    ensures Mine(k + [x]) == Mine(k) + (if x.isEnemy then 0 else 1)
  {
    assert (k + [x])[..|k|] == k;
  }

  lemma {:induction false} KeepMine(s: seq<Snake>, mask: seq<bool>)
    requires |mask| == |s|
    ensures Mine(Keep(s, mask)) <= Mine(s)
    decreases |s|
  {
    if |s| > 0 {
      var n := |s| - 1;
      KeepMine(s[..n], mask[..n]);
      var k := Keep(s[..n], mask[..n]);
      if !mask[n] {
        MineSnoc(k, s[n]);
      } else {
        assert Keep(s, mask) == k + [];
        assert k + [] == k;
      }
    }
  }

  /** Taking out one snake whose mask entry is set changes nothing the mask keeps. */
  lemma KeepDrop(s: seq<Snake>, mask: seq<bool>, p: int)
    requires |mask| == |s| && 0 <= p < |s| && mask[p]
    ensures Keep(s, mask) == Keep(s[..p] + s[p + 1..], mask[..p] + mask[p + 1..])
  {
    var a, x, c := s[..p], s[p], s[p + 1..];
    var ma, mc := mask[..p], mask[p + 1..];
    assert s == (a + [x]) + c;
    assert mask == (ma + [true]) + mc;
    KeepAppend(a + [x], ma + [true], c, mc);
    KeepSnoc(a, ma, x, true);
    assert Keep(a + [x], ma + [true]) == Keep(a, ma);
    KeepAppend(a, ma, c, mc);
  }

  predicate Increasing(idx: seq<int>)
  {
    forall x, y :: 0 <= x < y < |idx| ==> idx[x] < idx[y]
  }

  /** Some index from the `offset`-th on is `v`. */
  predicate Listed(idx: seq<int>, offset: int, v: int)
  {
    exists m :: offset <= m < |idx| && 0 <= m && idx[m] == v
  }

  /** The mask over `n` snakes of the listed indices from the `offset`-th on, each moved down by `offset`. */
  function Pending(idx: seq<int>, offset: int, n: nat): (mask: seq<bool>)
    ensures |mask| == n && forall t :: 0 <= t < n ==> mask[t] == Listed(idx, offset, t + offset)
  {
    seq(n, t => Listed(idx, offset, t + offset))
  }

  /**
   * The removal loop of `standard`, from its `offset`-th index on: index
   * `idx[offset]` of the original list sits at `idx[offset] - offset` once
   * `offset` earlier snakes are gone. The snakes left are exactly those of
   * the current list whose original index is not listed.
   */
  function RemoveFrom(b: Board, idx: seq<int>, offset: nat): (r: Board)
    requires WellFormed(b) && offset <= |idx| && Increasing(idx)
    requires forall m :: offset <= m < |idx| ==> 0 <= idx[m] - offset < |b.snakes|
    ensures WellFormed(r) && r.width == b.width && |r.board| == |b.board|
    ensures r.snakes == Keep(b.snakes, Pending(idx, offset, |b.snakes|))
    decreases |idx| - offset
  {
    if offset == |idx| then
      KeepNone(b.snakes, Pending(idx, offset, |b.snakes|));
      b
    else
      var p := idx[offset] - offset;
      var next := RemoveSnake(b, p);
      assert forall m :: offset + 1 <= m < |idx| ==> idx[m] > idx[offset];
      var r := RemoveFrom(next, idx, offset + 1);
      RemoveShift(b.snakes, idx, offset, p);
      r
  }

  /** A mask with no entry set keeps everything. */
  lemma {:induction false} KeepNone(s: seq<Snake>, mask: seq<bool>)
    requires |mask| == |s| && forall t :: 0 <= t < |s| ==> !mask[t]
    ensures Keep(s, mask) == s
    decreases |s|
  {
    if |s| > 0 {
      KeepNone(s[..|s| - 1], mask[..|s| - 1]);
      assert s[..|s| - 1] + [s[|s| - 1]] == s;
    }
  }

  /** Entry `t` of the mask after a removal at `p` is the old entry at `t`, or at `t + 1` past `p`. */
  lemma PendingShift(idx: seq<int>, offset: nat, p: int, t: int)
    requires offset < |idx| && Increasing(idx) && p == idx[offset] - offset && 0 <= t
    ensures t < p ==> !Listed(idx, offset, t + offset) && !Listed(idx, offset + 1, t + offset + 1)
    ensures t >= p ==> Listed(idx, offset, t + 1 + offset) == Listed(idx, offset + 1, t + 1 + offset)
  {
    if t < p {
      forall m | offset <= m < |idx| ensures idx[m] != t + offset {
        if m > offset { assert idx[m] > idx[offset]; }
      }
      forall m | offset + 1 <= m < |idx| ensures idx[m] != t + offset + 1 {
        assert idx[m] > idx[offset];
      }
    } else {
      assert Listed(idx, offset, t + 1 + offset) ==> Listed(idx, offset + 1, t + 1 + offset);
    }
  }

  /** After removing the snake at `p`, the remaining indices' mask is the old mask without entry `p`. */
  lemma RemoveShift(s: seq<Snake>, idx: seq<int>, offset: nat, p: int)
    requires offset < |idx| && Increasing(idx) && p == idx[offset] - offset && 0 <= p < |s|
    ensures Keep(s, Pending(idx, offset, |s|)) == Keep(s[..p] + s[p + 1..], Pending(idx, offset + 1, |s| - 1))
  {
    var mask := Pending(idx, offset, |s|);
    var next := Pending(idx, offset + 1, |s| - 1);
    assert mask[p];
    KeepDrop(s, mask, p);
    var joined := mask[..p] + mask[p + 1..];
    forall t | 0 <= t < |s| - 1
      ensures joined[t] == next[t]
    {
      PendingShift(idx, offset, p, t);
      Skipped(mask, p, t);
    }
    assert joined == next;
  }

  /** Entry `t` of a mask with entry `p` cut out. */
  lemma Skipped(mask: seq<bool>, p: int, t: int)
    requires 0 <= p < |mask| && 0 <= t < |mask| - 1
    ensures (mask[..p] + mask[p + 1..])[t] == if t < p then mask[t] else mask[t + 1]
  {
  }

  /** The indices below `n` for which `p` holds, in increasing order. */
  function Indices(n: nat, p: int -> bool): (r: seq<int>)
    ensures Increasing(r)
    ensures forall x :: 0 <= x < |r| ==> 0 <= r[x] < n
    ensures forall t :: t in r <==> 0 <= t < n && p(t)
  {
    if n == 0 then [] else Indices(n - 1, p) + (if p(n - 1) then [n - 1] else [])
  }

  /** The starvation test: `health <= 0`. */
  predicate Starving(s: Snake) { s.health <= 0 }

  /** Snake `i`'s head is on a BODY or TAIL cell. */
  predicate HitsBody(b: Board, i: int)
    requires WellFormed(b) && 0 <= i < |b.snakes|
  {
    Flag(b.board[b.snakes[i].body[0]], BODY | TAIL)
  }

  /** Another snake's head is on snake `i`'s head and that snake is at least as long. */
  predicate LosesHeadOn(b: Board, i: int)
    requires WellFormed(b) && 0 <= i < |b.snakes|
  {
    exists j :: 0 <= j < |b.snakes| && j != i && b.snakes[j].body[0] == b.snakes[i].body[0] &&
      b.snakes[i].length <= b.snakes[j].length
  }

  /** The collision test of `standard`. */
  predicate Collided(b: Board, i: int)
    requires WellFormed(b)
  {
    0 <= i < |b.snakes| && (HitsBody(b, i) || LosesHeadOn(b, i))
  }

  /** The mask of a sorted index list over `n` snakes. */
  function MaskOf(idx: seq<int>, n: nat): (m: seq<bool>)
    ensures |m| == n
  {
    seq(n, t => t in idx)
  }

  /** Removing listed indices from the start keeps exactly the unlisted snakes. */
  function RemoveAll(b: Board, idx: seq<int>): (r: Board)
    requires WellFormed(b) && Increasing(idx) && forall m :: 0 <= m < |idx| ==> 0 <= idx[m] < |b.snakes|
    ensures WellFormed(r) && r.width == b.width && |r.board| == |b.board|
    ensures r.snakes == Keep(b.snakes, MaskOf(idx, |b.snakes|))
  {
    assert forall t :: Listed(idx, 0, t) <==> t in idx;
    assert Pending(idx, 0, |b.snakes|) == MaskOf(idx, |b.snakes|);
    RemoveFrom(b, idx, 0)
  }

  // ---------------------------------------------------------------------
  // The whole step

  /** The board after moving and feeding, before any snake is removed. */
  function Fed(rule: Rule, b: Board, moves: seq<(int, Move)>): (r: Board)
    requires WellFormed(b) && Steps(b, moves)
    ensures WellFormed(r) && |r.snakes| == |b.snakes| && r.width == b.width && |r.board| == |b.board|
  {
    Feed(rule, MoveSnakes(b, moves))
  }

  /** The indices of the starving snakes, in increasing order. */
  function StarvedIn(b: Board): (r: seq<int>)
    requires WellFormed(b)
    ensures Increasing(r) && forall m :: 0 <= m < |r| ==> 0 <= r[m] < |b.snakes|
    ensures forall t :: t in r <==> 0 <= t < |b.snakes| && Starving(b.snakes[t])
  {
    Indices(|b.snakes|, t => 0 <= t < |b.snakes| && Starving(b.snakes[t]))
  }

  /** The indices of the collided snakes, in increasing order. */
  function CollidedIn(b: Board): (r: seq<int>)
    requires WellFormed(b)
    ensures Increasing(r) && forall m :: 0 <= m < |r| ==> 0 <= r[m] < |b.snakes|
    ensures forall t :: t in r <==> Collided(b, t)
  {
    Indices(|b.snakes|, t => Collided(b, t))
  }

  /** The starved snakes removed from the fed board. */
  function Unstarved(rule: Rule, b: Board, moves: seq<(int, Move)>): (r: Board)
    requires WellFormed(b) && Steps(b, moves)
    ensures WellFormed(r) && r.width == b.width && |r.board| == |b.board|
    ensures r.snakes == Keep(Fed(rule, b, moves).snakes, MaskOf(StarvedIn(Fed(rule, b, moves)), |Fed(rule, b, moves).snakes|))
  {
    RemoveAll(Fed(rule, b, moves), StarvedIn(Fed(rule, b, moves)))
  }

  /** Removing the starving and then the collided snakes leaves no more snakes, and no more of mine. */
  lemma TwoRemovalsShrink(f: Board, s: Board, r: Board)
    requires WellFormed(f) && WellFormed(s)
    requires s.snakes == Keep(f.snakes, MaskOf(StarvedIn(f), |f.snakes|))
    requires r.snakes == Keep(s.snakes, MaskOf(CollidedIn(s), |s.snakes|))
    ensures |r.snakes| <= |f.snakes| && Mine(r.snakes) <= Mine(f.snakes)
  {
    KeepMine(s.snakes, MaskOf(CollidedIn(s), |s.snakes|));
    KeepMine(f.snakes, MaskOf(StarvedIn(f), |f.snakes|));
  }

  /**
   * `standard`: move, damage and feed, remove the starved snakes, then
   * remove the snakes that collided on the board that is left.
   */
  function Standard(rule: Rule, b: Board, moves: seq<(int, Move)>): (r: Board)
    requires WellFormed(b) && Steps(b, moves)
    ensures WellFormed(r) && r.width == b.width && |r.board| == |b.board|
    ensures r.snakes == Keep(Unstarved(rule, b, moves).snakes, MaskOf(CollidedIn(Unstarved(rule, b, moves)), |Unstarved(rule, b, moves).snakes|))
    ensures |r.snakes| <= |b.snakes| && Mine(r.snakes) <= Mine(b.snakes)
  {
    var s := Unstarved(rule, b, moves);
    var r := RemoveAll(s, CollidedIn(s));
    FedMine(rule, b, moves);
    TwoRemovalsShrink(Fed(rule, b, moves), s, r);
    r
  }

  /** A snake kept by an index list is the snake at some unlisted index. */
  lemma Survivor(s: seq<Snake>, idx: seq<int>, x: Snake) returns (t: int)
    requires x in Keep(s, MaskOf(idx, |s|))
    ensures 0 <= t < |s| && t !in idx && s[t] == x
  {
    KeepMember(s, MaskOf(idx, |s|), x);
    t :| 0 <= t < |s| && !MaskOf(idx, |s|)[t] && s[t] == x;
  }

  /**
   * What survives a step: a snake left after `standard` has health left, is
   * one of the moved and fed snakes, and did not collide on the board left
   * after the starved snakes were removed.
   */
  lemma StandardSurvivor(rule: Rule, b: Board, moves: seq<(int, Move)>, x: Snake)
    requires WellFormed(b) && Steps(b, moves) && x in Standard(rule, b, moves).snakes
    ensures !Starving(x) && x in Fed(rule, b, moves).snakes
    ensures exists t :: 0 <= t < |Unstarved(rule, b, moves).snakes| && !Collided(Unstarved(rule, b, moves), t) && Unstarved(rule, b, moves).snakes[t] == x
  {
    TwoRemovals(Fed(rule, b, moves), Unstarved(rule, b, moves), Standard(rule, b, moves), x);
  }

  /** A snake left after removing the starving and then the collided snakes was neither. */
  lemma TwoRemovals(f: Board, s: Board, r: Board, x: Snake)
    requires WellFormed(f) && WellFormed(s)
    requires s.snakes == Keep(f.snakes, MaskOf(StarvedIn(f), |f.snakes|))
    requires r.snakes == Keep(s.snakes, MaskOf(CollidedIn(s), |s.snakes|))
    requires x in r.snakes
    ensures !Starving(x) && x in f.snakes
    ensures exists t :: 0 <= t < |s.snakes| && !Collided(s, t) && s.snakes[t] == x
  {
    var t := Survivor(s.snakes, CollidedIn(s), x);
    var u := Survivor(f.snakes, StarvedIn(f), x);
  }

  /**
   * The health wrap within damage and feeding: a snake with 1 to 15 health
   * whose head is on a hazard and not on food comes out with 241 health or
   * more as written, so it is not among the starved, where the corrected
   * step starves it.
   */
  lemma HazardWrapFeed(b: Board, i: int)
    requires WellFormed(b) && 0 <= i < |b.snakes| && 1 <= b.snakes[i].health <= 15
    requires Flag(b.board[b.snakes[i].body[0]], HAZARD) && !Flag(b.board[b.snakes[i].body[0]], FOOD)
    ensures Feed(AsWritten, b).snakes[i].health >= 241 && i !in StarvedIn(Feed(AsWritten, b))
    ensures Feed(Intended, b).snakes[i].health <= 0 && i in StarvedIn(Feed(Intended, b))
  {
    var h := b.snakes[i].health;
    var w, c := Feed(AsWritten, b), Feed(Intended, b);
    assert w.snakes[i] == Hit(AsWritten, b.board, b.snakes[i]);
    assert c.snakes[i] == Hit(Intended, b.board, b.snakes[i]);
    assert w.snakes[i].health == (h - 16) % 256 == h + 240;
  }

  /**
   * The same within a whole step: the snake's health before the step is the
   * health it brings to the cell it moves onto.
   */
  lemma HazardWrapInStep(b: Board, moves: seq<(int, Move)>, i: int)
    requires WellFormed(b) && Steps(b, moves) && 0 <= i < |b.snakes| && 1 <= b.snakes[i].health <= 15
    requires var m := MoveSnakes(b, moves);
      Flag(m.board[m.snakes[i].body[0]], HAZARD) && !Flag(m.board[m.snakes[i].body[0]], FOOD)
    ensures Fed(AsWritten, b, moves).snakes[i].health >= 241 && i !in StarvedIn(Fed(AsWritten, b, moves))
    ensures i in StarvedIn(Fed(Intended, b, moves))
  {
    HazardWrapFeed(MoveSnakes(b, moves), i);
  }

  /** Moving and feeding changes no snake's side. */
  lemma FedMine(rule: Rule, b: Board, moves: seq<(int, Move)>)
    requires WellFormed(b) && Steps(b, moves)
    ensures Mine(Fed(rule, b, moves).snakes) == Mine(b.snakes)
  {
    var f := Fed(rule, b, moves);
    SameSides(f.snakes, b.snakes);
  }

  /** Two lists of snakes on the same sides, position by position, hold as many of mine. */
  lemma {:induction false} SameSides(s: seq<Snake>, t: seq<Snake>)
    requires |s| == |t| && forall i :: 0 <= i < |s| ==> s[i].isEnemy == t[i].isEnemy
    ensures Mine(s) == Mine(t)
    decreases |s|
  {
    if |s| > 0 {
      SameSides(s[..|s| - 1], t[..|t| - 1]);
    }
  }
}

=== FILE: move_gen.dfy ===
/**
 * Move generation of the bitboard engine: the moves a snake may make from a
 * cell, a few move combinations that together cover every enemy move, and
 * the full Cartesian product of the snakes' moves. A combination holds one
 * move per snake slot; moves are tried in the order up, down, right, left.
 */
module MoveGen {
  import opened Common
  import opened Grid
  import opened Moves
  import opened Bitboard
  import Constants

  /** Move `x` has a destination in the move table. */
  predicate Legal(d: Dims, pos: int, x: int)
    requires 0 <= x < 4
  {
    Constants.MovesFrom(d, pos)[x].Some?
  }

  /** Move `x` has a destination, and it is not occupied. */
  predicate Free(d: Dims, occ: set<int>, pos: int, x: int)
    requires 0 <= x < 4
  {
    Legal(d, pos, x) && Constants.MovesFrom(d, pos)[x].value !in occ
  }

  /** The free moves among the first `j` of the order. */
  function FreeBelow(d: Dims, occ: set<int>, pos: int, j: int): (r: seq<Move>)
    requires 0 <= j <= 4
    ensures |r| <= j
    ensures forall k :: 0 <= k < |r| ==> ToInt(r[k]) < j
  {
    if j == 0 then []
    else FreeBelow(d, occ, pos, j - 1) + (if Free(d, occ, pos, j - 1) then [FromInt(j - 1)] else [])
  }

  /** The last legal move among the first `j`, or up when there is none. */
  function LastLegalBelow(d: Dims, pos: int, j: int): Move
    requires 0 <= j <= 4
  {
    if j == 0 then Up
    else if Legal(d, pos, j - 1) then FromInt(j - 1)
    else LastLegalBelow(d, pos, j - 1)
  }

  /** The free moves in order, or the last legal move when every legal destination is occupied. */
  function AllowedSpec(d: Dims, occ: set<int>, pos: int): seq<Move>
  {
    var f := FreeBelow(d, occ, pos, 4);
    if |f| > 0 then f else [LastLegalBelow(d, pos, 4)]
  }

  /** `allowed_moves`: the four table lookups in order, falling back on the last legal move. */
  method AllowedMoves(d: Dims, occ: set<int>, pos: int) returns (moves: seq<Move>)
    ensures moves == AllowedSpec(d, occ, pos)
  {
    moves := [];
    var some := Up;
    var j := 0;
    while j < 4
      invariant 0 <= j <= 4
      invariant moves == FreeBelow(d, occ, pos, j)
      invariant some == LastLegalBelow(d, pos, j)
    {
      var dest := Constants.MovesFrom(d, pos)[j];
      if dest.Some? {
        some := FromInt(j);
        if dest.value !in occ {
          moves := moves + [FromInt(j)];
        }
      }
      j := j + 1;
    }
    if |moves| == 0 {
      moves := [some];
    }
  }

  /** The free moves below `j` are exactly the free ones, each once, in increasing order. */
  lemma {:induction false} FreeBelowExact(d: Dims, occ: set<int>, pos: int, j: int)
    requires 0 <= j <= 4
    ensures forall m :: m in FreeBelow(d, occ, pos, j) <==> ToInt(m) < j && Free(d, occ, pos, ToInt(m))
    ensures forall a, b :: 0 <= a < b < |FreeBelow(d, occ, pos, j)| ==>
      ToInt(FreeBelow(d, occ, pos, j)[a]) < ToInt(FreeBelow(d, occ, pos, j)[b])
  {
    if j > 0 {
      FreeBelowExact(d, occ, pos, j - 1);
      forall m | ToInt(m) == j - 1
        ensures FromInt(j - 1) == m
      {
        ToIntInjective(m, FromInt(j - 1));
      }
    }
  }

  /** The last legal move below `j` is legal when any is, and no later one below `j` is. */
  lemma {:induction false} LastLegalExact(d: Dims, pos: int, j: int)
    requires 0 <= j <= 4
    ensures (exists x :: 0 <= x < j && Legal(d, pos, x)) ==> Legal(d, pos, ToInt(LastLegalBelow(d, pos, j)))
    ensures forall x :: ToInt(LastLegalBelow(d, pos, j)) < x < j ==> !Legal(d, pos, x)
  {
    if j > 0 {
      LastLegalExact(d, pos, j - 1);
    }
  }

  /** From any cell of the board, up or down is legal. */
  lemma SomeMoveLegal(d: Dims, pos: int)
    requires OnBoard(d, pos)
    ensures Legal(d, pos, 0) || Legal(d, pos, 1)
  {
    if d.wrap {
      Constants.MovesFromWrapping(d, pos, 0);
    } else {
      Constants.MovesFromBounded(d, pos, 0);
      Constants.MovesFromBounded(d, pos, 1);
      RowBound(d, pos);
    }
  }

  /**
   * `allowed_moves` gives one to four legal moves. When some legal
   * destination is free they are exactly the free moves in order; otherwise
   * the single last legal move. On a bounded board none leaves the board.
   */
  lemma AllowedFacts(d: Dims, occ: set<int>, pos: int)
    requires OnBoard(d, pos)
    ensures var a := AllowedSpec(d, occ, pos);
      && 1 <= |a| <= 4
      && (forall m :: m in a ==> Legal(d, pos, ToInt(m)))
      && (!d.wrap ==> forall m :: m in a ==> StaysOnBoard(d, ToInt(m), pos))
      && ((exists x :: 0 <= x < 4 && Free(d, occ, pos, x)) ==>
            (forall m :: m in a <==> Free(d, occ, pos, ToInt(m)))
            && forall i, k :: 0 <= i < k < |a| ==> ToInt(a[i]) < ToInt(a[k]))
      && ((forall x :: 0 <= x < 4 ==> !Free(d, occ, pos, x)) ==>
            a == [LastLegalBelow(d, pos, 4)]
            && forall x :: ToInt(a[0]) < x < 4 ==> !Legal(d, pos, x))
  {
    AllowedLegal(d, occ, pos);
    AllowedExact(d, occ, pos);
  }

  /** The allowed moves are one to four legal moves, none leaving a bounded board. */
  lemma AllowedLegal(d: Dims, occ: set<int>, pos: int)
    requires OnBoard(d, pos)
    ensures var a := AllowedSpec(d, occ, pos);
      && 1 <= |a| <= 4
      && (forall m :: m in a ==> Legal(d, pos, ToInt(m)))
      && (!d.wrap ==> forall m :: m in a ==> StaysOnBoard(d, ToInt(m), pos))
  {
    FreeBelowExact(d, occ, pos, 4);
    LastLegalExact(d, pos, 4);
    SomeMoveLegal(d, pos);
    if !d.wrap {
      forall m | m in AllowedSpec(d, occ, pos)
        ensures StaysOnBoard(d, ToInt(m), pos)
      {
        Constants.MovesFromBounded(d, pos, ToInt(m));
      }
    }
  }

  /** The allowed moves are the free moves in order when there are any, else the last legal move alone. */
  lemma AllowedExact(d: Dims, occ: set<int>, pos: int)
    requires OnBoard(d, pos)
    ensures var a := AllowedSpec(d, occ, pos);
      && ((exists x :: 0 <= x < 4 && Free(d, occ, pos, x)) ==>
            (forall m :: m in a <==> Free(d, occ, pos, ToInt(m)))
            && forall i, k :: 0 <= i < k < |a| ==> ToInt(a[i]) < ToInt(a[k]))
      && ((forall x :: 0 <= x < 4 ==> !Free(d, occ, pos, x)) ==>
            a == [LastLegalBelow(d, pos, 4)]
            && forall x :: ToInt(a[0]) < x < 4 ==> !Legal(d, pos, x))
  {
    FreeBelowExact(d, occ, pos, 4);
    LastLegalExact(d, pos, 4);
    var f := FreeBelow(d, occ, pos, 4);
    if exists x :: 0 <= x < 4 && Free(d, occ, pos, x) {
      var x :| 0 <= x < 4 && Free(d, occ, pos, x);
      assert FromInt(x) in f;
    } else {
      NoFreeMoves(d, occ, pos);
    }
  }

  /** The destinations `slow_allowed_moves` computes by hand, None where it finds the move illegal. */
  function SlowDest(d: Dims, pos: int, x: int): Option<int>
    requires 0 <= x < 4
  {
    if d.wrap then
      if x == 0 then Some((pos + d.w) % (d.w * d.h))
      else if x == 1 then Some(if d.w > pos then d.w * (d.h - 1) + pos else pos - d.w)
      else if x == 2 then Some(if pos % d.w == d.w - 1 then pos - (d.w - 1) else pos + 1)
      else Some(if pos % d.w == 0 then pos + (d.w - 1) else pos - 1)
    else
      if x == 0 then (if pos < d.w * (d.h - 1) then Some(pos + d.w) else None)
      else if x == 1 then (if pos >= d.w then Some(pos - d.w) else None)
      else if x == 2 then (if pos % d.w < d.w - 1 then Some(pos + 1) else None)
      else (if pos % d.w > 0 then Some(pos - 1) else None)
  }

  /**
   * `slow_allowed_moves`: the same scan over hand-computed destinations. On
   * a wrapping board it falls back on left, which is then the last legal
   * move anyway.
   */
  function SlowAllowed(d: Dims, occ: set<int>, pos: int): seq<Move>
  {
    var free := seq(4, x requires 0 <= x < 4 => SlowDest(d, pos, x).Some? && SlowDest(d, pos, x).value !in occ);
    var moves := (if free[0] then [Up] else []) + (if free[1] then [Down] else [])
                 + (if free[2] then [Right] else []) + (if free[3] then [Left] else []);
    if |moves| == 0 then [SlowFallback(d, pos)] else moves
  }

  /** The fallback of `slow_allowed_moves`: left on a wrapping board, else the last move with a destination. */
  function SlowFallback(d: Dims, pos: int): Move
  {
    if d.wrap then Left
    else if SlowDest(d, pos, 3).Some? then Left
    else if SlowDest(d, pos, 2).Some? then Right
    else if SlowDest(d, pos, 1).Some? then Down
    else Up
  }

  /** Without a free move there is nothing to collect. */
  lemma NoFreeMoves(d: Dims, occ: set<int>, pos: int)
    requires forall x :: 0 <= x < 4 ==> !Free(d, occ, pos, x)
    ensures FreeBelow(d, occ, pos, 4) == []
  {
    assert !Free(d, occ, pos, 0) && !Free(d, occ, pos, 1) && !Free(d, occ, pos, 2) && !Free(d, occ, pos, 3);
    assert FreeBelow(d, occ, pos, 1) == [];
    assert FreeBelow(d, occ, pos, 2) == [];
    assert FreeBelow(d, occ, pos, 3) == [];
  }

  /** The hand-computed destinations are the move table's. */
  lemma SlowDestIsTable(d: Dims, pos: int, x: int)
    requires OnBoard(d, pos) && 0 <= x < 4
    ensures SlowDest(d, pos, x) == Constants.MovesFrom(d, pos)[x]
  {
    if d.wrap {
      Constants.MovesFromWrapping(d, pos, x);
      if x == 0 {
        Constants.WrapModulo(d, pos);
      }
    } else {
      Constants.MovesFromBounded(d, pos, x);
      if x == 0 {
        RowLess(d, pos, d.h - 1);
        assert d.w * (d.h - 1) == (d.h - 1) * d.w;
      } else if x == 1 {
        RowLess(d, pos, 1);
      }
    }
  }

  /** `allowed_moves` agrees with `slow_allowed_moves`, as its debug assertion demands. */
  lemma SlowAgrees(d: Dims, occ: set<int>, pos: int)
    requires OnBoard(d, pos)
    ensures SlowAllowed(d, occ, pos) == AllowedSpec(d, occ, pos)
  {
    SlowFreeAgrees(d, occ, pos);
    SlowFallbackAgrees(d, pos);
    FreeBelowFour(d, occ, pos);
  }

  /** A hand-computed destination is free exactly when the table's is. */
  lemma SlowFreeAgrees(d: Dims, occ: set<int>, pos: int)
    requires OnBoard(d, pos)
    ensures forall x :: 0 <= x < 4 ==> (SlowDest(d, pos, x).Some? && SlowDest(d, pos, x).value !in occ) == Free(d, occ, pos, x)
  {
    forall x | 0 <= x < 4
      ensures (SlowDest(d, pos, x).Some? && SlowDest(d, pos, x).value !in occ) == Free(d, occ, pos, x)
    {
      SlowDestIsTable(d, pos, x);
    }
  }

  /** The hand-computed fallback is the last legal move: on a wrapping board every move is legal. */
  lemma SlowFallbackAgrees(d: Dims, pos: int)
    requires OnBoard(d, pos)
    ensures SlowFallback(d, pos) == LastLegalBelow(d, pos, 4)
  {
    SlowDestIsTable(d, pos, 1);
    SlowDestIsTable(d, pos, 2);
    SlowDestIsTable(d, pos, 3);
    if d.wrap {
      Constants.MovesFromWrapping(d, pos, 3);
    }
    LastLegalFour(d, pos);
  }

  lemma FreeBelowFour(d: Dims, occ: set<int>, pos: int)
    ensures FreeBelow(d, occ, pos, 4) ==
      (if Free(d, occ, pos, 0) then [Up] else []) + (if Free(d, occ, pos, 1) then [Down] else [])
      + (if Free(d, occ, pos, 2) then [Right] else []) + (if Free(d, occ, pos, 3) then [Left] else [])
  {
    assert FreeBelow(d, occ, pos, 1) == (if Free(d, occ, pos, 0) then [Up] else []);
    assert FreeBelow(d, occ, pos, 2) == FreeBelow(d, occ, pos, 1) + (if Free(d, occ, pos, 1) then [Down] else []);
    assert FreeBelow(d, occ, pos, 3) == FreeBelow(d, occ, pos, 2) + (if Free(d, occ, pos, 2) then [Right] else []);
  }

  lemma LastLegalFour(d: Dims, pos: int)
    ensures LastLegalBelow(d, pos, 4) ==
      if Legal(d, pos, 3) then Left else if Legal(d, pos, 2) then Right else if Legal(d, pos, 1) then Down else Up
  {
  }

  /** A combination: one move per snake slot. */
  type Combo = seq<Move>

  /**
   * How one snake's moves enter the combinations: combination `j` gets the
   * snake's `j`-th move, new combinations (copies of the first) are added
   * while the snake has more moves than there are combinations, and the
   * remaining ones get `fill`.
   */
  function Spread(combos: seq<Combo>, i: int, mvs: seq<Move>, fill: Move): (r: seq<Combo>)
    requires |combos| >= 1 && Wide(combos, i)
    ensures |r| == Max(|combos|, |mvs|)
    ensures forall j :: 0 <= j < |r| ==> |r[j]| == |(if j < |combos| then combos[j] else combos[0])|
  {
    seq(Max(|combos|, |mvs|), j requires 0 <= j < Max(|combos|, |mvs|) =>
      (if j < |combos| then combos[j] else combos[0])[i := if j < |mvs| then mvs[j] else fill])
  }

  /** Spreading one snake's moves over slot `i` leaves every other slot as it was in the combination copied. */
  lemma SpreadKeeps(combos: seq<Combo>, i: int, mvs: seq<Move>, fill: Move, k: int, j: int)
    requires |combos| >= 1 && Wide(combos, i) && Wide(combos, k) && k != i
    requires 0 <= j < Max(|combos|, |mvs|)
    ensures Spread(combos, i, mvs, fill)[j][k] == (if j < |combos| then combos[j] else combos[0])[k]
  {
  }

  /** Every combination has a slot `i`. */
  predicate Wide(combos: seq<Combo>, i: int)
  {
    0 <= i && forall j :: 0 <= j < |combos| ==> i < |combos[j]|
  }

  /** Every combination is a full row of `n` moves. */
  predicate Rows(combos: seq<Combo>, n: int)
  {
    forall j :: 0 <= j < |combos| ==> |combos[j]| == n
  }

  function Start(n: nat): Combo
  {
    seq(n, _ => Up)
  }

  /**
   * One snake's part in spreading moves over the combinations: whether it
   * spreads at all, its moves, and the move of the combinations past them.
   */
  datatype Part = Part(on: bool, mvs: seq<Move>, fill: Move)

  /** No snake has more than four moves. */
  predicate Parts(ps: seq<Part>)
  {
    forall k :: 0 <= k < |ps| ==> |ps[k].mvs| <= 4
  }

  /** The move a snake's part gives combination `j`: its `j`-th move, or the fill past them. */
  function Pick(p: Part, j: int): Move
    requires 0 <= j
  {
    if j < |p.mvs| then p.mvs[j] else p.fill
  }

  /** The combinations after spreading the parts of the snakes below `i`, in slot order. */
  function SpreadAll(ps: seq<Part>, i: int): (r: seq<Combo>)
    requires Parts(ps) && 0 <= i <= |ps|
    ensures 1 <= |r| <= 4 && Rows(r, |ps|)
    decreases i
  {
    if i == 0 then [Start(|ps|)]
    else
      var prev := SpreadAll(ps, i - 1);
      var p := ps[i - 1];
      if p.on then Spread(prev, i - 1, p.mvs, p.fill) else prev
  }

  /** Snakes that do not spread, and snakes not yet reached, move up in every combination. */
  lemma {:induction false} SpreadAllUntouched(ps: seq<Part>, i: int, j: int, k: int)
    requires Parts(ps) && 0 <= i <= |ps| && 0 <= k < |ps| && 0 <= j < |SpreadAll(ps, i)|
    requires k >= i || !ps[k].on
    ensures SpreadAll(ps, i)[j][k] == Up
    decreases i
  {
    if i > 0 {
      var prev := SpreadAll(ps, i - 1);
      if ps[i - 1].on {
        SpreadKeeps(prev, i - 1, ps[i - 1].mvs, ps[i - 1].fill, k, j);
        SpreadAllUntouched(ps, i - 1, if j < |prev| then j else 0, k);
      } else {
        SpreadAllUntouched(ps, i - 1, j, k);
      }
    }
  }

  /** Spreading never drops a combination. */
  lemma {:induction false} SpreadAllGrows(ps: seq<Part>, a: int, i: int)
    requires Parts(ps) && 0 <= a <= i <= |ps|
    ensures |SpreadAll(ps, a)| <= |SpreadAll(ps, i)|
    decreases i
  {
    if a < i {
      SpreadAllGrows(ps, a, i - 1);
    }
  }

  /**
   * A snake that spreads gives each combination that existed once it was
   * reached its move of that rank, or its fill past its moves; combinations
   * added for later snakes copy the first and so carry its first pick.
   */
  lemma {:induction false} SpreadAllColumns(ps: seq<Part>, i: int, k: int, j: int)
    requires Parts(ps) && 0 <= k < i <= |ps| && ps[k].on && 0 <= j < |SpreadAll(ps, i)|
    ensures var n := |SpreadAll(ps, k + 1)|;
      SpreadAll(ps, i)[j][k] == Pick(ps[k], if j < n then j else 0)
    decreases i
  {
    if k < i - 1 {
      var prev := SpreadAll(ps, i - 1);
      var p := ps[i - 1];
      if p.on {
        SpreadKeeps(prev, i - 1, p.mvs, p.fill, k, j);
      }
      SpreadAllColumns(ps, i - 1, k, if !p.on || j < |prev| then j else 0);
      SpreadAllGrows(ps, k + 1, i - 1);
    }
  }

  /** Every snake's part in `limited_move_combinations`: live snakes from `skip` on spread their free moves. */
  function LimitedParts(d: Dims, b: Board, skip: int): (ps: seq<Part>)
    ensures |ps| == |b.snakes| && Parts(ps)
    ensures forall k :: 0 <= k < |ps| ==>
      ps[k] == Part(!(k < skip || IsDead(b.snakes[k])), FreeOf(d, b, k), FallbackOf(d, b, k))
  {
    seq(|b.snakes|, k requires 0 <= k < |b.snakes| =>
      Part(!(k < skip || IsDead(b.snakes[k])), FreeOf(d, b, k), FallbackOf(d, b, k)))
  }

  /** The combinations `limited_move_combinations` has built after the snakes below `i`. */
  function LimitedUpTo(d: Dims, b: Board, skip: int, i: int): (r: seq<Combo>)
    requires 0 <= i <= |b.snakes|
    ensures 1 <= |r| <= 4 && Rows(r, |b.snakes|)
  {
    SpreadAll(LimitedParts(d, b, skip), i)
  }

  /**
   * `limited_move_combinations`: snakes from `skip` on, each live one
   * spreading its free moves over the combinations as the loops do.
   */
  method LimitedMoveCombinations(d: Dims, b: Board, skip: nat) returns (moves: seq<Combo>)
    ensures moves == LimitedUpTo(d, b, skip, |b.snakes|)
  {
    moves := [Start(|b.snakes|)];
    var i := skip;
    if i >= |b.snakes| {
      SkipAll(d, b, skip, |b.snakes|);
      return;
    }
    SkipAll(d, b, skip, i);
    while i < |b.snakes|
      invariant skip <= i <= |b.snakes|
      invariant moves == LimitedUpTo(d, b, skip, i)
    {
      var s := b.snakes[i];
      if IsDead(s) {
        i := i + 1;
        continue;
      }
      moves := SpreadSnake(d, b.bodies.occupied, s.head, moves, i);
      i := i + 1;
    }
  }

  /** Before `skip` nothing changes. */
  lemma {:induction false} SkipAll(d: Dims, b: Board, skip: int, i: int)
    requires 0 <= i <= |b.snakes| && i <= Max(skip, 0)
    ensures LimitedUpTo(d, b, skip, i) == [Start(|b.snakes|)]
    decreases i
  {
    if i > 0 {
      SkipAll(d, b, skip, i - 1);
    }
  }

  /** The inner loops of `limited_move_combinations` for the snake in slot `i`. */
  method SpreadSnake(d: Dims, occ: set<int>, head: int, c0: seq<Combo>, i: int) returns (moves: seq<Combo>)
    requires 1 <= |c0| <= 4 && Wide(c0, i)
    ensures moves == Spread(c0, i, FreeBelow(d, occ, head, 4), LastLegalBelow(d, head, 4))
  {
    var spread, x, some := SpreadFree(d, occ, head, c0, i);
    moves := FillRest(spread, x, i, some);
    var want := Spread(c0, i, FreeBelow(d, occ, head, 4), LastLegalBelow(d, head, 4));
    forall k | 0 <= k < |moves| ensures moves[k] == want[k] {
      if k >= x {
        assert moves[k] == spread[k][i := some];
      }
    }
  }

  /**
   * The first inner loop: the snake's `x`-th free move goes into
   * combination `x`, a copy of the first combination being added when there
   * is none; the last legal move is remembered on the way.
   */
  method SpreadFree(d: Dims, occ: set<int>, head: int, c0: seq<Combo>, i: int) returns (moves: seq<Combo>, x: int, some: Move)
    requires 1 <= |c0| <= 4 && Wide(c0, i)
    ensures x == |FreeBelow(d, occ, head, 4)| && some == LastLegalBelow(d, head, 4)
    ensures |moves| == Max(|c0|, x) && Wide(moves, i)
    ensures forall k :: 0 <= k < x ==>
      moves[k] == (if k < |c0| then c0[k] else c0[0])[i := FreeBelow(d, occ, head, 4)[k]]
    ensures forall k :: x <= k < |moves| ==> moves[k] == c0[k]
  {
    moves := c0;
    x := 0;
    some := Up;
    var j := 0;
    while j < 4
      invariant 0 <= j <= 4
      invariant x == |FreeBelow(d, occ, head, j)|
      invariant some == LastLegalBelow(d, head, j)
      invariant |moves| == Max(|c0|, x) && Wide(moves, i)
      invariant forall k :: 0 <= k < x ==>
        moves[k] == (if k < |c0| then c0[k] else c0[0])[i := FreeBelow(d, occ, head, j)[k]]
      invariant forall k :: x <= k < |moves| ==> moves[k] == c0[k]
    {
      var dest := Constants.MovesFrom(d, head)[j];
      if dest.Some? {
        some := FromInt(j);
        if dest.value !in occ {
          if |moves| == x {
            moves := moves + [moves[0]];
          }
          assert x < |moves| && i < |moves[x]|;
          moves := moves[x := moves[x][i := FromInt(j)]];
          x := x + 1;
        }
      }
      j := j + 1;
    }
  }

  /** The second inner loop: the combinations from `x` on get `some` in slot `i`. */
  method FillRest(c: seq<Combo>, x: int, i: int, some: Move) returns (moves: seq<Combo>)
    requires 0 <= x <= |c| && Wide(c, i)
    ensures |moves| == |c|
    ensures forall t :: 0 <= t < x ==> moves[t] == c[t]
    ensures forall t :: x <= t < |c| ==> moves[t] == c[t][i := some]
  {
    moves := c;
    var k := x;
    while k < |moves|
      invariant x <= k <= |moves| == |c|
      invariant forall t :: 0 <= t < x ==> moves[t] == c[t]
      invariant forall t :: x <= t < k ==> moves[t] == c[t][i := some]
      invariant forall t :: k <= t < |moves| ==> moves[t] == c[t]
    {
      moves := moves[k := moves[k][i := some]];
      k := k + 1;
    }
  }

  /** The free moves of the snake in slot `k` and its fallback. */
  function FreeOf(d: Dims, b: Board, k: int): seq<Move>
    requires 0 <= k < |b.snakes|
  {
    FreeBelow(d, b.bodies.occupied, b.snakes[k].head, 4)
  }

  function FallbackOf(d: Dims, b: Board, k: int): Move
    requires 0 <= k < |b.snakes|
  {
    LastLegalBelow(d, b.snakes[k].head, 4)
  }

  /** Skipped snakes, dead snakes and snakes not yet reached move up in every combination. */
  lemma LimitedUntouched(d: Dims, b: Board, skip: int, i: int, j: int, k: int)
    requires 0 <= i <= |b.snakes| && 0 <= k < |b.snakes|
    requires 0 <= j < |LimitedUpTo(d, b, skip, i)|
    requires k < skip || IsDead(b.snakes[k]) || k >= i
    ensures LimitedUpTo(d, b, skip, i)[j][k] == Up
  {
    SpreadAllUntouched(LimitedParts(d, b, skip), i, j, k);
  }

  /**
   * A live snake from `skip` on has its `j`-th free move in combination `j`,
   * so every free move appears; every other combination gives it one of its
   * free moves or its fallback, the last legal move.
   */
  lemma LimitedCovers(d: Dims, b: Board, skip: int, i: int, k: int)
    requires 0 <= i <= |b.snakes| && 0 <= skip <= k < i && IsAlive(b.snakes[k])
    ensures var r := LimitedUpTo(d, b, skip, i);
      && |FreeOf(d, b, k)| <= |r|
      && (forall j :: 0 <= j < |FreeOf(d, b, k)| ==> r[j][k] == FreeOf(d, b, k)[j])
      && (forall j :: 0 <= j < |r| ==> r[j][k] in FreeOf(d, b, k) || r[j][k] == FallbackOf(d, b, k))
  {
    var ps := LimitedParts(d, b, skip);
    var r := SpreadAll(ps, i);
    var n := |SpreadAll(ps, k + 1)|;
    assert ps[k] == Part(true, FreeOf(d, b, k), FallbackOf(d, b, k));
    SpreadAllGrows(ps, k + 1, i);
    forall j | 0 <= j < |r|
      ensures r[j][k] == Pick(ps[k], if j < n then j else 0)
    {
      SpreadAllColumns(ps, i, k, j);
    }
  }

  /** `limited_move_combinations` gives one to four combinations of one move per snake. */
  lemma LimitedShape(d: Dims, b: Board, skip: int)
    ensures var r := LimitedUpTo(d, b, skip, |b.snakes|);
      1 <= |r| <= 4 && forall j :: 0 <= j < |r| ==> |r[j]| == |b.snakes|
  {
  }

  /**
   * The sort key of `ordered_limited_move_combinations`: the distance from
   * my head to the move's destination, plus ten when that is one step and
   * the mover is not longer than me. The destination always exists for the
   * moves this is applied to; elsewhere the key is 0.
   */
  function Key(d: Dims, b: Board, k: int, mv: Move): int
    requires 0 <= k < |b.snakes|
  {
    var o := Constants.MovesFrom(d, b.snakes[k].head)[ToInt(mv)];
    var me := b.snakes[0].head;
    if o.Some? && OnBoard(d, me) && OnBoard(d, o.value) then
      var dist := Distance(d, me, o.value);
      if dist == 1 && b.snakes[k].length <= b.snakes[0].length then dist + 10 else dist
    else 0
  }

  /** Insertion before the first element with a key at least as large. */
  function InsertByKey(m: Move, s: seq<Move>, key: Move -> int): (r: seq<Move>)
    ensures |r| == |s| + 1
    ensures multiset(r) == multiset(s) + multiset{m}
    ensures forall q :: 0 <= q < |r| ==> r[q] == m || r[q] in s
  {
    if |s| == 0 then [m]
    else if key(m) <= key(s[0]) then [m] + s
    else
      assert s == [s[0]] + s[1..];
      [s[0]] + InsertByKey(m, s[1..], key)
  }

  /** `sort_by_key`: a stable sort, here by insertion. */
  function SortByKey(s: seq<Move>, key: Move -> int): (r: seq<Move>)
    ensures |r| == |s|
    ensures multiset(r) == multiset(s)
  {
    if |s| == 0 then []
    else
      assert s == [s[0]] + s[1..];
      InsertByKey(s[0], SortByKey(s[1..], key), key)
  }

  predicate SortedBy(s: seq<Move>, key: Move -> int)
  {
    forall i, j :: 0 <= i < j < |s| ==> key(s[i]) <= key(s[j])
  }

  lemma {:induction false} InsertSorted(m: Move, s: seq<Move>, key: Move -> int)
    requires SortedBy(s, key)
    ensures SortedBy(InsertByKey(m, s, key), key)
    decreases |s|
  {
    if |s| > 0 && key(m) > key(s[0]) {
      var t := s[1..];
      InsertSorted(m, t, key);
      assert forall q :: 0 <= q < |t| ==> t[q] == s[q + 1];
      InsertAbove(m, t, key, key(s[0]));
      ConsSorted(s[0], InsertByKey(m, t, key), key);
    }
  }

  /** A sorted sequence stays sorted with a move in front whose key is no larger. */
  lemma ConsSorted(x: Move, r: seq<Move>, key: Move -> int)
    requires SortedBy(r, key) && forall q :: 0 <= q < |r| ==> key(r[q]) >= key(x)
    ensures SortedBy([x] + r, key)
  {
    var out := [x] + r;
    forall a, c | 0 <= a < c < |out|
      ensures key(out[a]) <= key(out[c])
    {
      assert out[c] == r[c - 1];
      if a > 0 {
        assert out[a] == r[a - 1];
      }
    }
  }

  /** Inserting into moves whose keys are at least `lo` a move whose key is at least `lo` keeps them so. */
  lemma InsertAbove(m: Move, s: seq<Move>, key: Move -> int, lo: int)
    requires key(m) >= lo && forall q :: 0 <= q < |s| ==> key(s[q]) >= lo
    ensures forall q :: 0 <= q < |InsertByKey(m, s, key)| ==> key(InsertByKey(m, s, key)[q]) >= lo
  {
    var r := InsertByKey(m, s, key);
    forall q | 0 <= q < |r| ensures key(r[q]) >= lo {
      if r[q] != m {
        var p :| 0 <= p < |s| && s[p] == r[q];
      }
    }
  }

  /** The sort returns its input reordered, keys in increasing order. */
  lemma {:induction false} SortSorted(s: seq<Move>, key: Move -> int)
    ensures SortedBy(SortByKey(s, key), key)
    decreases |s|
  {
    if |s| > 0 {
      SortSorted(s[1..], key);
      InsertSorted(s[0], SortByKey(s[1..], key), key);
    }
  }

  /** The moves of `s` whose key is `v`, in their order in `s`. */
  function WithKey(s: seq<Move>, key: Move -> int, v: int): seq<Move>
  {
    if |s| == 0 then []
    else (if key(s[0]) == v then [s[0]] else []) + WithKey(s[1..], key, v)
  }

  /** Insertion passes over smaller keys only, so `m` lands before every move with its own key. */
  lemma {:induction false} InsertWithKey(m: Move, s: seq<Move>, key: Move -> int, v: int)
    ensures WithKey(InsertByKey(m, s, key), key, v) == (if key(m) == v then [m] else []) + WithKey(s, key, v)
    decreases |s|
  {
    if |s| == 0 || key(m) <= key(s[0]) {
      assert InsertByKey(m, s, key) == [m] + s;
      WithKeyCons(m, s, key, v);
    } else {
      var t := InsertByKey(m, s[1..], key);
      assert InsertByKey(m, s, key) == [s[0]] + t;
      InsertWithKey(m, s[1..], key, v);
      WithKeyCons(s[0], t, key, v);
      WithKeyCons(s[0], s[1..], key, v);
      assert [s[0]] + s[1..] == s;
      if key(m) == v {
        assert key(s[0]) != v;
      } else {
        assert WithKey(t, key, v) == WithKey(s[1..], key, v);
      }
    }
  }

  /** `WithKey` of a sequence with one more move in front. */
  lemma WithKeyCons(x: Move, t: seq<Move>, key: Move -> int, v: int)
    ensures WithKey([x] + t, key, v) == (if key(x) == v then [x] else []) + WithKey(t, key, v)
  {
  }

  /** The sort is stable: the moves sharing a key keep their order. */
  lemma {:induction false} SortStable(s: seq<Move>, key: Move -> int, v: int)
    ensures WithKey(SortByKey(s, key), key, v) == WithKey(s, key, v)
    decreases |s|
  {
    if |s| > 0 {
      SortStable(s[1..], key, v);
      InsertWithKey(s[0], SortByKey(s[1..], key), key, v);
    }
  }

  /** The key `Key` gives the moves of the snake in slot `k`. */
  function KeyOf(d: Dims, b: Board, k: int): Move -> int
    requires 0 <= k < |b.snakes|
  {
    mv => Key(d, b, k, mv)
  }

  /** The moves a snake in slot `k` contributes: its allowed moves by key when alive, up otherwise. */
  function OrderedMovesOf(d: Dims, b: Board, k: int): (r: seq<Move>)
    requires 0 <= k < |b.snakes|
    ensures 1 <= |r| <= 4
  {
    if IsAlive(b.snakes[k]) then
      SortByKey(AllowedSpec(d, b.bodies.occupied, b.snakes[k].head), KeyOf(d, b, k))
    else [Up]
  }

  /** Every snake's part in `ordered_limited_move_combinations`: snakes from `skip` on spread their ordered moves, filling with the last. */
  function OrderedParts(d: Dims, b: Board, skip: int): (ps: seq<Part>)
    ensures |ps| == |b.snakes| && Parts(ps)
    ensures forall k :: 0 <= k < |ps| ==>
      ps[k] == Part(skip <= k, OrderedMovesOf(d, b, k), OrderedMovesOf(d, b, k)[|OrderedMovesOf(d, b, k)| - 1])
  {
    seq(|b.snakes|, k requires 0 <= k < |b.snakes| =>
      var mvs := OrderedMovesOf(d, b, k); Part(skip <= k, mvs, mvs[|mvs| - 1]))
  }

  /**
   * `ordered_limited_move_combinations` after the snakes below `i`: each
   * snake from `skip` on spreads its ordered moves, filling with its last.
   */
  function OrderedUpTo(d: Dims, b: Board, skip: int, i: int): (r: seq<Combo>)
    requires 0 <= i <= |b.snakes|
    ensures 1 <= |r| <= 4 && Rows(r, |b.snakes|)
  {
    SpreadAll(OrderedParts(d, b, skip), i)
  }

  /**
   * In the ordered combinations a snake from `skip` on has, in each
   * combination that existed once it was reached, its move of that rank or
   * its last move; combinations added for later snakes copy the first
   * combination and give it its first move. Skipped snakes move up.
   */
  lemma OrderedColumns(d: Dims, b: Board, skip: int, i: int, k: int, j: int)
    requires 0 <= skip && 0 <= k < i <= |b.snakes| && 0 <= j < |OrderedUpTo(d, b, skip, i)|
    ensures k < skip ==> OrderedUpTo(d, b, skip, i)[j][k] == Up
    ensures var mvs, n := OrderedMovesOf(d, b, k), |OrderedUpTo(d, b, skip, k + 1)|;
      skip <= k ==> OrderedUpTo(d, b, skip, i)[j][k] == if j < n then mvs[Min(j, |mvs| - 1)] else mvs[0]
  {
    var ps := OrderedParts(d, b, skip);
    if k < skip {
      SpreadAllUntouched(ps, i, j, k);
    } else {
      SpreadAllColumns(ps, i, k, j);
    }
  }

  /** A snake's ordered moves are its allowed moves, stably sorted by key. */
  lemma OrderedMovesSorted(d: Dims, b: Board, k: int)
    requires 0 <= k < |b.snakes| && IsAlive(b.snakes[k])
    ensures multiset(OrderedMovesOf(d, b, k)) == multiset(AllowedSpec(d, b.bodies.occupied, b.snakes[k].head))
    ensures forall i, j :: 0 <= i < j < |OrderedMovesOf(d, b, k)| ==>
      Key(d, b, k, OrderedMovesOf(d, b, k)[i]) <= Key(d, b, k, OrderedMovesOf(d, b, k)[j])
    ensures forall v ::
              WithKey(OrderedMovesOf(d, b, k), KeyOf(d, b, k), v) ==
              WithKey(AllowedSpec(d, b.bodies.occupied, b.snakes[k].head), KeyOf(d, b, k), v)
  {
    var s := AllowedSpec(d, b.bodies.occupied, b.snakes[k].head);
    SortSorted(s, KeyOf(d, b, k));
    forall v ensures WithKey(OrderedMovesOf(d, b, k), KeyOf(d, b, k), v) == WithKey(s, KeyOf(d, b, k), v) {
      SortStable(s, KeyOf(d, b, k), v);
    }
  }

  /** The moves of the snake in slot `k` in the full product: its allowed moves when alive, up otherwise. */
  function ListOf(d: Dims, b: Board, k: int): (r: seq<Move>)
    requires 0 <= k < |b.snakes|
    ensures 1 <= |r| <= 4
  {
    if IsAlive(b.snakes[k]) then AllowedSpec(d, b.bodies.occupied, b.snakes[k].head) else [Up]
  }

  /** Every combination of `prev` with slot `idx` set to `m`. */
  function Assign(prev: seq<Combo>, idx: int, m: Move): (r: seq<Combo>)
    requires Wide(prev, idx)
    ensures |r| == |prev|
    ensures forall j :: 0 <= j < |r| ==> idx < |prev[j]| && r[j] == prev[j][idx := m]
  {
    seq(|prev|, j requires 0 <= j < |prev| => assert 0 <= idx < |prev[j]|; prev[j][idx := m])
  }

  /** For each move in turn, every combination of `prev` with slot `idx` set to it. */
  function Extend(prev: seq<Combo>, idx: int, mvs: seq<Move>): (r: seq<Combo>)
    requires Wide(prev, idx)
    ensures |r| == |prev| * |mvs|
    decreases |mvs|
  {
    if |mvs| == 0 then []
    else Extend(prev, idx, mvs[..|mvs| - 1]) + Assign(prev, idx, mvs[|mvs| - 1])
  }

  /** Every snake's moves for `move_combinations`, by slot. */
  function ListsOf(d: Dims, b: Board): (ls: seq<seq<Move>>)
    ensures |ls| == |b.snakes| && forall k :: 0 <= k < |ls| ==> ls[k] == ListOf(d, b, k)
  {
    seq(|b.snakes|, k requires 0 <= k < |b.snakes| => ListOf(d, b, k))
  }

  /** No snake's move list repeats a move. */
  lemma ListsDistinct(d: Dims, b: Board)
    ensures forall k :: 0 <= k < |b.snakes| ==> Distinct(ListsOf(d, b)[k])
  {
    forall k | 0 <= k < |b.snakes| ensures Distinct(ListsOf(d, b)[k]) {
      var l := ListOf(d, b, k);
      FreeBelowExact(d, b.bodies.occupied, b.snakes[k].head, 4);
      forall x, y | 0 <= x < y < |l| ensures l[x] != l[y] {
        if IsAlive(b.snakes[k]) && |FreeBelow(d, b.bodies.occupied, b.snakes[k].head, 4)| > 0 {
          assert ToInt(l[x]) < ToInt(l[y]);
        }
      }
    }
  }

  /** The product over the first `i` snakes from `skip` on. */
  function Product(ls: seq<seq<Move>>, skip: nat, i: nat): (r: seq<Combo>)
    requires skip + i <= |ls|
    ensures Rows(r, |ls|)
    decreases i
  {
    if i == 0 then [Start(|ls|)]
    else
      var prev := Product(ls, skip, i - 1);
      ExtendRows(prev, skip + i - 1, ls[skip + i - 1], |ls|);
      Extend(prev, skip + i - 1, ls[skip + i - 1])
  }

  lemma {:induction false} ExtendRows(prev: seq<Combo>, idx: int, mvs: seq<Move>, n: int)
    requires Rows(prev, n) && 0 <= idx < n
    ensures Wide(prev, idx) && Rows(Extend(prev, idx, mvs), n)
    decreases |mvs|
  {
    if |mvs| > 0 {
      ExtendRows(prev, idx, mvs[..|mvs| - 1], n);
    }
  }

  /**
   * `move_combinations`: the Cartesian product built in place. Each snake's
   * round appends, for every one of its moves, a copy of each combination
   * of the previous round; the rounds before the last are drained at the end.
   */
  method MoveCombinations(d: Dims, b: Board, skip: nat) returns (r: seq<Combo>)
    requires skip <= |b.snakes|
    ensures r == Product(ListsOf(d, b), skip, |b.snakes| - skip)
  {
    r := BuildProduct(ListsOf(d, b), skip);
  }

  /** The rounds of `move_combinations` over any move lists. */
  method BuildProduct(ls: seq<seq<Move>>, skip: nat) returns (r: seq<Combo>)
    requires skip <= |ls|
    ensures r == Product(ls, skip, |ls| - skip)
  {
    var moves := [Start(|ls|)];
    var end := 0;
    var i: nat := 0;
    while i < |ls| - skip
      invariant i <= |ls| - skip
      invariant 0 <= end <= |moves|
      invariant moves[end..] == Product(ls, skip, i)
    {
      var p := Product(ls, skip, i);
      var mvs := ls[skip + i];
      ExtendRows(p, skip + i, mvs, |ls|);
      var grown := Round(moves, end, skip + i, mvs);
      assert grown[|moves|..] == Product(ls, skip, i + 1);
      end := |moves|;
      moves := grown;
      i := i + 1;
    }
    r := moves[end..];
  }

  /** One snake's round: the combinations from `start` on, copied once per move with the snake's slot set. */
  method Round(moves: seq<Combo>, start: int, idx: int, mvs: seq<Move>) returns (out: seq<Combo>)
    requires 0 <= start <= |moves| && Wide(moves[start..], idx)
    ensures out == moves + Extend(moves[start..], idx, mvs)
    ensures out[|moves|..] == Extend(moves[start..], idx, mvs)
  {
    var p := moves[start..];
    var end := |moves|;
    out := moves;
    var t := 0;
    while t < |mvs|
      invariant 0 <= t <= |mvs|
      invariant end <= |out| && out[..end] == moves
      invariant out[end..] == Extend(p, idx, mvs[..t])
    {
      var before := out;
      out := CopyWith(out, start, end, idx, mvs[t]);
      assert out[..end] == before[..end];
      assert out[end..] == before[end..] + Assign(p, idx, mvs[t]);
      ExtendSnoc(p, idx, mvs, t);
      t := t + 1;
    }
    assert mvs[..|mvs|] == mvs;
    assert out == out[..end] + out[end..];
  }

  /** Appends each combination between `start` and `end` with slot `idx` set to `m`. */
  method CopyWith(moves: seq<Combo>, start: int, end: int, idx: int, m: Move) returns (out: seq<Combo>)
    requires 0 <= start <= end <= |moves| && Wide(moves[start..end], idx)
    ensures out == moves + Assign(moves[start..end], idx, m)
  {
    var p := moves[start..end];
    WidePrefixes(p, idx);
    out := moves;
    var j := start;
    while j < end
      invariant start <= j <= end
      invariant Wide(p[..j - start], idx)
      invariant out == moves + Assign(p[..j - start], idx, m)
    {
      assert moves[j] == p[j - start];
      AssignSnoc(p, idx, m, j - start);
      out := out + [moves[j][idx := m]];
      j := j + 1;
    }
    assert p[..end - start] == p;
  }

  lemma WidePrefixes(p: seq<Combo>, idx: int)
    requires Wide(p, idx)
    ensures forall q :: 0 <= q <= |p| ==> Wide(p[..q], idx)
  {
    forall q | 0 <= q <= |p| ensures Wide(p[..q], idx) {
      assert forall j :: 0 <= j < q ==> |p[..q][j]| == |p[j]|;
    }
  }

  lemma AssignSnoc(p: seq<Combo>, idx: int, m: Move, q: int)
    requires Wide(p, idx) && 0 <= q < |p|
    ensures 0 <= idx < |p[q]| && Wide(p[..q], idx) && Wide(p[..q + 1], idx)
    ensures Assign(p[..q + 1], idx, m) == Assign(p[..q], idx, m) + [p[q][idx := m]]
  {
    assert forall j :: 0 <= j < q ==> p[..q][j] == p[j];
  }

  lemma ExtendSnoc(p: seq<Combo>, idx: int, mvs: seq<Move>, t: int)
    requires Wide(p, idx) && 0 <= t < |mvs|
    ensures Extend(p, idx, mvs[..t + 1]) == Extend(p, idx, mvs[..t]) + Assign(p, idx, mvs[t])
  {
    assert mvs[..t + 1][..t] == mvs[..t];
  }

  /** A combination the product over the first `i` snakes from `skip` on should contain. */
  predicate InProduct(ls: seq<seq<Move>>, skip: nat, i: nat, c: Combo)
    requires skip + i <= |ls|
  {
    |c| == |ls| &&
    forall k :: 0 <= k < |ls| ==>
      if skip <= k < skip + i then c[k] in ls[k] else c[k] == Up
  }

  /** Every member of `Extend` is a member of `prev` with slot `idx` set to one of the moves. */
  lemma {:induction false} ExtendSource(prev: seq<Combo>, idx: int, mvs: seq<Move>, a: int) returns (j: int, t: int)
    requires Wide(prev, idx) && 0 <= a < |Extend(prev, idx, mvs)|
    ensures 0 <= j < |prev| && 0 <= t < |mvs| && idx < |prev[j]|
    ensures Extend(prev, idx, mvs)[a] == prev[j][idx := mvs[t]]
    decreases |mvs|
  {
    var init := mvs[..|mvs| - 1];
    var front := Extend(prev, idx, init);
    if a < |front| {
      j, t := ExtendSource(prev, idx, init, a);
    } else {
      j, t := a - |front|, |mvs| - 1;
    }
  }

  /** Every member of `prev` with slot `idx` set to one of the moves is in `Extend`. */
  lemma {:induction false} ExtendContains(prev: seq<Combo>, idx: int, mvs: seq<Move>, j: int, t: int)
    requires Wide(prev, idx) && 0 <= j < |prev| && 0 <= t < |mvs|
    ensures idx < |prev[j]| && prev[j][idx := mvs[t]] in Extend(prev, idx, mvs)
    decreases |mvs|
  {
    var init := mvs[..|mvs| - 1];
    var front := Extend(prev, idx, init);
    var back := Assign(prev, idx, mvs[|mvs| - 1]);
    var all := Extend(prev, idx, mvs);
    assert all == front + back;
    if t < |mvs| - 1 {
      ExtendContains(prev, idx, init, j, t);
      assert init[t] == mvs[t];
    } else {
      assert back[j] == prev[j][idx := mvs[t]];
      assert all[|front| + j] == back[j];
    }
  }

  /**
   * `move_combinations` holds exactly the combinations in which every
   * snake from `skip` on makes one of its moves and every other snake moves up.
   */
  lemma ProductExact(ls: seq<seq<Move>>, skip: nat, i: nat, c: Combo)
    requires skip + i <= |ls|
    ensures c in Product(ls, skip, i) <==> InProduct(ls, skip, i, c)
  {
    if c in Product(ls, skip, i) {
      ProductSound(ls, skip, i, c);
    }
    if InProduct(ls, skip, i, c) {
      ProductComplete(ls, skip, i, c);
    }
  }

  lemma ProductSound(ls: seq<seq<Move>>, skip: nat, i: nat, c: Combo)
    requires skip + i <= |ls| && c in Product(ls, skip, i)
    ensures InProduct(ls, skip, i, c)
  {
    var r := Product(ls, skip, i);
    var a :| 0 <= a < |r| && r[a] == c;
    ProductSoundAt(ls, skip, i, a);
  }

  lemma {:induction false} ProductSoundAt(ls: seq<seq<Move>>, skip: nat, i: nat, a: int)
    requires skip + i <= |ls| && 0 <= a < |Product(ls, skip, i)|
    ensures InProduct(ls, skip, i, Product(ls, skip, i)[a])
    decreases i
  {
    var n := |ls|;
    var c := Product(ls, skip, i)[a];
    if i > 0 {
      var prev := Product(ls, skip, i - 1);
      var idx := skip + i - 1;
      var mvs := ls[idx];
      ExtendRows(prev, idx, mvs, n);
      var j, t := ExtendSource(prev, idx, mvs, a);
      assert c == prev[j][idx := mvs[t]];
      ProductSoundAt(ls, skip, i - 1, j);
      forall k | 0 <= k < n
        ensures if skip <= k < skip + i then c[k] in ls[k] else c[k] == Up
      {
        if k == idx {
          assert c[k] == mvs[t];
        } else {
          assert c[k] == prev[j][k];
        }
      }
    }
  }

  lemma {:induction false} ProductComplete(ls: seq<seq<Move>>, skip: nat, i: nat, c: Combo)
    requires skip + i <= |ls| && InProduct(ls, skip, i, c)
    ensures c in Product(ls, skip, i)
    decreases i
  {
    if i == 0 {
      OnlyStart(ls, skip, c);
    } else {
      var c0 := CompleteStep(ls, skip, i, c);
      ProductComplete(ls, skip, i - 1, c0);
    }
  }

  /** A combination over `i` snakes is in the product once the one without the last snake's move is. */
  lemma CompleteStep(ls: seq<seq<Move>>, skip: nat, i: nat, c: Combo) returns (c0: Combo)
    requires 0 < i && skip + i <= |ls| && InProduct(ls, skip, i, c)
    ensures InProduct(ls, skip, i - 1, c0)
    ensures c0 in Product(ls, skip, i - 1) ==> c in Product(ls, skip, i)
  {
    var prev := Product(ls, skip, i - 1);
    var idx := skip + i - 1;
    var mvs := ls[idx];
    ExtendRows(prev, idx, mvs, |ls|);
    c0 := DropSlot(ls, skip, i, c);
    if c0 in prev {
      ExtendHas(prev, idx, mvs, c0, c);
    }
  }

  /** Over no snakes, the only combination is everyone moving up. */
  lemma OnlyStart(ls: seq<seq<Move>>, skip: nat, c: Combo)
    requires skip <= |ls| && InProduct(ls, skip, 0, c)
    ensures c == Start(|ls|)
  {
    assert forall k :: 0 <= k < |ls| ==> c[k] == Start(|ls|)[k];
  }

  /** A member of `prev` with slot `idx` set to one of the moves is in `Extend`. */
  lemma ExtendHas(prev: seq<Combo>, idx: int, mvs: seq<Move>, c0: Combo, c: Combo)
    requires Wide(prev, idx) && c0 in prev && idx < |c0| == |c| && c[idx] in mvs && c0[idx := c[idx]] == c
    ensures c in Extend(prev, idx, mvs)
  {
    var j :| 0 <= j < |prev| && prev[j] == c0;
    var t :| 0 <= t < |mvs| && mvs[t] == c[idx];
    ExtendContains(prev, idx, mvs, j, t);
  }

  /** A combination of the product over `i` snakes is one over `i - 1` with the last snake's slot set. */
  lemma DropSlot(ls: seq<seq<Move>>, skip: nat, i: nat, c: Combo) returns (c0: Combo)
    requires 0 < i && skip + i <= |ls| && InProduct(ls, skip, i, c)
    ensures InProduct(ls, skip, i - 1, c0) && c0[skip + i - 1 := c[skip + i - 1]] == c
    ensures c[skip + i - 1] in ls[skip + i - 1]
  {
    var idx := skip + i - 1;
    c0 := c[idx := Up];
    forall k | 0 <= k < |ls|
      ensures if skip <= k < skip + i - 1 then c0[k] in ls[k] else c0[k] == Up
    {
      if k != idx {
        assert c0[k] == c[k];
      }
    }
  }

  predicate Distinct<T(==)>(s: seq<T>)
  {
    forall a, c :: 0 <= a < c < |s| ==> s[a] != s[c]
  }

  /** `Extend` of distinct combinations that agree in slot `idx`, by distinct moves, has no repeats. */
  lemma {:induction false} ExtendDistinct(prev: seq<Combo>, idx: int, mvs: seq<Move>)
    requires Wide(prev, idx) && Distinct(prev) && Distinct(mvs)
    requires forall j :: 0 <= j < |prev| ==> idx < |prev[j]| && prev[j][idx] == Up
    ensures Distinct(Extend(prev, idx, mvs))
    decreases |mvs|
  {
    if |mvs| > 0 {
      var init := mvs[..|mvs| - 1];
      var last := mvs[|mvs| - 1];
      ExtendDistinct(prev, idx, init);
      var front := Extend(prev, idx, init);
      var back := Assign(prev, idx, last);
      var all := front + back;
      assert all == Extend(prev, idx, mvs);
      forall a, c | 0 <= a < c < |all| ensures all[a] != all[c] {
        if a >= |front| {
          var x, y := prev[a - |front|], prev[c - |front|];
          UpdateInjective(x, y, idx, last);
        } else if c >= |front| {
          var j, t := ExtendSource(prev, idx, init, a);
          assert all[a][idx] == init[t] == mvs[t];
          assert all[c][idx] == last == mvs[|mvs| - 1];
        } else {
          assert all[a] == front[a] && all[c] == front[c];
        }
      }
    }
  }

  lemma UpdateInjective(x: Combo, y: Combo, idx: int, m: Move)
    requires 0 <= idx < |x| && 0 <= idx < |y| && x[idx] == y[idx]
    ensures x != y ==> x[idx := m] != y[idx := m]
  {
    if x[idx := m] == y[idx := m] {
      assert forall k :: 0 <= k < |x| ==> x[k] == x[idx := m][k] || k == idx;
    }
  }

  /** No combination of `move_combinations` appears twice. */
  lemma {:induction false} ProductDistinct(ls: seq<seq<Move>>, skip: nat, i: nat)
    requires skip + i <= |ls| && forall k :: skip <= k < skip + i ==> Distinct(ls[k])
    ensures Distinct(Product(ls, skip, i))
    decreases i
  {
    if i > 0 {
      var prev := Product(ls, skip, i - 1);
      var idx := skip + i - 1;
      var mvs := ls[idx];
      ProductDistinct(ls, skip, i - 1);
      ExtendRows(prev, idx, mvs, |ls|);
      forall j | 0 <= j < |prev| ensures idx < |prev[j]| && prev[j][idx] == Up {
        ProductSound(ls, skip, i - 1, prev[j]);
      }
      ExtendDistinct(prev, idx, mvs);
    }
  }

  /** The number of combinations: the product of the snakes' move counts. */
  function CountUpTo(ls: seq<seq<Move>>, skip: nat, i: nat): nat
    requires skip + i <= |ls|
  {
    if i == 0 then 1 else CountUpTo(ls, skip, i - 1) * |ls[skip + i - 1]|
  }

  lemma {:induction false} ProductSize(ls: seq<seq<Move>>, skip: nat, i: nat)
    requires skip + i <= |ls|
    ensures |Product(ls, skip, i)| == CountUpTo(ls, skip, i)
    decreases i
  {
    if i > 0 {
      ProductSize(ls, skip, i - 1);
    }
  }
}

=== FILE: moves.dfy ===
/**
 * The four moves of the bitboard engine and their encodings: a move is
 * stored as a two-bit integer (0 up, 1 down, 2 right, 3 left) and turned into
 * an offset between cell numbers, either on a bounded board or on a board
 * whose edges wrap around. Offsets are computed in 16-bit arithmetic in the
 * engine; for boards of fewer than 2^15 cells none of them overflows, and
 * they are computed here on unbounded integers.
 */
module Moves {
  import opened Grid

  datatype Move = Up | Down | Right | Left

  /** `to_int`: the move's discriminant. */
  function ToInt(m: Move): (x: int)
    ensures 0 <= x < 4
  {
    match m
    case Up => 0
    case Down => 1
    case Right => 2
    case Left => 3
  }

  /**
   * `from_int`: the inverse of `to_int`. The engine transmutes the byte
   * without a check, so only the four discriminants are valid arguments.
   */
  function FromInt(x: int): (m: Move)
    requires 0 <= x < 4
    ensures ToInt(m) == x
  {
    if x == 0 then Up else if x == 1 then Down else if x == 2 then Right else Left
  }

  lemma ToIntInjective(m: Move, n: Move)
    ensures ToInt(m) == ToInt(n) <==> m == n
    ensures FromInt(ToInt(m)) == m
  {
  }

  /** `int_to_index`: the offset of a move on a board without wrapping; panics on anything but 0..3. */
  function IntToIndex(x: int, w: int): int
    requires 0 <= x < 4
  {
    if x == 0 then w else if x == 1 then -w else if x == 2 then 1 else -1
  }

  /**
   * `int_to_index_wrapping`: the offset of a move on a board whose edges
   * wrap around; every integer other than 0, 1 and 2 is treated as left.
   */
  function IntToIndexWrapping(x: int, w: int, h: int, from: int): int
    requires w > 0
  {
    if x == 0 then
      (if from < (h - 1) * w then w else -(w * (h - 1)))
    else if x == 1 then
      (if from >= w then -w else w * (h - 1))
    else if x == 2 then
      (if from % w < w - 1 then 1 else -(w - 1))
    else
      (if from % w > 0 then -1 else w - 1)
  }

  /** `to_index`: up is one row up, down one row down, right and left one column over. */
  function ToIndex(m: Move, w: int): (r: int)
    ensures m == Up ==> r == w
    ensures m == Down ==> r == -w
    ensures m == Right ==> r == 1
    ensures m == Left ==> r == -1
  {
    IntToIndex(ToInt(m), w)
  }

  /** `to_index_wrapping`: the wrapping offset of the move's discriminant. */
  function ToIndexWrapping(m: Move, d: Dims, from: int): (r: int)
    requires OnBoard(d, from)
    ensures OnBoard(d, from + r)
    ensures r == IntToIndexWrapping(ToInt(m), d.w, d.h, from)
  {
    WrappingOnTorus(d, ToInt(m), from);
    IntToIndexWrapping(ToInt(m), d.w, d.h, from)
  }

  /**
   * The cell a move leads to on the wrapping board, in rows and columns: the
   * next row or column in the move's direction, going round from the last to
   * the first and back.
   */
  predicate TorusStep(d: Dims, x: int, from: int, to: int)
  {
    var r, c := Row(d, from), Col(d, from);
    if x == 0 then Col(d, to) == c && Row(d, to) == (if r < d.h - 1 then r + 1 else 0)
    else if x == 1 then Col(d, to) == c && Row(d, to) == (if r > 0 then r - 1 else d.h - 1)
    else if x == 2 then Row(d, to) == r && Col(d, to) == (if c < d.w - 1 then c + 1 else 0)
    else Row(d, to) == r && Col(d, to) == (if c > 0 then c - 1 else d.w - 1)
  }

  /** On a wrapping board a move never leaves the board and steps as `TorusStep` says. */
  lemma WrappingOnTorus(d: Dims, x: int, from: int)
    requires OnBoard(d, from)
    ensures OnBoard(d, from + IntToIndexWrapping(x, d.w, d.h, from))
    ensures TorusStep(d, x, from, from + IntToIndexWrapping(x, d.w, d.h, from))
  {
    RowBound(d, from);
    RowCol(d, from);
    var r, c := Row(d, from), Col(d, from);
    var to := from + IntToIndexWrapping(x, d.w, d.h, from);
    if x == 0 {
      var nr := if r < d.h - 1 then r + 1 else 0;
      WrapUp(d, from, r, c);
      Land(d, to, nr, c);
    } else if x == 1 {
      var nr := if r > 0 then r - 1 else d.h - 1;
      WrapDown(d, from, r, c);
      Land(d, to, nr, c);
    } else if x == 2 {
      var nc := if c < d.w - 1 then c + 1 else 0;
      assert to == r * d.w + nc;
      Land(d, to, r, nc);
    } else {
      var nc := if c > 0 then c - 1 else d.w - 1;
      assert to == r * d.w + nc;
      Land(d, to, r, nc);
    }
  }

  lemma WrapUp(d: Dims, from: int, r: int, c: int)
    requires from == r * d.w + c && 0 <= r < d.h && 0 <= c < d.w
    ensures from + IntToIndexWrapping(0, d.w, d.h, from) == (if r < d.h - 1 then r + 1 else 0) * d.w + c
  {
    RowLess(d, from, d.h - 1);
    CellDivMod(r, c, d.w);
    if r == d.h - 1 {
      assert d.w * (d.h - 1) == r * d.w;
    }
  }

  lemma WrapDown(d: Dims, from: int, r: int, c: int)
    requires from == r * d.w + c && 0 <= r < d.h && 0 <= c < d.w
    ensures from + IntToIndexWrapping(1, d.w, d.h, from) == (if r > 0 then r - 1 else d.h - 1) * d.w + c
  {
    RowLess(d, from, 1);
    CellDivMod(r, c, d.w);
    if r == 0 {
      assert d.w * (d.h - 1) == (d.h - 1) * d.w;
    }
  }

  /** The cell `r * w + c` with both coordinates in range is on the board, at row `r` and column `c`. */
  lemma Land(d: Dims, to: int, r: int, c: int)
    requires 0 <= r < d.h && 0 <= c < d.w && to == r * d.w + c
    ensures OnBoard(d, to) && Row(d, to) == r && Col(d, to) == c
  {
    CellDivMod(r, c, d.w);
    CellOnBoard(d, r, c);
  }

  /** Whether a move from `from` stays on a board without wrapping. */
  predicate StaysOnBoard(d: Dims, x: int, from: int)
  {
    if x == 0 then Row(d, from) < d.h - 1
    else if x == 1 then Row(d, from) > 0
    else if x == 2 then Col(d, from) < d.w - 1
    else Col(d, from) > 0
  }

  /** Away from the edges the wrapping offset is the plain one. */
  lemma WrappingAgreesInside(d: Dims, x: int, from: int)
    requires 0 <= x < 4 && OnBoard(d, from) && StaysOnBoard(d, x, from)
    ensures IntToIndexWrapping(x, d.w, d.h, from) == IntToIndex(x, d.w)
  {
    if x == 0 {
      RowLess(d, from, d.h - 1);
    } else if x == 1 {
      RowLess(d, from, 1);
    }
  }

  /** Plain offsets stay on the board exactly when the move does not cross an edge. */
  lemma PlainStep(d: Dims, x: int, from: int)
    requires 0 <= x < 4 && OnBoard(d, from)
    ensures StaysOnBoard(d, x, from) ==> OnBoard(d, from + IntToIndex(x, d.w))
    ensures StaysOnBoard(d, x, from) ==> TorusStep(d, x, from, from + IntToIndex(x, d.w))
  {
    if StaysOnBoard(d, x, from) {
      WrappingAgreesInside(d, x, from);
      WrappingOnTorus(d, x, from);
    }
  }
}

=== FILE: nnue.dfy ===
/**
 * The integer side of the NNUE evaluator: the quantized feature
 * transformer (layer 0), its incremental update, the two dense layers and
 * the clipped ReLU between them.
 *
 * The layers are read from a JSON file at start-up; here they are
 * parameters. Every weight and bias is an `i16`, and every `i16` and `i8`
 * operation wraps as in a release build, except where the engine asks for
 * saturation.
 */
module Nnue {
  import opened Common

  /** Four planes over an 11 by 11 board. */
  const NUM_FEATURES := 4 * 121
  /** Width of the accumulator. */
  const M := 256
  /** Width of the hidden dense layer. */
  const K := 32
  /** Lanes of one SIMD register. */
  const LANES := 16

  predicate IsI16(x: int) { -32768 <= x <= 32767 }

  predicate IsI8(x: int) { -128 <= x <= 127 }

  /** One layer as stored in the model file. */
  datatype Layer = Layer(weight: seq<seq<int>>, bias: seq<int>)

  /** `rows` rows of `cols` weights each. */
  predicate Rows(l: Layer, rows: nat, cols: nat)
  {
    |l.weight| == rows && forall r :: 0 <= r < rows ==> |l.weight[r]| == cols
  }

  /** `rows` rows of `cols` weights and `biases` biases, all of them `i16`. */
  predicate Shaped(l: Layer, rows: nat, cols: nat, biases: nat)
  {
    Rows(l, rows, cols) && |l.bias| == biases &&
    (forall r, c :: 0 <= r < rows && 0 <= c < cols ==> IsI16(l.weight[r][c])) &&
    (forall b :: 0 <= b < biases ==> IsI16(l.bias[b]))
  }

  /** The feature transformer is stored feature-major: one row of M weights per feature. */
  predicate Transformer(l: Layer)
  {
    Shaped(l, NUM_FEATURES, M, M)
  }

  /** A list of feature indices the transformer has rows for. */
  predicate Features(fs: seq<int>)
  {
    forall k :: 0 <= k < |fs| ==> 0 <= fs[k] < NUM_FEATURES
  }

  predicate Accumulator(acc: seq<int>)
  {
    |acc| == M && forall i :: 0 <= i < M ==> IsI16(acc[i])
  }

  // ---------------------------------------------------------------------
  // Feature transformer

  /** Sum of the weights at accumulator position `i` over the features `fs`, unbounded. */
  function Column(l: Layer, fs: seq<int>, i: int): int
    requires Rows(l, NUM_FEATURES, M) && Features(fs) && 0 <= i < M
  {
    if |fs| == 0 then 0 else Column(l, fs[..|fs| - 1], i) + l.weight[fs[|fs| - 1]][i]
  }

  lemma {:induction false} ColumnAppend(l: Layer, xs: seq<int>, ys: seq<int>, i: int)
    requires Rows(l, NUM_FEATURES, M) && Features(xs) && Features(ys) && 0 <= i < M
    ensures Features(xs + ys)
    ensures Column(l, xs + ys, i) == Column(l, xs, i) + Column(l, ys, i)
    decreases |ys|
  {
    if |ys| > 0 {
      var ys' := ys[..|ys| - 1];
      assert (xs + ys)[..|xs + ys| - 1] == xs + ys';
      ColumnAppend(l, xs, ys', i);
    } else {
      assert xs + ys == xs;
    }
  }

  /** Taking the feature at index `k` out of a list takes its weight out of the column sum. */
  lemma ColumnRemoveAt(l: Layer, ys: seq<int>, k: int, i: int)
    requires Rows(l, NUM_FEATURES, M) && Features(ys) && 0 <= k < |ys| && 0 <= i < M
    ensures Features(ys[..k] + ys[k + 1..])
    ensures multiset(ys[..k] + ys[k + 1..]) == multiset(ys) - multiset{ys[k]}
    ensures Column(l, ys, i) == Column(l, ys[..k] + ys[k + 1..], i) + l.weight[ys[k]][i]
  {
    var pre, post := ys[..k], ys[k + 1..];
    assert ys == pre + [ys[k]] + post;
    assert multiset(ys) == multiset(pre) + multiset{ys[k]} + multiset(post);
    ColumnAppend(l, pre + [ys[k]], post, i);
    ColumnAppend(l, pre, [ys[k]], i);
    ColumnAppend(l, pre, post, i);
    assert [ys[k]][..0] == [];
  }

  /** The column sum depends only on the multiset of features, not on their order. */
  lemma {:induction false} ColumnPermutation(l: Layer, xs: seq<int>, ys: seq<int>, i: int)
    requires Rows(l, NUM_FEATURES, M) && Features(xs) && Features(ys) && 0 <= i < M
    requires multiset(xs) == multiset(ys)
    ensures Column(l, xs, i) == Column(l, ys, i)
    decreases |xs|
  {
    if |xs| > 0 {
      var e := xs[|xs| - 1];
      var xs' := xs[..|xs| - 1];
      assert xs == xs' + [e];
      assert multiset(xs') == multiset(xs) - multiset{e};
      assert e in multiset(ys);
      var k :| 0 <= k < |ys| && ys[k] == e;
      var ys' := ys[..k] + ys[k + 1..];
      ColumnRemoveAt(l, ys, k, i);
      ColumnPermutation(l, xs', ys', i);
      assert Column(l, xs, i) == Column(l, xs', i) + l.weight[e][i];
      assert Column(l, ys, i) == Column(l, ys', i) + l.weight[e][i];
    } else {
      assert |multiset(ys)| == |multiset(xs)| == 0;
    }
  }

  /**
   * The accumulator of a feature list: at each position, the layer's bias
   * plus the weights of all the features, reduced to an `i16`.
   */
  function Accumulated(l: Layer, fs: seq<int>): (acc: seq<int>)
    requires Transformer(l) && Features(fs)
    ensures Accumulator(acc)
  {
    seq(M, i requires 0 <= i < M => I16(l.bias[i] + Column(l, fs, i)))
  }

  /** `x`, or `-x` when subtracting. */
  function Signed(add: bool, x: int): int { if add then x else -x }

  /** One feature's row added to or, when `add` is false, subtracted from the accumulator, lane by lane, wrapping. */
  method AddFeature(l: Layer, acc: seq<int>, a: int, add: bool) returns (r: seq<int>)
    requires Rows(l, NUM_FEATURES, M) && |acc| == M && 0 <= a < NUM_FEATURES
    ensures |r| == M
    ensures forall j :: 0 <= j < M ==> r[j] == I16(acc[j] + Signed(add, l.weight[a][j]))
  {
    r := acc;
    var i := 0;
    while i < M
      invariant 0 <= i <= M && |r| == M
      invariant forall j :: 0 <= j < i ==> r[j] == I16(acc[j] + Signed(add, l.weight[a][j]))
      invariant forall j :: i <= j < M ==> r[j] == acc[j]
    {
      r := r[i := I16(r[i] + Signed(add, l.weight[a][i]))];
      i := i + 1;
    }
  }

  /** One more feature's row, wrapped into a lane that already holds the sum of a prefix. */
  lemma NextLane(l: Layer, base: int, fs: seq<int>, k: int, j: int, add: bool)
    requires Rows(l, NUM_FEATURES, M) && Features(fs) && 0 <= k < |fs| && 0 <= j < M
    ensures I16(I16(base + Signed(add, Column(l, fs[..k], j))) + Signed(add, l.weight[fs[k]][j]))
         == I16(base + Signed(add, Column(l, fs[..k + 1], j)))
  {
    assert fs[..k + 1][..k] == fs[..k];
    WrapAdd(base + Signed(add, Column(l, fs[..k], j)), Signed(add, l.weight[fs[k]][j]));
  }

  /** The rows of all of `fs` added to (or subtracted from) the accumulator, one feature after another. */
  method AddFeatures(l: Layer, acc: seq<int>, fs: seq<int>, add: bool) returns (r: seq<int>)
    requires Rows(l, NUM_FEATURES, M) && Accumulator(acc) && Features(fs)
    ensures |r| == M
    ensures forall j :: 0 <= j < M ==> r[j] == I16(acc[j] + Signed(add, Column(l, fs, j)))
  {
    r := acc;
    var k := 0;
    while k < |fs|
      invariant 0 <= k <= |fs| && |r| == M
      invariant forall j :: 0 <= j < M ==> r[j] == I16(acc[j] + Signed(add, Column(l, fs[..k], j)))
    {
      var next := AddFeature(l, r, fs[k], add);
      forall j | 0 <= j < M
        ensures next[j] == I16(acc[j] + Signed(add, Column(l, fs[..k + 1], j)))
      {
        NextLane(l, acc[j], fs, k, j, add);
      }
      r := next;
      k := k + 1;
    }
    assert fs[..|fs|] == fs;
  }

  /** `fresh_accumulator`: the bias, then every active feature's row added lane by lane. */
  method FreshAccumulator(l: Layer, fs: seq<int>) returns (acc: seq<int>)
    requires Transformer(l) && Features(fs)
    ensures acc == Accumulated(l, fs)
  {
    acc := seq(M, _ => 0);
    var i := 0;
    while i < M
      invariant 0 <= i <= M && |acc| == M
      invariant forall j :: 0 <= j < i ==> acc[j] == l.bias[j]
    {
      acc := acc[i := l.bias[i]];
      i := i + 1;
    }
    acc := AddFeatures(l, acc, fs, true);
  }

  /** Wrapping at every step gives the same `i16` as wrapping once at the end. */
  lemma WrapAdd(x: int, y: int)
    ensures I16(I16(x) + y) == I16(x + y)
  {
    var m := I16(x);
    assert (x - m) % 65536 == 0;
    assert (m + y) % 65536 == (x + y) % 65536;
  }

  /** The accumulator after subtracting the rows of `removed` and adding those of `added`. */
  function Updated(l: Layer, acc: seq<int>, added: seq<int>, removed: seq<int>): (r: seq<int>)
    requires Transformer(l) && |acc| == M && Features(added) && Features(removed)
    ensures Accumulator(r)
  {
    seq(M, i requires 0 <= i < M => I16(acc[i] - Column(l, removed, i) + Column(l, added, i)))
  }

  /** `update_accumulator`: every removed feature's row subtracted, then every added one's added. */
  method UpdateAccumulator(l: Layer, acc: seq<int>, added: seq<int>, removed: seq<int>) returns (r: seq<int>)
    requires Transformer(l) && Accumulator(acc) && Features(added) && Features(removed)
    ensures r == Updated(l, acc, added, removed)
  {
    var mid := AddFeatures(l, acc, removed, false);
    r := AddFeatures(l, mid, added, true);
    forall j | 0 <= j < M
      ensures r[j] == Updated(l, acc, added, removed)[j]
    {
      WrapAdd(acc[j] - Column(l, removed, j), Column(l, added, j));
    }
  }

  /**
   * The incremental update agrees with a fresh accumulator: updating the
   * accumulator of `fs` by `added` and `removed` gives the accumulator of
   * any list holding the features of `fs`, less `removed`, plus `added`,
   * as multisets (and modulo 2^16, as the engine's arithmetic is).
   */
  lemma UpdateOfFresh(l: Layer, fs: seq<int>, added: seq<int>, removed: seq<int>, gs: seq<int>)
    requires Transformer(l) && Features(fs) && Features(added) && Features(removed)
    requires multiset(removed) <= multiset(fs)
    requires multiset(gs) == multiset(fs) - multiset(removed) + multiset(added)
    ensures Features(gs)
    ensures Updated(l, Accumulated(l, fs), added, removed) == Accumulated(l, gs)
  {
    forall k | 0 <= k < |gs|
      ensures 0 <= gs[k] < NUM_FEATURES
    {
      assert gs[k] in multiset(gs);
      assert gs[k] in multiset(fs) || gs[k] in multiset(added);
    }
    assert multiset(gs + removed) == multiset(fs + added);
    forall i | 0 <= i < M
      ensures Updated(l, Accumulated(l, fs), added, removed)[i] == Accumulated(l, gs)[i]
    {
      ColumnAppend(l, gs, removed, i);
      ColumnAppend(l, fs, added, i);
      ColumnPermutation(l, gs + removed, fs + added, i);
      WrapAdd(l.bias[i] + Column(l, fs, i), -Column(l, removed, i) + Column(l, added, i));
    }
  }

  // ---------------------------------------------------------------------
  // The SIMD feature transformer: sixteen registers of sixteen lanes

  predicate Registers(regs: seq<seq<int>>)
  {
    |regs| == M / LANES && forall c :: 0 <= c < |regs| ==> |regs[c]| == LANES
  }

  /** Loading an accumulator-wide array into registers, one slice of sixteen per register. */
  function Load(xs: seq<int>): (regs: seq<seq<int>>)
    requires |xs| == M
    ensures Registers(regs)
    ensures forall c, t :: 0 <= c < M / LANES && 0 <= t < LANES ==> regs[c][t] == xs[LANES * c + t]
  {
    seq(M / LANES, c requires 0 <= c < M / LANES => xs[LANES * c..LANES * c + LANES])
  }

  /** Writing every register back to its slice of sixteen. */
  function Store(regs: seq<seq<int>>): (xs: seq<int>)
    requires Registers(regs)
    ensures |xs| == M
    ensures forall j :: 0 <= j < M ==> xs[j] == regs[j / LANES][j % LANES]
  {
    seq(M, j requires 0 <= j < M => regs[j / LANES][j % LANES])
  }

  /** `regs[c] = regs[c] ± weight[a][16c..16c+16]` for every register, lanes wrapping. */
  method AddRow(l: Layer, regs: seq<seq<int>>, a: int, add: bool) returns (r: seq<seq<int>>)
    requires Rows(l, NUM_FEATURES, M) && 0 <= a < NUM_FEATURES && Registers(regs)
    ensures Registers(r)
    ensures forall c, t :: 0 <= c < M / LANES && 0 <= t < LANES ==>
      r[c][t] == I16(regs[c][t] + Signed(add, l.weight[a][LANES * c + t]))
  {
    r := regs;
    var c := 0;
    while c < M / LANES
      invariant 0 <= c <= M / LANES && Registers(r)
      invariant forall c', t :: 0 <= c' < c && 0 <= t < LANES ==>
        r[c'][t] == I16(regs[c'][t] + Signed(add, l.weight[a][LANES * c' + t]))
      invariant forall c', t :: c <= c' < M / LANES && 0 <= t < LANES ==> r[c'][t] == regs[c'][t]
    {
      var row := l.weight[a][LANES * c..LANES * c + LANES];
      var lanes := seq(LANES, t requires 0 <= t < LANES => I16(r[c][t] + Signed(add, row[t])));
      r := r[c := lanes];
      c := c + 1;
    }
  }

  /** The rows of all of `fs` added to (or subtracted from) every register, one feature after another. */
  method AddRows(l: Layer, regs: seq<seq<int>>, fs: seq<int>, add: bool) returns (r: seq<seq<int>>)
    requires Rows(l, NUM_FEATURES, M) && Registers(regs) && Features(fs)
    requires forall c, t :: 0 <= c < M / LANES && 0 <= t < LANES ==> IsI16(regs[c][t])
    ensures Registers(r)
    ensures forall c, t :: 0 <= c < M / LANES && 0 <= t < LANES ==>
      r[c][t] == I16(regs[c][t] + Signed(add, Column(l, fs, LANES * c + t)))
  {
    r := regs;
    var k := 0;
    while k < |fs|
      invariant 0 <= k <= |fs| && Registers(r)
      invariant forall c, t :: 0 <= c < M / LANES && 0 <= t < LANES ==>
        r[c][t] == I16(regs[c][t] + Signed(add, Column(l, fs[..k], LANES * c + t)))
    {
      var next := AddRow(l, r, fs[k], add);
      NextRegisters(l, regs, r, next, fs, k, add);
      r := next;
      k := k + 1;
    }
    assert fs[..|fs|] == fs;
  }

  /** One more feature's row, added to registers that hold the sums of a prefix, gives the sums of the longer prefix. */
  lemma NextRegisters(l: Layer, regs: seq<seq<int>>, r: seq<seq<int>>, next: seq<seq<int>>, fs: seq<int>, k: int, add: bool)
    requires Rows(l, NUM_FEATURES, M) && Features(fs) && 0 <= k < |fs|
    requires Registers(regs) && Registers(r) && Registers(next)
    requires forall c, t :: 0 <= c < M / LANES && 0 <= t < LANES ==>
      r[c][t] == I16(regs[c][t] + Signed(add, Column(l, fs[..k], LANES * c + t)))
    requires forall c, t :: 0 <= c < M / LANES && 0 <= t < LANES ==>
      next[c][t] == I16(r[c][t] + Signed(add, l.weight[fs[k]][LANES * c + t]))
    ensures forall c, t :: 0 <= c < M / LANES && 0 <= t < LANES ==>
      next[c][t] == I16(regs[c][t] + Signed(add, Column(l, fs[..k + 1], LANES * c + t)))
  {
    forall c, t | 0 <= c < M / LANES && 0 <= t < LANES
      ensures next[c][t] == I16(regs[c][t] + Signed(add, Column(l, fs[..k + 1], LANES * c + t)))
    {
      var j := LANES * c + t;
      var before := Column(l, fs[..k], j);
      assert r[c][t] == I16(regs[c][t] + Signed(add, before));
      assert next[c][t] == I16(r[c][t] + Signed(add, l.weight[fs[k]][j]));
      NextLane(l, regs[c][t], fs, k, j, add);
    }
  }

  /**
   * `fresh_accumulator_simd`: the same accumulator as the scalar loop.
   * Both wrap on overflow, lane by lane, so they agree on every input, not
   * only on inputs that stay in range.
   */
  method FreshAccumulatorSimd(l: Layer, fs: seq<int>) returns (acc: seq<int>)
    requires Transformer(l) && Features(fs)
    ensures acc == Accumulated(l, fs)
  {
    var regs := AddRows(l, Load(l.bias), fs, true);
    acc := Store(regs);
    forall j | 0 <= j < M
      ensures acc[j] == Accumulated(l, fs)[j]
    {
      assert j == LANES * (j / LANES) + j % LANES;
    }
  }

  /**
   * `update_accumulator_simd` as written: the registers are updated, but
   * then stored into a new local array that shadows the argument, so the
   * caller's accumulator comes back as it went in and the update is lost.
   */
  method UpdateAccumulatorSimdAsWritten(l: Layer, acc: seq<int>, added: seq<int>, removed: seq<int>)
    returns (callers: seq<int>, local: seq<int>)
    requires Transformer(l) && Accumulator(acc) && Features(added) && Features(removed)
    ensures callers == acc
    ensures local == Updated(l, acc, added, removed)
  {
    local := UpdateAccumulatorSimd(l, acc, added, removed);
    callers := acc;
  }

  /** Adding one feature whose row is non-zero at position `i` always changes `acc[i]`, so losing the update is observable. */
  lemma UpdateChangesAccumulator(l: Layer, acc: seq<int>, a: int, i: int)
    requires Transformer(l) && Accumulator(acc) && 0 <= a < NUM_FEATURES && 0 <= i < M
    requires l.weight[a][i] != 0
    ensures Updated(l, acc, [a], [])[i] != acc[i]
  {
    assert [a][..0] == [];
    assert Column(l, [a], i) == l.weight[a][i];
    var r := Updated(l, acc, [a], [])[i];
    assert r == I16(acc[i] + l.weight[a][i]);
    assert (acc[i] + l.weight[a][i] - r) % 65536 == 0;
  }

  /** `update_accumulator_simd` with the registers written back into the caller's accumulator. */
  method UpdateAccumulatorSimd(l: Layer, acc: seq<int>, added: seq<int>, removed: seq<int>) returns (r: seq<int>)
    requires Transformer(l) && Accumulator(acc) && Features(added) && Features(removed)
    ensures r == Updated(l, acc, added, removed)
  {
    var mid := AddRows(l, Load(acc), removed, false);
    var regs := AddRows(l, mid, added, true);
    r := Store(regs);
    forall j | 0 <= j < M
      ensures r[j] == Updated(l, acc, added, removed)[j]
    {
      assert j == LANES * (j / LANES) + j % LANES;
      WrapAdd(acc[j] - Column(l, removed, j), Column(l, added, j));
    }
  }

  // ---------------------------------------------------------------------
  // Clipped ReLU

  /** `(x as i8).max(0).min(127)`: the input is first truncated to eight bits, so 200 becomes -56 and then 0. */
  function Relu(x: int): (r: int)
    ensures 0 <= r <= 127
    ensures 0 <= x <= 127 ==> r == x
    ensures 128 <= x <= 255 ==> r == 0
    ensures -128 <= x < 0 ==> r == 0
  {
    Min(Max(I8(x), 0), 127)
  }

  function Clip(xs: seq<int>): (ys: seq<int>)
    ensures |ys| == |xs| && forall i :: 0 <= i < |ys| ==> IsI8(ys[i])
  {
    seq(|xs|, i requires 0 <= i < |xs| => Relu(xs[i]))
  }

  /** `clipped_relu`: the ReLU of every input. */
  method ClippedRelu(input: seq<int>) returns (out: seq<int>)
    ensures |out| == |input|
    ensures forall i :: 0 <= i < |input| ==> 0 <= out[i] <= 127 && out[i] == Relu(input[i])
    ensures out == Clip(input)
  {
    out := seq(|input|, _ => 0);
    var i := 0;
    while i < |input|
      invariant 0 <= i <= |input| && |out| == |input|
      invariant forall j :: 0 <= j < i ==> out[j] == Relu(input[j])
    {
      out := out[i := Min(Max(I8(input[i]), 0), 127)];
      i := i + 1;
    }
  }

  /**
   * `clipped_relu_simd`: chunks of 32 lanes cast to `i8` and raised to 0.
   * Outputs past the last whole chunk keep their incoming value; when the
   * length is a multiple of 32 the result is exactly the scalar ReLU.
   */
  method ClippedReluSimd(input: seq<int>, output: seq<int>) returns (out: seq<int>)
    requires |output| == |input|
    ensures |out| == |input|
    ensures forall i :: 0 <= i < |input| / 32 * 32 ==> out[i] == Relu(input[i])
    ensures forall i :: |input| / 32 * 32 <= i < |input| ==> out[i] == output[i]
    ensures |input| % 32 == 0 ==> forall i :: 0 <= i < |input| ==> out[i] == Relu(input[i])
  {
    out := output;
    var c := 0;
    while c < |input| / 32
      invariant 0 <= c <= |input| / 32 && |out| == |input|
      invariant forall i :: 0 <= i < 32 * c ==> out[i] == Relu(input[i])
      invariant forall i :: 32 * c <= i < |input| ==> out[i] == output[i]
    {
      var lanes := seq(32, t requires 0 <= t < 32 => Max(I8(input[32 * c + t]), 0));
      out := out[..32 * c] + lanes + out[32 * c + 32..];
      c := c + 1;
    }
  }

  // ---------------------------------------------------------------------
  // Dense layers

  /** `input[i] as i16 * weight[j][i]`, wrapping. */
  function Product(l: Layer, input: seq<int>, j: int, i: int): int
    requires 0 <= j < |l.weight| && 0 <= i < |input| && i < |l.weight[j]|
  {
    I16(input[i] * l.weight[j][i])
  }

  /** Output `j` after the first `n` inputs: saturating additions in input order, from `start`. */
  function Accum(l: Layer, input: seq<int>, j: int, start: int, n: nat): (r: int)
    requires Shaped(l, |l.weight|, |input|, |l.bias|) && 0 <= j < |l.weight| && n <= |input| && IsI16(start)
    ensures IsI16(r)
  {
    if n == 0 then start
    else SatAdd16(Accum(l, input, j, start, n - 1), Product(l, input, j, n - 1))
  }

  /** Each output is its accumulated sum divided by 64, toward zero; all of them lie in [-512, 511]. */
  function LinearOut(l: Layer, input: seq<int>, start: seq<int>): (out: seq<int>)
    requires Shaped(l, |start|, |input|, |l.bias|) && forall j :: 0 <= j < |start| ==> IsI16(start[j])
    ensures |out| == |start|
    ensures forall j :: 0 <= j < |out| ==> -512 <= out[j] <= 511
  {
    seq(|start|, j requires 0 <= j < |start| => TruncDiv(Accum(l, input, j, start[j], |input|), 64))
  }

  /** The starting value of every output as written: the bias for the first O/16 outputs, the incoming value for the rest. */
  function SeedAsWritten(l: Layer, output: seq<int>): (s: seq<int>)
    requires |l.bias| >= |output| / 16
    ensures |s| == |output|
  {
    seq(|output|, j requires 0 <= j < |output| => if j < |output| / 16 then l.bias[j] else output[j])
  }

  /** The three loops of `linear`: seed, accumulate input by input, divide. */
  method LinearLoops(l: Layer, input: seq<int>, start: seq<int>) returns (out: seq<int>)
    requires Shaped(l, |start|, |input|, |l.bias|) && forall j :: 0 <= j < |start| ==> IsI16(start[j])
    requires forall i :: 0 <= i < |input| ==> IsI8(input[i])
    ensures out == LinearOut(l, input, start)
  {
    out := start;
    var i := 0;
    while i < |input|
      invariant 0 <= i <= |input| && |out| == |start|
      invariant forall j :: 0 <= j < |start| ==> out[j] == Accum(l, input, j, start[j], i)
    {
      var j := 0;
      while j < |start|
        invariant 0 <= j <= |start| && |out| == |start|
        invariant forall j' :: 0 <= j' < j ==> out[j'] == Accum(l, input, j', start[j'], i + 1)
        invariant forall j' :: j <= j' < |start| ==> out[j'] == Accum(l, input, j', start[j'], i)
      {
        out := out[j := SatAdd16(out[j], I16(input[i] * l.weight[j][i]))];
        j := j + 1;
      }
      i := i + 1;
    }
    i := 0;
    while i < |start|
      invariant 0 <= i <= |start| && |out| == |start|
      invariant forall j :: 0 <= j < i ==> out[j] == TruncDiv(Accum(l, input, j, start[j], |input|), 64)
      invariant forall j :: i <= j < |start| ==> out[j] == Accum(l, input, j, start[j], |input|)
    {
      out := out[i := TruncDiv(out[i], 64)];
      i := i + 1;
    }
  }

  /**
   * `linear` as written: only the first O/16 outputs start from their
   * bias; the others start from whatever the output array held.
   */
  method LinearAsWritten(l: Layer, input: seq<int>, output: seq<int>) returns (out: seq<int>)
    requires Shaped(l, |output|, |input|, |output|)
    requires forall i :: 0 <= i < |input| ==> IsI8(input[i])
    requires forall j :: 0 <= j < |output| ==> IsI16(output[j])
    ensures out == LinearOut(l, input, SeedAsWritten(l, output))
    ensures forall j :: 0 <= j < |out| ==> -512 <= out[j] <= 511
  {
    var seed := output;
    var i := 0;
    while i < |output| / 16
      invariant 0 <= i <= |output| / 16 && |seed| == |output|
      invariant forall j :: 0 <= j < |output| ==> seed[j] == if j < i then l.bias[j] else output[j]
    {
      seed := seed[i := l.bias[i]];
      i := i + 1;
    }
    assert seed == SeedAsWritten(l, output);
    out := LinearLoops(l, input, seed);
  }

  /** On the output layer (one output) with all inputs zero, the result as written is 0 whatever the bias, where the bias divided by 64 was meant. */
  lemma OutputBiasDropped(l: Layer, input: seq<int>)
    requires Shaped(l, 1, |input|, 1)
    requires forall i :: 0 <= i < |input| ==> input[i] == 0
    ensures LinearOut(l, input, SeedAsWritten(l, [0])) == [0]
    ensures LinearOut(l, input, l.bias) == [TruncDiv(l.bias[0], 64)]
  {
    AccumZeroInput(l, input, 0, 0, |input|);
    AccumZeroInput(l, input, 0, l.bias[0], |input|);
  }

  /** With all inputs zero every product is zero and the output keeps its starting value. */
  lemma {:induction false} AccumZeroInput(l: Layer, input: seq<int>, j: int, start: int, n: nat)
    requires Shaped(l, |l.weight|, |input|, |l.bias|) && 0 <= j < |l.weight| && n <= |input| && IsI16(start)
    requires forall i :: 0 <= i < |input| ==> input[i] == 0
    ensures Accum(l, input, j, start, n) == start
  {
    if n > 0 {
      AccumZeroInput(l, input, j, start, n - 1);
      assert Product(l, input, j, n - 1) == 0;
    }
  }

  /** `linear` with every output starting from its bias. */
  method Linear(l: Layer, input: seq<int>, output: seq<int>) returns (out: seq<int>)
    requires Shaped(l, |output|, |input|, |output|)
    requires forall i :: 0 <= i < |input| ==> IsI8(input[i])
    ensures out == LinearOut(l, input, l.bias)
    ensures forall j :: 0 <= j < |out| ==> -512 <= out[j] <= 511
  {
    var seed := output;
    var i := 0;
    while i < |output|
      invariant 0 <= i <= |output| && |seed| == |output|
      invariant forall j :: 0 <= j < i ==> seed[j] == l.bias[j]
    {
      seed := seed[i := l.bias[i]];
      i := i + 1;
    }
    assert seed == l.bias;
    out := LinearLoops(l, input, seed);
  }

  // ---------------------------------------------------------------------
  // The whole integer network

  /** The model file's three layers in the shapes the evaluator indexes them. */
  predicate Network(l0: Layer, l1: Layer, l2: Layer)
  {
    Transformer(l0) && Shaped(l1, K, M, K) && Shaped(l2, 1, K, 1)
  }

  /** The hidden layer's starting values in `eval`: its bias for the first K/16 outputs, zero for the rest. */
  function HiddenSeed(l1: Layer): (s: seq<int>)
    requires Shaped(l1, K, M, K)
    ensures s == SeedAsWritten(l1, seq(K, _ => 0))
    ensures forall j :: 0 <= j < K ==> s[j] == if j < K / 16 then l1.bias[j] else 0
  {
    seq(K, j requires 0 <= j < K => if j < K / 16 then l1.bias[j] else 0)
  }

  /**
   * The integer output of `eval` before it is turned into a score by
   * floating point: accumulator, ReLU, hidden layer, ReLU, output layer,
   * each layer run by `linear` as written on a zeroed output array. Only the
   * first K/16 hidden outputs start from their bias, and the single output
   * starts from 0, so the output layer's bias never counts.
   */
  method Forward(l0: Layer, l1: Layer, l2: Layer, fs: seq<int>) returns (out: int)
    requires Network(l0, l1, l2) && Features(fs)
    ensures -512 <= out <= 511
    ensures out == LinearOut(l2, Clip(LinearOut(l1, Clip(Accumulated(l0, fs)), HiddenSeed(l1))), [0])[0]
  {
    var acc := FreshAccumulator(l0, fs);
    var t1 := ClippedRelu(acc);
    var t2 := LinearAsWritten(l1, t1, seq(K, _ => 0));
    var t3 := ClippedRelu(t2);
    var o := LinearAsWritten(l2, t3, [0]);
    assert SeedAsWritten(l2, [0]) == [0];
    out := o[0];
  }

  /**
   * The network the evaluator was meant to compute: the same layers with
   * every output seeded by its bias.
   */
  method ForwardIntended(l0: Layer, l1: Layer, l2: Layer, fs: seq<int>) returns (out: int)
    requires Network(l0, l1, l2) && Features(fs)
    ensures -512 <= out <= 511
    ensures out == LinearOut(l2, Clip(LinearOut(l1, Clip(Accumulated(l0, fs)), l1.bias)), l2.bias)[0]
  {
    var acc := FreshAccumulator(l0, fs);
    var t1 := ClippedRelu(acc);
    var t2 := Linear(l1, t1, seq(K, _ => 0));
    var t3 := ClippedRelu(t2);
    var o := Linear(l2, t3, [0]);
    out := o[0];
  }

  /**
   * The two networks part only through the seeds: with a hidden layer whose
   * outputs from K/16 on have zero bias and an output layer with zero bias,
   * `eval` as written computes the intended value.
   */
  lemma ForwardAgrees(l0: Layer, l1: Layer, l2: Layer, fs: seq<int>)
    requires Network(l0, l1, l2) && Features(fs)
    requires l2.bias == [0] && forall j :: K / 16 <= j < K ==> l1.bias[j] == 0
    ensures LinearOut(l2, Clip(LinearOut(l1, Clip(Accumulated(l0, fs)), HiddenSeed(l1))), [0])
         == LinearOut(l2, Clip(LinearOut(l1, Clip(Accumulated(l0, fs)), l1.bias)), l2.bias)
  {
    assert HiddenSeed(l1) == l1.bias;
  }
}

=== FILE: nnue_data.dfy ===
/**
 * The input encoding of the NNUE evaluator: four planes over the cells of
 * a board, feature `4 * cell + plane`, with plane 0 the occupied cells,
 * plane 1 my head, plane 2 the heads of the first three enemies and plane
 * 3 the tails. The same encoding is produced three ways: as a list of
 * active feature indices, as a 0/1 array, and as the comma-separated text
 * of a training record.
 */
module NnueData {
  import opened Grid
  import Bitboard

  /** How plane 3 is filled: as the engine writes it, or as its comment says. */
  datatype TailRule = AsWritten | Intended

  const PLANES := 4

  /** The encoders read snakes 0 and 1 unconditionally. */
  predicate Encodable(b: Bitboard.Board)
  {
    |b.snakes| >= 2
  }

  /** Snake `j` exists and has its head on `cell`. */
  predicate HeadAt(b: Bitboard.Board, j: int, cell: int)
  {
    0 <= j < |b.snakes| && b.snakes[j].head == cell
  }

  /** Snake `j` exists and has its tail on `cell`. */
  predicate TailAt(b: Bitboard.Board, j: int, cell: int)
  {
    0 <= j < |b.snakes| && b.snakes[j].tail == cell
  }

  /**
   * Whether plane `k` is set at `cell`. As written, plane 3 takes the tails
   * of snakes 0 and 1 but the heads of snakes 2 and 3.
   */
  predicate Active(b: Bitboard.Board, rule: TailRule, cell: int, k: int)
  {
    if k == 0 then cell in b.bodies.occupied
    else if k == 1 then HeadAt(b, 0, cell)
    else if k == 2 then HeadAt(b, 1, cell) || HeadAt(b, 2, cell) || HeadAt(b, 3, cell)
    else if k == 3 then
      TailAt(b, 0, cell) || TailAt(b, 1, cell) ||
      (match rule
       case AsWritten => HeadAt(b, 2, cell) || HeadAt(b, 3, cell)
       case Intended => TailAt(b, 2, cell) || TailAt(b, 3, cell))
    else false
  }

  /** Whether feature `f`, that is plane `f % 4` of cell `f / 4`, is set. */
  predicate Bit(b: Bitboard.Board, rule: TailRule, f: int)
  {
    Active(b, rule, f / PLANES, f % PLANES)
  }

  /** The four features of cell `i` are its four planes. */
  lemma CellBits(b: Bitboard.Board, rule: TailRule, i: int)
    ensures Bit(b, rule, PLANES * i) == Active(b, rule, i, 0)
    ensures Bit(b, rule, PLANES * i + 1) == Active(b, rule, i, 1)
    ensures Bit(b, rule, PLANES * i + 2) == Active(b, rule, i, 2)
    ensures Bit(b, rule, PLANES * i + 3) == Active(b, rule, i, 3)
  {
  }

  /** With the intended rule, plane 3 marks exactly the tails of the first four snakes. */
  lemma IntendedTailPlane(b: Bitboard.Board, cell: int)
    ensures Active(b, Intended, cell, 3) <==> exists j :: 0 <= j < 4 && TailAt(b, j, cell)
  {
    if exists j :: 0 <= j < 4 && TailAt(b, j, cell) {
      var j :| 0 <= j < 4 && TailAt(b, j, cell);
      assert j == 0 || j == 1 || j == 2 || j == 3;
    }
  }

  /**
   * As written, a third snake's head is marked in the tail plane even when
   * no snake has its tail there, where the intended encoding leaves it
   * clear.
   */
  lemma HeadInTailPlane(b: Bitboard.Board)
    requires |b.snakes| >= 3
    requires forall j :: 0 <= j < 4 ==> !TailAt(b, j, b.snakes[2].head)
    ensures Active(b, AsWritten, b.snakes[2].head, 3)
    ensures !Active(b, Intended, b.snakes[2].head, 3)
  {
    assert !TailAt(b, 0, b.snakes[2].head) && !TailAt(b, 1, b.snakes[2].head);
    assert !TailAt(b, 2, b.snakes[2].head) && !TailAt(b, 3, b.snakes[2].head);
  }

  /** The set features among `lo`, ..., `lo + n - 1`, in increasing order. */
  function Run(bit: int -> bool, lo: int, n: nat): (r: seq<int>)
    ensures forall x, y :: 0 <= x < y < |r| ==> r[x] < r[y]
    ensures forall x :: 0 <= x < |r| ==> lo <= r[x] < lo + n
    ensures forall f :: f in r <==> lo <= f < lo + n && bit(f)
    decreases n
  {
    if n == 0 then []
    else (if bit(lo) then [lo] else []) + Run(bit, lo + 1, n - 1)
  }

  /** The text of one feature in a training record. */
  function Field(on: bool): string
  {
    if on then ",1" else ",0"
  }

  /** The fields of the first `n` features. */
  function Record(bit: int -> bool, n: nat): string
  {
    if n == 0 then "" else Record(bit, n - 1) + Field(bit(n - 1))
  }

  /** The record of `n` features is `n` fields of a comma and a digit, the digit 1 exactly for the set features. */
  lemma {:induction false} RecordText(bit: int -> bool, n: nat)
    ensures |Record(bit, n)| == 2 * n
    ensures forall f :: 0 <= f < n ==>
      Record(bit, n)[2 * f] == ',' && Record(bit, n)[2 * f + 1] == (if bit(f) then '1' else '0')
  {
    if n > 0 {
      RecordText(bit, n - 1);
    }
  }

  /** One more cell appends the fields of its four features. */
  lemma RecordCell(bit: int -> bool, j: nat)
    ensures Record(bit, j + PLANES) == Record(bit, j) + Field(bit(j)) + Field(bit(j + 1)) + Field(bit(j + 2)) + Field(bit(j + 3))
  {
    assert Record(bit, j + 4) == Record(bit, j + 3) + Field(bit(j + 3));
    assert Record(bit, j + 3) == Record(bit, j + 2) + Field(bit(j + 2));
    assert Record(bit, j + 2) == Record(bit, j + 1) + Field(bit(j + 1));
  }

  // The three encoders walk the cells in order and look at the four planes
  // of each; they are written once over the feature predicate `bit` and
  // then applied to `Bit`.

  /** `res` lists the features below `m` that `bit` sets, in increasing order. */
  ghost predicate Collected(res: seq<int>, bit: int -> bool, m: int)
  {
    (forall x, y :: 0 <= x < y < |res| ==> res[x] < res[y]) &&
    (forall x :: 0 <= x < |res| ==> res[x] < m) &&
    (forall f :: f in res <==> 0 <= f < m && bit(f))
  }

  /** Appending the run of the next `n` features keeps the list complete and increasing. */
  lemma CollectRun(res: seq<int>, bit: int -> bool, m: int, n: nat)
    requires 0 <= m && Collected(res, bit, m)
    ensures Collected(res + Run(bit, m, n), bit, m + n)
  {
    var run := Run(bit, m, n);
    var out := res + run;
    forall x, y | 0 <= x < y < |out| ensures out[x] < out[y] {
      if y < |res| {
        assert out[x] == res[x] && out[y] == res[y];
      } else if x < |res| {
        assert out[x] == res[x] && out[y] == run[y - |res|];
      } else {
        assert out[x] == run[x - |res|] && out[y] == run[y - |res|];
      }
    }
    forall x | 0 <= x < |out| ensures out[x] < m + n {
      if x >= |res| {
        assert out[x] == run[x - |res|];
      }
    }
    forall f ensures f in out <==> 0 <= f < m + n && bit(f) {
      assert f in out <==> f in res || f in run;
    }
  }

  /** The features of the first `cells` cells that `bit` sets, in increasing order. */
  method CollectFeatures(bit: int -> bool, cells: nat) returns (res: seq<int>)
    ensures forall x, y :: 0 <= x < y < |res| ==> res[x] < res[y]
    ensures forall f :: f in res <==> 0 <= f < PLANES * cells && bit(f)
  {
    res := [];
    var i := 0;
    while i < cells
      invariant 0 <= i <= cells
      invariant Collected(res, bit, PLANES * i)
    {
      CollectRun(res, bit, PLANES * i, PLANES);
      res := res + Run(bit, PLANES * i, PLANES);
      i := i + 1;
    }
  }

  /** One entry per feature of the first `cells` cells, 1 where `bit` sets it and 0 elsewhere. */
  method FillSlice(bit: int -> bool, cells: nat) returns (slice: seq<int>)
    ensures |slice| == PLANES * cells
    ensures forall f :: 0 <= f < |slice| ==> slice[f] == if bit(f) then 1 else 0
  {
    slice := seq(PLANES * cells, _ => 0);
    var i := 0;
    while i < cells
      invariant 0 <= i <= cells && |slice| == PLANES * cells
      invariant forall f :: 0 <= f < PLANES * i ==> slice[f] == if bit(f) then 1 else 0
      invariant forall f :: PLANES * i <= f < |slice| ==> slice[f] == 0
    {
      var j := PLANES * i;
      if bit(j) { slice := slice[j := 1]; }
      if bit(j + 1) { slice := slice[j + 1 := 1]; }
      if bit(j + 2) { slice := slice[j + 2 := 1]; }
      if bit(j + 3) { slice := slice[j + 3 := 1]; }
      i := i + 1;
    }
  }

  /** The fields of the first `cells` cells, four per cell. */
  method FormatFields(bit: int -> bool, cells: nat) returns (text: string)
    ensures |text| == 2 * PLANES * cells
    ensures forall f :: 0 <= f < PLANES * cells ==>
      text[2 * f] == ',' && text[2 * f + 1] == (if bit(f) then '1' else '0')
  {
    text := "";
    var i := 0;
    while i < cells
      invariant 0 <= i <= cells && text == Record(bit, PLANES * i)
    {
      var j := PLANES * i;
      RecordCell(bit, j);
      text := text + Field(bit(j)) + Field(bit(j + 1)) + Field(bit(j + 2)) + Field(bit(j + 3));
      i := i + 1;
    }
    RecordText(bit, PLANES * cells);
  }

  /**
   * `bitboard_to_active_features`: the set features in increasing order,
   * all below four times the number of cells; plane 1 holds exactly one of
   * them, my head's.
   */
  method ActiveFeatures(d: Dims, b: Bitboard.Board, rule: TailRule) returns (res: seq<int>)
    requires Encodable(b)
    ensures forall x, y :: 0 <= x < y < |res| ==> res[x] < res[y]
    ensures forall f :: f in res <==> 0 <= f < PLANES * Size(d) && Bit(b, rule, f)
    ensures OnBoard(d, b.snakes[0].head) ==>
      PLANES * b.snakes[0].head + 1 in res &&
      forall f :: f in res && f % PLANES == 1 ==> f == PLANES * b.snakes[0].head + 1
  {
    res := CollectFeatures(f => Bit(b, rule, f), Size(d));
    var head := b.snakes[0].head;
    if OnBoard(d, head) {
      CellBits(b, rule, head);
      forall f | f in res && f % PLANES == 1
        ensures f == PLANES * head + 1
      {
        assert HeadAt(b, 0, f / PLANES);
      }
    }
  }

  /** `bitboard_to_slice`: one entry per feature, 1 where it is set and 0 elsewhere. */
  method Slice(d: Dims, b: Bitboard.Board, rule: TailRule) returns (slice: seq<int>)
    requires Encodable(b)
    ensures |slice| == PLANES * Size(d)
    ensures forall f :: 0 <= f < |slice| ==> slice[f] == if Bit(b, rule, f) then 1 else 0
  {
    slice := FillSlice(f => Bit(b, rule, f), Size(d));
  }

  /** `format_board`: ",1" or ",0" for every feature, in feature order. */
  method FormatBoard(d: Dims, b: Bitboard.Board, rule: TailRule) returns (text: string)
    requires Encodable(b)
    ensures |text| == 2 * PLANES * Size(d)
    ensures forall f :: 0 <= f < PLANES * Size(d) ==>
      text[2 * f] == ',' && text[2 * f + 1] == (if Bit(b, rule, f) then '1' else '0')
  {
    var bit := f => Bit(b, rule, f);
    text := FormatFields(bit, Size(d));
    forall f | 0 <= f < PLANES * Size(d)
      ensures text[2 * f] == ',' && text[2 * f + 1] == (if Bit(b, rule, f) then '1' else '0')
    {
      assert bit(f) == Bit(b, rule, f);
    }
  }

  /** The three encoders agree: a feature is in the list exactly when the array holds 1 for it and the text ",1". */
  method Encodings(d: Dims, b: Bitboard.Board, rule: TailRule) returns (fs: seq<int>, slice: seq<int>, text: string)
    requires Encodable(b)
    ensures |slice| == PLANES * Size(d) && |text| == 2 * |slice|
    ensures forall f :: 0 <= f < |slice| ==> (f in fs <==> slice[f] == 1) && (slice[f] == 1 <==> text[2 * f + 1] == '1')
    ensures forall f :: f in fs ==> 0 <= f < |slice|
  {
    fs := ActiveFeatures(d, b, rule);
    slice := Slice(d, b, rule);
    text := FormatBoard(d, b, rule);
  }
}

=== FILE: old_bitboard.dfy ===
/**
 * The first bitboard generation: an 11 × 11 board whose cell sets are
 * single `u128` masks, cell `11 * y + x` being bit `11 * y + x`. The three
 * body layers and the snake records are those of the current generation
 * (`Bitboard.Layers`, `Bitboard.Snake`): layer 0 holds the body cells
 * without the heads, layers 1 and 2 the two bits of the move from each body
 * cell towards the head. Health is an `i8`, the other fields are `u8`, and
 * arithmetic wraps as in a release build, where `1 << p` on a `u128` takes
 * the shift amount modulo 128.
 */
module OldBitboard {
  import opened Common
  import opened Types
  import Moves
  import Util
  import Bitboard

  const WIDTH := 11
  /** The cells of the 11 × 11 board. */
  const CELLS := 121
  /** The bits of a `u128` mask. */
  const BITS := 128
  /** Damage a hazard adds to the one point a move costs. */
  const HAZARD_DAMAGE := 15
  /** Steps after which the model stops the tail walk of `remove_snake_body`. */
  const WALK_FUEL := 128

  datatype Board = Board(bodies: Bitboard.Layers, snakes: seq<Bitboard.Snake>, food: set<int>, hazards: set<int>)

  /** The bit `1 << p` sets in a `u128`. */
  function Bit(p: int): int
  {
    p % BITS
  }

  /** The move of the same name among the bitboard moves. */
  function Renamed(m: Move): (n: Moves.Move)
  {
    match m
    case Up => Moves.Up
    case Down => Moves.Down
    case Right => Moves.Right
    case Left => Moves.Left
  }

  /** The move of the same name among these moves. */
  function Unrenamed(n: Moves.Move): (m: Move)
    ensures Renamed(m) == n
  {
    match n
    case Up => Up
    case Down => Down
    case Right => Right
    case Left => Left
  }

  /**
   * The two-bit code of a move kept in layers 1 and 2: bit 0 when the move
   * goes to a lower cell number, bit 1 when it goes sideways. This is the
   * code `from_gamestate` stores for each body segment and the one
   * `remove_snake_body` reads back, and the bitboard moves' `to_int`.
   */
  function Code(m: Move): (x: int)
    ensures 0 <= x < 4
  {
    Moves.ToInt(Renamed(m))
  }

  /** `int_to_index(x, 11)`: the cell offset of a coded move. */
  function Step(x: int): int
    requires 0 <= x < 4
  {
    Moves.IntToIndex(x, WIDTH)
  }

  /** The two bits of a move's code say which way and how far its step goes, and the code tells the moves apart. */
  lemma CodeBits(m: Move, n: Move)
    ensures Code(m) % 2 == 1 <==> Step(Code(m)) < 0
    ensures Code(m) / 2 == 1 <==> Abs(Step(Code(m))) == 1
    ensures Abs(Step(Code(m))) == 1 || Abs(Step(Code(m))) == WIDTH
    ensures Code(m) == Code(n) ==> m == n
  {
  }

  /** `distance`: rows apart plus columns apart on the 11-wide board, for `u8` cells. */
  function Distance(x: int, y: int): (r: int)
    requires 0 <= x < 256 && 0 <= y < 256
  {
    (Max(x / WIDTH, y / WIDTH) - Min(x / WIDTH, y / WIDTH))
    + (Max(x % WIDTH, y % WIDTH) - Min(x % WIDTH, y % WIDTH))
  }

  /**
   * The distance is the Manhattan distance of rows and columns: symmetric,
   * zero exactly on equal cells, and the same as the mailbox boards'
   * `distance` at width 11.
   */
  lemma DistanceFacts(x: int, y: int)
    requires 0 <= x < 256 && 0 <= y < 256
    ensures Distance(x, y) == Abs(x / WIDTH - y / WIDTH) + Abs(x % WIDTH - y % WIDTH)
    ensures Distance(x, y) == Distance(y, x)
    ensures Distance(x, y) == 0 <==> x == y
    ensures Distance(x, y) == Util.Distance(x, y, WIDTH)
  {
    if Distance(x, y) == 0 {
      assert x == WIDTH * (x / WIDTH) + x % WIDTH && y == WIDTH * (y / WIDTH) + y % WIDTH;
    }
  }

  /** `is_in_direction` on the 11-wide board. */
  predicate IsInDirection(from: int, to: int, mv: Move)
  {
    match mv
    case Left => from % WIDTH > to % WIDTH
    case Right => from % WIDTH < to % WIDTH
    case Down => from / WIDTH > to / WIDTH
    case Up => from / WIDTH < to / WIDTH
  }

  /** The cell one move away, before any wrap-around. */
  function Next(from: int, mv: Move): int
  {
    from + Step(Code(mv))
  }

  /**
   * Towards a cell of the board that lies in direction `mv`, the move's step
   * stays on the board, goes that way and nowhere else, and shortens the
   * distance by one.
   */
  lemma Approach(from: int, to: int, mv: Move)
    requires 0 <= from < CELLS && 0 <= to < CELLS && IsInDirection(from, to, mv)
    ensures 0 <= Next(from, mv) < CELLS
    ensures forall n :: IsInDirection(from, Next(from, mv), n) <==> n == mv
    ensures Distance(Next(from, mv), to) == Distance(from, to) - 1
  {
    var next := Next(from, mv);
    var r, c := from / WIDTH, from % WIDTH;
    assert from == WIDTH * r + c;
    match mv
    case Up =>
      assert next / WIDTH == r + 1 && next % WIDTH == c;
    case Down =>
      assert next / WIDTH == r - 1 && next % WIDTH == c;
    case Right =>
      assert next / WIDTH == r && next % WIDTH == c + 1;
    case Left =>
      assert next / WIDTH == r && next % WIDTH == c - 1;
  }

  /** `is_terminal`: I am dead, or every other snake is. */
  method IsTerminal(b: Board) returns (t: bool)
    requires |b.snakes| >= 1
    ensures t <==> !Bitboard.IsAlive(b.snakes[0]) || forall i :: 1 <= i < |b.snakes| ==> !Bitboard.IsAlive(b.snakes[i])
  {
    if !Bitboard.IsAlive(b.snakes[0]) {
      return true;
    }
    var i := 1;
    while i < |b.snakes|
      invariant 1 <= i <= |b.snakes|
      invariant forall k :: 1 <= k < i ==> !Bitboard.IsAlive(b.snakes[k])
    {
      if Bitboard.IsAlive(b.snakes[i]) {
        return false;
      }
      i := i + 1;
    }
    return true;
  }

  /**
   * The step `remove_snake_body` takes from `pos`: one column, or one row
   * when bit 1 is clear, down the cell numbers when bit 0 is set.
   */
  function WalkShift(l: Bitboard.Layers, pos: int): int
  {
    var shift := if pos in l.dirHigh then 1 else WIDTH;
    if pos in l.dirLow then -shift else shift
  }

  /** The walk of `remove_snake_body` steps exactly as the tail of `apply_moves` does. */
  lemma WalkShiftIsStep(l: Bitboard.Layers, pos: int)
    ensures WalkShift(l, pos) == Step(Bitboard.DecodeDir(l, pos))
  {
  }

  /** The layers with the cells of `s` cleared in all three. */
  function ClearCells(l: Bitboard.Layers, s: set<int>): Bitboard.Layers
  {
    Bitboard.Layers(l.occupied - s, l.dirLow - s, l.dirHigh - s)
  }

  /**
   * The loop of `remove_snake_body` from the tail bit `pos` until it meets
   * the head bit: clear the cell in all three layers and follow its stored
   * move. A mask shifted off the 128 bits is empty and never meets the head,
   * so the engine loops for ever there; the model stops, as it does after
   * `fuel` steps.
   */
  function RemoveWalk(l: Bitboard.Layers, head: int, pos: int, fuel: nat): (r: Bitboard.Layers)
    ensures r.occupied <= l.occupied && r.dirLow <= l.dirLow && r.dirHigh <= l.dirHigh
    ensures head in l.occupied ==> head in r.occupied
    decreases fuel
  {
    if fuel == 0 || pos == head || !(0 <= pos < BITS) then l
    else RemoveWalk(Bitboard.ClearCell(l, pos), head, pos + WalkShift(l, pos), fuel - 1)
  }

  /** `remove_snake_body`: the walk from snake `i`'s tail to its head. */
  function RemoveSnakeBody(b: Board, i: int): (r: Board)
    requires 0 <= i < |b.snakes|
    ensures r == b.(bodies := r.bodies)
    ensures r.bodies.occupied <= b.bodies.occupied
  {
    b.(bodies := RemoveWalk(b.bodies, Bit(b.snakes[i].head), Bit(b.snakes[i].tail), WALK_FUEL))
  }

  /**
   * A body as the layers store it: distinct cells of the mask from tail to
   * head, each holding the move to the next.
   */
  predicate BodyPath(l: Bitboard.Layers, p: seq<int>)
  {
    && |p| >= 1
    && (forall k :: 0 <= k < |p| ==> 0 <= p[k] < BITS)
    && (forall j, k :: 0 <= j < k < |p| ==> p[j] != p[k])
    && forall k :: 0 <= k < |p| - 1 ==> p[k + 1] == p[k] + WalkShift(l, p[k])
  }

  /** The cells of a body path other than its head. */
  function Trail(p: seq<int>): set<int>
    requires |p| >= 1
  {
    set k | 0 <= k < |p| - 1 :: p[k]
  }

  /** Distinct numbers below `n` are at most `n` many. */
  lemma {:induction false} DistinctBound(p: seq<int>, n: nat)
    requires forall k :: 0 <= k < |p| ==> 0 <= p[k] < n
    requires forall j, k :: 0 <= j < k < |p| ==> p[j] != p[k]
    ensures |p| <= n
    decreases n
  {
    if |p| > 0 {
      assert 0 <= p[0] < n;
      // Drop the value n - 1, if present, and recurse below it.
      if k :| 0 <= k < |p| && p[k] == n - 1 {
        var q := p[..k] + p[k + 1..];
        assert forall j :: 0 <= j < |q| ==> q[j] == (if j < k then p[j] else p[j + 1]);
        DistinctBound(q, n - 1);
      } else {
        DistinctBound(p, n - 1);
      }
    }
  }

  /** Clearing a cell off the path leaves the path's stored moves in place. */
  lemma ClearKeepsPath(l: Bitboard.Layers, p: seq<int>)
    requires BodyPath(l, p) && |p| >= 2
    ensures BodyPath(Bitboard.ClearCell(l, p[0]), p[1..])
  {
    var l2 := Bitboard.ClearCell(l, p[0]);
    forall k | 0 <= k < |p[1..]| - 1
      ensures p[1..][k + 1] == p[1..][k] + WalkShift(l2, p[1..][k])
    {
      assert p[1..][k] == p[k + 1] != p[0];
    }
  }

  /**
   * On a well-formed body the walk clears exactly the cells from the tail up
   * to, but not including, the head.
   */
  lemma {:induction false} WalkClearsBody(l: Bitboard.Layers, p: seq<int>, fuel: nat)
    requires BodyPath(l, p) && fuel >= |p| - 1
    ensures RemoveWalk(l, p[|p| - 1], p[0], fuel) == ClearCells(l, Trail(p))
    decreases |p|
  {
    var head := p[|p| - 1];
    if |p| == 1 {
      assert Trail(p) == {};
    } else {
      assert p[0] != head;
      var l2 := Bitboard.ClearCell(l, p[0]);
      ClearKeepsPath(l, p);
      WalkClearsBody(l2, p[1..], fuel - 1);
      assert p[1..][|p[1..]| - 1] == head && p[1..][0] == p[1];
      assert Trail(p) == {p[0]} + Trail(p[1..]) by {
        forall q | q in Trail(p) ensures q in {p[0]} + Trail(p[1..]) {
          var k :| 0 <= k < |p| - 1 && p[k] == q;
          if k > 0 { assert p[1..][k - 1] == q; }
        }
      }
    }
  }

  /** Every well-formed body fits in the walk's fuel, so `remove_snake_body` clears it all but the head. */
  lemma RemoveClearsBody(b: Board, i: int, p: seq<int>)
    requires 0 <= i < |b.snakes| && BodyPath(b.bodies, p)
    requires p[0] == Bit(b.snakes[i].tail) && p[|p| - 1] == Bit(b.snakes[i].head)
    ensures RemoveSnakeBody(b, i).bodies == ClearCells(b.bodies, Trail(p))
  {
    DistinctBound(p, BITS);
    WalkClearsBody(b.bodies, p, WALK_FUEL);
  }

  /** The head a live snake's move leads to: the `i8` sum cast back to `u8`, that is, modulo 256. */
  function NewHead(s: Bitboard.Snake, m: Move): int
  {
    U8(s.head + Step(Code(m)))
  }

  /**
   * The head, health and length of a live snake after its move: one point
   * of damage, fifteen more on a hazard, health 100 and one more length on
   * food, and `OUT_OF_HEALTH` when the health is gone. None of them depends
   * on the body layers.
   */
  function Advanced(s: Bitboard.Snake, m: Move, food: set<int>, hazards: set<int>): (int, int, int)
  {
    var head := NewHead(s, m);
    var onFood := Bit(head) in food;
    var health := Bitboard.Fed(Bitboard.Damaged(s.health, HAZARD_DAMAGE, Bit(head) in hazards), onFood);
    (head, if health > 0 then health else Bitboard.OUT_OF_HEALTH, U8(s.length + (if onFood then 1 else 0)))
  }

  /**
   * For a snake with health and length in their usual ranges: on food its
   * health is 100 and it grows by one; otherwise it keeps its length and
   * loses a point, sixteen on a hazard, starving at zero.
   */
  lemma AdvancedRecord(s: Bitboard.Snake, m: Move, food: set<int>, hazards: set<int>)
    requires 0 < s.health <= 100 && 0 <= s.length < 255
    ensures var (head, health, length) := Advanced(s, m, food, hazards);
      && head == NewHead(s, m)
      && (Bit(head) in food ==> health == 100 && length == s.length + 1)
      && (Bit(head) !in food ==>
            length == s.length
            && var h := s.health - 1 - (if Bit(head) in hazards then HAZARD_DAMAGE else 0);
               health == if h < 1 then Bitboard.OUT_OF_HEALTH else h)
  {
    Bitboard.DamagedExact(s.health, HAZARD_DAMAGE, Bit(NewHead(s, m)) in hazards);
  }

  /** The head, health and length of a snake record. */
  function Vitals(s: Bitboard.Snake): (int, int, int)
  {
    (s.head, s.health, s.length)
  }

  /**
   * The first loop of `apply_moves` for snake `i`: add the old head to the
   * body with the move's code, move the head, move the tail unless parts are
   * curled, take damage, eat, and remove the body of a starved snake.
   * Returns the board and the cells eaten.
   */
  function MoveSnake(b: Board, moves: seq<Move>, i: int): (r: (Board, set<int>))
    requires |moves| == |b.snakes| && 0 <= i < |b.snakes|
    ensures |r.0.snakes| == |b.snakes|
    ensures forall k :: 0 <= k < |b.snakes| && k != i ==> r.0.snakes[k] == b.snakes[k]
    ensures r.0 == b.(bodies := r.0.bodies, snakes := r.0.snakes)
    ensures !Bitboard.IsAlive(b.snakes[i]) ==> r.0 == b && r.1 == {}
    ensures Bitboard.IsAlive(b.snakes[i]) ==>
      Vitals(r.0.snakes[i]) == Advanced(b.snakes[i], moves[i], b.food, b.hazards)
      && r.1 == (if Bit(NewHead(b.snakes[i], moves[i])) in b.food then {Bit(NewHead(b.snakes[i], moves[i]))} else {})
  {
    var s := b.snakes[i];
    if !Bitboard.IsAlive(s) then (b, {})
    else
      var x := Code(moves[i]);
      var h := Bit(s.head);
      var l1 := Bitboard.Layers(
        b.bodies.occupied + {h},
        if x % 2 == 1 then b.bodies.dirLow + {h} else b.bodies.dirLow,
        if x / 2 == 1 then b.bodies.dirHigh + {h} else b.bodies.dirHigh);
      var moved :=
        if s.curled == 0 then
          (U8(s.tail + Step(Bitboard.DecodeDir(l1, Bit(s.tail)))), s.curled, Bitboard.ClearCell(l1, Bit(s.tail)))
        else (s.tail, s.curled - 1, l1);
      var (head, health, length) := Advanced(s, moves[i], b.food, b.hazards);
      var onFood := Bit(head) in b.food;
      var s2 := Bitboard.Snake(head, moved.0, length, health, U8(moved.1 + (if onFood then 1 else 0)));
      var b2 := b.(bodies := moved.2, snakes := b.snakes[i := s2]);
      var eaten := if onFood then {Bit(head)} else {};
      if Bitboard.IsAlive(s2) then (b2, eaten) else (RemoveSnakeBody(b2, i), eaten)
  }

  /** The cells eaten by the snakes from `i` on: the new head of each live one that lands on food. */
  function EatenFrom(b: Board, moves: seq<Move>, i: int): set<int>
    requires |moves| == |b.snakes| && 0 <= i <= |b.snakes|
  {
    set k | i <= k < |b.snakes| && Bitboard.IsAlive(b.snakes[k]) && Bit(NewHead(b.snakes[k], moves[k])) in b.food
      :: Bit(NewHead(b.snakes[k], moves[k]))
  }

  /**
   * The first loop of `apply_moves` from snake `i` on: every live snake from
   * `i` on advances, the others keep their records, and the cells eaten are
   * collected.
   */
  function MoveSnakesFrom(b: Board, moves: seq<Move>, i: int): (r: (Board, set<int>))
    requires |moves| == |b.snakes| && 0 <= i <= |b.snakes|
    ensures |r.0.snakes| == |b.snakes|
    ensures forall k :: 0 <= k < i ==> r.0.snakes[k] == b.snakes[k]
    ensures forall k :: 0 <= k < |b.snakes| && !Bitboard.IsAlive(b.snakes[k]) ==> r.0.snakes[k] == b.snakes[k]
    ensures forall k :: i <= k < |b.snakes| && Bitboard.IsAlive(b.snakes[k]) ==>
      Vitals(r.0.snakes[k]) == Advanced(b.snakes[k], moves[k], b.food, b.hazards)
    ensures r.0 == b.(bodies := r.0.bodies, snakes := r.0.snakes)
    ensures r.1 == EatenFrom(b, moves, i)
    decreases |b.snakes| - i
  {
    if i == |b.snakes| then (b, {})
    else
      var (b2, e) := MoveSnake(b, moves, i);
      var (b3, es) := MoveSnakesFrom(b2, moves, i + 1);
      EatenSplit(b, b2, moves, i);
      (b3, e + es)
  }

  /** The cells eaten from `i` on are snake `i`'s and those eaten from `i + 1` on, which moving snake `i` does not change. */
  lemma EatenSplit(b: Board, b2: Board, moves: seq<Move>, i: int)
    requires |moves| == |b.snakes| && 0 <= i < |b.snakes| && b2 == MoveSnake(b, moves, i).0
    ensures EatenFrom(b, moves, i) == MoveSnake(b, moves, i).1 + EatenFrom(b2, moves, i + 1)
  {
    assert forall k :: i < k < |b.snakes| ==> b2.snakes[k] == b.snakes[k];
  }

  /** The board after the first loop and the cells eaten on it. */
  function MoveAll(b: Board, moves: seq<Move>): (Board, set<int>)
    requires |moves| == |b.snakes|
  {
    MoveSnakesFrom(b, moves, 0)
  }

  /** Another live snake on `i`'s head that is at least as long. */
  predicate Rival(snakes: seq<Bitboard.Snake>, i: int, j: int)
    requires 0 <= i < |snakes| && 0 <= j < |snakes|
  {
    j != i && Bitboard.IsAlive(snakes[j]) && snakes[i].head == snakes[j].head && snakes[i].length <= snakes[j].length
  }

  /**
   * The collision mark the second loop leaves in `curled`: 100 for a live
   * snake whose head bit is on a body, else 101 when a rival shares its
   * head; otherwise the count is kept. The loop writes only `curled`, which
   * it never reads, so each mark depends on the board before the loop.
   */
  function Mark(b: Board, i: int): int
    requires 0 <= i < |b.snakes|
  {
    var s := b.snakes[i];
    if !Bitboard.IsAlive(s) then s.curled
    else if Bit(s.head) in b.bodies.occupied then 100
    else if exists j :: 0 <= j < |b.snakes| && Rival(b.snakes, i, j) then 101
    else s.curled
  }

  /** The second loop of `apply_moves`: every snake's collision mark. */
  function MarkCollisions(b: Board): (r: Board)
    ensures |r.snakes| == |b.snakes|
    ensures r == b.(snakes := r.snakes)
    ensures forall i :: 0 <= i < |b.snakes| ==> r.snakes[i] == b.snakes[i].(curled := Mark(b, i))
  {
    b.(snakes := seq(|b.snakes|, i requires 0 <= i < |b.snakes| => b.snakes[i].(curled := Mark(b, i))))
  }

  /** The health of a snake removed for mark 100 or 101. */
  function CollisionHealth(mark: int, health: int): int
  {
    if mark == 100 then Bitboard.BODY_COLLISION
    else if mark == 101 then Bitboard.HEAD_COLLISION
    else health
  }

  /**
   * The third loop of `apply_moves` from snake `i` on: a snake marked 100
   * dies of a body collision, one marked 101 of a head collision, and its
   * body is removed. The two tests are made in turn, but the first resets
   * the mark, so at most one applies.
   */
  function ResolveFrom(b: Board, i: int): (r: Board)
    requires 0 <= i <= |b.snakes|
    ensures |r.snakes| == |b.snakes|
    ensures forall k :: 0 <= k < i ==> r.snakes[k] == b.snakes[k]
    ensures forall k :: i <= k < |b.snakes| && b.snakes[k].curled != 100 && b.snakes[k].curled != 101 ==>
      r.snakes[k] == b.snakes[k]
    ensures forall k :: i <= k < |b.snakes| && (b.snakes[k].curled == 100 || b.snakes[k].curled == 101) ==>
      r.snakes[k] == b.snakes[k].(health := CollisionHealth(b.snakes[k].curled, b.snakes[k].health), curled := 0)
    ensures r == b.(bodies := r.bodies, snakes := r.snakes)
    decreases |b.snakes| - i
  {
    if i == |b.snakes| then b
    else
      var s := b.snakes[i];
      var b2 :=
        if s.curled == 100 || s.curled == 101 then
          RemoveSnakeBody(b.(snakes := b.snakes[i := s.(health := CollisionHealth(s.curled, s.health), curled := 0)]), i)
        else b;
      ResolveFrom(b2, i + 1)
  }

  /** The collision outcome of snake `i` on the board after the first loop. */
  function Outcome(m: Board, i: int): (s: Bitboard.Snake)
    requires 0 <= i < |m.snakes|
  {
    var mark := Mark(m, i);
    if mark == 100 || mark == 101 then m.snakes[i].(health := CollisionHealth(mark, m.snakes[i].health), curled := 0)
    else m.snakes[i]
  }

  /**
   * `apply_moves`: a new board on which every live snake has moved, the
   * collided snakes are removed and the eaten food is gone. The board given
   * is a value and stays as it was. Snakes keep their places, the hazards
   * stay, the food loses exactly the cells a live snake's new head lands
   * on, a dead snake stays dead, and every snake ends as its collision
   * outcome after the moves says.
   */
  function ApplyMoves(b: Board, moves: seq<Move>): (r: Board)
    requires |moves| == |b.snakes|
    ensures |r.snakes| == |b.snakes| && r.hazards == b.hazards
    ensures r.food == b.food - EatenFrom(b, moves, 0)
    ensures forall i :: 0 <= i < |b.snakes| ==> r.snakes[i] == Outcome(MoveAll(b, moves).0, i)
    ensures forall i :: 0 <= i < |b.snakes| && !Bitboard.IsAlive(b.snakes[i]) ==> !Bitboard.IsAlive(r.snakes[i])
  {
    var (m, eaten) := MoveAll(b, moves);
    var b3 := MarkCollisions(m);
    var b4 := ResolveFrom(b3, 0);
    DeadStayDead(b, moves);
    b4.(food := b4.food - eaten)
  }

  /** A snake dead before the moves is dead after them, whatever its mark. */
  lemma DeadStayDead(b: Board, moves: seq<Move>)
    requires |moves| == |b.snakes|
    ensures forall i :: 0 <= i < |b.snakes| && !Bitboard.IsAlive(b.snakes[i]) ==>
      !Bitboard.IsAlive(Outcome(MoveAll(b, moves).0, i))
  {
    var m := MoveAll(b, moves).0;
    forall i | 0 <= i < |b.snakes| && !Bitboard.IsAlive(b.snakes[i])
      ensures !Bitboard.IsAlive(Outcome(m, i))
    {
      assert m.snakes[i] == b.snakes[i];
    }
  }

  /**
   * The collision rules for a snake alive after the moves, whose count is
   * below the marks: a head on a body is a body collision; otherwise a
   * snake at least as long on the same head is a head collision; otherwise
   * the snake is as the moves left it.
   */
  lemma CollisionRules(b: Board, moves: seq<Move>, i: int)
    requires |moves| == |b.snakes| && 0 <= i < |b.snakes|
    requires var m := MoveAll(b, moves).0; Bitboard.IsAlive(m.snakes[i]) && m.snakes[i].curled < 100
    ensures var m, r := MoveAll(b, moves).0, ApplyMoves(b, moves).snakes[i];
      && (Bit(m.snakes[i].head) in m.bodies.occupied ==> r.health == Bitboard.BODY_COLLISION)
      && (Bit(m.snakes[i].head) !in m.bodies.occupied && (exists j :: 0 <= j < |m.snakes| && Rival(m.snakes, i, j)) ==>
            r.health == Bitboard.HEAD_COLLISION)
      && (Bit(m.snakes[i].head) !in m.bodies.occupied && (forall j :: 0 <= j < |m.snakes| ==> !Rival(m.snakes, i, j)) ==>
            r == m.snakes[i])
  {
  }

  /** A snake alive after the turn has exactly the head, health and length its move gave it. */
  lemma Survivor(b: Board, moves: seq<Move>, i: int)
    requires |moves| == |b.snakes| && 0 <= i < |b.snakes| && Bitboard.IsAlive(b.snakes[i])
    requires Bitboard.IsAlive(ApplyMoves(b, moves).snakes[i])
    ensures Vitals(ApplyMoves(b, moves).snakes[i]) == Advanced(b.snakes[i], moves[i], b.food, b.hazards)
  {
    var m := MoveAll(b, moves).0;
    assert Mark(m, i) != 100 && Mark(m, i) != 101;
  }

  /** Two live snakes of equal length meeting head to head both die of the head collision. */
  lemma EqualHeadsBothDie(b: Board, moves: seq<Move>, i: int, j: int)
    requires |moves| == |b.snakes| && 0 <= i < |b.snakes| && 0 <= j < |b.snakes| && i != j
    requires var m := MoveAll(b, moves).0;
      && Bitboard.IsAlive(m.snakes[i]) && Bitboard.IsAlive(m.snakes[j])
      && m.snakes[i].curled < 100 && m.snakes[j].curled < 100
      && m.snakes[i].head == m.snakes[j].head && m.snakes[i].length == m.snakes[j].length
      && Bit(m.snakes[i].head) !in m.bodies.occupied
    ensures ApplyMoves(b, moves).snakes[i].health == Bitboard.HEAD_COLLISION
    ensures ApplyMoves(b, moves).snakes[j].health == Bitboard.HEAD_COLLISION
  {
    var m := MoveAll(b, moves).0;
    assert Rival(m.snakes, i, j) && Rival(m.snakes, j, i);
    CollisionRules(b, moves, i);
    CollisionRules(b, moves, j);
  }

  /** Once I am dead the game stays over. */
  lemma TerminalStays(b: Board, moves: seq<Move>)
    requires |moves| == |b.snakes| >= 1 && !Bitboard.IsAlive(b.snakes[0])
    ensures !Bitboard.IsAlive(ApplyMoves(b, moves).snakes[0])
  {
  }
}

=== FILE: old_eval.dfy ===
/**
 * The evaluation helpers of the u128 generation (`OldBitboard`): a flood
 * fill from my head, the area-control contest between my head and the
 * enemy heads, the masks of the cells within one, two and three steps, and
 * the terminal score. Masks are sets of bit positions below 128. A fill
 * step spreads a mask one cell up, down, and sideways from the cells of
 * `BORDER_MASK` (columns 1 to 9); bits shifted past bit 127 drop out, and
 * the seven bits above the board's 121 cells are free cells to the fill.
 */
module OldEval {
  import opened Common
  import Bitboard
  import OldBitboard

  const BITS := 128
  /** The width of the board, and the shift of one row. */
  const WIDTH := 11

  /** A bit of `BORDER_MASK`: a cell in columns 1 to 9 of the board. */
  predicate InBorderMask(p: int)
  {
    0 <= p < 121 && 1 <= p % WIDTH <= 9
  }

  /**
   * Cell `c` is in `x | (BORDER_MASK & x) << 1 | (BORDER_MASK & x) >> 1 |
   * x << 11 | x >> 11`.
   */
  predicate Spreads(x: set<int>, c: int)
  {
    0 <= c < BITS &&
    (c in x || (c - 1 in x && InBorderMask(c - 1)) || (c + 1 in x && InBorderMask(c + 1))
     || c - WIDTH in x || c + WIDTH in x)
  }

  /** The spread of a mask by one step. */
  function Spread(x: set<int>): set<int>
  {
    set c | 0 <= c < BITS && Spreads(x, c)
  }

  /** `free & spread(x)`: one fill step confined to the free cells. */
  function Step(free: set<int>, x: set<int>): set<int>
  {
    set c | c in free && Spreads(x, c)
  }

  /** `!bodies[0]`: every bit of the word that no body part occupies. */
  function Open(b: OldBitboard.Board): (free: set<int>)
    ensures forall c :: c in free <==> 0 <= c < BITS && c !in b.bodies.occupied
  {
    set c | 0 <= c < BITS && c !in b.bodies.occupied
  }

  /** No cell of `free` that the mask spreads to is missing from it. */
  predicate Closed(free: set<int>, s: set<int>)
  {
    forall c :: c in free && Spreads(s, c) ==> c in s
  }

  /** The first step of a fill from the head bit. */
  function Seed(free: set<int>, h: int): set<int>
  {
    Step(free, {h})
  }

  /** A larger mask spreads to more cells. */
  lemma StepMono(free: set<int>, x: set<int>, s: set<int>)
    requires x <= s
    ensures Step(free, x) <= Step(free, s)
  {
  }

  /** A mask of free cells spreads at least to itself. */
  lemma StepGrows(free: set<int>, x: set<int>)
    requires x <= free && forall c :: c in free ==> 0 <= c < BITS
    ensures x <= Step(free, x)
  {
    forall c | c in x ensures c in Step(free, x) {
      assert Spreads(x, c);
    }
  }

  /** A proper subset is smaller. */
  lemma ProperSubsetSmaller(a: set<int>, b: set<int>)
    requires a <= b && a != b
    ensures |a| < |b|
  {
    if forall q :: q in b ==> q in a {
      assert false;
    }
    var e :| e in b && e !in a;
    assert b == a + (b - a);
    assert e in b - a;
  }

  /**
   * `flood_fill`: the cells reachable from my head through free cells.
   * The result is free, holds the first step, is closed under a step, and
   * lies inside every closed set that holds the first step: the least such
   * set.
   */
  method FloodFill(b: OldBitboard.Board) returns (x: set<int>)
    requires |b.snakes| >= 1
    ensures var free := Open(b);
      && x <= free
      && Seed(free, OldBitboard.Bit(b.snakes[0].head)) <= x
      && Closed(free, x)
      && forall s {:trigger Closed(free, s)} :: Closed(free, s) && Seed(free, OldBitboard.Bit(b.snakes[0].head)) <= s ==> x <= s
  {
    var free := Open(b);
    var h := OldBitboard.Bit(b.snakes[0].head);
    var y := {h};
    x := Step(free, y);
    while x != y
      invariant x == Step(free, y) && x <= free
      invariant Seed(free, h) <= x
      invariant y == {h} || y <= x
      invariant forall s {:trigger Closed(free, s)} :: Closed(free, s) && Seed(free, h) <= s ==> x <= s
      decreases if y <= x then 0 else 1, |free - y|
    {
      if y <= x {
        ProperSubsetSmaller(free - x, free - y);
      }
      StepGrows(free, x);
      forall s | Closed(free, s) && Seed(free, h) <= s
        ensures Step(free, x) <= s
      {
        StepMono(free, x, s);
      }
      y := x;
      x := Step(free, x);
    }
    assert Closed(free, x) by {
      forall c | c in free && Spreads(x, c) ensures c in x {
        assert c in Step(free, y);
      }
    }
  }

  /** A contest state: my region and the enemies' region. */
  datatype Areas = Areas(mine: set<int>, theirs: set<int>)

  /** The head bits of the live enemies. */
  function EnemyHeads(b: OldBitboard.Board): set<int>
  {
    set i | 1 <= i < |b.snakes| && Bitboard.IsAlive(b.snakes[i]) :: OldBitboard.Bit(b.snakes[i].head)
  }

  /** `tails_mask`: my tail and the tails of the live enemies. */
  function TailBits(b: OldBitboard.Board): set<int>
    requires |b.snakes| >= 1
  {
    {OldBitboard.Bit(b.snakes[0].tail)}
    + set i | 1 <= i < |b.snakes| && Bitboard.IsAlive(b.snakes[i]) :: OldBitboard.Bit(b.snakes[i].tail)
  }

  /** `!bodies[0] & !tails_mask`: the cells the contest may claim. */
  function Walkable(b: OldBitboard.Board): (w: set<int>)
    requires |b.snakes| >= 1
    ensures w <= Open(b)
  {
    set c | 0 <= c < BITS && c !in b.bodies.occupied && c !in TailBits(b)
  }

  /**
   * One round of `area_control`: both regions spread over the walkable
   * cells, and a cell both reach belongs to neither.
   */
  function Contest(free: set<int>, st: Areas): (r: Areas)
    ensures r.mine <= free && r.theirs <= free && r.mine !! r.theirs
  {
    var me := Step(free, st.mine);
    var them := Step(free, st.theirs);
    Areas(me - them, them - me)
  }

  /**
   * The loop of `area_control`: rounds until one leaves the state as it
   * was. The engine has no bound; the model gives up with `None` after
   * `fuel` rounds.
   */
  function Settle(free: set<int>, st: Areas, fuel: nat): (r: Option<Areas>)
    ensures r.Some? ==> Contest(free, r.value) == r.value
    decreases fuel
  {
    if fuel == 0 then None
    else
      var next := Contest(free, st);
      if next == st then Some(next) else Settle(free, next, fuel - 1)
  }

  /** `area_control`: the contest from my head against the live enemies' heads. */
  function AreaControl(b: OldBitboard.Board, fuel: nat): (r: Option<Areas>)
    requires |b.snakes| >= 1
    ensures r.Some? ==> Contest(Walkable(b), r.value) == r.value
  {
    Settle(Walkable(b), Areas({OldBitboard.Bit(b.snakes[0].head)}, EnemyHeads(b)), fuel)
  }

  /**
   * Where the contest settles, the two regions are walkable, disjoint and
   * apart: no cell of one lies next to the other. A walkable cell next to
   * one region and not the other belongs to that region.
   */
  lemma SettledApart(free: set<int>, st: Areas)
    requires Contest(free, st) == st
    ensures st.mine <= free && st.theirs <= free && st.mine !! st.theirs
    ensures forall c :: c in st.mine ==> !Spreads(st.theirs, c)
    ensures forall c :: c in st.theirs ==> !Spreads(st.mine, c)
    ensures forall c :: c in free && Spreads(st.mine, c) && !Spreads(st.theirs, c) ==> c in st.mine
    ensures forall c :: c in free && Spreads(st.theirs, c) && !Spreads(st.mine, c) ==> c in st.theirs
  {
    var r := Contest(free, st);
    assert r.mine == st.mine && r.theirs == st.theirs;
    forall c | c in st.mine ensures !Spreads(st.theirs, c) {
      assert c in Step(free, st.mine) - Step(free, st.theirs);
    }
    forall c | c in st.theirs ensures !Spreads(st.mine, c) {
      assert c in Step(free, st.theirs) - Step(free, st.mine);
    }
    forall c | c in free && Spreads(st.mine, c) && !Spreads(st.theirs, c) ensures c in st.mine {
      assert c in Step(free, st.mine) && c !in Step(free, st.theirs);
    }
    forall c | c in free && Spreads(st.theirs, c) && !Spreads(st.mine, c) ensures c in st.theirs {
      assert c in Step(free, st.theirs) && c !in Step(free, st.mine);
    }
  }

  predicate InRun(lo: int, hi: int, c: int)
  {
    lo <= c <= hi
  }

  /** Cells `lo` to `hi` of the bottom row. */
  function Run(lo: int, hi: int): set<int>
  {
    set c | lo <= c <= hi && InRun(lo, hi, c)
  }

  /**
   * A board whose second row is all body: my head at cell 5 with my tail
   * at 16, and a live enemy's head at cell 8 with its tail at 19. The fill
   * is confined to the bottom row.
   */
  function Corridor(): (b: OldBitboard.Board)
    ensures |b.snakes| == 2
  {
    OldBitboard.Board(
      Bitboard.Layers(Run(11, 21), {}, {}),
      [Bitboard.Snake(5, 16, 3, 100, 0), Bitboard.Snake(8, 19, 3, 100, 0)],
      {}, {})
  }

  /** The walkable cells of the corridor board: all bits but the second row. */
  lemma CorridorWalkable()
    ensures forall c :: c in Walkable(Corridor()) <==> 0 <= c < BITS && !(11 <= c <= 21)
  {
    var b := Corridor();
    assert EnemyHeads(b) == {8} by {
      assert Bitboard.IsAlive(b.snakes[1]);
    }
    assert TailBits(b) == {16, 19} by {
      assert Bitboard.IsAlive(b.snakes[1]);
    }
  }

  /** The low end of a run after a step: it spreads left unless it is in column 0 or 10. */
  function Lo(a: int): int
  {
    if a == 0 || a == 10 then a else a - 1
  }

  /** The high end of a run after a step: it spreads right unless it is in column 0 or 10. */
  function Hi(b: int): int
  {
    if b == 0 || b == 10 then b else b + 1
  }

  /** The difference of two runs, the first starting and ending no later than the second. */
  lemma RunDiff(a: int, b: int, c: int, e: int)
    requires a <= c && b <= e
    ensures Run(a, b) - Run(c, e) == Run(a, Min(b, c - 1))
    ensures Run(c, e) - Run(a, b) == Run(Max(c, b + 1), e)
  {
  }

  /** A round of the contest between two runs of the bottom row, the first to the left. */
  lemma RunContest(free: set<int>, a: int, b: int, c: int, e: int)
    requires forall q :: q in free <==> 0 <= q < BITS && !(11 <= q <= 21)
    requires 0 <= a <= b < c <= e <= 10
    ensures Contest(free, Areas(Run(a, b), Run(c, e)))
      == Areas(Run(Lo(a), Min(Hi(b), Lo(c) - 1)), Run(Max(Lo(c), Hi(b) + 1), Hi(e)))
  {
    RunStep(free, a, b);
    RunStep(free, c, e);
    RunDiff(Lo(a), Hi(b), Lo(c), Hi(e));
  }

  /** One fill step of a run of the bottom row. */
  lemma RunStep(free: set<int>, a: int, b: int)
    requires forall q :: q in free <==> 0 <= q < BITS && !(11 <= q <= 21)
    requires 0 <= a <= b <= 10
    ensures Step(free, Run(a, b)) == Run(Lo(a), Hi(b))
  {
    forall q ensures q in Step(free, Run(a, b)) <==> q in Run(Lo(a), Hi(b)) {
      RunStepAt(free, a, b, q);
    }
  }

  /** A cell is in the step of a run exactly when it is in the run widened by one at each end that can spread. */
  lemma RunStepAt(free: set<int>, a: int, b: int, q: int)
    requires forall q :: q in free <==> 0 <= q < BITS && !(11 <= q <= 21)
    requires 0 <= a <= b <= 10
    ensures q in Step(free, Run(a, b)) <==> q in Run(Lo(a), Hi(b))
  {
    if q in Run(Lo(a), Hi(b)) {
      assert q in free;
      if q < a {
        assert q + 1 == a && InBorderMask(a);
      } else if q > b {
        assert q - 1 == b && InBorderMask(b);
      }
      assert Spreads(Run(a, b), q);
    }
  }

  /** The rounds of the corridor board: five rounds to a pair of states that alternate. */
  lemma CorridorRounds(free: set<int>)
    requires forall q :: q in free <==> 0 <= q < BITS && !(11 <= q <= 21)
    ensures Contest(free, Areas(Run(5, 5), Run(8, 8))) == Areas(Run(4, 6), Run(7, 9))
    ensures Contest(free, Areas(Run(4, 6), Run(7, 9))) == Areas(Run(3, 5), Run(8, 10))
    ensures Contest(free, Areas(Run(3, 5), Run(8, 10))) == Areas(Run(2, 6), Run(7, 10))
    ensures Contest(free, Areas(Run(2, 6), Run(7, 10))) == Areas(Run(1, 5), Run(8, 10))
    ensures Contest(free, Areas(Run(1, 5), Run(8, 10))) == Areas(Run(0, 6), Run(7, 10))
    ensures Contest(free, Areas(Run(0, 6), Run(7, 10))) == Areas(Run(0, 5), Run(8, 10))
    ensures Contest(free, Areas(Run(0, 5), Run(8, 10))) == Areas(Run(0, 6), Run(7, 10))
  {
    RunContest(free, 5, 5, 8, 8);
    RunContest(free, 4, 6, 7, 9);
    RunContest(free, 3, 5, 8, 10);
    RunContest(free, 2, 6, 7, 10);
    RunContest(free, 1, 5, 8, 10);
    RunContest(free, 0, 6, 7, 10);
    RunContest(free, 0, 5, 8, 10);
  }

  /** Runs with different ends differ. */
  lemma RunsDiffer(a: int, b: int, c: int, e: int)
    requires a <= b && c <= e && (a != c || b != e)
    ensures Run(a, b) != Run(c, e)
  {
    if a < c {
      assert a in Run(a, b);
    } else if c < a {
      assert c in Run(c, e);
    } else if b < e {
      assert e in Run(c, e);
    } else {
      assert b in Run(a, b);
    }
  }

  /** From the alternating pair the loop never settles, whatever the fuel. */
  lemma Alternates(free: set<int>, fuel: nat)
    requires forall q :: q in free <==> 0 <= q < BITS && !(11 <= q <= 21)
    ensures Settle(free, Areas(Run(0, 6), Run(7, 10)), fuel) == None
    ensures Settle(free, Areas(Run(0, 5), Run(8, 10)), fuel) == None
  {
    RunContest(free, 0, 6, 7, 10);
    RunContest(free, 0, 5, 8, 10);
    RunsDiffer(0, 6, 0, 5);
    TwoCycle(free, Areas(Run(0, 6), Run(7, 10)), Areas(Run(0, 5), Run(8, 10)), fuel);
    TwoCycle(free, Areas(Run(0, 5), Run(8, 10)), Areas(Run(0, 6), Run(7, 10)), fuel);
  }

  /** Two different states that a round turns into each other keep the loop going for ever. */
  lemma {:induction false} TwoCycle(free: set<int>, a: Areas, b: Areas, fuel: nat)
    requires Contest(free, a) == b && Contest(free, b) == a && a != b
    ensures Settle(free, a, fuel) == None
    decreases fuel
  {
    if fuel == 0 {
    } else {
      var rest: nat := fuel - 1;
      TwoCycle(free, b, a, rest);
      SettleMoves(free, a, b, rest);
    }
  }

  /** A round that changes the state leaves the rest of the loop to the new state. */
  lemma SettleMoves(free: set<int>, st: Areas, next: Areas, fuel: nat)
    requires Contest(free, st) == next && next != st
    ensures Settle(free, st, fuel + 1) == Settle(free, next, fuel)
  {
  }

  /** A round that changes the state passes the loop on to the next state with one round less. */
  lemma {:induction false} ChainNone(free: set<int>, states: seq<Areas>, last: Areas, fuel: nat)
    requires |states| >= 1 && states[|states| - 1] == last
    requires forall k :: 0 <= k < |states| - 1 ==> Contest(free, states[k]) == states[k + 1] && states[k + 1] != states[k]
    requires forall f: nat :: Settle(free, last, f) == None
    ensures Settle(free, states[0], fuel) == None
    decreases |states|
  {
    if |states| > 1 && fuel > 0 {
      ChainNone(free, states[1..], last, fuel - 1);
    }
  }

  /** The contest states of the corridor board: the start, four rounds, and the first of the alternating pair. */
  function CorridorStates(): seq<Areas>
  {
    [Areas(Run(5, 5), Run(8, 8)), Areas(Run(4, 6), Run(7, 9)), Areas(Run(3, 5), Run(8, 10)),
     Areas(Run(2, 6), Run(7, 10)), Areas(Run(1, 5), Run(8, 10)), Areas(Run(0, 6), Run(7, 10))]
  }

  /** The corridor board's contest starts from my head at 5 and the enemy's at 8, over every bit but the second row. */
  lemma CorridorStart()
    ensures forall c :: c in Walkable(Corridor()) <==> 0 <= c < BITS && !(11 <= c <= 21)
    ensures Areas({OldBitboard.Bit(Corridor().snakes[0].head)}, EnemyHeads(Corridor())) == CorridorStates()[0]
  {
    CorridorWalkable();
    var b := Corridor();
    assert EnemyHeads(b) == {8} by {
      assert Bitboard.IsAlive(b.snakes[1]);
    }
    assert Run(8, 8) == {8};
    assert Run(5, 5) == {5};
  }

  /**
   * On the corridor board `area_control` never returns: the regions reach
   * a pair of states that alternate for ever, because a cell both reach is
   * dropped from my region and then claimed back.
   */
  lemma CorridorNeverSettles(fuel: nat)
    ensures AreaControl(Corridor(), fuel) == None
  {
    var free := Walkable(Corridor());
    CorridorStart();
    CorridorChain(free);
    var last := Areas(Run(0, 6), Run(7, 10));
    forall f: nat ensures Settle(free, last, f) == None {
      Alternates(free, f);
    }
    ChainNone(free, CorridorStates(), last, fuel);
  }

  /** Each state of the corridor board's list is the round of the one before, and differs from it. */
  lemma CorridorChain(free: set<int>)
    requires forall q :: q in free <==> 0 <= q < BITS && !(11 <= q <= 21)
    ensures var st := CorridorStates();
      forall k :: 0 <= k < |st| - 1 ==> Contest(free, st[k]) == st[k + 1] && st[k + 1] != st[k]
  {
    var st := CorridorStates();
    forall k | 0 <= k < |st| - 1
      ensures Contest(free, st[k]) == st[k + 1] && st[k + 1] != st[k]
    {
      CorridorLink(free, k);
    }
  }

  /** The `k`-th round of the corridor board's list. */
  lemma CorridorLink(free: set<int>, k: int)
    requires forall q :: q in free <==> 0 <= q < BITS && !(11 <= q <= 21)
    requires 0 <= k < 5
    ensures Contest(free, CorridorStates()[k]) == CorridorStates()[k + 1]
    ensures CorridorStates()[k + 1] != CorridorStates()[k]
  {
    if k == 0 {
      RunContest(free, 5, 5, 8, 8);
      RunsDiffer(5, 5, 4, 6);
    } else if k == 1 {
      RunContest(free, 4, 6, 7, 9);
      RunsDiffer(4, 6, 3, 5);
    } else if k == 2 {
      RunContest(free, 3, 5, 8, 10);
      RunsDiffer(3, 5, 2, 6);
    } else if k == 3 {
      RunContest(free, 2, 6, 7, 10);
      RunsDiffer(2, 6, 1, 5);
    } else {
      RunContest(free, 1, 5, 8, 10);
      RunsDiffer(1, 5, 0, 6);
    }
  }

  /**
   * The round of the later generation's contest: each region keeps what it
   * has and adds the walkable cells it reaches and the other does not.
   */
  function Claim(free: set<int>, st: Areas): (r: Areas)
    ensures st.mine <= r.mine && st.theirs <= r.theirs
    ensures r.mine - st.mine <= free && r.theirs - st.theirs <= free
  {
    var me := Step(free, st.mine);
    var them := Step(free, st.theirs);
    Areas(st.mine + (me - them), st.theirs + (them - me))
  }

  /** The walkable cells a region has yet to claim. */
  function Unclaimed(free: set<int>, st: Areas): nat
  {
    |free - st.mine| + |free - st.theirs|
  }

  /** A round that changes the state claims at least one more walkable cell. */
  lemma ClaimShrinks(free: set<int>, st: Areas)
    requires Claim(free, st) != st
    ensures Unclaimed(free, Claim(free, st)) < Unclaimed(free, st)
  {
    var r := Claim(free, st);
    assert free - r.mine <= free - st.mine;
    assert free - r.theirs <= free - st.theirs;
    if r.mine != st.mine {
      ProperSubsetSmaller(free - r.mine, free - st.mine);
      SubsetNoLarger(free - r.theirs, free - st.theirs);
    } else {
      ProperSubsetSmaller(free - r.theirs, free - st.theirs);
    }
  }

  /** A subset is no larger. */
  lemma SubsetNoLarger(a: set<int>, b: set<int>)
    requires a <= b
    ensures |a| <= |b|
  {
    assert b == a + (b - a);
  }

  /**
   * The contest with claims kept, as the later generation plays it: it
   * settles on every board, after at most as many rounds as there are
   * walkable cells to claim twice over.
   */
  function SettleClaims(free: set<int>, st: Areas): (r: Areas)
    ensures Claim(free, r) == r
    ensures st.mine <= r.mine && st.theirs <= r.theirs
    decreases Unclaimed(free, st)
  {
    var next := Claim(free, st);
    if next == st then st
    else
      ClaimShrinks(free, st);
      SettleClaims(free, next)
  }

  /**
   * Claims kept keep the regions apart: from disjoint start regions, the
   * settled regions are disjoint, and every cell they gained is walkable.
   */
  lemma {:induction false} ClaimsDisjoint(free: set<int>, st: Areas)
    requires st.mine !! st.theirs
    requires forall c :: c in st.mine + st.theirs ==> 0 <= c < BITS
    requires forall c :: c in free ==> 0 <= c < BITS
    ensures var r := SettleClaims(free, st);
      r.mine !! r.theirs && r.mine - st.mine <= free && r.theirs - st.theirs <= free
    decreases Unclaimed(free, st)
  {
    var next := Claim(free, st);
    if next != st {
      ClaimApart(free, st);
      ClaimShrinks(free, st);
      ClaimsDisjoint(free, next);
    }
  }

  /** One round with claims kept keeps disjoint regions of bits disjoint. */
  lemma ClaimApart(free: set<int>, st: Areas)
    requires st.mine !! st.theirs
    requires forall c :: c in st.mine + st.theirs ==> 0 <= c < BITS
    requires forall c :: c in free ==> 0 <= c < BITS
    ensures var n := Claim(free, st);
      n.mine !! n.theirs && forall c :: c in n.mine + n.theirs ==> 0 <= c < BITS
  {
    var n := Claim(free, st);
    var me := Step(free, st.mine);
    var them := Step(free, st.theirs);
    assert n.mine == st.mine + (me - them) && n.theirs == st.theirs + (them - me);
    forall c | c in n.mine ensures c !in n.theirs {
      if c in st.mine {
        assert c in st.mine + st.theirs;
        assert c in free ==> Spreads(st.mine, c);
        assert c !in st.theirs;
      } else {
        assert c in free && !Spreads(st.theirs, c);
      }
    }
    forall c | c in n.mine + n.theirs ensures 0 <= c < BITS {
      if c in st.mine + st.theirs {
      } else {
        assert c in free;
      }
    }
  }

  /**
   * The corrected `area_control`: the contest from my head against the
   * live enemies' heads, with claims kept.
   */
  function AreaControlIntended(b: OldBitboard.Board): (r: Areas)
    requires |b.snakes| >= 1
    ensures Claim(Walkable(b), r) == r
    ensures OldBitboard.Bit(b.snakes[0].head) in r.mine && EnemyHeads(b) <= r.theirs
  {
    SettleClaims(Walkable(b), Areas({OldBitboard.Bit(b.snakes[0].head)}, EnemyHeads(b)))
  }

  /**
   * When my head is not an enemy's head, the corrected contest ends with
   * the regions disjoint, having gained walkable cells only.
   */
  lemma IntendedApart(b: OldBitboard.Board)
    requires |b.snakes| >= 1 && OldBitboard.Bit(b.snakes[0].head) !in EnemyHeads(b)
    ensures var r := AreaControlIntended(b);
      r.mine !! r.theirs && r.mine - {OldBitboard.Bit(b.snakes[0].head)} <= Walkable(b)
      && r.theirs - EnemyHeads(b) <= Walkable(b)
  {
    var h := OldBitboard.Bit(b.snakes[0].head);
    assert 0 <= h < BITS;
    assert forall c :: c in EnemyHeads(b) ==> 0 <= c < BITS;
    ClaimsDisjoint(Walkable(b), Areas({h}, EnemyHeads(b)));
  }

  /** `x | spread(x)` with no free mask: the masks of `eval`. */
  function Grow(x: set<int>): (r: set<int>)
    ensures forall c :: c in x && 0 <= c < BITS ==> c in r
  {
    assert forall c :: c in x && 0 <= c < BITS ==> Spreads(x, c);
    Spread(x)
  }

  /** Rows apart plus columns apart on the 11-wide board. */
  function Apart(c: int, h: int): int
  {
    Abs(c / WIDTH - h / WIDTH) + Abs(c % WIDTH - h % WIDTH)
  }

  /** One step moves a cell at most one row or one column: sideways steps never leave the row. */
  lemma SpreadNear(x: set<int>, h: int, k: int)
    requires forall p :: p in x ==> 0 <= p < BITS && Apart(p, h) <= k
    ensures forall c :: c in Spread(x) ==> Apart(c, h) <= k + 1
  {
    forall c | c in Spread(x) ensures Apart(c, h) <= k + 1 {
      if c in x {
      } else if c - 1 in x && InBorderMask(c - 1) {
        assert c / WIDTH == (c - 1) / WIDTH && c % WIDTH == (c - 1) % WIDTH + 1;
      } else if c + 1 in x && InBorderMask(c + 1) {
        assert c / WIDTH == (c + 1) / WIDTH && c % WIDTH == (c + 1) % WIDTH - 1;
      } else if c - WIDTH in x {
        assert c / WIDTH == (c - WIDTH) / WIDTH + 1 && c % WIDTH == (c - WIDTH) % WIDTH;
      } else {
        assert c / WIDTH == (c + WIDTH) / WIDTH - 1 && c % WIDTH == (c + WIDTH) % WIDTH;
      }
    }
  }

  /** `distance_1_mask`, `distance_2_mask` and `distance_3_mask`. */
  function DistanceMasks(head: int): (masks: (set<int>, set<int>, set<int>))
  {
    var d1 := Grow({OldBitboard.Bit(head)});
    var d2 := Grow(d1);
    (d1, d2, Grow(d2))
  }

  /**
   * The masks are nested, hold the head bit, and the `k`-th holds only
   * cells at most `k` rows and columns from the head.
   */
  lemma DistanceMasksNear(head: int)
    ensures var (d1, d2, d3) := DistanceMasks(head);
      var h := OldBitboard.Bit(head);
      && h in d1 && d1 <= d2 && d2 <= d3
      && (forall c :: c in d1 ==> Apart(c, h) <= 1)
      && (forall c :: c in d2 ==> Apart(c, h) <= 2)
      && (forall c :: c in d3 ==> Apart(c, h) <= 3)
  {
    var (d1, d2, d3) := DistanceMasks(head);
    var h := OldBitboard.Bit(head);
    assert Spreads({h}, h);
    SpreadNear({h}, h, 0);
    SpreadNear(d1, h, 1);
    SpreadNear(d2, h, 2);
    forall c | c in d1 ensures c in d2 {
      assert Spreads(d1, c);
    }
    forall c | c in d2 ensures c in d3 {
      assert Spreads(d2, c);
    }
  }

  /** `i16::MIN` and `i16::MAX`, the score type of this generation's `eval_terminal`. */
  const SCORE_MIN := -32768
  const SCORE_MAX := 32767

  /**
   * `eval_terminal`: the top score while I live, else the bottom score
   * less my health, which a dead snake has at zero or below.
   */
  function EvalTerminal(b: OldBitboard.Board): (r: int)
    requires |b.snakes| >= 1 && -128 <= b.snakes[0].health <= 127
    ensures Bitboard.IsAlive(b.snakes[0]) ==> r == SCORE_MAX
    ensures !Bitboard.IsAlive(b.snakes[0]) ==> r == SCORE_MIN - b.snakes[0].health
    ensures !Bitboard.IsAlive(b.snakes[0]) ==> SCORE_MIN <= r <= SCORE_MIN + 128
  {
    if !Bitboard.IsAlive(b.snakes[0]) then I16(SCORE_MIN - b.snakes[0].health) else SCORE_MAX
  }

  /**
   * Every position where I live outscores every position where I died,
   * and among deaths the lower health code scores higher.
   */
  lemma EvalTerminalRanks(b: OldBitboard.Board, c: OldBitboard.Board)
    requires |b.snakes| >= 1 && -128 <= b.snakes[0].health <= 127
    requires |c.snakes| >= 1 && -128 <= c.snakes[0].health <= 127
    ensures Bitboard.IsAlive(b.snakes[0]) && !Bitboard.IsAlive(c.snakes[0]) ==> EvalTerminal(c) < EvalTerminal(b)
    ensures !Bitboard.IsAlive(b.snakes[0]) && !Bitboard.IsAlive(c.snakes[0]) ==>
      (EvalTerminal(b) < EvalTerminal(c) <==> c.snakes[0].health < b.snakes[0].health)
  {
  }
}

=== FILE: old_move_gen.dfy ===
/**
 * The move generation of the generation between the u128 board and the
 * current one: a board of any size, with or without wrapping edges, whose
 * body layer is the current `Bitboard.Board`'s `bodies.occupied`. Moves are
 * tried in the order down, up, left, right; a tail that moves away this
 * turn counts as free. On a wrapping board the destinations are computed in
 * `usize` arithmetic, which wraps modulo 2^64 in a release build.
 */
module OldMoveGen {
  import opened Common
  import opened Grid
  import opened Moves
  import opened Bitboard
  import Constants
  import MoveGen

  /** The modulus of `usize` arithmetic. */
  const USIZE := 0x1_0000_0000_0000_0000

  /**
   * The left destination on a wrapping board. As written the formula
   * multiplies both of its terms by `pos == 0`, so every other cell checks
   * cell 0; the intended formula multiplies the second term by `pos != 0`.
   */
  datatype LeftRule = AsWritten | Intended

  /** The order the moves are tried in. */
  function Order(): (o: seq<Move>)
    ensures |o| == 4
  {
    [Down, Up, Left, Right]
  }

  /** A move's place in the order. */
  function Rank(m: Move): (k: int)
    ensures 0 <= k < 4 && Order()[k] == m
  {
    match m
    case Down => 0
    case Up => 1
    case Left => 2
    case Right => 3
  }

  /** `c as usize`. */
  function Flag(c: bool): int
  {
    if c then 1 else 0
  }

  /** The cell the wrapping branch checks for a move. */
  function WrapDest(d: Dims, rule: LeftRule, pos: int, m: Move): int
  {
    match m
    case Down => DownCell(d.w, d.w * (d.h - 1), pos)
    case Up => (pos + d.w) % (d.w * d.h)
    case Left => LeftCell(rule, d.w * d.h, pos)
    case Right => (pos + 1) % (d.w * d.h)
  }

  /**
   * The wrapping down check on a board `w` wide whose top row starts at
   * cell `top`: `check as usize * (top + pos) + !check as usize * (pos - w)`
   * in `usize`, where `check` says that `pos` is in the bottom row.
   */
  function DownCell(w: int, top: int, pos: int): int
  {
    var check := w > pos;
    (Flag(check) * (top + pos) + Flag(!check) * ((pos - w) % USIZE)) % USIZE
  }

  /**
   * The wrapping left check on a board of `n` cells: `check as usize * (n -
   * 1) + check as usize * (pos - 1)` in `usize` as written, with `!check`
   * in the second term as intended, where `check` says that `pos` is cell 0.
   */
  function LeftCell(rule: LeftRule, n: int, pos: int): int
  {
    var check := 1 > pos;
    var second := if rule == AsWritten then check else !check;
    (Flag(check) * (n - 1) + Flag(second) * ((pos - 1) % USIZE)) % USIZE
  }

  /** The cell the bounded branch checks, when the move stays on the board. */
  function BoundedDest(d: Dims, pos: int, m: Move): Option<int>
  {
    match m
    case Down => if pos >= d.w then Some(pos - d.w) else None
    case Up => if pos < d.w * (d.h - 1) then Some(pos + d.w) else None
    case Left => if pos % d.w > 0 then Some(pos - 1) else None
    case Right => if pos % d.w < d.w - 1 then Some(pos + 1) else None
  }

  /** The cell checked for a move, if the move is tried at all. */
  function Dest(d: Dims, rule: LeftRule, pos: int, m: Move): Option<int>
  {
    if d.wrap then Some(WrapDest(d, rule, pos, m)) else BoundedDest(d, pos, m)
  }

  /** The move is tried and its cell is not blocked. */
  predicate Free(d: Dims, rule: LeftRule, occ: set<int>, pos: int, m: Move)
  {
    Dest(d, rule, pos, m).Some? && Dest(d, rule, pos, m).value !in occ
  }

  /** The tails that move away this turn: those of live snakes with no curled body parts. */
  function MovingTails(b: Board): set<int>
  {
    set i | 0 <= i < |b.snakes| && IsAlive(b.snakes[i]) && b.snakes[i].curled == 0 :: b.snakes[i].tail
  }

  /** The body layer with the moving tails cleared. */
  function Blocking(b: Board): set<int>
  {
    b.bodies.occupied - MovingTails(b)
  }

  /** The free moves among the first `j` of the order. */
  function FreeBelow(d: Dims, rule: LeftRule, occ: set<int>, pos: int, j: int): seq<Move>
    requires 0 <= j <= 4
  {
    if j == 0 then []
    else FreeBelow(d, rule, occ, pos, j - 1) + (if Free(d, rule, occ, pos, Order()[j - 1]) then [Order()[j - 1]] else [])
  }

  /** The last move among the first `j` that stays on a bounded board, or up when there is none. */
  function LastBoundedBelow(d: Dims, pos: int, j: int): Move
    requires 0 <= j <= 4
  {
    if j == 0 then Up
    else if BoundedDest(d, pos, Order()[j - 1]).Some? then Order()[j - 1]
    else LastBoundedBelow(d, pos, j - 1)
  }

  /** `some_legal_move`: up on a wrapping board, else the last move that stays on the board. */
  function Fallback(d: Dims, pos: int): Move
  {
    if d.wrap then Up else LastBoundedBelow(d, pos, 4)
  }

  /** The first `j` moves of the order that are free, each once, by rank. */
  lemma {:induction false} FreeBelowExact(d: Dims, rule: LeftRule, occ: set<int>, pos: int, j: int)
    requires 0 <= j <= 4
    ensures var f := FreeBelow(d, rule, occ, pos, j);
      && |f| <= j
      && (forall m :: m in f <==> Rank(m) < j && Free(d, rule, occ, pos, m))
      && forall a, c :: 0 <= a < c < |f| ==> Rank(f[a]) < Rank(f[c])
  {
    FreeBelowMembers(d, rule, occ, pos, j);
    FreeBelowRanked(d, rule, occ, pos, j);
  }

  /** The first `j` moves of the order that are free are the members of the list. */
  lemma {:induction false} FreeBelowMembers(d: Dims, rule: LeftRule, occ: set<int>, pos: int, j: int)
    requires 0 <= j <= 4
    ensures forall m :: m in FreeBelow(d, rule, occ, pos, j) <==> Rank(m) < j && Free(d, rule, occ, pos, m)
  {
    if j > 0 {
      FreeBelowMembers(d, rule, occ, pos, j - 1);
      var m := Order()[j - 1];
      assert Rank(m) == j - 1;
    }
  }

  /** The list holds at most `j` moves, by increasing rank. */
  lemma {:induction false} FreeBelowRanked(d: Dims, rule: LeftRule, occ: set<int>, pos: int, j: int)
    requires 0 <= j <= 4
    ensures var f := FreeBelow(d, rule, occ, pos, j);
      |f| <= j && forall a, c :: 0 <= a < c < |f| ==> Rank(f[a]) < Rank(f[c])
  {
    if j > 0 {
      FreeBelowRanked(d, rule, occ, pos, j - 1);
      FreeBelowMembers(d, rule, occ, pos, j - 1);
      var m := Order()[j - 1];
      assert Rank(m) == j - 1;
    }
  }

  /**
   * `allowed_moves` on a given body mask: the free moves in order, or the
   * fallback alone when none is free.
   */
  function Allowed(d: Dims, rule: LeftRule, occ: set<int>, pos: int): (r: seq<Move>)
    ensures 1 <= |r| <= 4
    ensures (exists m :: Free(d, rule, occ, pos, m)) ==> forall m :: m in r <==> Free(d, rule, occ, pos, m)
    ensures forall a, c :: 0 <= a < c < |r| ==> Rank(r[a]) < Rank(r[c])
    ensures (forall m :: !Free(d, rule, occ, pos, m)) ==> r == [Fallback(d, pos)]
  {
    FreeBelowExact(d, rule, occ, pos, 4);
    var f := FreeBelow(d, rule, occ, pos, 4);
    if |f| > 0 then
      assert f[0] in f;
      f
    else
      assert forall m :: !Free(d, rule, occ, pos, m) by {
        forall m ensures !Free(d, rule, occ, pos, m) {
          assert m !in f;
        }
      }
      [Fallback(d, pos)]
  }

  /**
   * `allowed_moves`: the four checks of the wrapping or the bounded branch
   * against the body layer without the moving tails.
   */
  method AllowedMoves(d: Dims, rule: LeftRule, b: Board, pos: int) returns (moves: seq<Move>)
    ensures moves == Allowed(d, rule, Blocking(b), pos)
  {
    var occ := Blocking(b);
    var some := Up;
    if d.wrap {
      moves := WrapChecks(d, rule, occ, pos);
    } else {
      moves, some := BoundedChecks(d, rule, occ, pos);
    }
    if |moves| == 0 {
      moves := [some];
    }
  }

  /** The wrapping branch: the four cells in order, no fallback but up. */
  method WrapChecks(d: Dims, rule: LeftRule, occ: set<int>, pos: int) returns (moves: seq<Move>)
    requires d.wrap
    ensures moves == FreeBelow(d, rule, occ, pos, 4)
  {
    moves := [];
    if WrapDest(d, rule, pos, Down) !in occ {
      moves := moves + [Down];
    }
    assert moves == FreeBelow(d, rule, occ, pos, 1);
    if WrapDest(d, rule, pos, Up) !in occ {
      moves := moves + [Up];
    }
    assert moves == FreeBelow(d, rule, occ, pos, 2);
    if WrapDest(d, rule, pos, Left) !in occ {
      moves := moves + [Left];
    }
    assert moves == FreeBelow(d, rule, occ, pos, 3);
    if WrapDest(d, rule, pos, Right) !in occ {
      moves := moves + [Right];
    }
  }

  /** The bounded branch: each move that stays on the board becomes the fallback, and is kept when its cell is free. */
  method BoundedChecks(d: Dims, rule: LeftRule, occ: set<int>, pos: int) returns (moves: seq<Move>, some: Move)
    requires !d.wrap
    ensures moves == FreeBelow(d, rule, occ, pos, 4) && some == LastBoundedBelow(d, pos, 4)
  {
    moves := [];
    some := Up;
    if pos >= d.w {
      some := Down;
      if pos - d.w !in occ {
        moves := moves + [Down];
      }
    }
    assert moves == FreeBelow(d, rule, occ, pos, 1) && some == LastBoundedBelow(d, pos, 1);
    if pos < d.w * (d.h - 1) {
      some := Up;
      if pos + d.w !in occ {
        moves := moves + [Up];
      }
    }
    assert moves == FreeBelow(d, rule, occ, pos, 2) && some == LastBoundedBelow(d, pos, 2);
    if pos % d.w > 0 {
      some := Left;
      if pos - 1 !in occ {
        moves := moves + [Left];
      }
    }
    assert moves == FreeBelow(d, rule, occ, pos, 3) && some == LastBoundedBelow(d, pos, 3);
    if pos % d.w < d.w - 1 {
      some := Right;
      if pos + 1 !in occ {
        moves := moves + [Right];
      }
    }
  }

  /**
   * On a bounded board no move `allowed_moves` returns leaves the board: the
   * free moves are checked against the edges, and some move always stays on
   * a board of at least 2 by 2, so the fallback does too.
   */
  lemma AllowedOnBoard(d: Dims, rule: LeftRule, occ: set<int>, pos: int)
    requires !d.wrap && OnBoard(d, pos)
    ensures forall m :: m in Allowed(d, rule, occ, pos) ==>
      Dest(d, rule, pos, m).Some? && OnBoard(d, Dest(d, rule, pos, m).value)
  {
    var r := Allowed(d, rule, occ, pos);
    FallbackBounded(d, pos);
    forall m | m in r
      ensures Dest(d, rule, pos, m).Some? && OnBoard(d, Dest(d, rule, pos, m).value)
    {
      BoundedOnBoard(d, pos, m);
    }
  }

  /** A move that the bounded branch tries lands on the board. */
  lemma BoundedOnBoard(d: Dims, pos: int, m: Move)
    requires OnBoard(d, pos) && BoundedDest(d, pos, m).Some?
    ensures OnBoard(d, BoundedDest(d, pos, m).value)
  {
    match m
    case Up =>
      TopRow(d.w, d.h);
    case Right =>
      SameRow(pos, d.w, d.h);
    case Down =>
    case Left =>
  }

  /** Some move stays on a bounded board of at least 2 by 2, so the fallback does. */
  lemma FallbackBounded(d: Dims, pos: int)
    requires OnBoard(d, pos)
    ensures BoundedDest(d, pos, LastBoundedBelow(d, pos, 4)).Some?
  {
    if pos < d.w {
      MulMono(1, d.h - 1, d.w, d.w);
      assert d.w <= (d.h - 1) * d.w == d.w * (d.h - 1);
      assert BoundedDest(d, pos, Up).Some?;
    } else {
      assert BoundedDest(d, pos, Down).Some?;
    }
  }

  /** A cell below `w * h` is in a row below `h`. */
  lemma DivBelow(pos: int, w: int, h: int)
    requires w > 0 && 0 <= pos < w * h
    ensures pos / w < h
  {
    if pos / w >= h {
      MulMono(h, pos / w, w, w);
    }
  }

  /** The cell right of a cell that is not in the last column is on the board. */
  lemma SameRow(pos: int, w: int, h: int)
    requires w > 0 && 0 <= pos < w * h && pos % w < w - 1
    ensures pos + 1 < w * h
  {
    DivBelow(pos, w, h);
    MulMono(pos / w + 1, h, w, w);
    assert pos == (pos / w) * w + pos % w;
  }

  /**
   * A move onto the tail of a live snake with no curled parts counts as
   * free: the tail moves away during the turn.
   */
  lemma MovingTailIsFree(d: Dims, rule: LeftRule, b: Board, pos: int, m: Move, i: int)
    requires 0 <= i < |b.snakes| && IsAlive(b.snakes[i]) && b.snakes[i].curled == 0
    requires Dest(d, rule, pos, m) == Some(b.snakes[i].tail)
    ensures Free(d, rule, Blocking(b), pos, m)
  {
    assert b.snakes[i].tail in MovingTails(b);
  }

  /** A number below the modulus is its own remainder. */
  lemma ModSmall(x: int, n: int)
    requires 0 <= x < n
    ensures x % n == x
  {
  }

  /** `c as usize * x`. */
  lemma FlagTimes(c: bool, x: int)
    ensures Flag(c) * x == if c then x else 0
  {
  }

  /** On a wrapping board the up and down checks are the move table's destinations. */
  lemma WrapUpDown(d: Dims, pos: int)
    requires d.wrap && OnBoard(d, pos) && Size(d) < USIZE
    ensures Some(WrapDest(d, AsWritten, pos, Up)) == Constants.MovesFrom(d, pos)[0]
    ensures Some(WrapDest(d, AsWritten, pos, Down)) == Constants.MovesFrom(d, pos)[1]
  {
    WrapDown(d, pos);
  }

  /** The down check: the cell a row below, the bottom row wrapping to the top row. */
  lemma WrapDown(d: Dims, pos: int)
    requires OnBoard(d, pos) && Size(d) < USIZE
    ensures WrapDest(d, AsWritten, pos, Down) == if d.w > pos then d.w * (d.h - 1) + pos else pos - d.w
  {
    TopRow(d.w, d.h);
    DownValue(d.w, Size(d), d.w * (d.h - 1), pos);
  }

  /** The first cell of the top row: `w * (h - 1)`, one row short of the board's `w * h` cells. */
  lemma TopRow(w: int, h: int)
    requires w >= 2 && h >= 2
    ensures 0 <= w * (h - 1) && w * (h - 1) + w == w * h
  {
    MulMono(0, w, 0, h - 1);
  }

  /** The down formula with the top row's first cell `top` and `n` cells, each term checked against the modulus. */
  lemma DownValue(w: int, n: int, top: int, pos: int)
    requires 0 < w && 0 <= top && 0 <= pos < n < USIZE && top + w == n
    ensures DownCell(w, top, pos) == if w > pos then top + pos else pos - w
  {
    if w <= pos {
      ModSmall(pos - w, USIZE);
    }
    FlagSum(w > pos, top + pos, (pos - w) % USIZE);
  }

  /** `(c as usize * x + !c as usize * y) % 2^64` picks `x` or `y`, whichever lies below the modulus. */
  lemma FlagSum(c: bool, x: int, y: int)
    requires c ==> 0 <= x < USIZE
    requires !c ==> 0 <= y < USIZE
    ensures (Flag(c) * x + Flag(!c) * y) % USIZE == if c then x else y
  {
    FlagTimes(c, x);
    FlagTimes(!c, y);
  }

  /** The intended left check: the cell before, cell 0 wrapping to the last cell. */
  lemma LeftIntended(d: Dims, pos: int)
    requires OnBoard(d, pos) && Size(d) < USIZE
    ensures WrapDest(d, Intended, pos, Left) == if pos == 0 then Size(d) - 1 else pos - 1
  {
    LeftValue(Size(d), pos);
  }

  /** The intended left formula on a board of `n` cells. */
  lemma LeftValue(n: int, pos: int)
    requires 0 <= pos < n < USIZE
    ensures LeftCell(Intended, n, pos) == if pos == 0 then n - 1 else pos - 1
  {
    if pos >= 1 {
      ModSmall(pos - 1, USIZE);
    }
    FlagSum(1 > pos, n - 1, (pos - 1) % USIZE);
  }

  /**
   * On a wrapping board the right check and the intended left check step
   * along the cell numbering around the whole board, so they undo each
   * other and agree with the move table away from the side edges.
   */
  lemma WrapLeftRight(d: Dims, pos: int)
    requires d.wrap && OnBoard(d, pos) && Size(d) < USIZE
    ensures WrapDest(d, Intended, pos, Left) == (pos + Size(d) - 1) % Size(d)
    ensures WrapDest(d, Intended, pos, Right) == (pos + 1) % Size(d)
    ensures WrapDest(d, Intended, WrapDest(d, Intended, pos, Left), Right) == pos
    ensures pos % d.w != 0 ==> Some(WrapDest(d, Intended, pos, Left)) == Constants.MovesFrom(d, pos)[3]
    ensures pos % d.w != d.w - 1 ==> Some(WrapDest(d, Intended, pos, Right)) == Constants.MovesFrom(d, pos)[2]
  {
    LeftRound(d, pos);
    LeftIntended(d, pos);
    if pos % d.w != d.w - 1 {
      SameRow(pos, d.w, d.h);
      ModSmall(pos + 1, Size(d));
    }
  }

  /** The intended left check steps back one cell round the board, and the right check undoes it. */
  lemma LeftRound(d: Dims, pos: int)
    requires OnBoard(d, pos) && Size(d) < USIZE
    ensures WrapDest(d, Intended, pos, Left) == (pos + Size(d) - 1) % Size(d)
    ensures WrapDest(d, Intended, WrapDest(d, Intended, pos, Left), Right) == pos
  {
    var n := Size(d);
    LeftIntended(d, pos);
    if pos == 0 {
      ModSmall(n - 1, n);
      assert (n - 1 + 1) % n == 0;
    } else {
      ModShift(pos - 1, n);
      ModSmall(pos, n);
    }
  }

  /** Adding the modulus once does not change the remainder. */
  lemma ModShift(x: int, n: int)
    requires 0 <= x < n
    ensures (x + n) % n == x
  {
  }

  /**
   * The left check as written: every cell but cell 0 checks cell 0, and
   * cell 0 checks the cell two before the end.
   */
  lemma LeftChecksCellZero(d: Dims, pos: int)
    requires d.wrap && OnBoard(d, pos) && Size(d) < USIZE
    ensures pos >= 1 ==> WrapDest(d, AsWritten, pos, Left) == 0
    ensures pos == 0 ==> WrapDest(d, AsWritten, pos, Left) == Size(d) - 2
  {
  }

  /**
   * On an 11 by 11 wrapping board, a head at cell 5 with a body at cell 4
   * may move left as written, into the body, while the intended check
   * blocks the move.
   */
  lemma LeftIntoBody()
    ensures var d: Dims := Geometry(11, 11, true);
      Free(d, AsWritten, {4}, 5, Left) && !Free(d, Intended, {4}, 5, Left)
  {
  }

  /** A snake's moves: its allowed moves when alive, up alone otherwise. */
  function ListOf(d: Dims, rule: LeftRule, b: Board, k: int): (r: seq<Move>)
    requires 0 <= k < |b.snakes|
    ensures 1 <= |r| <= 4
  {
    if IsAlive(b.snakes[k]) then Allowed(d, rule, Blocking(b), b.snakes[k].head) else [Up]
  }

  /** Every snake's part in `limited_move_combinations`: snakes from `skip` on spread their moves, the last one past their end. */
  function LimitedParts(d: Dims, rule: LeftRule, b: Board, skip: int): (ps: seq<MoveGen.Part>)
    ensures |ps| == |b.snakes| && MoveGen.Parts(ps)
    ensures forall k :: 0 <= k < |ps| ==>
      ps[k] == MoveGen.Part(k >= skip, ListOf(d, rule, b, k), Last(ListOf(d, rule, b, k)))
  {
    seq(|b.snakes|, k requires 0 <= k < |b.snakes| =>
      MoveGen.Part(k >= skip, ListOf(d, rule, b, k), Last(ListOf(d, rule, b, k))))
  }

  function Last(s: seq<Move>): Move
    requires |s| >= 1
  {
    s[|s| - 1]
  }

  /** Before `skip` no snake spreads, so only the start combination exists. */
  lemma {:induction false} SkipAll(d: Dims, rule: LeftRule, b: Board, skip: int, i: int)
    requires 0 <= i <= skip && i <= |b.snakes|
    ensures MoveGen.SpreadAll(LimitedParts(d, rule, b, skip), i) == [MoveGen.Start(|b.snakes|)]
  {
    if i > 0 {
      SkipAll(d, rule, b, skip, i - 1);
    }
  }

  /** Combinations `0 .. |l| - 1` give slot `k` the moves of `l` in order. */
  predicate Covers(moves: seq<MoveGen.Combo>, k: int, l: seq<Move>)
  {
    |l| <= |moves| && forall j :: 0 <= j < |l| ==> 0 <= k < |moves[j]| && moves[j][k] == l[j]
  }

  /**
   * `limited_move_combinations`: one to four combinations of one move per
   * snake. Skipped snakes move up in all of them; every other snake has its
   * `j`-th move in combination `j`, so each of its moves appears, and only
   * its own moves appear.
   */
  method LimitedMoveCombinations(d: Dims, rule: LeftRule, b: Board, skip: nat) returns (moves: seq<MoveGen.Combo>)
    requires skip <= |b.snakes|
    ensures 1 <= |moves| <= 4 && MoveGen.Rows(moves, |b.snakes|)
    ensures forall j, k :: 0 <= j < |moves| && 0 <= k < skip ==> moves[j][k] == Up
    ensures forall k :: skip <= k < |b.snakes| ==> Covers(moves, k, ListOf(d, rule, b, k))
    ensures forall j, k :: 0 <= j < |moves| && skip <= k < |b.snakes| ==> moves[j][k] in ListOf(d, rule, b, k)
  {
    var ps := LimitedParts(d, rule, b, skip);
    SkipAll(d, rule, b, skip, skip);
    moves := SpreadFrom(ps, skip);
    LimitedFacts(d, rule, b, skip);
  }

  /** The outer loop of `limited_move_combinations`: each snake from `skip` on spreads its moves in turn. */
  method SpreadFrom(ps: seq<MoveGen.Part>, skip: int) returns (moves: seq<MoveGen.Combo>)
    requires MoveGen.Parts(ps) && 0 <= skip <= |ps|
    requires MoveGen.SpreadAll(ps, skip) == [MoveGen.Start(|ps|)]
    requires forall k :: skip <= k < |ps| ==> ps[k].on
    ensures moves == MoveGen.SpreadAll(ps, |ps|)
  {
    moves := [MoveGen.Start(|ps|)];
    var i := skip;
    while i < |ps|
      invariant skip <= i <= |ps|
      invariant moves == MoveGen.SpreadAll(ps, i)
    {
      moves := MoveGen.Spread(moves, i, ps[i].mvs, ps[i].fill);
      i := i + 1;
    }
  }

  /** The combinations after every snake has spread: skipped snakes move up, every other snake's column holds exactly its moves. */
  lemma LimitedFacts(d: Dims, rule: LeftRule, b: Board, skip: int)
    requires 0 <= skip <= |b.snakes|
    ensures var moves := MoveGen.SpreadAll(LimitedParts(d, rule, b, skip), |b.snakes|);
      && (forall j, k :: 0 <= j < |moves| && 0 <= k < skip ==> moves[j][k] == Up)
      && (forall k :: skip <= k < |b.snakes| ==> Covers(moves, k, ListOf(d, rule, b, k)))
      && forall j, k :: 0 <= j < |moves| && skip <= k < |b.snakes| ==> moves[j][k] in ListOf(d, rule, b, k)
  {
    var ps := LimitedParts(d, rule, b, skip);
    var moves := MoveGen.SpreadAll(ps, |b.snakes|);
    forall j, k | 0 <= j < |moves| && 0 <= k < skip
      ensures moves[j][k] == Up
    {
      MoveGen.SpreadAllUntouched(ps, |b.snakes|, j, k);
    }
    forall k | skip <= k < |b.snakes|
      ensures Covers(moves, k, ListOf(d, rule, b, k))
      ensures forall j :: 0 <= j < |moves| ==> moves[j][k] in ListOf(d, rule, b, k)
    {
      LimitedColumn(d, rule, b, skip, k);
    }
  }

  /** The column of one spreading snake after all snakes have spread. */
  lemma LimitedColumn(d: Dims, rule: LeftRule, b: Board, skip: int, k: int)
    requires 0 <= skip <= k < |b.snakes|
    ensures var moves := MoveGen.SpreadAll(LimitedParts(d, rule, b, skip), |b.snakes|);
      && Covers(moves, k, ListOf(d, rule, b, k))
      && forall j :: 0 <= j < |moves| ==> moves[j][k] in ListOf(d, rule, b, k)
  {
    var ps := LimitedParts(d, rule, b, skip);
    assert ps[k] == MoveGen.Part(true, ListOf(d, rule, b, k), Last(ListOf(d, rule, b, k)));
    SpreadColumn(ps, k);
  }

  /** A snake that spreads its moves and then its last move has exactly its moves in its slot, the `j`-th in combination `j`. */
  lemma SpreadColumn(ps: seq<MoveGen.Part>, k: int)
    requires MoveGen.Parts(ps) && 0 <= k < |ps| && ps[k].on && |ps[k].mvs| >= 1 && ps[k].fill == Last(ps[k].mvs)
    ensures var moves := MoveGen.SpreadAll(ps, |ps|);
      && Covers(moves, k, ps[k].mvs)
      && forall j :: 0 <= j < |moves| ==> moves[j][k] in ps[k].mvs
  {
    var moves := MoveGen.SpreadAll(ps, |ps|);
    var n := |MoveGen.SpreadAll(ps, k + 1)|;
    assert n >= |ps[k].mvs|;
    MoveGen.SpreadAllGrows(ps, k + 1, |ps|);
    forall j | 0 <= j < |moves|
      ensures moves[j][k] == MoveGen.Pick(ps[k], if j < n then j else 0)
    {
      MoveGen.SpreadAllColumns(ps, |ps|, k, j);
    }
  }

  /** Every snake's moves for `move_combinations`, by slot. */
  function ListsOf(d: Dims, rule: LeftRule, b: Board): (ls: seq<seq<Move>>)
    ensures |ls| == |b.snakes| && forall k :: 0 <= k < |ls| ==> ls[k] == ListOf(d, rule, b, k)
  {
    seq(|b.snakes|, k requires 0 <= k < |b.snakes| => ListOf(d, rule, b, k))
  }

  /**
   * `move_combinations`: the Cartesian product of the snakes' moves from
   * `skip` on, every other snake moving up; each combination once, and as
   * many as the product of the move counts.
   */
  method MoveCombinations(d: Dims, rule: LeftRule, b: Board, skip: nat) returns (r: seq<MoveGen.Combo>)
    requires skip <= |b.snakes|
    ensures forall c :: c in r <==> MoveGen.InProduct(ListsOf(d, rule, b), skip, |b.snakes| - skip, c)
    ensures |r| == MoveGen.CountUpTo(ListsOf(d, rule, b), skip, |b.snakes| - skip)
    ensures MoveGen.Distinct(r)
  {
    var ls := ListsOf(d, rule, b);
    var n := |b.snakes| - skip;
    r := MoveGen.BuildProduct(ls, skip);
    forall c ensures c in r <==> MoveGen.InProduct(ls, skip, n, c) {
      MoveGen.ProductExact(ls, skip, n, c);
    }
    MoveGen.ProductSize(ls, skip, n);
    forall k | skip <= k < skip + n ensures MoveGen.Distinct(ls[k]) {
      forall a, c | 0 <= a < c < |ls[k]| ensures ls[k][a] != ls[k][c] {
        assert Rank(ls[k][a]) < Rank(ls[k][c]);
      }
    }
    MoveGen.ProductDistinct(ls, skip, n);
  }
}

=== FILE: old_ttable.dfy ===
/**
 * The transposition table of the first engine generation: a single table
 * of 100000000 entries indexed by `key % 100000000`, entries in the same
 * layout as `Packing` but with an `i8` score, and an insert that always
 * overwrites.
 *
 * `Entry::new` widens the score with `score as u64`, which sign-extends:
 * a negative score sets every bit from 16 up to 63, so that the bound
 * flags and the move codes of that entry read back as ones. The corrected
 * entry widens through `u8`, as the later generation does through `u16`.
 */
module OldTTable {
  import opened Common
  import opened Packing
  import Types

  const TT_LENGTH: nat := 100000000

  /** `score as u64` for an `i8` score: the low byte, then the sign bit repeated. */
  function SignExtended(score: int): (w: seq<bool>)
    ensures IsWord(w)
  {
    seq(64, k requires 0 <= k < 64 => if k < 8 then Bits(U8(score), 8)[k] else score < 0)
  }

  /** `(score as u8) as u64`. */
  function ZeroExtended(score: int): (w: seq<bool>)
    ensures IsWord(w) && Fits(w, 8)
  {
    Pow8();
    WordFits(U8(score), 8);
    Word(U8(score))
  }

  /** The discriminant of every move. */
  function Slots(moves: seq<Types.Move>): (codes: seq<nat>)
    ensures |codes| == |moves|
    ensures forall i :: 0 <= i < |moves| ==> codes[i] == Types.MoveSlot(moves[i])
  {
    seq(|moves|, i requires 0 <= i < |moves| => Types.MoveSlot(moves[i]))
  }

  /** The move with a given discriminant. */
  function FromSlot(x: nat): (m: Types.Move)
    requires x < 4
    ensures Types.MoveSlot(m) == x
  {
    if x == 0 then Types.Up else if x == 1 then Types.Down else if x == 2 then Types.Left else Types.Right
  }

  /** An entry whose score word is `sw`; the moves are packed when there are at most eight. */
  function EntryOf(key: seq<bool>, sw: seq<bool>, lower: bool, upper: bool, depth: nat, moves: seq<Types.Move>): (e: Entry)
    requires IsWord(key) && IsWord(sw) && depth < 256
    ensures IsWord(e.key) && IsWord(e.data)
  {
    var codes := if |moves| <= 8 then Slots(moves) else [];
    var data := Pack(sw, depth, lower, upper, codes);
    Entry(Xor(key, data), data)
  }

  /** `Entry::new` as written: the score is sign-extended. */
  function NewEntryAsWritten(key: seq<bool>, score: int, lower: bool, upper: bool, depth: nat, moves: seq<Types.Move>): (e: Entry)
    requires IsWord(key) && depth < 256
    ensures IsWord(e.key) && IsWord(e.data)
  {
    EntryOf(key, SignExtended(score), lower, upper, depth, moves)
  }

  /** `Entry::new` with the score widened through `u8`. */
  function NewEntry(key: seq<bool>, score: int, lower: bool, upper: bool, depth: nat, moves: seq<Types.Move>): (e: Entry)
    requires IsWord(key) && depth < 256
    ensures IsWord(e.key) && IsWord(e.data)
  {
    EntryOf(key, ZeroExtended(score), lower, upper, depth, moves)
  }

  /** `get_depth`. */
  function GetDepth(e: Entry): nat
    requires IsWord(e.data)
  {
    Depth(e.data)
  }

  /** `get_score`: the 8 score bits read as an `i8`. */
  function GetScore(e: Entry): (s: int)
    requires IsWord(e.data)
    ensures -128 <= s < 128
  {
    I8(ScoreField8(e.data))
  }

  /** `get_best_moves::<S>`. */
  function GetBestMoves(e: Entry, s: nat): (r: Option<seq<Types.Move>>)
    requires IsWord(e.data)
    ensures r.Some? <==> s <= 8
    ensures r.Some? ==> |r.value| == s
  {
    if s > 8 then None
    else Some(seq(s, i requires 0 <= i < s => FromSlot(MoveField(e.data, i))))
  }

  /** An `i8` survives the round trip through `u8`. */
  lemma I8OfU8(score: int)
    requires -128 <= score < 128
    ensures I8(U8(score)) == score
  {
  }

  /** Depth and score read back from any score word whose low byte is the score's. */
  lemma DepthAndScoreOf(key: seq<bool>, sw: seq<bool>, score: int, lower: bool, upper: bool, depth: nat,
                        moves: seq<Types.Move>)
    requires IsWord(key) && IsWord(sw) && -128 <= score < 128 && depth < 256
    requires forall k :: 0 <= k < 8 ==> sw[k] == Bits(U8(score), 8)[k]
    ensures var e := EntryOf(key, sw, lower, upper, depth, moves);
      GetDepth(e) == depth && GetScore(e) == score
  {
    var codes := if |moves| <= 8 then Slots(moves) else [];
    Pow8();
    UnpackDepth(sw, depth, lower, upper, codes);
    UnpackScore(sw, depth, lower, upper, codes, U8(score), 8);
    I8OfU8(score);
  }

  /** Depth and score read back from both versions of the entry. */
  lemma DepthAndScore(key: seq<bool>, score: int, lower: bool, upper: bool, depth: nat, moves: seq<Types.Move>)
    requires IsWord(key) && -128 <= score < 128 && depth < 256
    ensures var e := NewEntryAsWritten(key, score, lower, upper, depth, moves);
      GetDepth(e) == depth && GetScore(e) == score
    ensures var e := NewEntry(key, score, lower, upper, depth, moves);
      GetDepth(e) == depth && GetScore(e) == score
  {
    DepthAndScoreOf(key, SignExtended(score), score, lower, upper, depth, moves);
    var z := ZeroExtended(score);
    forall k | 0 <= k < 8 ensures z[k] == Bits(U8(score), 8)[k] {
    }
    DepthAndScoreOf(key, z, score, lower, upper, depth, moves);
  }

  /** For a score of at least zero the written entry is the corrected one. */
  lemma NonNegativeAgrees(key: seq<bool>, score: int, lower: bool, upper: bool, depth: nat, moves: seq<Types.Move>)
    requires IsWord(key) && 0 <= score < 128 && depth < 256
    ensures NewEntryAsWritten(key, score, lower, upper, depth, moves) == NewEntry(key, score, lower, upper, depth, moves)
  {
    Pow8();
    var a, z := SignExtended(score), ZeroExtended(score);
    forall k | 0 <= k < 64 ensures a[k] == z[k] {
      assert z[k] == Word(U8(score))[k];
      if k >= 8 {
        HighClear(U8(score), 8, k);
      } else {
        assert a[k] == Bits(U8(score), 8)[k];
      }
    }
    assert a == z;
  }

  /**
   * The corrected entry round-trips every field: depth, score, both flags
   * and, for at most eight moves, the moves.
   */
  lemma EntryRoundTrip(key: seq<bool>, score: int, lower: bool, upper: bool, depth: nat, moves: seq<Types.Move>)
    requires IsWord(key) && -128 <= score < 128 && depth < 256
    ensures var e := NewEntry(key, score, lower, upper, depth, moves);
      GetDepth(e) == depth && GetScore(e) == score &&
      LowerBound(e.data) == lower && UpperBound(e.data) == upper &&
      (IsExact(e.data) <==> !lower && !upper) &&
      GetBestMoves(e, |moves|) == (if |moves| <= 8 then Some(moves) else None)
  {
    var e := NewEntry(key, score, lower, upper, depth, moves);
    var codes := if |moves| <= 8 then Slots(moves) else [];
    var sw := ZeroExtended(score);
    DepthAndScore(key, score, lower, upper, depth, moves);
    UnpackFlags(sw, depth, lower, upper, codes);
    ExactIffNoBound(e.data);
    if |moves| <= 8 {
      var r := GetBestMoves(e, |moves|).value;
      forall i | 0 <= i < |moves| ensures r[i] == moves[i] {
        UnpackMove(sw, depth, lower, upper, codes, i);
      }
      assert r == moves;
    }
  }

  /**
   * The written entry of a negative score claims both bounds, is not exact,
   * and every best move reads back as the move with discriminant 3, whatever
   * was stored.
   */
  lemma NegativeScoreCorrupts(key: seq<bool>, score: int, lower: bool, upper: bool, depth: nat, moves: seq<Types.Move>)
    requires IsWord(key) && -128 <= score < 0 && depth < 256
    ensures var e := NewEntryAsWritten(key, score, lower, upper, depth, moves);
      LowerBound(e.data) && UpperBound(e.data) && !IsExact(e.data) &&
      forall s :: 0 <= s <= 8 ==> GetBestMoves(e, s) == Some(seq(s, _ => Types.Right))
  {
    var e := NewEntryAsWritten(key, score, lower, upper, depth, moves);
    var codes := if |moves| <= 8 then Slots(moves) else [];
    var sw := SignExtended(score);
    ValueLow(Shr(e.data, 40));
    ValueLow(Shr(e.data, 41));
    PackBits(sw, depth, lower, upper, codes, 40);
    PackBits(sw, depth, lower, upper, codes, 41);
    ExactIffNoBound(e.data);
    forall j | 0 <= j < 8 ensures MoveField(e.data, j) == 3 {
      ValueLow(Shr(e.data, Shift(j))[..8]);
      PackBits(sw, depth, lower, upper, codes, Shift(j));
      PackBits(sw, depth, lower, upper, codes, Shift(j) + 1);
    }
    forall s | 0 <= s <= 8 ensures GetBestMoves(e, s) == Some(seq(s, _ => Types.Right)) {
      assert GetBestMoves(e, s).value == seq(s, _ => Types.Right);
    }
  }

  /** The example: the exact score -1 with the single best move `Up` comes back as two bounds and `Right`. */
  lemma NegativeScoreExample(key: seq<bool>)
    requires IsWord(key)
    ensures var e := NewEntryAsWritten(key, -1, false, false, 0, [Types.Up]);
      IsExact(NewEntry(key, -1, false, false, 0, [Types.Up]).data) &&
      !IsExact(e.data) && GetBestMoves(e, 1) == Some([Types.Right])
  {
    NegativeScoreCorrupts(key, -1, false, false, 0, [Types.Up]);
    EntryRoundTrip(key, -1, false, false, 0, [Types.Up]);
    assert seq(1, _ => Types.Right) == [Types.Right];
  }

  // The table.

  type Table = map<nat, Entry>

  predicate WellFormed(t: Table)
  {
    forall i :: i in t ==> IsWord(t[i].key) && IsWord(t[i].data)
  }

  function Slot(t: Table, i: nat): (e: Entry)
    requires WellFormed(t)
    ensures IsWord(e.key) && IsWord(e.data)
  {
    if i in t then t[i] else Empty()
  }

  /** `key % TT_LENGTH`. */
  function Index(key: seq<bool>): (i: nat)
    requires IsWord(key)
    ensures i < TT_LENGTH
  {
    Value(key) % TT_LENGTH
  }

  /** `get`: `None` before `init_clean`, else the key's slot if it matches the key. */
  function Get(table: Option<Table>, key: seq<bool>): (r: Option<Entry>)
    requires (table.Some? ==> WellFormed(table.value)) && IsWord(key)
    ensures r.Some? <==> table.Some? && MatchesKey(Slot(table.value, Index(key)), key)
    ensures r.Some? ==> r.value == Slot(table.value, Index(key))
  {
    if table.None? then None
    else
      var e := Slot(table.value, Index(key));
      if MatchesKey(e, key) then Some(e) else None
  }

  /**
   * `insert`: always overwrites the key's slot, and only that slot, with the
   * entry `Entry::new` builds as written.
   */
  function Insert(table: Option<Table>, key: seq<bool>, score: int, lower: bool, upper: bool, depth: nat,
                  moves: seq<Types.Move>): (r: Option<Table>)
    requires (table.Some? ==> WellFormed(table.value)) && IsWord(key) && depth < 256
    ensures (r.Some? <==> table.Some?) && (r.Some? ==> WellFormed(r.value))
    ensures r.Some? ==> Slot(r.value, Index(key)) == NewEntryAsWritten(key, score, lower, upper, depth, moves)
    ensures r.Some? ==> forall i :: i != Index(key) ==> Slot(r.value, i) == Slot(table.value, i)
  {
    if table.None? then None
    else Some(table.value[Index(key) := NewEntryAsWritten(key, score, lower, upper, depth, moves)])
  }

  /**
   * After an insert, a probe with the same key finds the written entry
   * unless its data is zero or the key. What it finds holds the depth and the
   * score; for a score of at least 0 it also holds both flags and the moves,
   * while for a negative score it claims both bounds and is never exact.
   */
  lemma GetAfterInsert(table: Option<Table>, key: seq<bool>, score: int, lower: bool, upper: bool, depth: nat,
                       moves: seq<Types.Move>)
    requires table.Some? && WellFormed(table.value) && IsWord(key) && -128 <= score < 128 && depth < 256
    ensures var e := NewEntryAsWritten(key, score, lower, upper, depth, moves);
      Get(Insert(table, key, score, lower, upper, depth, moves), key) == Some(e) <==> e.data != Zero() && e.data != key
    ensures var e := NewEntryAsWritten(key, score, lower, upper, depth, moves);
      GetDepth(e) == depth && GetScore(e) == score
    ensures var e := NewEntryAsWritten(key, score, lower, upper, depth, moves);
      0 <= score ==>
        LowerBound(e.data) == lower && UpperBound(e.data) == upper &&
        GetBestMoves(e, |moves|) == (if |moves| <= 8 then Some(moves) else None)
    ensures var e := NewEntryAsWritten(key, score, lower, upper, depth, moves);
      score < 0 ==> LowerBound(e.data) && UpperBound(e.data) && !IsExact(e.data)
  {
    var e := NewEntryAsWritten(key, score, lower, upper, depth, moves);
    MatchesOwnKey(key, e.data);
    DepthAndScore(key, score, lower, upper, depth, moves);
    if 0 <= score {
      NonNegativeAgrees(key, score, lower, upper, depth, moves);
      EntryRoundTrip(key, score, lower, upper, depth, moves);
    } else {
      NegativeScoreCorrupts(key, score, lower, upper, depth, moves);
    }
  }
}

=== FILE: packing.dfy ===
/**
 * The 64-bit layout shared by both generations of transposition-table
 * entries: depth in bits 0-7, score from bit 8, up to eight two-bit best
 * moves in bits 24-39, the lower-bound flag in bit 40 and the upper-bound
 * flag in bit 41. An entry stores `key ^ data` next to `data`, so that a
 * torn write is detected when the two no longer combine to the probe key.
 *
 * A `u64` is a sequence of 64 bits, least significant first; shifts, `|`,
 * `&`, `^` and `as` casts to narrower types act on those bits.
 */
module Packing {

  /** `2^n`. */
  function Pow2(n: nat): (r: nat)
    ensures r >= 1
  {
    if n == 0 then 1 else 2 * Pow2(n - 1)
  }

  /** The `n` low bits of `x`. */
  function Bits(x: nat, n: nat): (r: seq<bool>)
    ensures |r| == n
  {
    seq(n, k requires 0 <= k < n => (x / Pow2(k)) % 2 == 1)
  }

  /** The number the bits spell. */
  function Value(w: seq<bool>): nat
  {
    if |w| == 0 then 0 else (if w[0] then 1 else 0) + 2 * Value(w[1..])
  }

  predicate IsWord(w: seq<bool>)
  {
    |w| == 64
  }

  /** `x as u64` for a value that fits. */
  function Word(x: nat): (w: seq<bool>)
    ensures IsWord(w)
  {
    Bits(x, 64)
  }

  function Shl(w: seq<bool>, n: nat): (r: seq<bool>)
    ensures |r| == |w|
  {
    seq(|w|, k requires 0 <= k < |w| => k >= n && w[k - n])
  }

  function Shr(w: seq<bool>, n: nat): (r: seq<bool>)
    ensures |r| == |w|
  {
    seq(|w|, k requires 0 <= k < |w| => k + n < |w| && w[k + n])
  }

  function Or(a: seq<bool>, b: seq<bool>): (r: seq<bool>)
    requires |a| == |b|
    ensures |r| == |a|
  {
    seq(|a|, k requires 0 <= k < |a| => a[k] || b[k])
  }

  function And(a: seq<bool>, b: seq<bool>): (r: seq<bool>)
    requires |a| == |b|
    ensures |r| == |a|
  {
    seq(|a|, k requires 0 <= k < |a| => a[k] && b[k])
  }

  function Xor(a: seq<bool>, b: seq<bool>): (r: seq<bool>)
    requires |a| == |b|
    ensures |r| == |a|
  {
    seq(|a|, k requires 0 <= k < |a| => a[k] != b[k])
  }

  /** The word with no bit set. */
  function Zero(): (w: seq<bool>)
    ensures IsWord(w) && forall k :: 0 <= k < 64 ==> !w[k]
  {
    seq(64, _ => false)
  }

  datatype Entry = Entry(key: seq<bool>, data: seq<bool>)

  /** The all-zero entry every slot starts with. */
  function Empty(): Entry
  {
    Entry(Zero(), Zero())
  }

  /** `b as u64`. */
  function BoolWord(b: bool): (w: seq<bool>)
    ensures IsWord(w)
  {
    Word(if b then 1 else 0)
  }

  /** The position of best move `i`: 24 plus two bits per earlier move. */
  function Shift(i: nat): nat
  {
    24 + 2 * i
  }

  /** Everything but the moves: the score word shifted up, the depth, and both flags. */
  function Head(score: seq<bool>, depth: nat, lower: bool, upper: bool): (h: seq<bool>)
    requires IsWord(score)
    ensures IsWord(h)
  {
    Or(Or(Or(Shl(score, 8), Shl(Word(depth), 0)), Shl(BoolWord(lower), 40)), Shl(BoolWord(upper), 41))
  }

  /** Two-bit codes, at most eight of them. */
  predicate Codes(codes: seq<nat>)
  {
    |codes| <= 8 && forall i :: 0 <= i < |codes| ==> codes[i] < 4
  }

  /** The packing loop from index `i` on: `data |= (0b11 & code) << (24 + 2 * i)`. */
  function PackFrom(data: seq<bool>, codes: seq<nat>, i: nat): (r: seq<bool>)
    requires IsWord(data) && i <= |codes|
    ensures IsWord(r)
    decreases |codes| - i
  {
    if i == |codes| then data
    else PackFrom(Or(data, Shl(And(Word(3), Word(codes[i])), Shift(i))), codes, i + 1)
  }

  /** `get_depth`: `(data >> 0) as u8`. */
  function Depth(data: seq<bool>): nat
    requires IsWord(data)
  {
    Value(Shr(data, 0)[..8])
  }

  /** `(data >> 8) as u16`: the score bits of the newer entries. */
  function ScoreField16(data: seq<bool>): nat
    requires IsWord(data)
  {
    Value(Shr(data, 8)[..16])
  }

  /** `(data >> 8) as u8`: the score bits of the older entries. */
  function ScoreField8(data: seq<bool>): nat
    requires IsWord(data)
  {
    Value(Shr(data, 8)[..8])
  }

  /** `0b11 & (data >> shift) as u8`: the code of best move `j`. */
  function MoveField(data: seq<bool>, j: nat): nat
    requires IsWord(data)
  {
    Value(Shr(data, Shift(j))[..8]) % 4
  }

  /** `is_lower_bound`: `(data >> 40) & 1 != 0`. */
  predicate LowerBound(data: seq<bool>)
  {
    Value(Shr(data, 40)) % 2 == 1
  }

  /** `is_upper_bound`: `(data >> 41) & 1 != 0`. */
  predicate UpperBound(data: seq<bool>)
  {
    Value(Shr(data, 41)) % 2 == 1
  }

  /** `is_exact`: `(data >> 40) & 0b11 == 0`. */
  predicate IsExact(data: seq<bool>)
  {
    Value(Shr(data, 40)) % 4 == 0
  }

  /** `matches_key`. */
  predicate MatchesKey(e: Entry, key: seq<bool>)
    requires IsWord(e.key) && IsWord(e.data)
  {
    e.key != Zero() && e.data != Zero() && Xor(e.key, e.data) == key
  }

  // Reading bits back.

  lemma {:induction false} BitsValue(x: nat, n: nat)
    requires x < Pow2(n)
    ensures Value(Bits(x, n)) == x
  {
    if n > 0 {
      var h := x / 2;
      assert x == 2 * h + x % 2;
      assert h < Pow2(n - 1);
      BitsValue(h, n - 1);
      var w := Bits(x, n);
      forall j | 1 <= j < n ensures w[j] == Bits(h, n - 1)[j - 1] {
        DivDiv(x, Pow2(j - 1));
      }
      assert w[1..] == Bits(h, n - 1);
      assert w[0] == (x % 2 == 1);
    }
  }

  lemma DivDiv(x: nat, p: nat)
    requires p >= 1
    ensures x / (2 * p) == (x / 2) / p
  {
    var q, r := x / 2, x % 2;
    var a, b := q / p, q % p;
    assert q == p * a + b;
    assert x == (2 * p) * a + (2 * b + r) by {
      assert 2 * (p * a) == (2 * p) * a;
    }
    DivUnique(x, 2 * p, a, 2 * b + r);
  }

  /** Euclidean division is determined by quotient and remainder. */
  lemma DivUnique(x: int, d: int, a: int, r: int)
    requires d > 0 && x == d * a + r && 0 <= r < d
    ensures x / d == a && x % d == r
  {
    var q, s := x / d, x % d;
    assert x == d * q + s;
    if q > a {
      assert d * q >= d * (a + 1) by { MulMono(d, a + 1, q); }
      assert false;
    } else if q < a {
      assert d * a >= d * (q + 1) by { MulMono(d, q + 1, a); }
      assert false;
    }
  }

  lemma MulMono(d: int, a: int, b: int)
    requires d > 0 && a <= b
    ensures d * a <= d * b
  {
    assert d * b - d * a == d * (b - a);
  }

  /** The low two bits decide the value modulo 2 and modulo 4. */
  lemma {:induction false} ValueBound(w: seq<bool>)
    ensures Value(w) < Pow2(|w|)
  {
    if |w| > 0 {
      ValueBound(w[1..]);
    }
  }

  lemma ValueLow(w: seq<bool>)
    requires |w| >= 2
    ensures Value(w) % 2 == (if w[0] then 1 else 0)
    ensures Value(w) % 4 == (if w[0] then 1 else 0) + 2 * (if w[1] then 1 else 0)
  {
    assert w[1..][1..] == w[2..];
    var b0, b1, v := if w[0] then 1 else 0, if w[1] then 1 else 0, Value(w[2..]);
    assert Value(w[1..]) == b1 + 2 * v;
    assert Value(w) == 2 * (b1 + 2 * v) + b0;
    assert Value(w) == 4 * v + (b0 + 2 * b1);
    DivUnique(Value(w), 2, b1 + 2 * v, b0);
    DivUnique(Value(w), 4, v, b0 + 2 * b1);
  }

  /** The `n` bits of `w` from `lo` on spell `x` when they are `x`'s bits. */
  lemma ReadBack(w: seq<bool>, lo: nat, n: nat, x: nat)
    requires IsWord(w) && lo + n <= 64 && x < Pow2(n)
    requires forall k :: 0 <= k < n ==> w[lo + k] == Bits(x, n)[k]
    ensures Value(Shr(w, lo)[..n]) == x
  {
    assert Shr(w, lo)[..n] == Bits(x, n);
    BitsValue(x, n);
  }

  lemma {:induction false} PowMono(a: nat, b: nat)
    requires a <= b
    ensures Pow2(a) <= Pow2(b)
    decreases b
  {
    if a < b {
      PowMono(a, b - 1);
    }
  }

  /** Bits of a value below `2^m` are clear from `m` on. */
  lemma HighClear(x: nat, m: nat, k: nat)
    requires x < Pow2(m) && m <= k < 64
    ensures !Word(x)[k]
  {
    PowMono(m, k);
    DivUnique(x, Pow2(k), 0, x);
  }

  /** A two-bit code's bits. */
  lemma CodeBits(c: nat, k: nat)
    requires c < 4 && k < 64
    ensures Word(c)[k] == ((k == 0 && c % 2 == 1) || (k == 1 && c >= 2))
  {
    if k >= 2 {
      assert Pow2(2) == 4;
      HighClear(c, 2, k);
    } else if k == 1 {
      assert Pow2(1) == 2;
    }
  }

  /** The bit layout of a head word. */
  lemma HeadBits(score: seq<bool>, depth: nat, lower: bool, upper: bool, k: nat)
    requires IsWord(score) && depth < 256 && k < 64
    ensures Head(score, depth, lower, upper)[k] ==
      ((k >= 8 && score[k - 8]) || (k < 8 && Word(depth)[k]) || (k == 40 && lower) || (k == 41 && upper))
  {
    var a, b := Shl(score, 8), Shl(Word(depth), 0);
    var c, d := Shl(BoolWord(lower), 40), Shl(BoolWord(upper), 41);
    assert Head(score, depth, lower, upper)[k] == (a[k] || b[k] || c[k] || d[k]);
    assert a[k] == (k >= 8 && score[k - 8]);
    assert b[k] == Word(depth)[k];
    if k >= 8 {
      HighClear(depth, 8, k);
    }
    FlagBit(lower, 40, k);
    FlagBit(upper, 41, k);
  }

  /** A flag shifted to bit `at` sets that bit alone, when the flag is set. */
  lemma FlagBit(flag: bool, at: nat, k: nat)
    requires at < 64 && k < 64
    ensures Shl(BoolWord(flag), at)[k] == (k == at && flag)
  {
    if k >= at {
      CodeBits(if flag then 1 else 0, k - at);
    }
  }

  /** Bit `k` set by the moves from index `i` on. */
  predicate MoveBit(codes: seq<nat>, i: nat, k: nat)
  {
    24 <= k < 40 && i <= (k - 24) / 2 < |codes| &&
    if k % 2 == 0 then codes[(k - 24) / 2] % 2 == 1 else codes[(k - 24) / 2] >= 2
  }

  /** The packing loop only sets the bits of its codes. */
  lemma {:induction false} PackFromBits(data: seq<bool>, codes: seq<nat>, i: nat, k: nat)
    requires IsWord(data) && Codes(codes) && i <= |codes| && k < 64
    ensures PackFrom(data, codes, i)[k] == (data[k] || MoveBit(codes, i, k))
    decreases |codes| - i
  {
    if i < |codes| {
      var piece := Shl(And(Word(3), Word(codes[i])), Shift(i));
      var d2 := Or(data, piece);
      assert PackFrom(data, codes, i) == PackFrom(d2, codes, i + 1);
      PackFromBits(d2, codes, i + 1, k);
      assert d2[k] == (data[k] || piece[k]);
      PieceBit(codes[i], i, k);
      assert MoveBit(codes, i, k) == (MoveBit(codes, i + 1, k) || (Shift(i) <= k < Shift(i) + 2 &&
        if k % 2 == 0 then codes[i] % 2 == 1 else codes[i] >= 2));
    }
  }

  /** The bits one move code sets. */
  lemma PieceBit(c: nat, i: nat, k: nat)
    requires c < 4 && i < 8 && k < 64
    ensures Shl(And(Word(3), Word(c)), Shift(i))[k] ==
      (Shift(i) <= k < Shift(i) + 2 && if k % 2 == 0 then c % 2 == 1 else c >= 2)
  {
    if k >= Shift(i) {
      var j := k - Shift(i);
      assert Shl(And(Word(3), Word(c)), Shift(i))[k] == (Word(3)[j] && Word(c)[j]);
      CodeBits(c, j);
      CodeBits(3, j);
    }
  }

  /** An entry is exact exactly when it carries neither bound flag. */
  lemma ExactIffNoBound(data: seq<bool>)
    requires IsWord(data)
    ensures IsExact(data) <==> !LowerBound(data) && !UpperBound(data)
  {
    ValueLow(Shr(data, 40));
    ValueLow(Shr(data, 41));
    assert Shr(data, 41)[0] == Shr(data, 40)[1];
  }

  /** An entry written for `key` matches `key` exactly when its data is neither zero nor the key itself. */
  lemma MatchesOwnKey(key: seq<bool>, data: seq<bool>)
    requires IsWord(key) && IsWord(data)
    ensures MatchesKey(Entry(Xor(key, data), data), key) <==> data != Zero() && data != key
  {
    assert Xor(Xor(key, data), data) == key;
    if Xor(key, data) == Zero() {
      forall k | 0 <= k < 64 ensures key[k] == data[k] {
        assert Xor(key, data)[k] == Zero()[k];
      }
      assert key == data;
    }
    if key == data {
      assert Xor(key, data) == Zero();
    }
  }

  // A packed entry.

  /** A word whose bits from `m` on are clear. */
  predicate Fits(w: seq<bool>, m: nat)
    requires IsWord(w)
  {
    forall k :: m <= k < 64 ==> !w[k]
  }

  lemma WordFits(x: nat, m: nat)
    requires x < Pow2(m) && m <= 64
    ensures Fits(Word(x), m)
  {
    forall k | m <= k < 64 ensures !Word(x)[k] {
      HighClear(x, m, k);
    }
  }

  /** The data word of an entry: the head word with the move codes or'ed in. */
  function Pack(score: seq<bool>, depth: nat, lower: bool, upper: bool, codes: seq<nat>): (data: seq<bool>)
    requires IsWord(score) && Codes(codes)
    ensures IsWord(data)
  {
    PackFrom(Head(score, depth, lower, upper), codes, 0)
  }

  /**
   * The layout of a packed word: every bit comes from the score (from bit
   * 8), the depth (bits 0-7), a flag (bits 40 and 41) or a move code (two
   * bits each from bit 24), and from nothing else.
   */
  lemma PackBits(score: seq<bool>, depth: nat, lower: bool, upper: bool, codes: seq<nat>, k: nat)
    requires IsWord(score) && depth < 256 && Codes(codes) && k < 64
    ensures Pack(score, depth, lower, upper, codes)[k] ==
      ((k >= 8 && score[k - 8]) || (k < 8 && Word(depth)[k]) || (k == 40 && lower) || (k == 41 && upper)
       || MoveBit(codes, 0, k))
  {
    HeadBits(score, depth, lower, upper, k);
    PackFromBits(Head(score, depth, lower, upper), codes, 0, k);
  }

  lemma Pow8()
    ensures Pow2(8) == 256
  {
    assert Pow2(4) == 16;
  }

  /** The depth reads back. */
  lemma UnpackDepth(score: seq<bool>, depth: nat, lower: bool, upper: bool, codes: seq<nat>)
    requires IsWord(score) && depth < 256 && Codes(codes)
    ensures Depth(Pack(score, depth, lower, upper, codes)) == depth
  {
    var data := Pack(score, depth, lower, upper, codes);
    forall k | 0 <= k < 8 ensures data[0 + k] == Bits(depth, 8)[k] {
      PackBits(score, depth, lower, upper, codes, k);
    }
    Pow8();
    ReadBack(data, 0, 8, depth);
  }

  /** The `n` low bits of the score word read back from bit 8 on, for `n` up to 16. */
  lemma UnpackScore(score: seq<bool>, depth: nat, lower: bool, upper: bool, codes: seq<nat>, x: nat, n: nat)
    requires IsWord(score) && depth < 256 && Codes(codes)
    requires n <= 16 && x < Pow2(n) && forall k :: 0 <= k < n ==> score[k] == Bits(x, n)[k]
    ensures Value(Shr(Pack(score, depth, lower, upper, codes), 8)[..n]) == x
  {
    var data := Pack(score, depth, lower, upper, codes);
    forall k | 0 <= k < n ensures data[8 + k] == Bits(x, n)[k] {
      PackBits(score, depth, lower, upper, codes, 8 + k);
    }
    ReadBack(data, 8, n, x);
  }

  /** Every packed move code reads back when the score stays below bit 16. */
  lemma UnpackMove(score: seq<bool>, depth: nat, lower: bool, upper: bool, codes: seq<nat>, j: nat)
    requires IsWord(score) && Fits(score, 16) && depth < 256 && Codes(codes) && j < |codes|
    ensures MoveField(Pack(score, depth, lower, upper, codes), j) == codes[j]
  {
    var data := Pack(score, depth, lower, upper, codes);
    var k := Shift(j);
    ValueLow(Shr(data, k)[..8]);
    PackBits(score, depth, lower, upper, codes, k);
    PackBits(score, depth, lower, upper, codes, k + 1);
    assert MoveBit(codes, 0, k) == (codes[j] % 2 == 1);
    assert MoveBit(codes, 0, k + 1) == (codes[j] >= 2);
  }

  /** Both flags read back when the score stays below bit 32. */
  lemma UnpackFlags(score: seq<bool>, depth: nat, lower: bool, upper: bool, codes: seq<nat>)
    requires IsWord(score) && Fits(score, 32) && depth < 256 && Codes(codes)
    ensures LowerBound(Pack(score, depth, lower, upper, codes)) == lower
    ensures UpperBound(Pack(score, depth, lower, upper, codes)) == upper
  {
    var data := Pack(score, depth, lower, upper, codes);
    ValueLow(Shr(data, 40));
    ValueLow(Shr(data, 41));
    PackBits(score, depth, lower, upper, codes, 40);
    PackBits(score, depth, lower, upper, codes, 41);
  }
}

=== FILE: rules.dfy ===
/**
 * The rules of the bitboard split into phases, and the step each game mode
 * composes from them. These phases work on a board that also carries a
 * search depth and a game mode; the bitboard struct these fields belong to
 * is not part of this model, so `depth` is an unbounded counter here.
 */
module BitboardRules {
  import opened Common
  import opened Grid
  import opened Moves
  import opened Bitboard
  import Constants

  /** Every live snake's move has a destination in the move table. */
  predicate MovesOk(d: Dims, b: Board, moves: seq<Move>)
  {
    |moves| == |b.snakes| && forall k :: 0 <= k < |b.snakes| ==> MoveExists(d, b, moves, k)
  }

  /** The live snakes other than `k` whose head is not `k`'s. */
  ghost predicate HeadUnique(b: Board, k: int, from: int)
    requires 0 <= k < |b.snakes|
  {
    forall j :: from <= j < |b.snakes| && 0 <= j && j != k && IsAlive(b.snakes[j]) ==> b.snakes[j].head != b.snakes[k].head
  }

  /** The table destination of a snake's move; every caller has checked that there is one. */
  function Dest(d: Dims, s: Snake, mv: Move): int
  {
    var o := Constants.MovesFrom(d, s.head)[ToInt(mv)];
    if o.Some? then o.value else s.head
  }

  /** `move_heads` for snake `i`. */
  function MoveHead(d: Dims, b: Board, moves: seq<Move>, i: int): (r: Board)
    requires |moves| == |b.snakes| && 0 <= i < |b.snakes| && MoveExists(d, b, moves, i)
    ensures |r.snakes| == |b.snakes|
    ensures forall k :: 0 <= k < |b.snakes| && k != i ==> r.snakes[k] == b.snakes[k]
    ensures r == b.(bodies := r.bodies, snakes := r.snakes)
  {
    var s := b.snakes[i];
    if IsDead(s) then b
    else
      var x := ToInt(moves[i]);
      b.(bodies := EncodeDir(b.bodies, s.head, x),
         snakes := b.snakes[i := s.(head := Dest(d, s, moves[i]))])
  }

  /**
   * `move_heads` from snake `i` on: each live head moves to its table
   * destination and the move's bits are stored at the old head; dead snakes
   * and the occupied layer are untouched.
   */
  function MoveHeadsFrom(d: Dims, b: Board, moves: seq<Move>, i: int): (r: Board)
    requires |moves| == |b.snakes| && 0 <= i <= |b.snakes|
    requires forall k :: i <= k < |b.snakes| ==> MoveExists(d, b, moves, k)
    ensures |r.snakes| == |b.snakes|
    ensures r == b.(bodies := r.bodies, snakes := r.snakes)
    ensures r.bodies.occupied == b.bodies.occupied
    ensures forall k :: 0 <= k < i ==> r.snakes[k] == b.snakes[k]
    ensures forall k :: i <= k < |b.snakes| && IsDead(b.snakes[k]) ==> r.snakes[k] == b.snakes[k]
    ensures forall k :: i <= k < |b.snakes| && IsAlive(b.snakes[k]) ==>
      r.snakes[k] == b.snakes[k].(head := Dest(d, b.snakes[k], moves[k]))
    decreases |b.snakes| - i
  {
    if i == |b.snakes| then b
    else
      var b2 := MoveHead(d, b, moves, i);
      assert forall k :: i + 1 <= k < |b.snakes| ==> b2.snakes[k] == b.snakes[k] && MoveExists(d, b, moves, k);
      MoveHeadsFrom(d, b2, moves, i + 1)
  }

  /** At a cell that is no live snake's head, `move_heads` leaves the direction layers alone. */
  lemma {:induction false} MoveHeadsKeeps(d: Dims, b: Board, moves: seq<Move>, i: int, p: int)
    requires |moves| == |b.snakes| && 0 <= i <= |b.snakes|
    requires forall j :: i <= j < |b.snakes| ==> MoveExists(d, b, moves, j)
    requires forall j :: i <= j < |b.snakes| && IsAlive(b.snakes[j]) ==> b.snakes[j].head != p
    ensures DecodeDir(MoveHeadsFrom(d, b, moves, i).bodies, p) == DecodeDir(b.bodies, p)
    decreases |b.snakes| - i
  {
    if i < |b.snakes| {
      var b2 := MoveHead(d, b, moves, i);
      assert forall j :: i + 1 <= j < |b.snakes| ==> b2.snakes[j] == b.snakes[j] && MoveExists(d, b, moves, j);
      assert DecodeDir(b2.bodies, p) == DecodeDir(b.bodies, p);
      MoveHeadsKeeps(d, b2, moves, i + 1, p);
    }
  }

  /**
   * After `move_heads`, the direction layers at the old head of a live snake
   * whose head no other live snake shares hold that snake's move.
   */
  lemma {:induction false} MoveHeadsSets(d: Dims, b: Board, moves: seq<Move>, i: int, k: int)
    requires |moves| == |b.snakes| && 0 <= i <= k < |b.snakes|
    requires forall j :: i <= j < |b.snakes| ==> MoveExists(d, b, moves, j)
    requires IsAlive(b.snakes[k]) && HeadUnique(b, k, i)
    ensures DecodeDir(MoveHeadsFrom(d, b, moves, i).bodies, b.snakes[k].head) == ToInt(moves[k])
    decreases |b.snakes| - i
  {
    var b2 := MoveHead(d, b, moves, i);
    assert forall j :: i + 1 <= j < |b.snakes| ==> b2.snakes[j] == b.snakes[j] && MoveExists(d, b, moves, j);
    if k == i {
      DecodeEncode(b.bodies, b.snakes[i].head, ToInt(moves[i]));
      MoveHeadsKeeps(d, b2, moves, i + 1, b.snakes[k].head);
    } else {
      assert b2.snakes[k] == b.snakes[k];
      MoveHeadsSets(d, b2, moves, i + 1, k);
    }
  }

  function MoveHeads(d: Dims, b: Board, moves: seq<Move>): (r: Board)
    requires MovesOk(d, b, moves)
  {
    MoveHeadsFrom(d, b, moves, 0)
  }

  /** `move_tails` for snake `i`: an uncurled tail is cleared and follows its stored move; otherwise one curled part unfolds. */
  function MoveTail(d: Dims, b: Board, i: int): (r: Board)
    requires 0 <= i < |b.snakes|
    ensures |r.snakes| == |b.snakes|
    ensures forall k :: 0 <= k < |b.snakes| && k != i ==> r.snakes[k] == b.snakes[k]
    ensures r == b.(bodies := r.bodies, snakes := r.snakes)
    ensures r.bodies.occupied <= b.bodies.occupied && r.bodies.dirLow <= b.bodies.dirLow && r.bodies.dirHigh <= b.bodies.dirHigh
  {
    var s := b.snakes[i];
    if IsDead(s) then b
    else if s.curled == 0 then
      var x := DecodeDir(b.bodies, s.tail);
      b.(bodies := ClearCell(b.bodies, s.tail), snakes := b.snakes[i := s.(tail := TailStep(d, s.tail, x))])
    else b.(snakes := b.snakes[i := s.(curled := U8(s.curled - 1))])
  }

  /** No live snake without curled parts before snake `k`, from `i` on, has its tail on `k`'s tail. */
  predicate TailFirst(b: Board, i: int, k: int)
    requires 0 <= i <= k < |b.snakes|
  {
    forall j :: i <= j < k && IsAlive(b.snakes[j]) && b.snakes[j].curled == 0 ==> b.snakes[j].tail != b.snakes[k].tail
  }

  /**
   * `move_tails` from snake `i` on. Heads, lengths and health stay; a live
   * snake with curled parts loses one; the old tail of a live snake without
   * any leaves all three layers, which only shrink, and the tail follows the
   * move stored at it, unless an earlier snake's tail on the same cell
   * cleared that move first.
   */
  function MoveTailsFrom(d: Dims, b: Board, i: int): (r: Board)
    requires 0 <= i <= |b.snakes|
    ensures |r.snakes| == |b.snakes|
    ensures r == b.(bodies := r.bodies, snakes := r.snakes)
    ensures r.bodies.occupied <= b.bodies.occupied && r.bodies.dirLow <= b.bodies.dirLow && r.bodies.dirHigh <= b.bodies.dirHigh
    ensures forall k :: 0 <= k < |b.snakes| ==>
      r.snakes[k].head == b.snakes[k].head && r.snakes[k].length == b.snakes[k].length
      && r.snakes[k].health == b.snakes[k].health
    ensures forall k :: 0 <= k < i ==> r.snakes[k] == b.snakes[k]
    ensures forall k :: i <= k < |b.snakes| && IsDead(b.snakes[k]) ==> r.snakes[k] == b.snakes[k]
    ensures forall k :: i <= k < |b.snakes| && IsAlive(b.snakes[k]) && b.snakes[k].curled != 0 ==>
      r.snakes[k] == b.snakes[k].(curled := U8(b.snakes[k].curled - 1))
    ensures forall k :: i <= k < |b.snakes| && IsAlive(b.snakes[k]) && b.snakes[k].curled == 0 ==>
      && b.snakes[k].tail !in r.bodies.occupied && b.snakes[k].tail !in r.bodies.dirLow && b.snakes[k].tail !in r.bodies.dirHigh
      && r.snakes[k].curled == 0
    decreases |b.snakes| - i
  {
    if i == |b.snakes| then b
    else
      var b2 := MoveTail(d, b, i);
      assert forall k :: i + 1 <= k < |b.snakes| ==> b2.snakes[k] == b.snakes[k];
      MoveTailsFrom(d, b2, i + 1)
  }

  /**
   * A live snake without curled parts ends `move_tails` with its tail one
   * step along the move stored at its old tail, when no earlier snake's
   * tail on the same cell cleared that move first.
   */
  lemma {:induction false} TailFollowsMove(d: Dims, b: Board, i: int, k: int)
    requires 0 <= i <= k < |b.snakes| && IsAlive(b.snakes[k]) && b.snakes[k].curled == 0 && TailFirst(b, i, k)
    ensures MoveTailsFrom(d, b, i).snakes[k].tail == TailStep(d, b.snakes[k].tail, DecodeDir(b.bodies, b.snakes[k].tail))
    decreases k - i
  {
    var b2 := MoveTail(d, b, i);
    assert MoveTailsFrom(d, b, i) == MoveTailsFrom(d, b2, i + 1);
    if k > i {
      assert b2.snakes[k] == b.snakes[k];
      assert forall j :: i + 1 <= j < k ==> b2.snakes[j] == b.snakes[j];
      assert DecodeDir(b2.bodies, b.snakes[k].tail) == DecodeDir(b.bodies, b.snakes[k].tail);
      TailFollowsMove(d, b2, i + 1, k);
    }
  }

  function MoveTails(d: Dims, b: Board): Board
  {
    MoveTailsFrom(d, b, 0)
  }

  /** `update_health` for snake `i`: damage, feeding and starvation. */
  function FeedSnake(d: Dims, b: Board, i: int): (r: Board)
    requires 0 <= i < |b.snakes|
    ensures |r.snakes| == |b.snakes|
    ensures forall k :: 0 <= k < |b.snakes| && k != i ==> r.snakes[k] == b.snakes[k]
    ensures r == b.(bodies := r.bodies, snakes := r.snakes)
    ensures r.snakes[i].head == b.snakes[i].head
    ensures Fed(b, b.snakes[i], r.snakes[i])
  {
    var s := b.snakes[i];
    if IsDead(s) then b
    else
      var h := Damaged(s.health, b.hazardDmg, s.head in b.hazards);
      var s2 := if s.head in b.food then s.(health := 100, curled := U8(s.curled + 1), length := U8(s.length + 1))
                else s.(health := h);
      if IsDead(s2) then RemoveSnakeBody(d, b.(snakes := b.snakes[i := s2.(health := OUT_OF_HEALTH)]), i)
      else b.(snakes := b.snakes[i := s2])
  }

  /**
   * `after` is `before` through the health phase on board `b`: unchanged
   * when dead; otherwise in place with its new health, one longer and one
   * more part curled when its head is on food.
   */
  predicate Fed(b: Board, before: Snake, after: Snake)
  {
    if IsDead(before) then after == before
    else
      after.head == before.head && after.health == HealthAfter(b, before) &&
      if before.head in b.food then
        after.length == U8(before.length + 1) && after.curled == U8(before.curled + 1)
      else
        after.length == before.length && after.curled == before.curled
  }

  /** The health a live snake has after the health phase. */
  function HealthAfter(b: Board, s: Snake): int
  {
    if s.head in b.food then 100
    else
      var h := Damaged(s.health, b.hazardDmg, s.head in b.hazards);
      if h < 1 then OUT_OF_HEALTH else h
  }

  function FeedSnakesFrom(d: Dims, b: Board, i: int): (r: Board)
    requires 0 <= i <= |b.snakes|
    ensures |r.snakes| == |b.snakes|
    ensures r == b.(bodies := r.bodies, snakes := r.snakes)
    ensures forall k :: 0 <= k < i ==> r.snakes[k] == b.snakes[k]
    ensures forall k :: i <= k < |b.snakes| ==> Fed(b, b.snakes[k], r.snakes[k])
    decreases |b.snakes| - i
  {
    if i == |b.snakes| then b
    else
      var b2 := FeedSnake(d, b, i);
      assert forall k :: i + 1 <= k < |b.snakes| ==> b2.snakes[k] == b.snakes[k];
      FeedSnakesFrom(d, b2, i + 1)
  }

  /** The food cells eaten this turn: the heads of live snakes on food. */
  function Eaten(b: Board): set<int>
  {
    set i | 0 <= i < |b.snakes| && IsAlive(b.snakes[i]) && b.snakes[i].head in b.food :: b.snakes[i].head
  }

  /** `update_health`: every snake's health phase, then the eaten food leaves the board. */
  function UpdateHealth(d: Dims, b: Board): (r: Board)
    ensures |r.snakes| == |b.snakes|
    ensures r.food == b.food - Eaten(b)
    ensures forall k :: 0 <= k < |b.snakes| && IsAlive(b.snakes[k]) ==>
      r.snakes[k].health == HealthAfter(b, b.snakes[k]) && r.snakes[k].head == b.snakes[k].head
    ensures forall k :: 0 <= k < |b.snakes| && IsAlive(b.snakes[k]) && b.snakes[k].head in b.food ==>
      r.snakes[k].health == 100 && r.snakes[k].length == U8(b.snakes[k].length + 1)
      && r.snakes[k].curled == U8(b.snakes[k].curled + 1)
    ensures forall k :: 0 <= k < |b.snakes| && IsDead(b.snakes[k]) ==> r.snakes[k] == b.snakes[k]
  {
    var b2 := FeedSnakesFrom(d, b, 0);
    b2.(food := b2.food - Eaten(b))
  }

  /** With health in range and damage in its usual range, a snake off food loses 1 plus the hazard damage, or starves. */
  lemma HealthDrop(b: Board, s: Snake)
    requires IsAlive(s) && s.health <= 100 && 0 <= b.hazardDmg <= 100 && s.head !in b.food
    ensures var h := s.health - 1 - (if s.head in b.hazards then b.hazardDmg else 0);
      HealthAfter(b, s) == if h < 1 then OUT_OF_HEALTH else h
  {
    DamagedExact(s.health, b.hazardDmg, s.head in b.hazards);
  }

  /** The removal loop of `perform_collisions` from snake `i` on. */
  function RemoveCollidedFrom(d: Dims, b: Board, i: int): (r: Board)
    requires 0 <= i <= |b.snakes|
    ensures |r.snakes| == |b.snakes|
    ensures r == b.(bodies := r.bodies, snakes := r.snakes)
    ensures r.bodies.occupied <= b.bodies.occupied
    ensures forall k :: 0 <= k < i ==> r.snakes[k] == b.snakes[k]
    ensures forall k :: i <= k < |b.snakes| && b.snakes[k].curled < 100 ==> r.snakes[k] == b.snakes[k]
    ensures forall k :: i <= k < |b.snakes| && b.snakes[k].curled >= 100 ==>
      r.snakes[k] == b.snakes[k].(health := CollisionHealth(b.snakes[k].curled, b.snakes[k].health), curled := 0)
    decreases |b.snakes| - i
  {
    if i == |b.snakes| then b
    else
      var s := b.snakes[i];
      var b2 := if s.curled >= 100 then
                  RemoveSnakeBody(d, b.(snakes := b.snakes[i := s.(health := CollisionHealth(s.curled, s.health), curled := 0)]), i)
                else b;
      assert forall k :: i + 1 <= k < |b.snakes| ==> b2.snakes[k] == b.snakes[k];
      RemoveCollidedFrom(d, b2, i + 1)
  }

  /** `perform_collisions`: mark every snake, then remove the marked ones. */
  function PerformCollisions(d: Dims, b: Board): (r: Board)
    ensures |r.snakes| == |b.snakes|
    ensures r.bodies.occupied <= b.bodies.occupied
    ensures forall k :: 0 <= k < |b.snakes| ==>
      r.snakes[k] == if Mark(b, k) >= 100
                     then b.snakes[k].(health := CollisionHealth(Mark(b, k), b.snakes[k].health), curled := 0)
                     else b.snakes[k].(curled := Mark(b, k))
  {
    RemoveCollidedFrom(d, MarkCollisions(b), 0)
  }

  /**
   * The outcome of `perform_collisions` for a live snake with fewer than 100
   * curled parts: health -1 for a head on a body, -3 when it loses a
   * head-to-head, -4 on an even one, and untouched when no live snake at
   * least as long shares its head.
   */
  lemma CollisionOutcome(d: Dims, b: Board, k: int)
    requires 0 <= k < |b.snakes| && IsAlive(b.snakes[k]) && b.snakes[k].curled < 100
    ensures var s, h := b.snakes[k], PerformCollisions(d, b).snakes[k].health;
      && (s.head in b.bodies.occupied ==> h == BODY_COLLISION)
      && (s.head !in b.bodies.occupied && (exists j :: 0 <= j < |b.snakes| && Rival(b.snakes, k, j)) ==>
            h in {HEAD_COLLISION, EVEN_HEAD_COLLISION})
      && (s.head !in b.bodies.occupied && (forall j :: 0 <= j < |b.snakes| ==> !Rival(b.snakes, k, j)) ==>
            h == s.health)
      && (s.head !in b.bodies.occupied
          && (forall j :: 0 <= j < |b.snakes| && Rival(b.snakes, k, j) ==> s.length < b.snakes[j].length) ==>
            h != EVEN_HEAD_COLLISION)
  {
    MarkOutcome(b, k);
  }

  /** `finish_head_movement` from snake `i` on: every live head joins the occupied layer. */
  function FinishHeadsFrom(b: Board, i: int): (r: Board)
    requires 0 <= i <= |b.snakes|
    ensures r == b.(bodies := r.bodies)
    ensures r.bodies.dirLow == b.bodies.dirLow && r.bodies.dirHigh == b.bodies.dirHigh
    ensures forall p :: p in r.bodies.occupied <==>
      p in b.bodies.occupied || exists k :: i <= k < |b.snakes| && IsAlive(b.snakes[k]) && b.snakes[k].head == p
    decreases |b.snakes| - i
  {
    if i == |b.snakes| then b
    else
      var s := b.snakes[i];
      var b2 := if IsAlive(s) then b.(bodies := b.bodies.(occupied := b.bodies.occupied + {s.head})) else b;
      FinishHeadsFrom(b2, i + 1)
  }

  function FinishHeadMovement(b: Board): Board
  {
    FinishHeadsFrom(b, 0)
  }

  /** `finish_tail_movement` from snake `i` on: the tail of every live snake with no curled parts leaves the occupied layer. */
  function FinishTailsFrom(b: Board, i: int): (r: Board)
    requires 0 <= i <= |b.snakes|
    ensures r == b.(bodies := r.bodies)
    ensures r.bodies.dirLow == b.bodies.dirLow && r.bodies.dirHigh == b.bodies.dirHigh
    ensures forall p :: p in r.bodies.occupied <==>
      p in b.bodies.occupied
      && !exists k :: i <= k < |b.snakes| && IsAlive(b.snakes[k]) && b.snakes[k].curled == 0 && b.snakes[k].tail == p
    decreases |b.snakes| - i
  {
    if i == |b.snakes| then b
    else
      var s := b.snakes[i];
      var b2 := if IsAlive(s) && s.curled == 0 then b.(bodies := b.bodies.(occupied := b.bodies.occupied - {s.tail})) else b;
      FinishTailsFrom(b2, i + 1)
  }

  function FinishTailMovement(b: Board): Board
  {
    FinishTailsFrom(b, 0)
  }

  /** `inc_spiral_hazards` with the centre fixed when the rules were attached. */
  function IncSpiral(d: Dims, b: Board, center: int): (r: Board)
    requires 0 <= b.turn && 0 <= center
    ensures r == b.(hazards := r.hazards)
    ensures b.hazards <= r.hazards && |r.hazards - b.hazards| <= 1
    ensures r.hazards != b.hazards ==> b.turn % 3 == 0 && 3 <= b.turn <= 426
    ensures forall p :: p in r.hazards - b.hazards ==> OnBoard(d, p)
  {
    SpiralAddsOne(d, b.turn, center, b.hazards);
    b.(hazards := SpiralHazards(d, b.turn, center, b.hazards))
  }

  lemma SpiralAddsOne(d: Dims, turn: int, center: int, hazards: set<int>)
    requires 0 <= turn && 0 <= center
    ensures var r := SpiralHazards(d, turn, center, hazards);
      hazards <= r && |r - hazards| <= 1 && forall p :: p in r - hazards ==> OnBoard(d, p)
  {
    var r := SpiralHazards(d, turn, center, hazards);
    if r != hazards {
      var c :| r == hazards + {c} && OnBoard(d, c);
      assert r - hazards == {c};
    }
  }

  /** The step `attach_rules` picks: constrictor by ruleset name, the spiral by map name when there are hazards. */
  datatype Step = ConstrictorStep | SpiralStep(center: int) | DefaultStep

  function AttachRules(rulesetName: Option<string>, mapName: string, width: int, hazards: seq<(int, int)>): (r: Step)
    ensures rulesetName == Some("constrictor") ==> r == ConstrictorStep
    ensures r.SpiralStep? <==> rulesetName != Some("constrictor") && mapName == "hz_spiral" && |hazards| > 0
    ensures r.SpiralStep? ==> r.center == U16(width * hazards[0].1 + hazards[0].0)
  {
    if rulesetName == Some("constrictor") then ConstrictorStep
    else if mapName == "hz_spiral" && |hazards| > 0 then SpiralStep(U16(width * hazards[0].1 + hazards[0].0))
    else DefaultStep
  }

  /** The composed step of each variant. */
  function ApplyStep(d: Dims, step: Step, b: Board, moves: seq<Move>): (r: Board)
    requires MovesOk(d, b, moves) && 0 <= b.turn
    requires step.SpiralStep? ==> 0 <= step.center
  {
    var b1 := b.(turn := U16(b.turn + 1), depth := b.depth + 1);
    assert forall k :: 0 <= k < |b.snakes| ==> MoveExists(d, b1, moves, k) == MoveExists(d, b, moves, k);
    var b2 := MoveHeads(d, b1, moves);
    match step
    case ConstrictorStep => FinishHeadMovement(PerformCollisions(d, b2))
    case SpiralStep(center) => IncSpiral(d, FullStep(d, b2), center)
    case DefaultStep => FullStep(d, b2)
  }

  /** The phases after the heads have moved, in the default order. */
  function FullStep(d: Dims, b: Board): (r: Board)
    ensures r.turn == b.turn && r.depth == b.depth && |r.snakes| == |b.snakes|
  {
    FinishTailMovement(FinishHeadMovement(PerformCollisions(d, UpdateHealth(d, MoveTails(d, b)))))
  }

  /** Every step advances the turn and the depth by exactly one and keeps the snake count. */
  lemma StepCounters(d: Dims, step: Step, b: Board, moves: seq<Move>)
    requires MovesOk(d, b, moves) && 0 <= b.turn
    requires step.SpiralStep? ==> 0 <= step.center
    ensures ApplyStep(d, step, b, moves).turn == U16(b.turn + 1)
    ensures ApplyStep(d, step, b, moves).depth == b.depth + 1
    ensures |ApplyStep(d, step, b, moves).snakes| == |b.snakes|
  {
  }

  /**
   * The constrictor step never moves a tail, and a snake's health changes
   * only when it is removed in a collision.
   */
  lemma ConstrictorKeepsTailsAndHealth(d: Dims, b: Board, moves: seq<Move>, k: int)
    requires MovesOk(d, b, moves) && 0 <= b.turn && 0 <= k < |b.snakes|
    ensures var s := ApplyStep(d, ConstrictorStep, b, moves).snakes[k];
      s.tail == b.snakes[k].tail
      && (s.health == b.snakes[k].health || s.health in {BODY_COLLISION, HEAD_COLLISION, EVEN_HEAD_COLLISION})
  {
    var b1 := b.(turn := U16(b.turn + 1), depth := b.depth + 1);
    assert forall j :: 0 <= j < |b.snakes| ==> MoveExists(d, b1, moves, j) == MoveExists(d, b, moves, j);
    var b2 := MoveHeads(d, b1, moves);
    assert b2.snakes[k].tail == b.snakes[k].tail && b2.snakes[k].health == b.snakes[k].health;
  }

  /** The food spawn cells of a game mode: fixed cells on the arcade maze, none elsewhere. */
  function FoodSpawns(mode: Gamemode): (r: set<int>)
    ensures mode != WrappedArcadeMaze ==> r == {}
    ensures |r| <= 11
  {
    if mode == WrappedArcadeMaze then
      var s := {20, 36, 104, 137, 147, 212, 218, 224, 327, 332, 337};
      assert s == {20, 36, 104, 137, 147, 212, 218, 224} + {327, 332, 337};
      s
    else {}
  }

  /** `simulate_maze_food_spawns` from snake `i` on: a live head on a spawn cell gains a curled part. */
  function SpawnsFrom(b: Board, i: int): (r: Board)
    requires 0 <= i <= |b.snakes|
    ensures |r.snakes| == |b.snakes|
    ensures r == b.(snakes := r.snakes)
    ensures forall k :: 0 <= k < |b.snakes| ==>
      r.snakes[k] == if i <= k && IsAlive(b.snakes[k]) && b.snakes[k].head in FoodSpawns(b.gamemode)
                     then b.snakes[k].(curled := U8(b.snakes[k].curled + 1)) else b.snakes[k]
    decreases |b.snakes| - i
  {
    if i == |b.snakes| then b
    else
      var s := b.snakes[i];
      var b2 := if IsAlive(s) && s.head in FoodSpawns(b.gamemode) then
                  b.(snakes := b.snakes[i := s.(curled := U8(s.curled + 1))]) else b;
      SpawnsFrom(b2, i + 1)
  }

  function SimulateMazeFoodSpawns(b: Board): Board
  {
    SpawnsFrom(b, 0)
  }
}

=== FILE: search.dfy ===
/**
 * The parts of the minimax search that do not depend on the clock: the
 * guess of best-node search, its window-narrowing loop, the deepening loop
 * around it, and the stability test of the quiescence search.
 *
 * `alphabeta` itself reads the clock and a global transposition table; it
 * is a parameter here, a function from the depth, my move and the test
 * value to the score of a null-window search, or `None` when time ran out.
 */
module Search {
  import opened Common
  import opened Grid
  import opened Moves
  import Constants
  import Bitboard

  const SCORE_MIN := -32768
  const SCORE_MAX := 32767
  const MAX_DEPTH := 255

  predicate IsScore(x: int) { SCORE_MIN <= x <= SCORE_MAX }

  /**
   * `next_bns_guess`: the previous guess while it is still inside the
   * window, otherwise the middle of the window moved off its ends. Whenever
   * the window holds a value strictly between its ends, so does the guess.
   */
  function NextGuess(prev: int, alpha: int, beta: int): (r: int)
    requires IsScore(alpha) && IsScore(beta)
    ensures IsScore(r)
    ensures alpha < prev < beta ==> r == prev
    ensures beta - alpha >= 2 ==> alpha < r < beta
    ensures !(alpha < prev < beta) && beta - alpha >= 2 ==> -2 <= 2 * r - (alpha + beta) <= 2
  {
    if alpha < prev < beta then prev
    else
      var test := TruncDiv(alpha, 2) + TruncDiv(beta, 2);
      if test == beta then I16(test - 1)
      else if test == alpha then I16(test + 1)
      else test
  }

  /** `alphabeta` at a depth: for my move and a test value, the null-window score, or `None` on a timeout. */
  type Oracle = (nat, Move, int) -> Option<int>

  /**
   * One probe of best-node search at `test`: `None` if any search timed
   * out, otherwise the candidate moves, in order, that score at least
   * `test`.
   */
  function Better(ab: Oracle, depth: nat, moves: seq<Move>, test: int): (r: Option<seq<Move>>)
    ensures r.None? <==> exists i :: 0 <= i < |moves| && ab(depth, moves[i], test).None?
    ensures r.Some? ==> |r.value| <= |moves|
    ensures r.Some? ==> forall m :: m in moves ==> ab(depth, m, test).Some?
    ensures r.Some? ==> forall m :: m in r.value <==> m in moves && ab(depth, m, test).value >= test
  {
    if |moves| == 0 then Some([])
    else match ab(depth, moves[0], test)
      case None => None
      case Some(score) =>
        match Better(ab, depth, moves[1..], test)
        case None =>
          assert ab(depth, moves[1..][0], test).None? || exists i :: 0 <= i < |moves[1..]| && ab(depth, moves[1..][i], test).None?;
          None
        case Some(rest) =>
          assert forall i :: 0 <= i < |moves[1..]| ==> moves[1..][i] == moves[i + 1];
          Some(if score >= test then [moves[0]] + rest else rest)
  }

  /** The search window of one depth and the moves still in the running. */
  datatype Window = Window(alpha: int, beta: int, moves: seq<Move>)

  predicate Open(w: Window)
  {
    IsScore(w.alpha) && IsScore(w.beta) && w.beta - w.alpha >= 2 && |w.moves| >= 1
  }

  /** The loop ends when the window has no value strictly inside it, or one move is left. */
  predicate Settled(w: Window)
  {
    w.beta - w.alpha < 2 || |w.moves| == 1
  }

  /**
   * The inner loop of `best_node_search` at one depth. Each probe either
   * lowers beta to the test value, when no move reaches it, or raises alpha
   * to it and keeps only the moves that reach it. The result is the last
   * test value and the final window: it lies inside the starting one, ends
   * at the test value, holds a non-empty subset of the starting moves, and
   * is settled. `NarrowBrackets` relates it to the scores.
   */
  function Narrow(ab: Oracle, depth: nat, w: Window, lastTest: int): (r: Option<(int, Window)>)
    requires Open(w)
    ensures r.Some? ==> var (test, v) := r.value;
      Settled(v) && |v.moves| >= 1 && (forall m :: m in v.moves ==> m in w.moves) &&
      w.alpha <= v.alpha < v.beta <= w.beta && (test == v.alpha || test == v.beta)
    decreases w.beta - w.alpha
  {
    var test := NextGuess(lastTest, w.alpha, w.beta);
    match Better(ab, depth, w.moves, test)
    case None => None
    case Some(better) =>
      var next := if |better| == 0 then Window(w.alpha, test, w.moves) else Window(test, w.beta, better);
      if Settled(next) then Some((test, next))
      else Narrow(ab, depth, next, test)
  }

  /**
   * The window `Narrow` ends with brackets the scores. Once alpha has risen,
   * every move left scored at least alpha at the probe of that value; once
   * beta has dropped, every move left scored below beta at the probe of that
   * value; a move dropped scored below the test of the probe that dropped
   * it, which is at most the final alpha. `None` means some probe of a
   * starting move timed out.
   */
  lemma {:induction false} NarrowBrackets(ab: Oracle, depth: nat, w: Window, lastTest: int)
    requires Open(w)
    ensures var r := Narrow(ab, depth, w, lastTest);
      r.Some? ==> var v := r.value.1;
      v.alpha > w.alpha ==> forall m :: m in v.moves ==> ab(depth, m, v.alpha).Some? && ab(depth, m, v.alpha).value >= v.alpha
    ensures var r := Narrow(ab, depth, w, lastTest);
      r.Some? ==> var v := r.value.1;
      v.beta < w.beta ==> forall m :: m in v.moves ==> ab(depth, m, v.beta).Some? && ab(depth, m, v.beta).value < v.beta
    ensures var r := Narrow(ab, depth, w, lastTest);
      r.Some? ==> var v := r.value.1;
      forall m :: m in w.moves && m !in v.moves ==>
        exists t :: w.alpha < t <= v.alpha && ab(depth, m, t).Some? && ab(depth, m, t).value < t
    ensures Narrow(ab, depth, w, lastTest).None? ==> exists m, t :: m in w.moves && ab(depth, m, t).None?
    decreases w.beta - w.alpha
  {
    var test := NextGuess(lastTest, w.alpha, w.beta);
    var b := Better(ab, depth, w.moves, test);
    if b.None? {
      var i :| 0 <= i < |w.moves| && ab(depth, w.moves[i], test).None?;
      assert w.moves[i] in w.moves;
    } else {
      var better := b.value;
      var next := if |better| == 0 then Window(w.alpha, test, w.moves) else Window(test, w.beta, better);
      if !Settled(next) {
        NarrowBrackets(ab, depth, next, test);
        NarrowStep(ab, depth, w, next, test, Narrow(ab, depth, next, test));
      }
    }
  }

  /** One probe followed by the rest of the loop keeps the brackets. */
  lemma NarrowStep(ab: Oracle, depth: nat, w: Window, next: Window, test: int, r: Option<(int, Window)>)
    requires Open(w) && Open(next) && w.alpha < test < w.beta
    requires Better(ab, depth, w.moves, test).Some?
    requires var better := Better(ab, depth, w.moves, test).value;
      next == if |better| == 0 then Window(w.alpha, test, w.moves) else Window(test, w.beta, better)
    requires r.Some? ==> var v := r.value.1;
      && (forall m :: m in v.moves ==> m in next.moves)
      && next.alpha <= v.alpha < v.beta <= next.beta
      && (v.alpha > next.alpha ==> forall m :: m in v.moves ==> ab(depth, m, v.alpha).Some? && ab(depth, m, v.alpha).value >= v.alpha)
      && (v.beta < next.beta ==> forall m :: m in v.moves ==> ab(depth, m, v.beta).Some? && ab(depth, m, v.beta).value < v.beta)
      && (forall m :: m in next.moves && m !in v.moves ==>
            exists t :: next.alpha < t <= v.alpha && ab(depth, m, t).Some? && ab(depth, m, t).value < t)
    requires r.None? ==> exists m, t :: m in next.moves && ab(depth, m, t).None?
    ensures r.Some? ==> var v := r.value.1;
      && (v.alpha > w.alpha ==> forall m :: m in v.moves ==> ab(depth, m, v.alpha).Some? && ab(depth, m, v.alpha).value >= v.alpha)
      && (v.beta < w.beta ==> forall m :: m in v.moves ==> ab(depth, m, v.beta).Some? && ab(depth, m, v.beta).value < v.beta)
      && (forall m :: m in w.moves && m !in v.moves ==>
            exists t :: w.alpha < t <= v.alpha && ab(depth, m, t).Some? && ab(depth, m, t).value < t)
    ensures r.None? ==> exists m, t :: m in w.moves && ab(depth, m, t).None?
  {
    if r.Some? {
      var v := r.value.1;
      forall m | m in w.moves && m !in v.moves
        ensures exists t :: w.alpha < t <= v.alpha && ab(depth, m, t).Some? && ab(depth, m, t).value < t
      {
        if m !in next.moves {
          assert ab(depth, m, test).Some? && ab(depth, m, test).value < test;
        }
      }
    }
  }

  /**
   * The outer loop of `best_node_search` from `depth` on: each depth runs
   * the inner loop on the full window and all allowed moves, starting from
   * the last test value. A timeout returns the best move so far with the
   * depth before the one that timed out; a score within 1000 of either end
   * of the range, or the deepest depth, stops the search.
   */
  function Deepen(ab: Oracle, allowed: seq<Move>, depth: nat, lastTest: int, best: (Move, int)): (r: (Move, int, int))
    requires 1 <= depth <= MAX_DEPTH && |allowed| >= 1
    requires best.0 in allowed
    ensures r.0 in allowed
    ensures depth - 1 <= r.2 <= MAX_DEPTH
    ensures r.2 == depth - 1 ==> (r.0, r.1) == best
    decreases MAX_DEPTH - depth
  {
    match Narrow(ab, depth, Window(SCORE_MIN, SCORE_MAX, allowed), lastTest)
    case None => (best.0, best.1, depth - 1)
    case Some((test, w)) =>
      if test > SCORE_MAX - 1000 || test < SCORE_MIN + 1000 || depth == MAX_DEPTH then (w.moves[0], test, depth)
      else Deepen(ab, allowed, depth + 1, test, (w.moves[0], test))
  }

  /**
   * `best_node_search` over my allowed moves, given in the order the
   * engine's shuffle left them: the chosen move is one of them, and a
   * search that timed out at depth 1 returns the first move with the
   * lowest score above `i16::MIN`.
   */
  function BestNodeSearch(ab: Oracle, allowed: seq<Move>): (r: (Move, int, int))
    requires |allowed| >= 1
    ensures r.0 in allowed && 0 <= r.2 <= MAX_DEPTH
    ensures r.2 == 0 ==> r.0 == allowed[0] && r.1 == SCORE_MIN + 1
  {
    Deepen(ab, allowed, 1, 0, (allowed[0], SCORE_MIN + 1))
  }

  /** A snake that has no parts stacked on its tail and no food one move from its head. */
  predicate Settles(d: Dims, food: set<int>, s: Bitboard.Snake)
  {
    s.curled == 0 &&
    forall k :: 0 <= k < 4 ==> !(Constants.MovesFrom(d, s.head)[k].Some? && Constants.MovesFrom(d, s.head)[k].value in food)
  }

  /** `is_stable`: false exactly when some snake, dead or alive, has curled parts or food next to its head. */
  method IsStable(d: Dims, b: Bitboard.Board) returns (r: bool)
    ensures r <==> forall i :: 0 <= i < |b.snakes| ==> Settles(d, b.food, b.snakes[i])
  {
    var i := 0;
    while i < |b.snakes|
      invariant 0 <= i <= |b.snakes|
      invariant forall j :: 0 <= j < i ==> Settles(d, b.food, b.snakes[j])
    {
      var s := b.snakes[i];
      if s.curled != 0 {
        return false;
      }
      var moves := Constants.MovesFrom(d, s.head);
      var k := 0;
      while k < 4
        invariant 0 <= k <= 4
        invariant forall k' :: 0 <= k' < k ==> !(moves[k'].Some? && moves[k'].value in b.food)
      {
        if moves[k].Some? && moves[k].value in b.food {
          return false;
        }
        k := k + 1;
      }
      i := i + 1;
    }
    return true;
  }
}

=== FILE: ttable.dfy ===
/**
 * The transposition table of the minimax search: one table of `2^29`
 * entries for each of up to three simultaneous games, indexed by the low
 * 29 bits of a position's hash. An entry packs depth, an `i16` score, both
 * bound flags and up to eight best moves into one word (see `Packing`).
 * The hash itself is an input here.
 */
module TTable {
  import opened Common
  import opened Packing
  import opened Moves

  /** `TT_LENGTH` is `2^29`; `TT_MASK` keeps the 29 low bits of a key. */
  const TT_BITS: nat := 29
  const MAX_SIMUL_GAMES: nat := 3

  lemma Pow16()
    ensures Pow2(16) == 65536
  {
    Pow8();
    assert Pow2(16) == Pow2(8) * Pow2(8) by { PowAdd(8, 8); }
  }

  lemma {:induction false} PowAdd(a: nat, b: nat)
    ensures Pow2(a + b) == Pow2(a) * Pow2(b)
    decreases b
  {
    if b > 0 {
      PowAdd(a, b - 1);
    }
  }

  /** `(score as u16) as u64`. */
  function ScoreWord(score: int): (w: seq<bool>)
    ensures IsWord(w) && Fits(w, 16)
  {
    Pow16();
    WordFits(U16(score), 16);
    Word(U16(score))
  }

  /** `to_int` of every move. */
  function MoveCodes(moves: seq<Move>): (codes: seq<nat>)
    ensures |codes| == |moves|
    ensures forall i :: 0 <= i < |moves| ==> codes[i] == ToInt(moves[i])
  {
    seq(|moves|, i requires 0 <= i < |moves| => ToInt(moves[i]))
  }

  /**
   * `Entry::new`: the moves are packed only when there are at most eight of
   * them, and the stored key is `key ^ data`.
   */
  function NewEntry(key: seq<bool>, score: int, lower: bool, upper: bool, depth: nat, moves: seq<Move>): (e: Entry)
    requires IsWord(key) && depth < 256
    ensures IsWord(e.key) && IsWord(e.data)
  {
    var codes := if |moves| <= 8 then MoveCodes(moves) else [];
    var data := Pack(ScoreWord(score), depth, lower, upper, codes);
    Entry(Xor(key, data), data)
  }

  /** `get_depth`. */
  function GetDepth(e: Entry): (d: nat)
    requires IsWord(e.data)
    ensures d < 256
  {
    Pow8();
    ValueBound(Shr(e.data, 0)[..8]);
    Depth(e.data)
  }

  /** `get_score`: the 16 score bits read as an `i16`. */
  function GetScore(e: Entry): (s: int)
    requires IsWord(e.data)
    ensures -32768 <= s < 32768
  {
    I16(ScoreField16(e.data))
  }

  /** `get_best_moves::<S>`: `None` for more than eight moves, else the `S` packed codes. */
  function GetBestMoves(e: Entry, s: nat): (r: Option<seq<Move>>)
    requires IsWord(e.data)
    ensures r.Some? <==> s <= 8
    ensures r.Some? ==> |r.value| == s
  {
    if s > 8 then None
    else Some(seq(s, i requires 0 <= i < s => FromInt(MoveField(e.data, i))))
  }

  /** `is_lower_bound`. */
  predicate IsLowerBound(e: Entry)
  {
    LowerBound(e.data)
  }

  /** `is_upper_bound`. */
  predicate IsUpperBound(e: Entry)
  {
    UpperBound(e.data)
  }

  /** `is_exact`. */
  predicate IsExactEntry(e: Entry)
  {
    IsExact(e.data)
  }

  /** An `i16` survives the round trip through `u16`. */
  lemma I16OfU16(score: int)
    requires -32768 <= score < 32768
    ensures I16(U16(score)) == score
  {
  }

  /**
   * Every field of a fresh entry reads back: depth, score, both flags, and
   * the best moves whenever there are at most eight of them.
   */
  lemma EntryRoundTrip(key: seq<bool>, score: int, lower: bool, upper: bool, depth: nat, moves: seq<Move>)
    requires IsWord(key) && -32768 <= score < 32768 && depth < 256
    ensures var e := NewEntry(key, score, lower, upper, depth, moves);
      GetDepth(e) == depth && GetScore(e) == score &&
      IsLowerBound(e) == lower && IsUpperBound(e) == upper &&
      (IsExactEntry(e) <==> !lower && !upper) &&
      GetBestMoves(e, |moves|) == (if |moves| <= 8 then Some(moves) else None)
  {
    var e := NewEntry(key, score, lower, upper, depth, moves);
    var codes := if |moves| <= 8 then MoveCodes(moves) else [];
    var sw := ScoreWord(score);
    Pow16();
    UnpackDepth(sw, depth, lower, upper, codes);
    UnpackScore(sw, depth, lower, upper, codes, U16(score), 16);
    I16OfU16(score);
    forall k | 32 <= k < 64 ensures !sw[k] {
    }
    UnpackFlags(sw, depth, lower, upper, codes);
    ExactIffNoBound(e.data);
    if |moves| <= 8 {
      var r := GetBestMoves(e, |moves|).value;
      forall i | 0 <= i < |moves| ensures r[i] == moves[i] {
        UnpackMove(sw, depth, lower, upper, codes, i);
        ToIntInjective(moves[i], moves[i]);
      }
      assert r == moves;
    }
  }

  /** A fresh entry matches its own key unless its data is zero or equal to the key. */
  lemma NewEntryMatches(key: seq<bool>, score: int, lower: bool, upper: bool, depth: nat, moves: seq<Move>)
    requires IsWord(key) && depth < 256
    ensures var e := NewEntry(key, score, lower, upper, depth, moves);
      MatchesKey(e, key) <==> e.data != Zero() && e.data != key
  {
    var e := NewEntry(key, score, lower, upper, depth, moves);
    MatchesOwnKey(key, e.data);
  }

  // The tables.

  /** A table maps slot numbers to entries; a slot never written holds the all-zero entry. */
  type Table = map<nat, Entry>

  predicate WellFormed(t: Table)
  {
    forall i :: i in t ==> IsWord(t[i].key) && IsWord(t[i].data)
  }

  function Slot(t: Table, i: nat): (e: Entry)
    requires WellFormed(t)
    ensures IsWord(e.key) && IsWord(e.data)
  {
    if i in t then t[i] else Empty()
  }

  /** `key & TT_MASK`. */
  function Index(key: seq<bool>): (i: nat)
    requires IsWord(key)
  {
    Value(key[..TT_BITS])
  }

  /** `TABLES`: `None` until `init`, then one table per simultaneous game. */
  predicate ValidTables(tables: Option<seq<Table>>)
  {
    tables.Some? ==> |tables.value| == MAX_SIMUL_GAMES && forall g :: 0 <= g < |tables.value| ==> WellFormed(tables.value[g])
  }

  /** `init`: creates the empty tables once and keeps existing ones. */
  function Init(tables: Option<seq<Table>>): (r: Option<seq<Table>>)
    requires ValidTables(tables)
    ensures ValidTables(r) && r.Some?
    ensures tables.Some? ==> r == tables
  {
    if tables.None? then Some(seq(MAX_SIMUL_GAMES, _ => map[])) else tables
  }

  /** `get`: the entry in the key's slot of table `ttId`, if it matches the key. */
  function Get(tables: Option<seq<Table>>, key: seq<bool>, ttId: nat): (r: Option<Entry>)
    requires ValidTables(tables) && IsWord(key) && (tables.Some? ==> ttId < MAX_SIMUL_GAMES)
    ensures r.Some? <==> tables.Some? && MatchesKey(Slot(tables.value[ttId], Index(key)), key)
    ensures r.Some? ==> r.value == Slot(tables.value[ttId], Index(key))
  {
    if tables.None? then None
    else
      var e := Slot(tables.value[ttId], Index(key));
      if MatchesKey(e, key) then Some(e) else None
  }

  /**
   * `insert`: keeps a matching entry searched strictly deeper than `depth`,
   * and overwrites the slot with a new entry otherwise. Only the key's slot
   * of table `ttId` can change.
   */
  function Insert(tables: Option<seq<Table>>, key: seq<bool>, ttId: nat, score: int, lower: bool, upper: bool,
                  depth: nat, moves: seq<Move>): (r: Option<seq<Table>>)
    requires ValidTables(tables) && IsWord(key) && depth < 256 && (tables.Some? ==> ttId < MAX_SIMUL_GAMES)
    ensures ValidTables(r) && (r.Some? <==> tables.Some?)
    ensures tables.Some? ==>
      var prior := Slot(tables.value[ttId], Index(key));
      var kept := MatchesKey(prior, key) && GetDepth(prior) > depth;
      (kept ==> r == tables) &&
      (!kept ==> Slot(r.value[ttId], Index(key)) == NewEntry(key, score, lower, upper, depth, moves))
    ensures tables.Some? ==> forall g, i :: 0 <= g < MAX_SIMUL_GAMES && (g != ttId || i != Index(key)) ==>
      Slot(r.value[g], i) == Slot(tables.value[g], i)
  {
    if tables.None? then None
    else
      var t := tables.value[ttId];
      var e := Slot(t, Index(key));
      if MatchesKey(e, key) && GetDepth(e) > depth then tables
      else Some(tables.value[ttId := t[Index(key) := NewEntry(key, score, lower, upper, depth, moves)]])
  }

  /**
   * Reading back after an insert: the probe finds the new entry unless a
   * deeper matching one was kept, or the new entry cannot match its key
   * (its data is zero or equal to the key).
   */
  lemma GetAfterInsert(tables: Option<seq<Table>>, key: seq<bool>, ttId: nat, score: int, lower: bool, upper: bool,
                       depth: nat, moves: seq<Move>)
    requires ValidTables(tables) && tables.Some? && IsWord(key) && depth < 256 && ttId < MAX_SIMUL_GAMES
    ensures var r := Insert(tables, key, ttId, score, lower, upper, depth, moves);
      var e := NewEntry(key, score, lower, upper, depth, moves);
      var before := Get(tables, key, ttId);
      if before.Some? && GetDepth(before.value) > depth then Get(r, key, ttId) == before
      else (Get(r, key, ttId) == Some(e) <==> e.data != Zero() && e.data != key)
  {
    var e := NewEntry(key, score, lower, upper, depth, moves);
    NewEntryMatches(key, score, lower, upper, depth, moves);
  }

  // Game ids.

  /** `GAME_IDS`: the next id to hand out and the game id held by each table. */
  datatype GameIds = GameIds(next: nat, ids: seq<string>)

  predicate ValidIds(g: GameIds)
  {
    g.next < MAX_SIMUL_GAMES && |g.ids| == MAX_SIMUL_GAMES
  }

  /** The state `init` creates: every table free (empty game id), id 0 next. */
  function InitIds(): (g: GameIds)
    ensures ValidIds(g)
  {
    GameIds(0, ["", "", ""])
  }

  /** The first table, from `i` on, held by `id`. */
  function FindId(ids: seq<string>, id: string, i: nat): (r: Option<nat>)
    requires i <= |ids|
    ensures r.Some? ==> i <= r.value < |ids| && ids[r.value] == id && forall j :: i <= j < r.value ==> ids[j] != id
    ensures r.None? ==> forall j :: i <= j < |ids| ==> ids[j] != id
    decreases |ids| - i
  {
    if i == |ids| then None
    else if ids[i] == id then Some(i)
    else FindId(ids, id, i + 1)
  }

  /**
   * `get_tt_id`: the table already held by `id`, or else the next table
   * round-robin, which `id` then takes over. Before `init` every game gets
   * table 0.
   */
  function GetTtId(state: Option<GameIds>, id: string): (r: (nat, Option<GameIds>))
    requires state.Some? ==> ValidIds(state.value)
    ensures r.0 < MAX_SIMUL_GAMES && (r.1.Some? <==> state.Some?) && (r.1.Some? ==> ValidIds(r.1.value))
  {
    if state.None? then (0, state)
    else
      var g := state.value;
      match FindId(g.ids, id, 0)
      case Some(i) => (i, state)
      case None => (g.next, Some(GameIds((g.next + 1) % MAX_SIMUL_GAMES, g.ids[g.next := id])))
  }

  /**
   * A game keeps its table: asking again for the same id gives the same
   * table. A new id takes the table `next` points at, and `next` moves on by
   * one, modulo three.
   */
  lemma TtIdStable(g: GameIds, id: string)
    requires ValidIds(g)
    ensures var (t, s) := GetTtId(Some(g), id);
      GetTtId(s, id) == (t, s) &&
      s.value.ids[t] == id &&
      (id in g.ids ==> s == Some(g)) &&
      (id !in g.ids ==> t == g.next && s.value.next == (g.next + 1) % MAX_SIMUL_GAMES)
  {
    var r := FindId(g.ids, id, 0);
    if r.None? {
      var ids := g.ids[g.next := id];
      var r2 := FindId(ids, id, 0);
      assert ids[g.next] == id;
    } else {
      assert g.ids[r.value] == id;
    }
  }
}

=== FILE: types.dfy ===
/**
 * The mailbox board of the first engine generation: one byte of flags per
 * cell, snakes as lists of cells from head to tail, and the move, terminal
 * and evaluation rules defined on it. The same board is defined a second
 * time, field for field and rule for rule, as `MailBoxBoard`; both are
 * modelled by the members here.
 */
module Types {
  import opened Common
  import Grid

  /** A cell's flags, a byte in the engine. */
  type Square = bv8

  const FOOD: Square := 1
  const HAZARD: Square := 2
  const HEAD: Square := 4
  const BODY: Square := 8
  const TAIL: Square := 16

  /** This generation orders its moves Up, Down, Left, Right. */
  datatype Move = Up | Down | Left | Right

  /** The move's discriminant, the slot of `children`' result it fills. */
  function MoveSlot(m: Move): (k: int)
    ensures 0 <= k < 4
  {
    match m
    case Up => 0
    case Down => 1
    case Left => 2
    case Right => 3
  }

  /** `length` and `health` are bytes; `body` lists cells from head to tail. */
  datatype Snake = Snake(isEnemy: bool, length: int, health: int, body: seq<int>)

  datatype Board = Board(board: seq<Square>, width: int, height: int, snakes: seq<Snake>)

  /** `Board::new`: `w * h` empty cells and no snakes. */
  function NewBoard(w: nat, h: nat): (b: Board)
    ensures |b.board| == w * h && b.width == w && b.height == h
    ensures forall i :: 0 <= i < |b.board| ==> b.board[i] == 0
    ensures b.snakes == []
  {
    Board(seq(w * h, _ => 0), w, h, [])
  }

  /**
   * Which version of the mailbox generation a member follows: the engine's
   * text (`from > width` for Down in `checked_move_dest`, `u8` health that
   * wraps below 0 in `standard`), or the corrected one (`from >= width`, and
   * health that does not wrap, so a snake left with none starves).
   */
  datatype Rule = AsWritten | Intended

  /**
   * `checked_move_dest` as written: the cell one step away, or None when the
   * step would leave the board. Down is refused from every cell numbered at
   * most `width`, which includes the leftmost cell of the second row.
   */
  function CheckedMoveDestAsWritten(width: int, len: int, mv: Move, from: int): (r: Option<int>)
    requires width > 0 && 0 <= from
    ensures r.Some? ==> r.value >= 0
    ensures mv == Up ==> (r.Some? <==> from + width < len)
    ensures mv == Down ==> (r.Some? <==> from / width >= 1 && from != width)
    ensures mv == Left ==> (r.Some? <==> from % width > 0)
    ensures mv == Right ==> (r.Some? <==> from % width < width - 1)
  {
    match mv
    case Up => if from + width < len then Some(from + width) else None
    case Down => RowTest(width, from); if from > width then Some(from - width) else None
    case Left => if from % width > 0 then Some(from - 1) else None
    case Right => RightTest(width, from); if (from + 1) % width > from % width then Some(from + 1) else None
  }

  /**
   * `checked_move_dest` with the edge test for Down corrected to `from >=
   * width`: a step is refused exactly when it crosses the board's edge.
   */
  function CheckedMoveDest(width: int, len: int, mv: Move, from: int): (r: Option<int>)
    requires width > 0 && 0 <= from < len && len % width == 0
    ensures r.Some? ==> 0 <= r.value < len
    ensures mv == Up ==> (r.Some? <==> from + width < len)
    ensures mv == Down ==> (r.Some? <==> from / width >= 1)
    ensures mv == Left ==> (r.Some? <==> from % width > 0)
    ensures mv == Right ==> (r.Some? <==> from % width < width - 1)
  {
    EdgeTests(width, len, from);
    match mv
    case Up => if from + width < len then Some(from + width) else None
    case Down => if from >= width then Some(from - width) else None
    case Left => if from % width > 0 then Some(from - 1) else None
    case Right => if (from + 1) % width > from % width then Some(from + 1) else None
  }

  /** One cell further along, the column grows by one unless the cell is in the last column. */
  lemma RightTest(width: int, from: int)
    requires width > 0 && 0 <= from
    ensures (from + 1) % width > from % width <==> from % width < width - 1
  {
    var q, c := from / width, from % width;
    assert from == q * width + c;
    if c < width - 1 {
      assert from + 1 == q * width + (c + 1);
      Grid.CellDivMod(q, c + 1, width);
    } else {
      assert from + 1 == (q + 1) * width + 0;
      Grid.CellDivMod(q + 1, 0, width);
    }
  }

  /** A cell is past the bottom row exactly when it is at least `width`. */
  lemma RowTest(width: int, from: int)
    requires width > 0 && 0 <= from
    ensures from >= width <==> from / width >= 1
  {
    var q := from / width;
    assert from == q * width + from % width;
    if q >= 1 {
      Grid.MulUnit(q, width);
    }
  }

  /** The edge tests of `checked_move_dest` in terms of the cell's row and column. */
  lemma EdgeTests(width: int, len: int, from: int)
    requires width > 0 && 0 <= from < len && len % width == 0
    ensures from >= width <==> from / width >= 1
    ensures (from + 1) % width > from % width <==> from % width < width - 1
    ensures from % width < width - 1 ==> from + 1 < len
    ensures from % width > 0 ==> from >= 1
  {
    RightTest(width, from);
    RowTest(width, from);
    var q, c := from / width, from % width;
    assert from == q * width + c;
    if c < width - 1 {
      assert from + 1 == q * width + (c + 1);
      Grid.CellDivMod(q, c + 1, width);
    }
  }

  /** `checked_move_dest` under a rule. */
  function CheckedMoveDestBy(rule: Rule, width: int, len: int, mv: Move, from: int): (r: Option<int>)
    requires width > 0 && 0 <= from < len && len % width == 0
    ensures r.Some? ==> 0 <= r.value < len
    ensures r.Some? ==> r.value == match mv case Up => from + width case Down => from - width
                                          case Left => from - 1 case Right => from + 1
    ensures rule == Intended ==> r == CheckedMoveDest(width, len, mv, from)
    ensures rule == AsWritten ==> r == CheckedMoveDestAsWritten(width, len, mv, from)
  {
    EdgeTests(width, len, from);
    if rule == AsWritten then CheckedMoveDestAsWritten(width, len, mv, from) else CheckedMoveDest(width, len, mv, from)
  }

  /** The corrected test differs from the written one only for Down from cell `width`. */
  lemma CheckedMoveDestDiffers(width: int, len: int, mv: Move, from: int)
    requires width > 0 && 0 <= from < len && len % width == 0
    ensures CheckedMoveDestAsWritten(width, len, mv, from) != CheckedMoveDest(width, len, mv, from)
            <==> mv == Down && from == width
  {
  }

  /** On a 4 by 4 board the written test refuses Down from cell 4, whose neighbour below is cell 0. */
  lemma CheckedMoveDestRefusesRowOne()
    ensures CheckedMoveDestAsWritten(4, 16, Down, 4) == None
    ensures CheckedMoveDest(4, 16, Down, 4) == Some(0)
  {
  }

  /** The forbidden and allowed 4 by 4 cases the engine's tests assert hold of the written and the corrected test alike. */
  lemma CheckedMoveDestCases()
    ensures CheckedMoveDestAsWritten(4, 16, Left, 4) == None && CheckedMoveDest(4, 16, Left, 4) == None
    ensures CheckedMoveDestAsWritten(4, 16, Right, 7) == None && CheckedMoveDest(4, 16, Right, 7) == None
    ensures CheckedMoveDestAsWritten(4, 16, Up, 14) == None && CheckedMoveDest(4, 16, Up, 14) == None
    ensures CheckedMoveDestAsWritten(4, 16, Down, 2) == None && CheckedMoveDest(4, 16, Down, 2) == None
    ensures CheckedMoveDestAsWritten(4, 16, Right, 3) == None && CheckedMoveDest(4, 16, Right, 3) == None
    ensures CheckedMoveDestAsWritten(4, 16, Down, 3) == None && CheckedMoveDest(4, 16, Down, 3) == None
    ensures CheckedMoveDestAsWritten(4, 16, Left, 7).Some? && CheckedMoveDest(4, 16, Left, 7).Some?
    ensures CheckedMoveDestAsWritten(4, 16, Right, 4).Some? && CheckedMoveDest(4, 16, Right, 4).Some?
    ensures CheckedMoveDestAsWritten(4, 16, Up, 3).Some? && CheckedMoveDest(4, 16, Up, 3).Some?
    ensures CheckedMoveDestAsWritten(4, 16, Down, 14).Some? && CheckedMoveDest(4, 16, Down, 14).Some?
  {
  }

  /** `is_terminal`: fewer than two snakes are left, or none of them is mine. */
  method IsTerminal(b: Board) returns (t: bool)
    ensures t <==> |b.snakes| < 2 || forall i :: 0 <= i < |b.snakes| ==> b.snakes[i].isEnemy
  {
    if |b.snakes| < 2 {
      return true;
    }
    var i := 0;
    while i < |b.snakes|
      invariant 0 <= i <= |b.snakes|
      invariant forall k :: 0 <= k < i ==> b.snakes[k].isEnemy
    {
      if !b.snakes[i].isEnemy {
        return false;
      }
      i := i + 1;
    }
    return true;
  }

  /** Total length of my snakes among `s`. */
  function MyLength(s: seq<Snake>): int
  {
    if s == [] then 0
    else MyLength(s[..|s| - 1]) + (if s[|s| - 1].isEnemy then 0 else s[|s| - 1].length)
  }

  /** Total length of the enemy snakes among `s`. */
  function EnemyLength(s: seq<Snake>): int
  {
    if s == [] then 0
    else EnemyLength(s[..|s| - 1]) + (if s[|s| - 1].isEnemy then s[|s| - 1].length else 0)
  }

  /** The running sum of `eval` before the division: enemies count negative, mine `n` times. */
  function Weighted(s: seq<Snake>, n: int): int
  {
    if s == [] then 0
    else Weighted(s[..|s| - 1], n)
         + (if s[|s| - 1].isEnemy then -s[|s| - 1].length else s[|s| - 1].length * n)
  }

  /** The running sum is `n` times my total length minus the enemies' total length. */
  lemma {:induction false} WeightedSplit(s: seq<Snake>, n: int)
    ensures Weighted(s, n) == n * MyLength(s) - EnemyLength(s)
    decreases |s|
  {
    if s != [] {
      var t := s[..|s| - 1];
      WeightedSplit(t, n);
      if !s[|s| - 1].isEnemy {
        assert n * (MyLength(t) + s[|s| - 1].length) == n * MyLength(t) + s[|s| - 1].length * n;
      }
    }
  }

  /** Two integers that differ by a multiple of 256 are the same `i8`. */
  lemma I8Congruent(x: int, y: int, k: int)
    requires x - y == 256 * k
    ensures I8(x) == I8(y)
  {
    var q, r := y / 256, y % 256;
    assert x == 256 * (q + k) + r && 0 <= r < 256;
    assert x / 256 == q + k;
    assert x % 256 == r;
  }

  /** A number and its `i8` differ by a multiple of 256. */
  lemma I8Offset(x: int) returns (k: int)
    ensures x - I8(x) == 256 * k
  {
    k := (x - I8(x)) / 256;
  }

  /** One iteration of `eval`'s loop: the snake's length, cast to `i8`, is taken off or added `n` times, wrapping. */
  function EvalAdd(score: int, s: Snake, n: int): int
  {
    if s.isEnemy then I8(score - I8(s.length)) else I8(score + I8(I8(s.length) * n))
  }

  /** Each iteration keeps the running `i8` sum equal to the weighted sum modulo 256. */
  lemma EvalStep(score: int, s: seq<Snake>, i: int, n: int)
    requires 0 <= i < |s|
    requires score == I8(Weighted(s[..i], n))
    ensures EvalAdd(score, s[i], n) == I8(Weighted(s[..i + 1], n))
  {
    var t := s[..i + 1];
    assert t[..|t| - 1] == s[..i] && t[|t| - 1] == s[i];
    var w := Weighted(s[..i], n);
    assert Weighted(t, n) == w + (if s[i].isEnemy then -s[i].length else s[i].length * n);
    if s[i].isEnemy {
      EvalStepEnemy(score, w, s[i].length);
    } else {
      EvalStepMine(score, w, s[i].length, n);
    }
  }

  /** Subtracting an enemy's length in `i8` keeps the running sum right modulo 256. */
  lemma EvalStepEnemy(score: int, before: int, len: int)
    requires score == I8(before)
    ensures I8(score - I8(len)) == I8(before - len)
  {
    var k1 := I8Offset(before);
    var k2 := I8Offset(len);
    I8Congruent(score - I8(len), before - len, k2 - k1);
  }

  /** Adding my weighted length in `i8` keeps the running sum right modulo 256. */
  lemma EvalStepMine(score: int, before: int, len: int, n: int)
    requires score == I8(before)
    ensures I8(score + I8(I8(len) * n)) == I8(before + len * n)
  {
    var a := I8(len);
    var k1 := I8Offset(before);
    var k := I8Offset(len);
    var k3 := I8Offset(a * n);
    ScaleOffset(len, a, k, n);
    I8Congruent(score + I8(a * n), before + len * n, -k1 - k3 - k * n);
  }

  /** Scaling two numbers that differ by `256 * k` scales the difference. */
  lemma ScaleOffset(x: int, y: int, k: int, n: int)
    requires x - y == 256 * k
    ensures x * n - y * n == 256 * (k * n)
  {
    calc {
      x * n - y * n;
      (x - y) * n;
      (256 * k) * n;
    }
  }

  /**
   * `eval`: the single survivor's verdict when one snake is left; otherwise
   * my total length weighted by the snake count minus the enemies' total
   * length, divided by the snake count. Lengths are cast to `i8` and the sum
   * is accumulated in `i8`, wrapping on overflow, before the division, which
   * rounds toward zero. The snake count itself is an `i8`, so boards of more
   * than 127 snakes are outside this model.
   */
  method Eval(b: Board) returns (r: int)
    requires |b.snakes| < 128
    ensures -128 <= r <= 127
    ensures r == EvalScore(b)
    ensures |b.snakes| == 0 ==> r == 0
    ensures |b.snakes| == 1 ==> r == (if b.snakes[0].isEnemy then -128 else 127)
    ensures |b.snakes| >= 2 ==>
      r == TruncDiv(I8(|b.snakes| * MyLength(b.snakes) - EnemyLength(b.snakes)), |b.snakes|)
  {
    var n := |b.snakes|;
    if n == 1 {
      if b.snakes[0].isEnemy {
        return -128;
      } else {
        return 127;
      }
    }
    var score := WeightedSum(b.snakes, n);
    if n == 0 {
      return score;
    }
    r := TruncDiv(score, n);
  }

  /** The value `eval` computes, as one expression. */
  function EvalScore(b: Board): int
    requires |b.snakes| < 128
  {
    var n := |b.snakes|;
    if n == 0 then 0
    else if n == 1 then (if b.snakes[0].isEnemy then -128 else 127)
    else TruncDiv(I8(n * MyLength(b.snakes) - EnemyLength(b.snakes)), n)
  }

  /** The loop of `eval`: the `i8` sum of the lengths, enemies taken off and mine added `n` times. */
  method WeightedSum(s: seq<Snake>, n: int) returns (score: int)
    ensures score == I8(n * MyLength(s) - EnemyLength(s))
  {
    score := 0;
    var i := 0;
    while i < |s|
      invariant 0 <= i <= |s|
      invariant score == I8(Weighted(s[..i], n))
    {
      EvalStep(score, s, i, n);
      score := EvalAdd(score, s[i], n);
      i := i + 1;
    }
    assert s[..|s|] == s;
    WeightedSplit(s, n);
  }
}

=== FILE: util.dfy ===
/**
 * Cell arithmetic shared by the mailbox boards: the Manhattan distance of
 * two cell numbers and the direction test used to point a snake at a cell.
 * Cells are numbered row by row with `width` cells per row; the engine uses
 * 16-bit unsigned numbers, so every argument is non-negative.
 */
module Util {
  import opened Common
  import opened Types

  /** `distance`: rows apart plus columns apart. */
  function Distance(x: int, y: int, width: int): (r: int)
    requires 0 <= x && 0 <= y && width > 0
    ensures r >= 0
    ensures r == 0 <==> x == y
  {
    (Max(x / width, y / width) - Min(x / width, y / width))
    + (Max(x % width, y % width) - Min(x % width, y % width))
  }

  /** The distance is the sum of the absolute row and column differences, in either order. */
  lemma DistanceManhattan(x: int, y: int, width: int)
    requires 0 <= x && 0 <= y && width > 0
    ensures Distance(x, y, width) == Abs(x / width - y / width) + Abs(x % width - y % width)
    ensures Distance(x, y, width) == Distance(y, x, width)
  {
  }

  /** The distance obeys the triangle inequality. */
  lemma DistanceTriangle(x: int, y: int, z: int, width: int)
    requires 0 <= x && 0 <= y && 0 <= z && width > 0
    ensures Distance(x, z, width) <= Distance(x, y, width) + Distance(y, z, width)
  {
    DistanceManhattan(x, y, width);
    DistanceManhattan(y, z, width);
    DistanceManhattan(x, z, width);
  }

  /** `is_in_direction`: whether `to` lies in the direction `mv` as seen from `from`. */
  predicate IsInDirection(from: int, to: int, mv: Move, width: int)
    requires width > 0
  {
    match mv
    case Left => from % width > to % width
    case Right => from % width < to % width
    case Down => from / width > to / width
    case Up => from / width < to / width
  }

  /** Left and right, and down and up, are mirror images of each other. */
  lemma DirectionOpposite(a: int, b: int, width: int)
    requires width > 0
    ensures IsInDirection(a, b, Left, width) == IsInDirection(b, a, Right, width)
    ensures IsInDirection(a, b, Down, width) == IsInDirection(b, a, Up, width)
  {
  }

  /** No direction points from a cell to itself, and some direction points to every other cell. */
  lemma DirectionExists(from: int, to: int, width: int)
    requires 0 <= from && 0 <= to && width > 0
    ensures from == to ==> forall mv :: !IsInDirection(from, to, mv, width)
    ensures from != to ==> exists mv :: IsInDirection(from, to, mv, width)
  {
    if from != to {
      if from % width > to % width {
        assert IsInDirection(from, to, Left, width);
      } else if from % width < to % width {
        assert IsInDirection(from, to, Right, width);
      } else if from / width > to / width {
        assert IsInDirection(from, to, Down, width);
      } else {
        assert IsInDirection(from, to, Up, width);
      }
    }
  }
}
